=== FILE: README.md ===
# AI impact analysis, modelled in Dafny

This project models the core of the AI impact analysis tools. These tools measure how a team's
Jira issues and GitHub pull requests change once AI assistants (Claude, Cursor) come into use.
The model covers the following parts, with one Dafny module each:

- **Timestamps.** `parse_datetime` reads Jira timestamps in two `strptime` layouts with a `%z` offset. Instants are integers counting microseconds since the Unix epoch in UTC.
- **Jql.** Builds the JQL query from a project, an optional assignee, a status, dates and a window of days.
- **Changelog.** `calculate_state_durations` reads an issue's changelog of status transitions. It yields the time spent in each state and how often each state was entered. The same function appears in three scripts, and one definition serves all of them.
- **StateAggregation.** Aggregates the per-issue durations over a report: totals, averages, re-entry rates and the states ordered by average time.
- **ReportUtils.** The shared helpers: report-file naming, percentage changes, the top-N metric-change summary and the saved-report locators.
- **PhaseConfig.** Reads the `PHASES=(...)` and `GITHUB_PHASES=(...)` arrays of the phase configuration files.
- **ReportParse.** Reads the saved Jira text reports back into metrics.
- **JiraComparison, JiraTable, JiraChanges, JiraReportFiles.** The Jira comparison report: periods, the metric table, key changes, report selection and the output file name.
- **LegacyComparison.** The older `generate_comparison_report` script.
- **GitHubClient.** Bot detection and the merged-pull-request fetch over pages of results.
- **PullDetails.** AI detection from commit trailers and per-pull-request metrics: review times, approvals, counts.
- **PrMetrics.** The statistics of `get_pr_metrics`: AI adoption, per-tool counts and group averages.
- **PrComparison.** The PR comparison report: phase names, overall figures and trends.
- **CompareApis.** The REST-versus-GraphQL consistency check of `bin/compare_apis.py`.
- **Sheets.** How `upload_to_sheets` names tabs, ranges and the main tab.

Several things the code gets from its environment are parameters of the model:

- the HTTP responses, as pages of already-decoded pull requests or issues;
- the list of files in a reports directory;
- the current time;
- the contents of configuration files.

Averages and percentages are exact reals. Counts are natural numbers.

Each operation is a function with a named result, and its contract states what the result means. Lemmas connect each operation to its partner: a round trip, a reference definition or an invariant. Where the code misbehaves on some input, the module has two members. The first models the code as written and comes with a lemma that shows the input. The second is the corrected definition, with the intended property proved about it (see "## Findings"). Operations that call a faulty step come in the same two forms: the plain name follows the code as written, and a `Corrected` twin beside it uses the corrected step.

## Model

| member | source | states |
|---|---|---|
| Tally.Filter | ai_impact_analysis/cli/get_pr_metrics.py:32-33 | The kept elements are exactly those passing the test, and none is added |
| Tally.FilterAppend | ai_impact_analysis/cli/get_pr_metrics.py:32-33 | Filtering a joined list is filtering each part and joining the results, so the kept elements stay in their order |
| Tally.FilterCounts | ai_impact_analysis/cli/get_pr_metrics.py:32-33 | Each passing element is kept as many times as it occurs, and a failing one not at all |
| Tally.Kept | ai_impact_analysis/cli/get_pr_metrics.py:50-56 | The values kept are exactly the values the elements yield; all elements yield one exactly when nothing is dropped |
| Tally.KeptInOrder | ai_impact_analysis/cli/get_pr_metrics.py:50-56 | The values kept are, position by position, those of the elements that yield one, in their order |
| Tally.CountWhere | ai_impact_analysis/cli/get_pr_metrics.py:35-38 | The count is at most the length, zero exactly when no element passes, the length exactly when all do |
| Tally.CountSplit | ai_impact_analysis/cli/get_pr_metrics.py:31-33 | A test and its negation count the whole list between them |
| Tally.Mean | ai_impact_analysis/cli/get_pr_metrics.py:40-42 | The average of no values is 0; otherwise the average times the count is the sum |
| Tally.MeanBounds | ai_impact_analysis/cli/get_pr_metrics.py:40-42 | The average of values within bounds is within the same bounds |
| Tally.PercentageBound | ai_impact_analysis/cli/get_pr_metrics.py:92 | A part of a whole is between 0 and 100 percent of it |
| Lex.LexLeTotal | ai_impact_analysis/cli/generate_jira_comparison_report.py:517 | Any two file names are ordered one way or the other |
| Lex.SortByKey | generate_comparison_report.py:138 | Sorting by a key reorders the elements, losing and adding none, into ascending key order |
| Lex.SortByKeyStable | generate_comparison_report.py:138 | Like Python's `sorted`, the sort is stable: the elements with any one key come out in their given order, which matters for reports sharing a start date |
| Lex.SortSortedUnchanged | generate_comparison_report.py:138 | Input already in key order comes back unchanged |
| Lex.SortStrings | ai_impact_analysis/cli/generate_jira_comparison_report.py:517 | Sorting names reorders them, losing and adding none, into ascending order |
| Timestamps.ParseDatetime | ai_impact_analysis/utils.py:35-54 | A missing or empty text gives no instant. An instant is returned only when one of the two layouts reads the text. Whenever the layout with a fraction reads it, the result is that reading's instant, and the same holds for the layout without one |
| Timestamps.ParseDatetimeRoundTrip | ai_impact_analysis/utils.py:48-54 | A timestamp rendered with one to six fraction digits, or with none, parses back to its instant in UTC. This includes the three-digit milliseconds Jira writes, as in `2024-01-01T10:00:00.000+0000` of the tests |
| Timestamps.LayoutsExclusive | ai_impact_analysis/utils.py:48-54 | No text is read by both layouts, so trying the fractional layout first never shadows the plain one |
| Timestamps.FieldsRoundTrip | ai_impact_analysis/utils.py:49-52 | Each layout reads back exactly the fields it rendered, for any fraction width from one to six digits |
| Timestamps.YearField | ai_impact_analysis/utils.py:49 | `%Y` accepts exactly four digits, read as their value |
| Timestamps.MonthField | ai_impact_analysis/utils.py:49 | `%m` accepts one or two digits naming 1 to 12 |
| Timestamps.DayField | ai_impact_analysis/utils.py:49 | `%d` accepts one or two digits naming 1 to 31 |
| Timestamps.OneOrTwoDigits | ai_impact_analysis/utils.py:49 | `%H`, `%M` and `%S` accept one or two digits up to their maximum |
| Timestamps.ZoneOffset | ai_impact_analysis/utils.py:49 | `%z` yields an offset of less than a day, from `Z` or a signed `HHMM`/`HH:MM` |
| Timestamps.ZoneRoundTrip | ai_impact_analysis/utils.py:49 | A rendered zone offset reads back as the same offset |
| Timestamps.SecondsFractionZone | ai_impact_analysis/utils.py:49-52 | Seconds are at most 61 and the fraction is below one second |
| Timestamps.ParseYmd | ai_impact_analysis/utils.py:20 | `%Y-%m-%d` yields the day number of an existing calendar date or nothing |
| Timestamps.YmdRoundTrip | ai_impact_analysis/utils.py:20 | A rendered date reads back as its day number |
| Timestamps.DaysFromCivilNextDate | ai_impact_analysis/utils.py:23 | Consecutive calendar dates are consecutive day numbers, so day differences are calendar differences |
| Timestamps.NextDate | ai_impact_analysis/utils.py:23 | The day after a valid date is a valid date |
| Jql.DaysAgo | ai_impact_analysis/utils.py:21-23 | The offset is the whole number of days from the date's midnight to now, rounded down |
| Jql.RelativeDaysRoundTrip | ai_impact_analysis/utils.py:25-30 | `startOfDay()`, `"-Nd"` and `"Nd"` never collide: the offset reads back from its rendering |
| Jql.ConvertDateToJql | ai_impact_analysis/utils.py:16-32 | No expression exactly for a missing or empty date. A text that is not a `%Y-%m-%d` date comes back quoted as given. A date gives a relative expression whose day count places now within that many days after the date's midnight, rounded down. The copies in `get_jira_metrics.py` and `get_issues.py` convert dates the same way |
| Jql.ConvertDateOffset | ai_impact_analysis/utils.py:19-30 | A well-formed date converts to the relative expression of its day offset from now |
| Jql.Clauses | ai_impact_analysis/utils.py:164-181 | The project condition comes first and only once; the assignee appears exactly when given; every condition carries its argument or converted date |
| Jql.ClausesFilters | ai_impact_analysis/utils.py:169-179 | Each resolution bound appears exactly when its date is given; the status condition exactly when a status is given and neither date is (the inline assemblies of `get_jira_metrics.py` and `get_issues.py` follow the same rule) |
| Jql.Filters | ai_impact_analysis/utils.py:169-179 | Date bounds or status, never both, each with its own expression |
| Jql.Conditions | ai_impact_analysis/utils.py:166-179 | The conditions after the project carry the given assignee, status and converted dates |
| Jql.BuildJql | ai_impact_analysis/utils.py:164-181 | Every query starts with the project condition |
| Jql.FullClauses | ai_impact_analysis/utils.py:164-179 | With both dates and an assignee, the conditions are the project, the assignee, the lower and the upper resolution bound, in that order, and no status |
| Jql.FullQuery | ai_impact_analysis/utils.py:164-181 | With both dates and an assignee, the query is the project, assignee, lower bound and upper bound conditions joined by ` AND `, the bounds holding the converted dates |
| Jql.StatusQuery | ai_impact_analysis/utils.py:164-181 | With a status, an assignee and no dates, the query is the project, assignee and status conditions joined by ` AND ` |
| Jql.ProjectOnly | ai_impact_analysis/utils.py:164-181 | With no filter the query is just the project condition |
| Changelog.StatusTransitions | ai_impact_analysis/utils.py:95-101 | Exactly the `status` items of an entry become transitions, all at the entry's instant |
| Changelog.TransitionsFromChangelog | ai_impact_analysis/utils.py:86-101 | A transition is collected exactly when it comes from an entry whose timestamp parses to its date; the inline copy in `get_jira_metrics.py` likewise skips entries whose timestamp fails both layouts |
| Changelog.SortByDate | ai_impact_analysis/utils.py:104 | The transitions are reordered, not changed, into ascending time |
| Changelog.SortByDateStable | ai_impact_analysis/utils.py:104 | Transitions at the same instant keep their changelog order |
| Changelog.StateDurations | ai_impact_analysis/utils.py:76-81 | A missing or unparsable creation time gives the empty map |
| Changelog.UnparsableCreated | ai_impact_analysis/utils.py:76-81 | Whatever the changelog holds, an empty or unreadable `created` contributes nothing, as in the inline copy of `get_jira_metrics.py` |
| Changelog.Enter | ai_impact_analysis/utils.py:117-133 | Entering a status creates its entry if needed and adds one to its count only |
| Changelog.AddTime | ai_impact_analysis/utils.py:124-126 | Closing an interval adds its length to the current status only |
| Changelog.DurationsPerStatus | ai_impact_analysis/utils.py:113-145 | A status has an entry exactly when it is entered; its count is one for a truthy initial status plus one per transition into it; its time is the sum of the intervals it occupies (the inline copies in `get_jira_metrics.py` and `get_issues.py` compute the same totals) |
| Changelog.StateDurationsCountsPositive | ai_impact_analysis/utils.py:117-133 | Every key of the result, a null or empty target included, has a count of at least 1 |
| Changelog.DurationsTotals | ai_impact_analysis/utils.py:122-145 | Times add up to the intervals spent in truthy statuses; counts add up to the transitions plus the initial entry |
| Changelog.DurationsCoverLifetime | ai_impact_analysis/utils.py:122-145 | With every status truthy the times telescope to end minus creation, negative intervals included |
| Changelog.NoTransitions | ai_impact_analysis/utils.py:106-145 | Without status changes the current status (default "Unknown") holds the whole lifetime with count 1 |
| Changelog.ReEntry | ai_impact_analysis/utils.py:123-133 | Leaving a status and returning counts it twice, and the time away goes to the other status |
| Changelog.ScenarioResolved | ai_impact_analysis/utils.py:113-145 | A New, In Progress, Done history resolved at the last change gives the expected days and counts |
| Changelog.ScenarioUnresolved | ai_impact_analysis/utils.py:136-145 | An unresolved issue's last interval ends at the clock reading |
| StateAggregation.IssueTypesCount | ai_impact_analysis/cli/get_jira_metrics.py:277-282 | Each type's bucket counts exactly the issues of that type ("Unknown" when missing) |
| StateAggregation.IssueTypesTotal | ai_impact_analysis/cli/get_jira_metrics.py:273-294 | Every issue lands in one bucket before the closure-time parse, so the buckets add up to the number of issues (so does the legacy histogram of `get_issues.py`) |
| StateAggregation.ClosureTimes | ai_impact_analysis/cli/get_jira_metrics.py:284-292 | A closure time is recorded exactly for issues with both timestamps readable in the fractional layout |
| StateAggregation.ClosureTimeAgreesWithParse | ai_impact_analysis/cli/get_jira_metrics.py:284-292 | A recorded closure time is the resolution minus creation instants that `parse_datetime` reads |
| StateAggregation.ClosureTimeIsSumOfDurations | ai_impact_analysis/cli/get_jira_metrics.py:284-292 | For a resolved issue with named statuses, the per-status times add up to its closure time |
| StateAggregation.Absorb | ai_impact_analysis/cli/get_jira_metrics.py:360-369 | Folding one issue in adds its seconds and count and one issue to each of its statuses |
| StateAggregation.AggregatePerState | ai_impact_analysis/cli/get_jira_metrics.py:355-369 | A status is aggregated exactly when some issue passed through it, with the sums of the per-issue times, counts and issues (the legacy aggregation of `get_issues.py` keeps the same sums) |
| StateAggregation.IssuesWithBound | ai_impact_analysis/cli/get_jira_metrics.py:369 | No status is counted for more issues than there are |
| StateAggregation.CountSumAtLeastIssues | ai_impact_analysis/cli/get_jira_metrics.py:368-369 | Entries are never fewer than the issues that saw the status |
| StateAggregation.BatchAggregateBounds | ai_impact_analysis/cli/get_jira_metrics.py:355-369 | Every aggregated status was seen by between one and all issues and has a re-entry ratio of at least 1 |
| StateAggregation.PerIssue | ai_impact_analysis/cli/get_jira_metrics.py:355-357 | One result per issue, each with the same clock reading |
| StateAggregation.ReEntryWarningExact | ai_impact_analysis/cli/get_jira_metrics.py:410-415 | The warning fires exactly when more than three entries are recorded per two issues; the ratio is at least 1 exactly when entries cover the issues (the legacy warning of `get_issues.py` uses the same threshold) |
| StateAggregation.SortByAverageStable | ai_impact_analysis/cli/get_jira_metrics.py:373-377 | The sort by average is stable: the statuses with any one average come out in their given order |
| StateAggregation.OrderStates | ai_impact_analysis/cli/get_jira_metrics.py:371-377 | Every aggregated status appears once, in non-increasing order of average time per issue, and statuses with equal averages keep the order in which they were first met (the legacy report of `get_issues.py` orders states the same way) |
| ReportUtils.NormalizeUsername | ai_impact_analysis/report_utils.py:35-44 | A falsy name is returned unchanged; any other result is no longer than the input and holds no `@` |
| ReportUtils.NormalizeBaseName | ai_impact_analysis/report_utils.py:38-44 | A name with no domain, employee prefix or numeric suffix is left alone |
| ReportUtils.NormalizeDecoratedName | ai_impact_analysis/report_utils.py:38-44 | Adding the `rh-ee-` prefix, a `-<digits>` suffix and an e-mail domain to a base name is undone exactly |
| ReportUtils.NormalizeNumbered | ai_impact_analysis/report_utils.py:43 | A numbered account loses only its numeric suffix |
| ReportUtils.DropSuffixOf | ai_impact_analysis/report_utils.py:43 | The `-\d+$` substitution removes the final hyphen and digits and nothing else |
| ReportUtils.TrailingDigits | ai_impact_analysis/report_utils.py:43 | The run of digits ending the text is maximal |
| ReportUtils.DropNumericTail | ai_impact_analysis/report_utils.py:43 | Removing the suffix leaves a prefix of the name |
| ReportUtils.NormalizeEmail | ai_impact_analysis/report_utils.py:23 | `wlin@redhat.com` normalises to `wlin` |
| ReportUtils.NormalizeNumberedExample | ai_impact_analysis/report_utils.py:24 | `sbudhwar-1` normalises to `sbudhwar` |
| ReportUtils.NormalizeEmployeeExample | ai_impact_analysis/report_utils.py:25 | `rh-ee-djanaki` normalises to `djanaki` |
| ReportUtils.PercentChange | ai_impact_analysis/report_utils.py:62-64 | No change exactly from a zero baseline |
| ReportUtils.PercentChangeInverse | ai_impact_analysis/report_utils.py:62-64 | Applying the change to the baseline gives the later value back; from a positive baseline the change is positive exactly when the value rose |
| ReportUtils.AddMetricChange | ai_impact_analysis/report_utils.py:147-168 | An absolute change is always appended with the later value as its change; a relative one only from a non-zero baseline; earlier entries are untouched |
| ReportUtils.Select | ai_impact_analysis/report_utils.py:90-94 | Exactly the strictly positive (or strictly negative) changes are kept; zero changes are dropped; and the selection is the changes filtered in their order, repeats included |
| ReportUtils.SortByMagnitude | ai_impact_analysis/report_utils.py:97-98 | The result is a permutation ordered by non-increasing magnitude |
| ReportUtils.SortByMagnitudeStable | ai_impact_analysis/report_utils.py:97-98 | Changes of equal magnitude keep their order |
| ReportUtils.Section | ai_impact_analysis/report_utils.py:101-130 | A section is a blank line and its heading, then listed changes of its sign, each one of the given changes, or the "No ... detected" line |
| ReportUtils.FormatMetricChanges | ai_impact_analysis/report_utils.py:86-132 | The summary starts with the increases heading and also holds the decreases heading; every listed change is one of the given non-zero changes, and every increase comes before every decrease |
| ReportUtils.ShownCount | ai_impact_analysis/report_utils.py:103-124 | A section lists `top_n` changes of its sign, or all of them when there are fewer |
| ReportUtils.ShownSorted | ai_impact_analysis/report_utils.py:97-104 | A section lists only changes of its sign, largest magnitude first |
| ReportUtils.ShownAreLargest | ai_impact_analysis/report_utils.py:97-124 | No unlisted change of a section's sign is larger than a listed one |
| ReportUtils.SectionLength | ai_impact_analysis/report_utils.py:101-130 | A section takes a blank line, a heading, and its listed changes or one placeholder line |
| ReportUtils.FormatLength | ai_impact_analysis/report_utils.py:100-132 | The summary has 4 + max(1, min(#increases, top_n)) + max(1, min(#decreases, top_n)) lines |
| ReportUtils.FormatNoChanges | ai_impact_analysis/report_utils.py:117-130 | With no changes both sections print their "No ... detected" line |
| PhaseConfig.ParsePhaseConfig | ai_impact_analysis/cli/generate_jira_comparison_report.py:30-82 | An absent file gives no phases; every phase kept has name and dates free of `|` |
| PhaseConfig.ConfigRoundTrip | ai_impact_analysis/cli/generate_jira_comparison_report.py:42-82 | A `PHASES=(...)` line after any number of comment lines parses back to exactly the phases written into it, in order; the same holds for the `GITHUB_PHASES=(...)` array of the PR comparison |
| PhaseConfig.SkipComments | ai_impact_analysis/cli/generate_jira_comparison_report.py:43-47 | Lines whose stripped form starts with `#` contribute nothing |
| PhaseConfig.NoMarkerNoPhases | ai_impact_analysis/cli/generate_jira_comparison_report.py:50-58 | Without a line holding the marker there are no phases |
| PhaseConfig.OneMarkerLine | ai_impact_analysis/cli/generate_jira_comparison_report.py:50-58 | A marker line that also closes the array contributes just the text after the marker |
| PhaseConfig.Quoted | ai_impact_analysis/cli/generate_jira_comparison_report.py:70-71 | Every captured entry is non-empty and free of quotes |
| PhaseConfig.QuotedEntries | ai_impact_analysis/cli/generate_jira_comparison_report.py:70-71 | The quoted entries of a written array are found in order |
| PhaseConfig.PhaseOf | ai_impact_analysis/cli/generate_jira_comparison_report.py:73-80 | An entry is kept exactly when it splits into three `|`-separated parts |
| PhaseConfig.Phases | ai_impact_analysis/cli/generate_jira_comparison_report.py:73-80 | The phases are exactly the well-formed entries |
| PhaseConfig.PhasesInOrder | ai_impact_analysis/cli/generate_jira_comparison_report.py:73-80 | The phases are, position by position, those of the well-formed entries, in their order |
| PhaseConfig.PhasesOfEntries | ai_impact_analysis/cli/generate_jira_comparison_report.py:73-80 | Writing phases as entries and reading them back gives the same phases |
| PhaseConfig.PhaseNameFor | ai_impact_analysis/cli/generate_pr_comparison_report.py:88-108 | No name exactly when no phase has the report's dates; otherwise the name of the first phase that does |
| JiraComparison.ExtractPeriodInfo | ai_impact_analysis/cli/generate_jira_comparison_report.py:271-283 | `N/A` exactly when the lower or the upper bound is not found; otherwise `~N days` for the lower day count minus the upper one |
| JiraComparison.PeriodText | ai_impact_analysis/cli/generate_jira_comparison_report.py:278-281 | The period text starts with `~` and is never the `N/A` placeholder |
| JiraComparison.ExtractDatesFromJql | ai_impact_analysis/cli/generate_jira_comparison_report.py:97-105 | Both day counts exactly when both bounds are found, each from the first matching bound |
| JiraComparison.ReadResolvedWindow | ai_impact_analysis/cli/generate_jira_comparison_report.py:85-283 | The resolution window the query builder writes for two past dates reads back as its two day counts, and the period as their distance; the legacy period text of `generate_comparison_report.py` reads the same window |
| JiraComparison.FutureOffsetDays | ai_impact_analysis/cli/generate_jira_comparison_report.py:97-275 | A future offset `"Nd"` is read by the first pattern (line 97) as if it were past, and not at all by the period pattern (line 274) |
| JiraComparison.PastOffsetDays | ai_impact_analysis/cli/generate_jira_comparison_report.py:97-275 | A past offset `"-Nd"` is read as N by both the date pattern (line 97) and the period pattern (line 274) |
| JiraComparison.BoundClause | ai_impact_analysis/cli/generate_jira_comparison_report.py:97-98 | A bound matches only where `resolved` starts, in any letter case |
| ReportParse.ParseReport | ai_impact_analysis/cli/generate_jira_comparison_report.py:143-268 | A parsed report keeps its file name and no dates; issue types are among the five tracked ones; re-entry rates are only for whitelisted states; stored state times are all positive; the older report of `generate_comparison_report.py`, with Chinese labels, is read by the same passes with its own labels |
| ReportParse.WrittenReportReads | ai_impact_analysis/cli/generate_jira_comparison_report.py:159-268 | A report laid out as the metrics script writes it parses to exactly the figures written: the data span, the total, the average and longest closure times in days, and the state's re-entry figure. The issue-type and state-time maps stay empty, since such a report has neither section |
| ReportParse.HeaderLine | ai_impact_analysis/cli/generate_jira_comparison_report.py:164-189 | A line changes the total, the average or the span only when it starts with that label, and only the two closure-time lines can raise |
| ReportParse.HeaderPass | ai_impact_analysis/cli/generate_jira_comparison_report.py:163-189 | Over all lines, the total, the average and the span keep their starting values unless some line starts with their label; the pass raises only if some line starts with a closure-time label |
| ReportParse.TotalLineReads | ai_impact_analysis/cli/generate_jira_comparison_report.py:168-171 | A `Total:` line, as written at `get_jira_metrics.py` line 326, sets the total to the number written |
| ReportParse.AverageLineReads | ai_impact_analysis/cli/generate_jira_comparison_report.py:172-175 | An `Average Closure Time:` line sets the average to the figure before `days`, whatever follows the unit |
| ReportParse.LongestLineReads | ai_impact_analysis/cli/generate_jira_comparison_report.py:176-179 | A `Longest Closure Time:` line sets the longest time to the figure before `days` |
| ReportParse.SpanLineReads | ai_impact_analysis/cli/generate_jira_comparison_report.py:186-189 | A `Data Span:` line sets the span to the whole number of days written |
| ReportParse.WrittenHeaderReads | ai_impact_analysis/cli/get_jira_metrics.py:322-347 | The span, total, average and longest lines the metrics script writes are read back as their day count, issue count and two-decimal figures, including the hours in brackets after the average |
| ReportParse.ReentryHeadingStep | ai_impact_analysis/cli/generate_jira_comparison_report.py:247-261 | A heading line sets the current state when it names a whitelisted state and otherwise keeps the current one |
| ReportParse.ReentrySkipStep | ai_impact_analysis/cli/generate_jira_comparison_report.py:247-266 | A line that is no heading and carries no marker under a current state changes nothing |
| ReportParse.ReentryMarkerStep | ai_impact_analysis/cli/generate_jira_comparison_report.py:262-265 | A marker line under a whitelisted state stores its figure as that state's re-entry rate |
| ReportParse.WrittenStateBlockReads | ai_impact_analysis/cli/get_jira_metrics.py:411-415 | A state block the metrics script writes, with or without its warning line, makes that state current and stores its two-decimal re-entry figure |
| ReportParse.TypeRow | ai_impact_analysis/cli/generate_jira_comparison_report.py:201-207 | A type row names one of Story, Task, Bug, Epic and Sub-task |
| ReportParse.StateRowOneWord | ai_impact_analysis/cli/generate_jira_comparison_report.py:229-235 | A one-word state's row, as the metrics report writes it, reads back as its name, average and unit |
| ReportParse.StateRowTwoWords | ai_impact_analysis/cli/generate_jira_comparison_report.py:229-235 | A two-word state's row reads back with both words |
| ReportParse.OneWordNotTwo | ai_impact_analysis/cli/generate_jira_comparison_report.py:229-231 | In a one-word row the two-word reading fails, so the name is not swallowed into the columns |
| ReportParse.StoreRowUnits | ai_impact_analysis/cli/generate_jira_comparison_report.py:236-243 | An hours average is divided by 24, a days average kept, and only a positive value stored |
| ReportParse.StatePassPositive | ai_impact_analysis/cli/generate_jira_comparison_report.py:241-243 | Every stored state time is positive |
| ReportParse.InDays | ai_impact_analysis/cli/generate_jira_comparison_report.py:237-240 | The days value times the divisor is the reported value, and is positive exactly when it is |
| ReportParse.HundredthsRoundTrip | ai_impact_analysis/cli/get_jira_metrics.py:393-396 | A two-decimal figure as the metrics report writes it is read back by `float` exactly |
| ReportParse.ReentryPass | ai_impact_analysis/cli/generate_jira_comparison_report.py:246-266 | Re-entry values are stored only under a whitelisted state heading |
| ReportParse.RStripChar | ai_impact_analysis/cli/generate_jira_comparison_report.py:249 | Stripping a character leaves a prefix that does not end in it |
| ReportParse.Unsigned | ai_impact_analysis/cli/generate_jira_comparison_report.py:176 | A figure of digits and one dot reads as a non-negative number |
| JiraTable.AlignPhases | ai_impact_analysis/cli/generate_jira_comparison_report.py:289-333 | No phase configuration gives no report; otherwise there is one column per configured phase, holding the report at the same position or, once the reports run out, that phase's empty report |
| JiraTable.EmptyReport | ai_impact_analysis/cli/generate_jira_comparison_report.py:108-140 | A phase without data has no period and no throughput, zero issues and closure time, no type or state figures, and the phase's configured dates |
| JiraTable.EmptyReports | ai_impact_analysis/cli/generate_jira_comparison_report.py:108-140 | An empty report stands in for every phase, in order |
| JiraTable.EmptyColumn | ai_impact_analysis/cli/generate_jira_comparison_report.py:108-140 | A phase without data shows `N/A` period, throughput and state figures, zero issues and closure times, and `0.00%` for every issue type |
| JiraTable.PeriodBetween | ai_impact_analysis/cli/generate_jira_comparison_report.py:361-374 | A period exists exactly when neither resolution text is `N/A` and both start with a date, and it is the number of days from the earliest to the latest |
| JiraTable.DateOfRendered | ai_impact_analysis/cli/generate_jira_comparison_report.py:366-369 | A resolution timestamp as the metrics report writes it yields the day number of its date |
| JiraTable.PerDayRate | ai_impact_analysis/cli/generate_jira_comparison_report.py:396 | The daily rate times the number of days gives back the issue count |
| JiraTable.Throughput | ai_impact_analysis/cli/generate_jira_comparison_report.py:391-400 | No period gives `N/A`; a positive period gives the issues per day; a period of zero or less gives 0 |
| JiraTable.StateCells | ai_impact_analysis/cli/generate_jira_comparison_report.py:403-412 | Each state shows its average time when positive and `N/A` otherwise |
| JiraTable.ReentryCells | ai_impact_analysis/cli/generate_jira_comparison_report.py:414-424 | Each state shows its re-entry rate when positive and `N/A` otherwise |
| JiraTable.TypeCells | ai_impact_analysis/cli/generate_jira_comparison_report.py:426-435 | Each issue type shows its share, or 0 when the report has none of that type |
| JiraTable.MetricTable | ai_impact_analysis/cli/generate_jira_comparison_report.py:356-435 | The table has the nineteen metric rows in order, each with exactly one cell per phase taken from that phase's column |
| JiraChanges.Rounded | ai_impact_analysis/cli/generate_jira_comparison_report.py:397 | The throughput read back from its two-decimal text is within half a hundredth of the rate |
| JiraChanges.RoundedPositive | ai_impact_analysis/cli/generate_jira_comparison_report.py:455-461 | A throughput counts as a positive baseline exactly when it is at least 0.005 per day |
| JiraChanges.ListedExactly | ai_impact_analysis/cli/generate_jira_comparison_report.py:465-477 | A state group contributes one change for each state whose first-phase value is positive and for no other, each relative to that value and in the group's unit |
| JiraChanges.StateChanges | ai_impact_analysis/cli/generate_jira_comparison_report.py:465-477 | The loop appends exactly the group's listed changes after those already collected |
| JiraChanges.HeadChanges | ai_impact_analysis/cli/generate_jira_comparison_report.py:449-463 | The average closure time is compared exactly when its first value is positive; the throughput exactly when both phases have one and the first shows as positive |
| JiraChanges.KeyChanges | ai_impact_analysis/cli/generate_jira_comparison_report.py:447-477 | Fewer than two phases give no changes; every change is relative to a positive first-phase value, and there are at most twelve |
| JiraChanges.StateTimeCompared | ai_impact_analysis/cli/generate_jira_comparison_report.py:466-470 | A state's average time is compared exactly when there are two phases and it took time in the first |
| JiraChanges.ReentryCompared | ai_impact_analysis/cli/generate_jira_comparison_report.py:473-477 | A state's re-entry rate is compared exactly when there are two phases and it was re-entered in the first |
| JiraChanges.CsvReport | ai_impact_analysis/cli/generate_jira_comparison_report.py:286-486 | No phase configuration gives no report; otherwise the table has one column per configured phase, from the report at that position or the phase's empty report, and the key changes take 6 to 14 lines, with nothing detected for fewer than two phases |
| JiraChanges.KeyChangeLines | ai_impact_analysis/cli/generate_jira_comparison_report.py:480 | The changes section is between 6 and 14 lines long |
| JiraReportFiles.FormatStamp | ai_impact_analysis/cli/get_jira_metrics.py:434 | A rendered time is an eight-digit date, an underscore and six digits |
| JiraReportFiles.Owner | ai_impact_analysis/cli/generate_jira_comparison_report.py:504-515 | An assignee is looked up by its normalised name, which holds no `@`; without one the team's `general` reports are wanted |
| JiraReportFiles.Matching | ai_impact_analysis/cli/generate_jira_comparison_report.py:498-515 | The kept paths are exactly the wanted names of the listing, joined to the directory |
| JiraReportFiles.FindIn | ai_impact_analysis/cli/generate_jira_comparison_report.py:489-517 | A missing directory gives nothing; otherwise exactly the wanted files, in sorted order |
| JiraReportFiles.FindReports | ai_impact_analysis/cli/generate_jira_comparison_report.py:489-517 | The reports of the normalised assignee, or of the team, in `reports/jira`, sorted |
| JiraReportFiles.NormalizeAddress | ai_impact_analysis/cli/generate_jira_comparison_report.py:506 | Normalising an e-mail address whose local part is a plain user name gives that name |
| JiraReportFiles.SavedReportFound | ai_impact_analysis/cli/get_jira_metrics.py:430-439 | A report the metrics script saves for an address whose local part is a plain user name, or for the team, is found again by the comparison for the same address |
| JiraReportFiles.NumberedReportLost | ai_impact_analysis/cli/generate_jira_comparison_report.py:506-509 | As written, a report saved for a numbered address such as `name-1@domain` is saved under `name-1`, so the comparison, which looks for `name`, never finds it |
| JiraReportFiles.NumberedReportLostExample | ai_impact_analysis/cli/get_jira_metrics.py:430-438 | The report saved for `sbudhwar-1@redhat.com` is not among those the comparison looks for |
| JiraReportFiles.SavedReportNameCorrected | ai_impact_analysis/scripts/generate_jira_report.py:220 | Corrected: saving under the normalised name, every saved report is found again for its own address |
| JiraReportFiles.SavedNamesAgree | ai_impact_analysis/cli/get_jira_metrics.py:430-439 | For plain addresses and for the team the corrected name is the one the script writes |
| JiraReportFiles.SortedSameNames | ai_impact_analysis/cli/generate_jira_comparison_report.py:517 | Sorting keeps exactly the same file names |
| JiraReportFiles.SelectReports | ai_impact_analysis/cli/generate_jira_comparison_report.py:552-562 | The comparison goes ahead exactly when there are at least two reports, and then uses the last four (or all) in sorted order, drawn from the found files; the legacy comparison makes the same choice |
| JiraReportFiles.SelectFoundReports | ai_impact_analysis/cli/generate_jira_comparison_report.py:537-562 | Applied to what the search returns, the selection is simply its last (at most) four files |
| JiraReportFiles.BasenameInDir | ai_impact_analysis/cli/generate_jira_comparison_report.py:589 | A file in a directory has its own name as its base name |
| JiraReportFiles.TimestampOf | ai_impact_analysis/cli/generate_jira_comparison_report.py:591-593 | A timestamp found is eight digits, an underscore and six digits, and the name ends in it followed by `.txt`; the legacy comparison reads the timestamp of its output name the same way |
| JiraReportFiles.TimestampOfName | ai_impact_analysis/cli/generate_jira_comparison_report.py:591-593 | Any name ending in an underscore, a timestamp and `.txt` yields that timestamp |
| JiraReportFiles.OutputName | ai_impact_analysis/cli/generate_jira_comparison_report.py:585-603 | A requested output name is used as given; otherwise the file is `reports/jira/jira_comparison_<owner>_….tsv` |
| JiraReportFiles.OutputFollowsLastReport | ai_impact_analysis/cli/generate_jira_comparison_report.py:588-603 | A comparison of team reports is named after the timestamp of the last report compared |
| JiraReportFiles.TeamReportStamp | ai_impact_analysis/cli/generate_jira_comparison_report.py:588-596 | The timestamp read back from a saved team report's path is the one it was saved with |
| LegacyComparison.PhaseNames | generate_comparison_report.py:140-147 | There is one label per report |
| LegacyComparison.PhaseNamesDistinct | generate_comparison_report.py:140-147 | No two columns share a label, whatever the number of reports |
| LegacyComparison.PhaseNamesNumbered | generate_comparison_report.py:145-147 | Four or more reports are labelled `Phase 1`, `Phase 2`, … in order |
| LegacyComparison.ShownDateAsWritten | generate_comparison_report.py:169-178 | As written, the date part of a resolution text raises exactly when the text is not `N/A` and holds no token |
| LegacyComparison.ShownDate | generate_comparison_report.py:169-178 | The corrected date part agrees with the script wherever the script does not raise, and is `N/A` where it would |
| LegacyComparison.PhaseLinesAsWritten | generate_comparison_report.py:164-192 | When the script gets through the phase lines there is one line per report |
| LegacyComparison.PhaseLines | generate_comparison_report.py:164-192 | One line per report, with its label, the dates of its earliest and latest resolution, and the same period as its table column |
| LegacyComparison.PhaseLinesAgree | generate_comparison_report.py:164-192 | Wherever the script does not raise, it writes exactly the corrected lines |
| LegacyComparison.PhaseLinesRaise | generate_comparison_report.py:169-178 | The script raises exactly when some report's earliest or latest resolution text is neither `N/A` nor holds a token |
| LegacyComparison.BlankResolutionRaises | generate_comparison_report.py:164-215 | A report whose earliest resolution line is present but empty makes the phase lines raise, although its table period is `N/A` |
| LegacyComparison.Improvement | generate_comparison_report.py:284-287 | The improvement is positive exactly when the value fell, zero exactly when it stayed, and it is the negated percent change |
| LegacyComparison.StateConclusions | generate_comparison_report.py:289-305 | A state gets a line exactly when both the first and the last report spent time in it, with those two times and their improvement |
| LegacyComparison.Conclusions | generate_comparison_report.py:281-305 | The closure-time line appears exactly when the first report's average is positive; every line carries its improvement |
| LegacyComparison.Positive | generate_comparison_report.py:284-314 | The summary is positive exactly when the average closure time fell from a positive start |
| LegacyComparison.GenerateReport | generate_comparison_report.py:131-316 | Fewer than two reports give nothing; otherwise the script raises exactly when some report has a blank resolution line, and when it does not it returns the corrected comparison |
| LegacyComparison.SameBlanks | generate_comparison_report.py:138-178 | Sorting the reports does not change whether one of them has a blank resolution line |
| LegacyComparison.GenerateReportCorrected | generate_comparison_report.py:131-316 | Corrected: fewer than two reports give nothing; otherwise the reports are put in file-name order, labelled one per report, and the table and verdict come from that order's first and last |
| LegacyComparison.FindReports | generate_comparison_report.py:319-347 | A missing directory gives nothing; otherwise exactly the `jira_report_<name>_…txt` files of `reports`, sorted |
| LegacyComparison.OwnNameWanted | generate_comparison_report.py:328-345 | A name built from an owner and a timestamp is wanted for that owner |
| LegacyComparison.SavedReportFound | get_issues.py:414-419 | Every report the legacy metrics script saves is found again for the same assignee, whatever the address |
| GitHubClient.IsBot | ai_impact_analysis/github_client.py:67-80 | A name is a bot's exactly when its lower-case spelling is listed or ends in `[bot]`; the empty name never is |
| GitHubClient.IsBotIgnoresCase | ai_impact_analysis/github_client.py:78-80 | Letter case never matters: a name is a bot's exactly when its lower-case spelling is |
| GitHubClient.AppAccountIsBot | ai_impact_analysis/github_client.py:80 | Every `…[bot]` account is a bot, whatever comes before |
| GitHubClient.ListedAreBots | ai_impact_analysis/github_client.py:16-28 | Every listed account is recognised as a bot |
| GitHubClient.NewClient | ai_impact_analysis/github_client.py:44-56 | Construction succeeds exactly when token, owner and name are each given or set in the environment; a missing token is reported first; an argument wins over the environment |
| GitHubClient.StampRoundTrip | ai_impact_analysis/github_client.py:130 | Every instant GitHub writes reads back as itself |
| GitHubClient.ClockReads | ai_impact_analysis/github_client.py:130 | A time of day in two-digit fields followed by `Z` reads back as that time |
| GitHubClient.ScanPage | ai_impact_analysis/github_client.py:120-139 | The pull requests kept from a page are exactly its merged, person-authored ones merged within the period; nothing is kept when none was considered |
| GitHubClient.ScanPageOutcome | ai_impact_analysis/github_client.py:120-135 | A page raises exactly when one of its merged, person-authored pull requests has a time that cannot be read |
| GitHubClient.FetchAsWritten | ai_impact_analysis/github_client.py:101-149 | As written, whatever the loop returns lies in the period |
| GitHubClient.Fetch | ai_impact_analysis/github_client.py:101-149 | Everything returned is merged, by a person, within the period |
| GitHubClient.FetchMergedPrs | ai_impact_analysis/github_client.py:82-149 | Corrected: everything returned was merged by a person from the start date's midnight up to, not including, the midnight after the end date |
| GitHubClient.FetchSound | ai_impact_analysis/github_client.py:116-147 | Everything returned comes from a page the loop reaches |
| GitHubClient.FetchComplete | ai_impact_analysis/github_client.py:116-147 | Every pull request of the period on a page the loop reaches is returned |
| GitHubClient.FetchExact | ai_impact_analysis/github_client.py:101-149 | What is returned is exactly the period's pull requests of the pages the loop reaches |
| GitHubClient.FetchAgrees | ai_impact_analysis/github_client.py:101-149 | Wherever the script as written does not raise, it returns exactly what the corrected loop returns |
| GitHubClient.QuietFirstPage | ai_impact_analysis/github_client.py:120-147 | A first page without a merged, person-authored pull request makes the script raise, where the corrected loop returns nothing |
| GitHubClient.UnmergedFirstPageRaises | ai_impact_analysis/github_client.py:120-147 | A first page holding one closed, unmerged pull request makes the script raise, while the corrected fetch returns nothing |
| GitHubClient.OldestUpdate | ai_impact_analysis/github_client.py:143-145 | The oldest update is one of the page's update times and no later than any of them; it raises exactly when one cannot be read |
| GitHubClient.OldestUpdateSince | ai_impact_analysis/github_client.py:143-147 | The loop goes on past a page exactly when every update on it is from the start of the period on |
| PullDetails.ApprovalOnlyShort | ai_impact_analysis/github_client.py:240-251 | An approval is a bare one exactly when its stripped body is under ten characters or says "looks good" in any case: the other stock remarks are all shorter |
| PullDetails.ApprovalIds | ai_impact_analysis/github_client.py:240-251 | The ids collected are exactly those of the bare approvals |
| PullDetails.CommentsOf | ai_impact_analysis/github_client.py:205-258 | The total is the number of inline plus conversation comments, and every bare approval's id is among the approval ids |
| PullDetails.Matches | ai_impact_analysis/github_client.py:282-297 | A commit passes between none and all three of the trailer tests, and none exactly when it is not AI-assisted |
| PullDetails.TrailersIgnoreCase | ai_impact_analysis/github_client.py:286-292 | The exact-case test adds nothing: an `Assisted-by` trailer is found in any letter case |
| PullDetails.Tools | ai_impact_analysis/github_client.py:279-303 | The tools listed are Claude exactly when some commit names Claude, Cursor exactly when some commit names Cursor, sorted and without repeats |
| PullDetails.MatchCount | ai_impact_analysis/github_client.py:282-297 | The count of matches is at most three per commit, and zero exactly when no commit is AI-assisted |
| PullDetails.DetectAiAsWritten | ai_impact_analysis/github_client.py:260-307 | As written, the AI commit count can reach three per commit; AI assistance is reported exactly when some tool is named |
| PullDetails.DoubleCountedCommit | ai_impact_analysis/github_client.py:286-297 | One commit carrying both Claude trailers is counted twice: 200 percent AI commits |
| PullDetails.DetectAi | ai_impact_analysis/github_client.py:260-307 | Counting each commit once, the AI commits are those passing any test, and the share lies between 0 and 100 percent |
| PullDetails.DetectAiAgrees | ai_impact_analysis/github_client.py:282-307 | Where no commit passes two tests, the script and the corrected count agree |
| PullDetails.SingleMatchesCounted | ai_impact_analysis/github_client.py:282-297 | Where no commit passes two tests, the count of matches is the count of AI-assisted commits |
| PullDetails.Reviewers | ai_impact_analysis/github_client.py:353 | The reviewers are exactly the logins of the reviews that have a user |
| PullDetails.HumanReviewers | ai_impact_analysis/github_client.py:354-358 | The human reviewers are exactly the logins of reviews by users who are not bots |
| PullDetails.HumanReviewersAreReviewers | ai_impact_analysis/github_client.py:353-358 | The human reviewers are the reviewers who are not bots |
| PullDetails.HumanReviewersSubset | ai_impact_analysis/github_client.py:353-358 | There are never more human reviewers than reviewers |
| PullDetails.ApprovalOnlyNotSubstantive | ai_impact_analysis/github_client.py:363-366 | A bare approval's body never counts as a substantive comment |
| PullDetails.MissingIdsShareApproval | ai_impact_analysis/github_client.py:363-366 | Approvals are matched by id, so once a bare approval lacks an id, no review without an id counts as substantive |
| PullDetails.SubstantiveBound | ai_impact_analysis/github_client.py:361-370 | Substantive review bodies number at most the reviews that are not bare approvals |
| PullDetails.SubmittedTimes | ai_impact_analysis/github_client.py:341-345 | The submission times read are exactly those of the reviews that have one; an unreadable one raises |
| PullDetails.FirstReviewHours | ai_impact_analysis/github_client.py:338-346 | No reviews give no wait; reviews none of which was submitted raise on the empty minimum; otherwise the wait is to the earliest submitted review |
| PullDetails.DetailedMetrics | ai_impact_analysis/github_client.py:309-437 | The metrics exist exactly when the creation and merge times and the first review can be read; the wait is absent exactly without reviews; the merge time is the hours from creation to merge; as written, the AI commits are the trailer matches, and AI assistance is reported exactly when there is one |
| PullDetails.DetailedMetricsCorrected | ai_impact_analysis/github_client.py:309-437 | Corrected: the metrics exist exactly when the script's do; each AI commit counts once, so the AI commits are at most the commits and the share lies between 0 and 100 percent |
| PullDetails.CorrectedOnlyRecounts | ai_impact_analysis/github_client.py:399-411 | The corrected metrics differ from the script's only in the AI commit count and share |
| PullDetails.DetailedMetricsAgree | ai_impact_analysis/github_client.py:282-437 | Where no commit carries two matching trailers, the script's metrics are the corrected ones |
| PullDetails.PullMetrics | ai_impact_analysis/github_client.py:399-411 | The metrics carry the pull request's number and its number of commits; as written, the AI commits are the trailer matches, at most three per commit |
| PullDetails.ReviewCountsBounded | ai_impact_analysis/github_client.py:348-358 | Requested changes and approvals together never exceed the reviews, and people are among the reviewers |
| PullDetails.CommentCountsBounded | ai_impact_analysis/github_client.py:360-397 | People's comments are among all comments, and review bodies add at most the reviews that are not bare approvals |
| PullDetails.MetricsConsistent | ai_impact_analysis/github_client.py:309-437 | Everything above holds of the metrics of one pull request, its merge days times 24 are its merge hours, and as written its AI commits are at most three per commit |
| PrMetrics.Column | ai_impact_analysis/cli/get_pr_metrics.py:49 | One value per pull request of the group, read from the same field |
| PrMetrics.ReviewWaits | ai_impact_analysis/cli/get_pr_metrics.py:50-56 | The waits averaged are exactly the group's first-review waits that are present and not zero, position by position in the group's order |
| PrMetrics.WaitOf | ai_impact_analysis/cli/get_pr_metrics.py:50-56 | A pull request contributes a wait exactly when its first-review wait is present and not zero, and then contributes that wait |
| PrMetrics.GroupStatsOf | ai_impact_analysis/cli/get_pr_metrics.py:44-86 | An empty group has no statistics; otherwise the count is the group's size, the review wait is the mean of the truthy waits, and each other average is the mean of its column over the group |
| PrMetrics.Reduction | ai_impact_analysis/cli/get_pr_metrics.py:102-126 | Zero when the others' average is not positive; otherwise the difference of the averages as a percentage of the others', positive exactly when the AI group's average is lower and zero exactly when it is equal |
| PrMetrics.ReductionIsPercentChange | ai_impact_analysis/cli/get_pr_metrics.py:102-126 | For a positive average of the others, the reduction is the negated percentage change from their average to the AI group's, as the report utilities compute it |
| PrMetrics.CalculateStatistics | ai_impact_analysis/cli/get_pr_metrics.py:18-128 | No pull requests give zero counts and no details; otherwise the totals count all, the AI-assisted and the others; each group's statistics are those of its pull requests; the tool counts are drawn from the AI group; and the comparison holds the merge-time and requested-changes reductions of the two groups |
| PrMetrics.GroupsPartition | ai_impact_analysis/cli/get_pr_metrics.py:31-33 | Every pull request is in exactly one group, and the adoption rate is the AI group's share, between 0 and 100 |
| PrMetrics.ToolCountsBounded | ai_impact_analysis/cli/get_pr_metrics.py:35-38 | The per-tool counts are drawn from the AI group only |
| PrMetrics.BothWithinEach | ai_impact_analysis/cli/get_pr_metrics.py:35-38 | With tool lists as the client writes them, a pull request counted for both tools is counted for each |
| PrMetrics.MergeImprovementSign | ai_impact_analysis/cli/get_pr_metrics.py:103-114 | The merge-time comparison is positive exactly when AI-assisted pull requests merged faster on average, and zero when the others have no positive average |
| PrMetrics.ByAuthor | ai_impact_analysis/cli/get_pr_metrics.py:298-300 | Without an author every pull request is kept; with one, exactly that login's |
| PrComparison.Present | ai_impact_analysis/cli/generate_pr_comparison_report.py:124-160 | The values kept are exactly the pull requests' values that are not missing, position by position in the pull requests' order |
| PrComparison.OverallMetrics | ai_impact_analysis/cli/generate_pr_comparison_report.py:111-184 | A period without pull requests has no overall metrics; otherwise each of the twelve averages is the mean of that value over the pull requests that have it |
| PrComparison.PresentAverage | ai_impact_analysis/cli/generate_pr_comparison_report.py:162-184 | Missing values do not pull an average down: it is 0 when no pull request has the value and otherwise lies within any bounds the present values keep |
| PrComparison.Trend | ai_impact_analysis/cli/generate_pr_comparison_report.py:364-367 | Zero for a first value that is not positive; otherwise positive exactly when the last is larger and zero exactly when they are equal |
| PrComparison.TrendIsPercentChange | ai_impact_analysis/cli/generate_pr_comparison_report.py:367 | For a positive first value the trend is the same percentage change the Jira comparison uses |
| PrComparison.PhaseNames | ai_impact_analysis/cli/generate_pr_comparison_report.py:250-263 | Every report gets a name exactly when each has a configured phase with its exact dates, and then it is that phase's name |
| PrComparison.OverallRow | ai_impact_analysis/cli/generate_pr_comparison_report.py:331-339 | One cell per report: `N/A` exactly for a report without overall metrics, its average otherwise |
| PrComparison.OverallRows | ai_impact_analysis/cli/generate_pr_comparison_report.py:316-339 | Eleven rows in the table's order, each with one cell per report: the report's average of that row's metric, or nothing for a report without overall metrics |
| PrComparison.Rates | ai_impact_analysis/cli/generate_pr_comparison_report.py:298 | One adoption rate per report, in the reports' order |
| PrComparison.Measured | ai_impact_analysis/cli/generate_pr_comparison_report.py:359-363 | The values of reports with overall metrics; all of them exactly when every report has overall metrics |
| PrComparison.MeasuredEnds | ai_impact_analysis/cli/generate_pr_comparison_report.py:359-363 | When every report has overall metrics, the values measured are theirs, report by report |
| PrComparison.TrendOf | ai_impact_analysis/cli/generate_pr_comparison_report.py:364-370 | A trend line appears exactly when at least two reports have the value, comparing the first with the last |
| PrComparison.BandOf | ai_impact_analysis/cli/generate_pr_comparison_report.py:427-434 | Strong above 50 percent, moderate above 20 up to 50, early at 20 or below |
| PrComparison.SummaryOf | ai_impact_analysis/cli/generate_pr_comparison_report.py:423-434 | A summary appears exactly when two periods have merge times; its band is the last period's, and the productivity line appears exactly with strong adoption and a lower last merge time |
| PrComparison.GenerateTsvReport | ai_impact_analysis/cli/generate_pr_comparison_report.py:224-436 | A report exists exactly when there are two reports, a configuration and a phase for each; the reports are put in start-date order with their phase names; the overall rows and the four trend lines are taken over that order; the adoption change and band come from its first and last report; and with overall metrics everywhere the merge trend runs from the earliest to the latest |
| PrComparison.Columns | ai_impact_analysis/cli/generate_pr_comparison_report.py:240-262 | The sorted reports and their phase names exist exactly when every report has a phase; sorting keeps the same reports and their overall metrics |
| PrComparison.Tables | ai_impact_analysis/cli/generate_pr_comparison_report.py:298-436 | The tables of reports in start-date order: the overall rows, the adoption change from first to last, the four trend lines, and a summary exactly when there is a merge trend |
| PrComparison.Summarize | ai_impact_analysis/cli/generate_pr_comparison_report.py:423-434 | A summary appears exactly when two reports have merge times, banded by the last report's adoption rate |
| PrComparison.SortedOverall | ai_impact_analysis/cli/generate_pr_comparison_report.py:240 | Sorting keeps the number of reports, and every sorted report has overall metrics when every original one does |
| PrComparison.MeasuredTrend | ai_impact_analysis/cli/generate_pr_comparison_report.py:353-367 | When every report has overall metrics, the trend compares the first report's value with the last's |
| PrComparison.FindPrReports | ai_impact_analysis/cli/generate_pr_comparison_report.py:439-469 | A missing directory gives nothing; otherwise exactly the author's (or the team's) `pr_metrics_…json` files of `reports/github`, sorted |
| PrComparison.SavedPrReportFound | ai_impact_analysis/cli/get_pr_metrics.py:363-376 | A metrics file the metrics script saves is found again for the same author, or for the team |
| PrComparison.SelectFoundPrReports | ai_impact_analysis/cli/generate_pr_comparison_report.py:486-507 | The comparison goes ahead exactly when two files are found, and then uses the last four at most |
| CompareApis.SameIsEquivalence | bin/compare_apis.py:98 | Python's equality on the compared values is reflexive, symmetric and transitive |
| CompareApis.ByNumber | bin/compare_apis.py:54-55 | The pull requests are keyed by exactly the numbers the list holds |
| CompareApis.LatestWins | bin/compare_apis.py:54-55 | A later pull request with the same number replaces an earlier one |
| CompareApis.SplitNumbers | bin/compare_apis.py:57-59 | The REST-only, GraphQL-only and common numbers are disjoint and together make up all numbers; the common ones are in both reports, the one-sided ones in the other report in neither |
| CompareApis.SortedDistinct | bin/compare_apis.py:78 | Sorting a set gives its members in increasing order without repeats |
| CompareApis.Common | bin/compare_apis.py:78 | The common numbers, in increasing order |
| CompareApis.Checked | bin/compare_apis.py:78 | The five lowest common numbers (all when fewer), in increasing order, and every common number left out is above all of them |
| CompareApis.DifferingOn | bin/compare_apis.py:94-100 | A field lists exactly the checked pull requests that disagree on it, in the checked order, so increasing numbers stay increasing |
| CompareApis.FilterIncreasing | bin/compare_apis.py:94-100 | Filtering increasing numbers leaves them increasing |
| CompareApis.Differences | bin/compare_apis.py:76-100 | Only fields with at least one disagreement get an entry, and each entry lists that field's disagreeing pull requests |
| CompareApis.DiffCountBound | bin/compare_apis.py:127 | Each field contributes at most one difference per checked pull request |
| CompareApis.TotalDiffs | bin/compare_apis.py:127 | At most one difference per checked pull request and field, and none exactly when every checked field agrees |
| CompareApis.Accuracy | bin/compare_apis.py:128 | The accuracy lies between 0 and 100, is 100 exactly when nothing differs and 0 exactly when everything does |
| CompareApis.VerdictOf | bin/compare_apis.py:136-141 | Ready at 99 percent or more, minor differences from 95 up to 99, significant below 95 |
| CompareApis.CompareReportsAsWritten | bin/compare_apis.py:54-141 | As written, reports without a common pull request raise; otherwise the checks are counted over every common pull request though only the first five are compared |
| CompareApis.AccuracyDiluted | bin/compare_apis.py:126-141 | As written, a hundred common pull requests keep the accuracy at 95 percent or more, so the verdict is never "significant" |
| CompareApis.CompareReports | bin/compare_apis.py:54-141 | Corrected, the checks are the compared fields of the compared pull requests; the accuracy is 100 exactly when they all agree |
| CompareApis.DisagreementIsSignificant | bin/compare_apis.py:126-141 | Corrected, disagreement on every compared field drives the accuracy to 0 and the verdict to "significant" |
| Sheets.Delimiter | ai_impact_analysis/cli/upload_to_sheets.py:138-139 | A report is read tab-separated exactly when its path ends in `.tsv`, comma-separated otherwise |
| Sheets.Stem | ai_impact_analysis/cli/upload_to_sheets.py:391 | The stem is a prefix of the file name |
| Sheets.SheetNameAsWritten | ai_impact_analysis/cli/upload_to_sheets.py:390-409 | As written, a stem starting `pr_comparison_` gets the PR tab name of the first word after that prefix; every other stem the Jira tab name of the first word once `comparison_report_` is removed |
| Sheets.SheetName | ai_impact_analysis/cli/upload_to_sheets.py:390-409 | Corrected, a `jira_comparison_` stem gets the Jira tab name of the first word after that prefix; every other stem is named as before |
| Sheets.ChosenSheetName | ai_impact_analysis/cli/upload_to_sheets.py:390 | A given sheet name wins; otherwise the name is the one the code as written derives from the report's file name |
| Sheets.ChosenSheetNameCorrected | ai_impact_analysis/cli/upload_to_sheets.py:390-409 | Corrected: a given sheet name wins; otherwise the corrected name of the file; it differs from the script only for `jira_comparison_` files |
| Sheets.SavedStem | ai_impact_analysis/cli/upload_to_sheets.py:391 | A saved report's stem is the prefix, owner and timestamp the generator wrote |
| Sheets.OwnerRoundTrip | ai_impact_analysis/cli/upload_to_sheets.py:398-405 | The owner read back from a saved report's stem is the owner it was saved for |
| Sheets.PrReportTitle | ai_impact_analysis/cli/upload_to_sheets.py:397-402 | A saved PR comparison gets the PR tab name of its author, or `Team` for the team |
| Sheets.JiraReportTitle | ai_impact_analysis/cli/upload_to_sheets.py:404-409 | Corrected, a saved Jira comparison gets the Jira tab name of its user, or `Team` for the team |
| Sheets.LegacyReportTitle | ai_impact_analysis/cli/upload_to_sheets.py:404-409 | A comparison of the older script gets the Jira tab name of its user, or `Team` for the team |
| Sheets.JiraComparisonMisnamed | ai_impact_analysis/cli/upload_to_sheets.py:404-409 | As written, every saved `jira_comparison_…` report gets the tab name "Jira Report - jira", whoever its user |
| Sheets.TabFor | ai_impact_analysis/cli/upload_to_sheets.py:227-265 | The given name is used exactly when no new tab is demanded and the name is free; otherwise a timestamped name, put on the lone default `Sheet1` exactly when it is the only tab and the rename succeeds, and on a new tab otherwise |
| Sheets.NoClobber | ai_impact_analysis/cli/upload_to_sheets.py:231-234 | An existing tab of the given name is never written over |
| Sheets.RangeFor | ai_impact_analysis/cli/upload_to_sheets.py:268 | The range is the tab name in single quotes followed by `!A1` |
| Sheets.MainTab | ai_impact_analysis/cli/upload_to_sheets.py:446-462 | Into an existing spreadsheet the upload always goes to a new timestamped tab; into a new one under the derived name unless that name is taken |

## Left out

- HTTP requests and paging (`fetch_jira_data`, `fetch_all_issues`, the request code of `github_client.py` and of the script copies) are network I/O. The model takes the fetched pages or issues as parameters and models the filters applied to them.
- `ai_impact_analysis/jira_client.py` is left out beyond the JQL it builds and the durations it computes, because the rest of it is request handling.
- The `ThreadPoolExecutor` fan-out in `get_pr_metrics.py` runs independent fetches concurrently. The model computes each pull request's metrics as a plain function of its inputs.
- Google OAuth, service-account handling and the Sheets API calls are foreign library calls. Whether renaming the sole `Sheet1` raises `HttpError` is the `renameSucceeds` parameter. The tabs of an existing spreadsheet are a list given to the model.
- `ai_impact_analysis/scripts/generate_jira_report.py` shells out to other scripts and imports `ai_impact_analysis.utils.workflow_utils`, which is not part of this model.
- The following are all I/O, and the model covers only the values they produce or consume:
  - argparse;
  - printing, including the statistics printing of `bin/compare_apis.py` lines 32-46;
  - writing report files;
  - `os.listdir` and `os.path` checks: a directory listing is a parameter.
- Reading files is I/O: a configuration file is its list of lines, or absent.
- `datetime.now()` and `strftime` become an injected instant or timestamp text.
- The per-field lines `bin/compare_apis.py` prints for each compared pull request are left out. They could raise on a missing `title` (line 82) or on a `None` formatted with a width (line 101), and the model does not cover either.
- Float formatting (`:.2f`, `:+.1f`) and IEEE rounding are left out. Averages, percentages and day counts are exact reals, so a printed figure may differ in its last digit.
- The story-point velocity block of `get_jira_metrics.py` is network fetches plus a sum.
- `ai_impact_analysis/logger.py` and the `clients/`, `core/` and `models/` package files only configure logging or re-export modules. They are not part of this model.
- `Lower` changes only ASCII letters, and digit tests accept only ASCII digits. Python's `str.lower` and `\d` also act on other Unicode characters, which these reports do not contain.
- `Timestamps.ParseDatetime`: offsets are read in the `±HHMM` form Jira writes. The seconds and microseconds that Python's `%z` also accepts are not read.
- `ReportUtils.ShownCount`: stated for `top_n >= 0`. A negative `top_n` slices from the end in Python, and the model's slicing follows that, but the lemma does not state the count for it.
- `ReportUtils.FormatLength`: stated for `top_n >= 1`. With `top_n` 0 a non-empty side has no line at all, which the `max(1, ...)` in the formula does not describe.
- `get_jira_metrics.py` takes `Done` as its default `--status`. The default belongs to argparse, so the model takes the status as given.
- `get_jira_metrics.py` saves its reports under `reports/`, while the Jira comparison looks for them under `reports/jira/`. The model covers both file names but not moving files between the directories.
- `PullDetails.MetricsConsistent`: no longer promises that the AI commits are at most the commits, because the script can count one commit up to three times. `PullDetails.DetailedMetricsCorrected` keeps that bound and the 0 to 100 percent share.
- `GitHubClient.FetchMergedPrs`: models the corrected loop, which returns nothing where the script raises `UnboundLocalError`. The script as written is `GitHubClient.FetchAsWritten`.
- `StateAggregation.OrderStates`: Dafny maps carry no insertion order, so the order in which statuses were first met is a parameter. Python's stable sort keeps that order among equal averages.
- Without a phase configuration, `generate_csv_report` returns `None`, and `main` then passes it to `f.write`, which raises `TypeError`. `JiraChanges.CsvReport` returns no report there, and the write is file I/O outside the model.
- `ReportParse.WrittenReportReads`: the report it reads back holds the span, total, average and longest lines, then one state block. Between those lines the script also writes section headings, the `Earliest`/`Latest` times, the issue-type rows, the state table, the `Successfully analyzed` and `Shortest Closure Time` lines, and further state blocks. Those are not part of that layout. The type rows and state-table rows are read back by their own lemmas (`ReportParse.TypeRow`, `ReportParse.StateRowOneWord`, `ReportParse.StateRowTwoWords`).
- `ReportParse.ParseReport`: the assignee, the JQL text and the `Earliest`/`Latest` texts are copied as the text after the first colon, and no lemma reads them back.
- A duration interval whose end precedes its start is not clamped to zero. The code does not clamp it, and the model follows the code.

## Findings

| source | as written | input that shows it | evidently intended | confidence | as-written member | corrected member |
|---|---|---|---|---|---|---|
| generate_comparison_report.py:169-178 | the date shown for a phase is the first word of the resolution text, checked only against `N/A` | a report whose `最早解决时间:` line has an empty value: `split()[0]` raises `IndexError` | the phase line shows `N/A`, as the table already does for that report's period | not executed | LegacyComparison.BlankResolutionRaises | LegacyComparison.PhaseLines |
| ai_impact_analysis/github_client.py:131-147 | `start` is bound only inside the loop, after the merged and bot tests, but the stop test after the loop reads it | a first page holding one closed, unmerged pull request: `UnboundLocalError` | the stop test compares with the period start parsed before the loop, so the fetch returns nothing | not executed | GitHubClient.UnmergedFirstPageRaises | GitHubClient.FetchMergedPrs |
| ai_impact_analysis/github_client.py:286-297 | every matching trailer adds one to the AI commit count | the one commit message "Assisted-by: Claude\nCo-Authored-By: Claude" gives 2 AI commits out of 1, that is 200 percent | a commit counts once, however many trailers it carries, so the share stays within 100 percent | not executed | PullDetails.DoubleCountedCommit | PullDetails.DetectAi |
| bin/compare_apis.py:84-131 | `fields` is bound only in the loop over the compared pull requests, and the summary reads `len(fields)` | two reports with no pull request number in common: `NameError` | the summary completes with the single nominal check that line 126 provides | not executed | CompareApis.CompareReportsAsWritten | CompareApis.CompareReports |
| bin/compare_apis.py:126-128 | the checks are counted over every common pull request, though only the first five are compared | 100 common pull requests that differ in every field: 35 differences over 700 checks, 95 percent accuracy, verdict "minor differences" | the accuracy is taken over the pull requests actually compared: 0 percent and "significant differences" | not executed | CompareApis.AccuracyDiluted | CompareApis.DisagreementIsSignificant |
| ai_impact_analysis/cli/upload_to_sheets.py:404-409 | a `jira_comparison_` stem falls into the branch that removes `comparison_report_` and takes the first word | `reports/jira/jira_comparison_alice_20251022_111614.tsv` gets the tab "Jira Report - jira" | "Jira Report - alice", the user the comparison was made for | not executed | Sheets.JiraComparisonMisnamed | Sheets.JiraReportTitle |
| ai_impact_analysis/cli/get_jira_metrics.py:430-438 | a report for an assignee is saved under the part of the address before `@` | `sbudhwar-1@redhat.com` is saved as `jira_report_sbudhwar-1_….txt`, while the comparison looks for `jira_report_sbudhwar_` | save under the normalised user name, as `ai_impact_analysis/scripts/generate_jira_report.py` line 220 does for its clean-up | not executed | JiraReportFiles.NumberedReportLostExample | JiraReportFiles.SavedReportNameCorrected |

=== FILE: compare_apis.dfy ===
/**
 * The consistency check between two metrics reports of the same period, one
 * fetched through the REST API and one through GraphQL: which pull requests
 * each holds, which of a handful of fields differ on the first few they
 * share, and the accuracy figure and verdict drawn from that.
 */
module CompareApis {
  import opened Wrappers
  import opened Tally

  /** A JSON value as a saved report holds it; a missing field and `null` are both absent. */
  datatype Value = Flag(b: bool) | Num(x: real) | Str(s: string)

  /** One pull request of a saved report, keyed by `pr_number`. */
  datatype ApiPr = ApiPr(number: int, fields: map<string, Value>)

  /** `pr.get(field)`. */
  function Get(pr: ApiPr, field: string): Option<Value> {
    if field in pr.fields then Some(pr.fields[field]) else None
  }

  function AsNumber(v: Value): Option<real> {
    match v
    case Flag(b) => Some(if b then 1.0 else 0.0)
    case Num(x) => Some(x)
    case Str(_) => None
  }

  /** Python's `==` on the two values: booleans compare equal to 1 and 0, strings only to strings. */
  predicate Same(a: Option<Value>, b: Option<Value>) {
    match (a, b)
    case (None, None) => true
    case (Some(Str(s)), Some(Str(t))) => s == t
    case (Some(u), Some(v)) => AsNumber(u).Some? && AsNumber(u) == AsNumber(v)
    case _ => false
  }

  lemma SameIsEquivalence(a: Option<Value>, b: Option<Value>, c: Option<Value>)
    ensures Same(a, a)
    ensures Same(a, b) ==> Same(b, a)
    ensures Same(a, b) && Same(b, c) ==> Same(a, c)
  {
  }

  /** The numbers of the pull requests, in order. */
  function Numbers(prs: seq<ApiPr>): (ns: seq<int>)
    ensures |ns| == |prs| && forall i :: 0 <= i < |prs| ==> ns[i] == prs[i].number
  {
    seq(|prs|, i requires 0 <= i < |prs| => prs[i].number)
  }

  /** `{pr['pr_number']: pr for pr in prs}`: keyed by every number the list holds. */
  function ByNumber(prs: seq<ApiPr>): (m: map<int, ApiPr>)
    ensures forall k :: k in m <==> k in Numbers(prs)
  {
    if prs == [] then map[]
    else
      var init := prs[..|prs| - 1];
      var last := prs[|prs| - 1];
      assert Numbers(prs) == Numbers(init) + [last.number];
      ByNumber(init)[last.number := last]
  }

  /** A pull request numbered `k` comes after position `i`. */
  predicate HasNumberAfter(prs: seq<ApiPr>, i: int, k: int) {
    exists j :: 0 <= i < j < |prs| && prs[j].number == k
  }

  /** A later pull request with the same number replaces an earlier one. */
  lemma {:induction false} LatestWins(prs: seq<ApiPr>, i: int)
    requires 0 <= i < |prs| && !HasNumberAfter(prs, i, prs[i].number)
    ensures ByNumber(prs)[prs[i].number] == prs[i]
  {
    var init := prs[..|prs| - 1];
    if i < |prs| - 1 {
      assert prs[|prs| - 1].number != prs[i].number;
      assert init[i] == prs[i];
      LatestWins(init, i);
    }
  }

  /** The three groups of pull-request numbers the comparison reports. */
  datatype Split = Split(restOnly: set<int>, graphqlOnly: set<int>, common: set<int>)

  function SplitNumbers(rest: map<int, ApiPr>, graphql: map<int, ApiPr>): (s: Split)
    ensures s.restOnly !! s.graphqlOnly && s.restOnly !! s.common && s.graphqlOnly !! s.common
    ensures s.restOnly + s.graphqlOnly + s.common == rest.Keys + graphql.Keys
    ensures s.common <= rest.Keys && s.common <= graphql.Keys
    ensures s.restOnly !! graphql.Keys && s.graphqlOnly !! rest.Keys
  {
    Split(rest.Keys - graphql.Keys, graphql.Keys - rest.Keys, rest.Keys * graphql.Keys)
  }

  // ---------------------------------------------------------------------------
  // sorted(common)[:5]

  predicate Increasing(s: seq<int>) {
    forall i, j :: 0 <= i < j < |s| ==> s[i] < s[j]
  }

  /** Adds `x` to an increasing list, unless it is there already. */
  function Insert(x: int, s: seq<int>): (r: seq<int>)
    requires Increasing(s)
    ensures Increasing(r)
    ensures forall y :: y in r <==> y == x || y in s
  {
    if s == [] then [x]
    else if x < s[0] then [x] + s
    else if x == s[0] then s
    else
      var rest := Insert(x, s[1..]);
      assert forall y :: y in s[1..] ==> s[0] < y;
      assert forall j :: 0 <= j < |rest| ==> rest[j] in rest;
      [s[0]] + rest
  }

  /** `sorted(set(xs))`: the distinct values, in increasing order. */
  function SortedDistinct(xs: seq<int>): (r: seq<int>)
    ensures Increasing(r)
    ensures forall y :: y in r <==> y in xs
  {
    if xs == [] then [] else Insert(xs[0], SortedDistinct(xs[1..]))
  }

  /** `sorted(common)`: the numbers both reports hold, in increasing order. */
  function Common(rest: seq<ApiPr>, graphql: seq<ApiPr>): (c: seq<int>)
    ensures Increasing(c)
    ensures forall n :: n in c <==> n in SplitNumbers(ByNumber(rest), ByNumber(graphql)).common
  {
    var g := ByNumber(graphql);
    SortedDistinct(Filter(Numbers(rest), n => n in g))
  }

  /** How many pull requests are compared field by field. */
  const Sample := 5

  /** The pull requests checked field by field: the (at most) five lowest common numbers. */
  function Checked(common: seq<int>): (r: seq<int>)
    requires Increasing(common)
    ensures |r| == if |common| < Sample then |common| else Sample
    ensures forall n :: n in r ==> n in common
    ensures Increasing(r)
    ensures forall x :: x in common && x !in r ==> forall i :: 0 <= i < |r| ==> r[i] < x
  {
    var r := common[..if |common| < Sample then |common| else Sample];
    assert forall x :: x in common && x !in r ==> exists k :: |r| <= k < |common| && common[k] == x;
    r
  }

  // ---------------------------------------------------------------------------
  // Differences

  /** The fields compared on each pull request. */
  const Fields: seq<string> := ["total_commits", "has_ai_assistance", "time_to_merge_days", "additions",
                                "deletions", "changed_files", "reviewers_count"]

  /** The checked pull request `n` disagrees on `field`. */
  predicate Differs(rest: map<int, ApiPr>, graphql: map<int, ApiPr>, field: string, n: int) {
    n in rest && n in graphql && !Same(Get(rest[n], field), Get(graphql[n], field))
  }

  /** `differences[field]`: the checked pull requests, in order, whose values for the field disagree. */
  function DifferingOn(checked: seq<int>, rest: map<int, ApiPr>, graphql: map<int, ApiPr>, field: string): (nums: seq<int>)
    ensures |nums| <= |checked|
    ensures forall n :: n in nums <==> n in checked && Differs(rest, graphql, field, n)
    ensures nums == [] <==> forall n :: n in checked ==> !Differs(rest, graphql, field, n)
    ensures Increasing(checked) ==> Increasing(nums)
  {
    var p := n => Differs(rest, graphql, field, n);
    var nums := Filter(checked, p);
    assert nums != [] ==> nums[0] in nums;
    if Increasing(checked) then FilterIncreasing(checked, p); nums else nums
  }

  /** Dropping numbers from an increasing list keeps it increasing, so none repeats. */
  lemma {:induction false} FilterIncreasing(xs: seq<int>, p: int -> bool)
    requires Increasing(xs)
    ensures Increasing(Filter(xs, p))
  {
    if xs != [] {
      FilterIncreasing(xs[1..], p);
      var rest := Filter(xs[1..], p);
      assert forall y :: y in rest ==> xs[0] < y;
      assert forall j :: 0 <= j < |rest| ==> rest[j] in rest;
    }
  }

  /** `differences`: only fields with at least one disagreement get an entry. */
  function Differences(checked: seq<int>, rest: map<int, ApiPr>, graphql: map<int, ApiPr>): (d: map<string, seq<int>>)
    ensures forall f :: f in d <==> f in Fields && exists n :: n in checked && Differs(rest, graphql, f, n)
    ensures forall f :: f in d ==> d[f] == DifferingOn(checked, rest, graphql, f) && d[f] != [] && |d[f]| <= |checked|
  {
    map f | f in Fields && DifferingOn(checked, rest, graphql, f) != [] :: DifferingOn(checked, rest, graphql, f)
  }

  /** `sum(len(v) for v in differences.values())`, taken field by field. */
  function DiffCount(fields: seq<string>, d: map<string, seq<int>>): nat {
    if fields == [] then 0
    else (if fields[0] in d then |d[fields[0]]| else 0) + DiffCount(fields[1..], d)
  }

  /** Each field contributes at most one difference per checked pull request. */
  lemma {:induction false} DiffCountBound(fields: seq<string>, d: map<string, seq<int>>, c: nat)
    requires forall f :: f in d ==> |d[f]| <= c
    ensures DiffCount(fields, d) <= |fields| * c
  {
    if fields != [] {
      DiffCountBound(fields[1..], d, c);
      assert |fields| * c == (|fields| - 1) * c + c;
    }
  }

  /** No difference is counted exactly when no field has an entry. */
  lemma {:induction false} DiffCountZero(fields: seq<string>, d: map<string, seq<int>>)
    requires forall f :: f in d ==> d[f] != []
    ensures DiffCount(fields, d) == 0 <==> forall i :: 0 <= i < |fields| ==> fields[i] !in d
  {
    if fields != [] {
      assert forall i :: 1 <= i < |fields| ==> fields[i] == fields[1..][i - 1];
      DiffCountZero(fields[1..], d);
    }
  }

  /** When every field lists `c` pull requests, the count is `c` per field. */
  lemma {:induction false} DiffCountFull(fields: seq<string>, d: map<string, seq<int>>, c: nat)
    requires forall i :: 0 <= i < |fields| ==> fields[i] in d && |d[fields[i]]| == c
    ensures DiffCount(fields, d) == |fields| * c
  {
    if fields != [] {
      assert forall i :: 1 <= i < |fields| ==> fields[i] == fields[1..][i - 1];
      DiffCountFull(fields[1..], d, c);
      assert |fields| * c == (|fields| - 1) * c + c;
    }
  }

  lemma {:induction false} FilterKeepsAll(xs: seq<int>, p: int -> bool)
    requires forall i :: 0 <= i < |xs| ==> p(xs[i])
    ensures Filter(xs, p) == xs
  {
    if xs != [] {
      assert forall i :: 0 <= i < |xs[1..]| ==> xs[1..][i] == xs[i + 1];
      FilterKeepsAll(xs[1..], p);
    }
  }

  // ---------------------------------------------------------------------------
  // Accuracy and verdict

  datatype Verdict = Ready | MinorDifferences | SignificantDifferences

  /** At least 99 percent: ready; at least 95: minor differences; otherwise significant. */
  function VerdictOf(accuracy: real): (v: Verdict)
    ensures v == Ready <==> accuracy >= 99.0
    ensures v == MinorDifferences <==> 95.0 <= accuracy < 99.0
    ensures v == SignificantDifferences <==> accuracy < 95.0
  {
    if accuracy >= 99.0 then Ready else if accuracy >= 95.0 then MinorDifferences else SignificantDifferences
  }

  datatype Assessment = Assessment(split: Split, checked: seq<int>, differences: map<string, seq<int>>,
                                   totalChecks: nat, totalDiffs: nat, accuracy: real, verdict: Verdict)

  /** The reports share a pull request. */
  predicate Overlap(rest: seq<ApiPr>, graphql: seq<ApiPr>) {
    exists n :: n in ByNumber(rest) && n in ByNumber(graphql)
  }

  /**
   * `compare_reports` as written: the checks are counted over every common
   * pull request though only the first five were compared, and with no
   * common pull request at all the summary names `fields`, which was never
   * bound, and the script stops with a `NameError`.
   */
  function CompareReportsAsWritten(rest: seq<ApiPr>, graphql: seq<ApiPr>): (r: Result<Assessment>)
    ensures r.Raises? <==> !Overlap(rest, graphql)
    ensures r.Ok? ==> r.value.checked == Checked(Common(rest, graphql))
    ensures r.Ok? ==> r.value.totalChecks == |Common(rest, graphql)| * |Fields|
    ensures r.Ok? ==> r.value.totalDiffs <= r.value.totalChecks && r.value.accuracy == Accuracy(r.value.totalChecks, r.value.totalDiffs)
    ensures r.Ok? ==> r.value.totalDiffs <= |r.value.checked| * |Fields| && 0.0 <= r.value.accuracy <= 100.0
    ensures r.Ok? ==> r.value.verdict == VerdictOf(r.value.accuracy)
  {
    var restPrs, graphqlPrs := ByNumber(rest), ByNumber(graphql);
    var common := Common(rest, graphql);
    if common == [] then
      assert forall n :: n in restPrs && n in graphqlPrs ==> n in common;
      Raises("NameError: name 'fields' is not defined")
    else
      assert common[0] in SplitNumbers(restPrs, graphqlPrs).common;
      var checked := Checked(common);
      var checks := |common| * |Fields|;
      var diffs := TotalDiffs(checked, restPrs, graphqlPrs);
      var accuracy := Accuracy(checks, diffs);
      Ok(Assessment(SplitNumbers(restPrs, graphqlPrs), checked, Differences(checked, restPrs, graphqlPrs),
                    checks, diffs, accuracy, VerdictOf(accuracy)))
  }

  /** The number of (pull request, field) pairs that disagree among those checked. */
  function TotalDiffs(checked: seq<int>, rest: map<int, ApiPr>, graphql: map<int, ApiPr>): (n: nat)
    ensures n == DiffCount(Fields, Differences(checked, rest, graphql))
    ensures n <= |checked| * |Fields|
    ensures n == 0 <==> forall f, k :: f in Fields && k in checked ==> !Differs(rest, graphql, f, k)
  {
    var d := Differences(checked, rest, graphql);
    DiffCountBound(Fields, d, |checked|);
    DiffCountZero(Fields, d);
    DiffCount(Fields, d)
  }

  /**
   * The corrected comparison: the checks are the fields of the pull requests
   * actually compared, and a pair of reports without common pull requests
   * has nothing to disagree on (one check, no difference).
   */
  function CompareReports(rest: seq<ApiPr>, graphql: seq<ApiPr>): (a: Assessment)
    ensures a.split == SplitNumbers(ByNumber(rest), ByNumber(graphql))
    ensures a.checked == Checked(Common(rest, graphql))
    ensures a.totalChecks == if a.checked == [] then 1 else |a.checked| * |Fields|
    ensures a.totalDiffs == TotalDiffs(a.checked, ByNumber(rest), ByNumber(graphql))
    ensures a.totalDiffs <= a.totalChecks && a.accuracy == Accuracy(a.totalChecks, a.totalDiffs)
    ensures a.accuracy == 100.0 <==> forall f, n :: f in Fields && n in a.checked ==> !Differs(ByNumber(rest), ByNumber(graphql), f, n)
    ensures a.verdict == VerdictOf(a.accuracy)
  {
    var restPrs, graphqlPrs := ByNumber(rest), ByNumber(graphql);
    var checked := Checked(Common(rest, graphql));
    var checks := if checked == [] then 1 else |checked| * |Fields|;
    var diffs := TotalDiffs(checked, restPrs, graphqlPrs);
    var accuracy := Accuracy(checks, diffs);
    Assessment(SplitNumbers(restPrs, graphqlPrs), checked, Differences(checked, restPrs, graphqlPrs),
               checks, diffs, accuracy, VerdictOf(accuracy))
  }

  /** `(total_checks - total_diffs) / total_checks * 100`: the share of checks that agreed, in percent. */
  function Accuracy(checks: nat, diffs: nat): (accuracy: real)
    requires diffs <= checks
    ensures accuracy == Percentage(checks - diffs, checks)
    ensures 0.0 <= accuracy <= 100.0
    ensures checks > 0 ==> (accuracy == 100.0 <==> diffs == 0)
    ensures checks > 0 ==> (accuracy == 0.0 <==> diffs == checks)
  {
    PercentageBound(checks - diffs, checks);
    if checks > 0 then
      FullShare(checks - diffs, checks);
      PercentageScaled(checks - diffs, checks);
      Percentage(checks - diffs, checks)
    else 0.0
  }

  /** A share is the whole exactly when the part is. */
  lemma FullShare(part: nat, whole: nat)
    requires 0 < whole && part <= whole
    ensures Percentage(part, whole) == 100.0 <==> part == whole
  {
    PercentageScaled(part, whole);
    var w := whole as real;
    if part == whole {
      assert part as real / w == 1.0;
    } else {
      assert Percentage(part, whole) * w == part as real * 100.0 < w * 100.0;
    }
  }

  /** Every compared field of every compared pull request disagrees. */
  predicate AllDiffer(rest: seq<ApiPr>, graphql: seq<ApiPr>) {
    var checked := Checked(Common(rest, graphql));
    checked != [] && forall f, n :: f in Fields && n in checked ==> Differs(ByNumber(rest), ByNumber(graphql), f, n)
  }

  /**
   * As written, a hundred common pull requests keep the accuracy at 95
   * percent or more, so the verdict is never "significant", even when every
   * field compared disagreed.
   */
  lemma AccuracyDiluted(rest: seq<ApiPr>, graphql: seq<ApiPr>)
    requires |Common(rest, graphql)| >= 100
    ensures CompareReportsAsWritten(rest, graphql).Ok?
    ensures CompareReportsAsWritten(rest, graphql).value.accuracy >= 95.0
    ensures CompareReportsAsWritten(rest, graphql).value.verdict != SignificantDifferences
  {
    var common := Common(rest, graphql);
    assert common[0] in SplitNumbers(ByNumber(rest), ByNumber(graphql)).common;
    var a := CompareReportsAsWritten(rest, graphql).value;
    DilutedAssessment(a, |common|);
  }

  lemma DilutedAssessment(a: Assessment, common: nat)
    requires common >= 100 && |a.checked| <= Sample
    requires a.totalChecks == common * |Fields| && a.totalDiffs <= |a.checked| * |Fields|
    requires a.totalDiffs <= a.totalChecks && a.accuracy == Accuracy(a.totalChecks, a.totalDiffs)
    ensures a.accuracy >= 95.0
  {
    DilutedShare(a.totalChecks, a.totalDiffs);
  }

  lemma DilutedShare(c: nat, d: nat)
    requires d <= 35 && c >= 700
    ensures Percentage(c - d, c) >= 95.0
  {
    var cr, dr := c as real, d as real;
    assert (cr - dr) >= 0.95 * cr;
    DivideOrdered(0.95 * cr, cr - dr, cr);
    assert 0.95 * cr / cr == 0.95;
  }

  /** Corrected, the same disagreement everywhere drives the accuracy to 0 and the verdict to "significant". */
  lemma DisagreementIsSignificant(rest: seq<ApiPr>, graphql: seq<ApiPr>)
    requires AllDiffer(rest, graphql)
    ensures CompareReports(rest, graphql).accuracy == 0.0
    ensures CompareReports(rest, graphql).verdict == SignificantDifferences
  {
    var a := CompareReports(rest, graphql);
    var restPrs, graphqlPrs := ByNumber(rest), ByNumber(graphql);
    AllListed(a.checked, restPrs, graphqlPrs);
    DiffCountFull(Fields, Differences(a.checked, restPrs, graphqlPrs), |a.checked|);
    assert a.totalDiffs == a.totalChecks;
  }

  /** When every checked pull request disagrees on every field, each field lists all of them. */
  lemma AllListed(checked: seq<int>, rest: map<int, ApiPr>, graphql: map<int, ApiPr>)
    requires checked != []
    requires forall f, n :: f in Fields && n in checked ==> Differs(rest, graphql, f, n)
    ensures var d := Differences(checked, rest, graphql);
            forall i :: 0 <= i < |Fields| ==> Fields[i] in d && |d[Fields[i]]| == |checked|
  {
    var d := Differences(checked, rest, graphql);
    forall i | 0 <= i < |Fields| ensures Fields[i] in d && |d[Fields[i]]| == |checked| {
      var f := Fields[i];
      assert f in Fields;
      assert checked[0] in checked;
      FilterKeepsAll(checked, n => Differs(rest, graphql, f, n));
    }
  }
}

=== FILE: github_client.dfy ===
/**
 * The GitHub client's pure logic: who counts as a bot, how the client takes
 * its settings, how GitHub's `YYYY-MM-DDTHH:MM:SSZ` timestamps are read, and
 * which pull requests the paging loop of `fetch_merged_prs` keeps and when it
 * stops asking for more pages. The HTTP requests themselves are replaced by
 * the sequence of pages the server answers with.
 */
module GitHubClient {
  import opened Wrappers
  import opened Text
  import Timestamps

  // ---------------------------------------------------------------------------
  // Bots

  /** The accounts whose pull requests, reviews and comments are not a person's. */
  const BotUsers: set<string> := {
    "coderabbit", "coderabbitai", "coderabbit[bot]", "dependabot", "dependabot[bot]",
    "renovate", "renovate[bot]", "github-actions", "github-actions[bot]",
    "red-hat-konflux", "red-hat-konflux[bot]"
  }

  /**
   * `is_bot_user`: a listed account or a GitHub App account (`…[bot]`), in
   * any letter case; the empty name is nobody's, which the two tests would
   * already say without the explicit guard.
   */
  function IsBot(username: string): (bot: bool)
    ensures bot <==> Lower(username) in BotUsers || EndsWith(Lower(username), "[bot]")
    ensures bot ==> username != ""
  {
    if username == "" then false
    else Lower(username) in BotUsers || EndsWith(Lower(username), "[bot]")
  }

  lemma LowerIdempotent(s: string)
    ensures Lower(Lower(s)) == Lower(s)
  {
    assert forall i :: 0 <= i < |s| ==> LowerChar(LowerChar(s[i])) == LowerChar(s[i]);
  }

  /** Letter case never matters: a name is a bot's exactly when its lower-case spelling is. */
  lemma IsBotIgnoresCase(username: string)
    ensures IsBot(username) == IsBot(Lower(username))
  {
    LowerIdempotent(username);
  }

  /** Every GitHub App account is a bot, whatever its name. */
  lemma AppAccountIsBot(name: string)
    ensures IsBot(name + "[bot]")
  {
    var u := name + "[bot]";
    assert Lower(u)[|u| - 5..] == Lower("[bot]") == "[bot]";
  }

  /** Every listed account is a bot: the list is written in lower case. */
  lemma ListedAreBots(username: string)
    requires username in BotUsers
    ensures IsBot(username)
  {
    assert Lower(username) == username;
  }

  // ---------------------------------------------------------------------------
  // The client's settings

  /** The repository a client talks to, and the token it presents. */
  datatype Client = Client(token: string, owner: string, name: string)

  const TokenRequired: string :=
    "GitHub token is required. Set GITHUB_TOKEN environment variable or pass token parameter."
  const RepositoryRequired: string :=
    "Repository owner and name are required. Set GITHUB_REPO_OWNER and GITHUB_REPO_NAME environment variables."

  /** `os.getenv(key)`. */
  function Env(env: map<string, string>, key: string): (v: Option<string>)
    ensures v.Some? <==> key in env
    ensures v.Some? ==> v.value == env[key]
  {
    if key in env then Some(env[key]) else None
  }

  /** Python's `a or b` on optional strings: `a` when it is truthy, otherwise `b`. */
  function Or(a: Option<string>, b: Option<string>): (r: Option<string>)
    ensures Truthy(r) <==> Truthy(a) || Truthy(b)
    ensures Truthy(a) ==> r == a
    ensures !Truthy(a) ==> r == b
  {
    if Truthy(a) then a else b
  }

  /**
   * The constructor: each setting comes from its argument when that is
   * truthy, otherwise from the environment; a missing token is reported
   * before a missing repository.
   */
  function NewClient(token: Option<string>, owner: Option<string>, name: Option<string>, env: map<string, string>)
    : (r: Result<Client>)
    ensures r.Ok? <==> Truthy(Or(token, Env(env, "GITHUB_TOKEN")))
                       && Truthy(Or(owner, Env(env, "GITHUB_REPO_OWNER")))
                       && Truthy(Or(name, Env(env, "GITHUB_REPO_NAME")))
    ensures r == Raises(TokenRequired) <==> !Truthy(token) && !Truthy(Env(env, "GITHUB_TOKEN"))
    ensures r.Raises? && r != Raises(TokenRequired) ==> r == Raises(RepositoryRequired)
    ensures r.Ok? && Truthy(token) ==> r.value.token == token.value
    ensures r.Ok? && !Truthy(token) ==> r.value.token == env["GITHUB_TOKEN"]
    ensures r.Ok? ==> r.value.owner != "" && r.value.name != ""
  {
    var t := Or(token, Env(env, "GITHUB_TOKEN"));
    var o := Or(owner, Env(env, "GITHUB_REPO_OWNER"));
    var n := Or(name, Env(env, "GITHUB_REPO_NAME"));
    if !Truthy(t) then Raises(TokenRequired)
    else if !Truthy(o) || !Truthy(n) then Raises(RepositoryRequired)
    else Ok(Client(t.value, o.value, n.value))
  }

  // ---------------------------------------------------------------------------
  // GitHub timestamps

  /** `%H:%M:%SZ`: hour, minute and second, then `Z` in either case and nothing more. */
  function ParseClock(rest: string): (r: Option<(nat, nat, nat)>)
    ensures r.Some? ==> r.value.0 <= 23 && r.value.1 <= 59 && r.value.2 <= 61
  {
    var h :- Cut(rest, Timestamps.IsColon);
    var hour :- Timestamps.OneOrTwoDigits(h.0, 23);
    var mi :- Cut(h.1, Timestamps.IsColon);
    var minute :- Timestamps.OneOrTwoDigits(mi.0, 59);
    var sz :- Timestamps.SecondsFractionZone(mi.1, Timestamps.WithoutFraction);
    if sz.2 == "Z" || sz.2 == "z" then Some((hour, minute, sz.0)) else None
  }

  /**
   * `datetime.strptime(s, "%Y-%m-%dT%H:%M:%SZ")` as microseconds since the
   * epoch, read as UTC; `None` where Python raises `ValueError`. Like the
   * `T`, the closing `Z` is matched without regard to case.
   */
  function ParseStamp(s: string): Option<int> {
    var date :- Timestamps.DatePart(s);
    var clock :- ParseClock(date.3);
    if 1 <= date.0 && date.2 <= Timestamps.DaysInMonth(date.0, date.1) && clock.2 <= 59 then
      var dt := Timestamps.DateTime(date.0, date.1, date.2, clock.0, clock.1, clock.2, 0, 0);
      Some(dt.EpochMicros())
    else None
  }

  /** GitHub's rendering of an instant: `YYYY-MM-DDTHH:MM:SSZ`. */
  function FormatStamp(dt: Timestamps.DateTime): string
    requires dt.Valid()
  {
    Pad(dt.year, 4) + "-" + (Pad(dt.month, 2) + "-" + (Pad(dt.day, 2) + ['T']
      + (Pad(dt.hour, 2) + ":" + (Pad(dt.minute, 2) + ":" + (Pad(dt.second, 2) + "Z")))))
  }

  /** Two digits, a colon, two digits, a colon, two digits and `Z` read back as that time of day. */
  lemma ClockReads(hh: string, mm: string, ss: string)
    requires |hh| == 2 && AllDigits(hh) && DigitsValue(hh) <= 23
    requires |mm| == 2 && AllDigits(mm) && DigitsValue(mm) <= 59
    requires |ss| == 2 && AllDigits(ss) && DigitsValue(ss) <= 59
    ensures ParseClock(hh + ":" + (mm + ":" + (ss + "Z"))) == Some((DigitsValue(hh), DigitsValue(mm), DigitsValue(ss)))
  {
    Timestamps.NoSeparatorInDigits(hh);
    Timestamps.NoSeparatorInDigits(mm);
    CutAt(hh, ':', mm + ":" + (ss + "Z"), Timestamps.IsColon);
    CutAt(mm, ':', ss + "Z", Timestamps.IsColon);
    Timestamps.PlainTailReads(ss, "Z");
  }

  /** Every instant GitHub writes reads back as itself. */
  lemma StampRoundTrip(dt: Timestamps.DateTime)
    requires dt.Valid() && dt.micro == 0 && dt.offset == 0
    ensures ParseStamp(FormatStamp(dt)) == Some(dt.EpochMicros())
  {
    var hh, mm, ss := Pad(dt.hour, 2), Pad(dt.minute, 2), Pad(dt.second, 2);
    PadValue(dt.hour, 2);
    PadValue(dt.minute, 2);
    PadValue(dt.second, 2);
    var clock := hh + ":" + (mm + ":" + (ss + "Z"));
    Timestamps.DateRoundTrip(dt.year, dt.month, dt.day, 'T', clock);
    ClockReads(hh, mm, ss);
    assert ParseClock(clock) == Some((dt.hour as nat, dt.minute as nat, dt.second as nat));
  }

  // ---------------------------------------------------------------------------
  // The merged pull requests of a period

  /** The fields of a listed pull request that the paging loop reads. */
  datatype Pull = Pull(number: int, author: string, mergedAt: Option<string>, updatedAt: string)

  /** How the loop reads a timestamp: `ParseStamp`, kept abstract while reasoning about the loop. */
  type Reader = string -> Option<int>

  /** Midnight (UTC) starting a `YYYY-MM-DD` date. */
  function StartOf(date: string): (r: Option<int>)
    ensures r.Some? <==> Timestamps.ParseYmd(date).Some?
  {
    var day :- Timestamps.ParseYmd(date);
    Some(day * Timestamps.MicrosPerDay)
  }

  /** Midnight (UTC) ending a `YYYY-MM-DD` date: the end date is included whole. */
  function EndOf(date: string): (r: Option<int>)
    ensures r.Some? <==> Timestamps.ParseYmd(date).Some?
    ensures r.Some? ==> r.value == StartOf(date).value + Timestamps.MicrosPerDay
  {
    var day :- Timestamps.ParseYmd(date);
    Some((day + 1) * Timestamps.MicrosPerDay)
  }

  /** A merged pull request by a person: the ones whose merge time the loop reads. */
  predicate Considered(p: Pull) {
    Truthy(p.mergedAt) && !IsBot(p.author)
  }

  /** Its merge time and both ends of the period can be read. */
  predicate Readable(p: Pull, start: Option<int>, end: Option<int>, read: Reader)
    requires Considered(p)
  {
    read(p.mergedAt.value).Some? && start.Some? && end.Some?
  }

  /** A pull request the period keeps: merged by a person from `start` up to, not including, `end`. */
  predicate Kept(p: Pull, start: Option<int>, end: Option<int>, read: Reader) {
    Considered(p) && Readable(p, start, end, read) && start.value <= read(p.mergedAt.value).value < end.value
  }

  /** What one page leaves: the pull requests kept, and whether any was considered. */
  datatype PageScan = PageScan(kept: seq<Pull>, considered: bool)

  /**
   * The loop over one page: unmerged and bot-authored pull requests are
   * skipped; for the others the merge time and both dates are read, which
   * raises on text `strptime` refuses, and the pull request is kept when it
   * falls in the period.
   */
  function ScanPage(page: seq<Pull>, start: Option<int>, end: Option<int>, read: Reader): (r: Result<PageScan>)
    ensures r.Ok? ==> forall p :: p in r.value.kept <==> p in page && Kept(p, start, end, read)
    ensures r.Ok? && r.value.considered ==> start.Some?
    ensures r.Ok? && !r.value.considered ==> r.value.kept == []
  {
    if page == [] then Ok(PageScan([], false))
    else
      var p := page[0];
      assert forall q :: q in page <==> q == p || q in page[1..];
      if !Considered(p) then ScanPage(page[1..], start, end, read)
      else if !Readable(p, start, end, read) then Raises("ValueError: time data does not match format")
      else
        var rest :- ScanPage(page[1..], start, end, read);
        var kept := if Kept(p, start, end, read) then [p] + rest.kept else rest.kept;
        Ok(PageScan(kept, true))
  }

  /**
   * A page raises exactly when one of its considered pull requests cannot be
   * read; otherwise it reports whether any was considered.
   */
  lemma {:induction false} ScanPageOutcome(page: seq<Pull>, start: Option<int>, end: Option<int>, read: Reader)
    ensures ScanPage(page, start, end, read).Raises? <==> exists p :: p in page && Considered(p) && !Readable(p, start, end, read)
    ensures ScanPage(page, start, end, read).Ok? ==>
              && (ScanPage(page, start, end, read).value.considered <==> exists p :: p in page && Considered(p))
              && |ScanPage(page, start, end, read).value.kept| <= |page|
  {
    if page != [] {
      ScanPageOutcome(page[1..], start, end, read);
      assert forall q :: q in page <==> q == page[0] || q in page[1..];
    }
  }

  /** The least of a non-empty list of instants. */
  function Least(xs: seq<int>): (m: int)
    requires xs != []
    ensures m in xs && forall x :: x in xs ==> m <= x
  {
    if |xs| == 1 then xs[0]
    else
      var rest := Least(xs[1..]);
      assert forall x :: x in xs ==> x == xs[0] || x in xs[1..];
      if xs[0] <= rest then xs[0] else rest
  }

  /** The update times of a page, read in order; the first unreadable one raises. */
  function UpdateTimes(page: seq<Pull>, read: Reader): (r: Result<seq<int>>)
    ensures r.Raises? <==> exists i :: 0 <= i < |page| && read(page[i].updatedAt).None?
    ensures r.Ok? ==> |r.value| == |page|
    ensures r.Ok? ==> forall i :: 0 <= i < |page| ==> read(page[i].updatedAt) == Some(r.value[i])
  {
    if page == [] then Ok([])
    else
      assert forall i :: 1 <= i < |page| ==> page[i] == page[1..][i - 1];
      match read(page[0].updatedAt)
      case None => Raises("ValueError: time data does not match format")
      case Some(t) =>
        var rest :- UpdateTimes(page[1..], read);
        Ok([t] + rest)
  }

  /** `min(updated_at for pr in prs)`: the oldest update on a page. */
  function OldestUpdate(page: seq<Pull>, read: Reader): (r: Result<int>)
    requires page != []
    ensures r.Raises? <==> exists i :: 0 <= i < |page| && read(page[i].updatedAt).None?
    ensures r.Ok? ==> exists i :: 0 <= i < |page| && read(page[i].updatedAt) == Some(r.value)
    ensures r.Ok? ==> forall i :: 0 <= i < |page| ==> r.value <= read(page[i].updatedAt).value
  {
    var times :- UpdateTimes(page, read);
    var m := Least(times);
    assert forall i :: 0 <= i < |page| ==> times[i] in times;
    Ok(m)
  }

  /** Every update time on the page can be read, and none is before `start`. */
  predicate UpdatedSince(page: seq<Pull>, start: int, read: Reader) {
    page == [] || (read(page[0].updatedAt).Some? && read(page[0].updatedAt).value >= start
                   && UpdatedSince(page[1..], start, read))
  }

  lemma {:induction false} UpdatedSinceEach(page: seq<Pull>, start: int, read: Reader)
    ensures UpdatedSince(page, start, read) <==>
            forall i :: 0 <= i < |page| ==> read(page[i].updatedAt).Some? && read(page[i].updatedAt).value >= start
  {
    if page != [] {
      UpdatedSinceEach(page[1..], start, read);
      assert forall i :: 1 <= i < |page| ==> page[i] == page[1..][i - 1];
    }
  }

  /** The stop test reads the oldest update: it is passed exactly when every update is from `start` on. */
  lemma OldestUpdateSince(page: seq<Pull>, start: int, read: Reader)
    requires page != []
    ensures OldestUpdate(page, read).Ok? && OldestUpdate(page, read).value >= start <==> UpdatedSince(page, start, read)
  {
    UpdatedSinceEach(page, start, read);
  }

  /** The loop goes on past a page: it was not empty and nothing on it was updated before the period. */
  predicate Continues(page: seq<Pull>, start: Option<int>, read: Reader) {
    page != [] && start.Some? && UpdatedSince(page, start.value, read)
  }

  /** Every page before the `i`th let the loop go on. */
  predicate Reached(pages: seq<seq<Pull>>, i: nat, start: Option<int>, read: Reader)
    requires i <= |pages|
  {
    i == 0 || (Continues(pages[0], start, read) && Reached(pages[1..], i - 1, start, read))
  }

  const UnboundStart: string := "UnboundLocalError: local variable 'start' referenced before assignment"

  /**
   * `fetch_merged_prs` as written: `pages` are the server's answers to
   * pages 1, 2, …, and every page after them is empty. The stop test reads
   * `start`, which only a considered pull request ever set, so a page with
   * none, and none before it (`considered` says whether an earlier page
   * had one), raises instead of stopping or going on.
   */
  function FetchAsWritten(pages: seq<seq<Pull>>, start: Option<int>, end: Option<int>, read: Reader, considered: bool)
    : (r: Result<seq<Pull>>)
    requires considered ==> start.Some?
    ensures r.Ok? ==> forall p :: p in r.value ==> Kept(p, start, end, read)
    decreases |pages|
  {
    if pages == [] || pages[0] == [] then Ok([])
    else
      var scan :- ScanPage(pages[0], start, end, read);
      var oldest :- OldestUpdate(pages[0], read);
      if !considered && !scan.considered then Raises(UnboundStart)
      else if oldest < start.value then Ok(scan.kept)
      else
        var rest :- FetchAsWritten(pages[1..], start, end, read, true);
        Ok(scan.kept + rest)
  }

  /**
   * `fetch_merged_prs` with the start of the period read for the stop test
   * itself: the loop keeps the period's pull requests of every page up to
   * the first that is empty or holds an update from before the period.
   */
  function Fetch(pages: seq<seq<Pull>>, start: Option<int>, end: Option<int>, read: Reader): (r: Result<seq<Pull>>)
    ensures r.Ok? ==> forall p :: p in r.value ==> Kept(p, start, end, read)
    decreases |pages|
  {
    if pages == [] || pages[0] == [] then Ok([])
    else
      var scan :- ScanPage(pages[0], start, end, read);
      var oldest :- OldestUpdate(pages[0], read);
      if start.None? then Raises("ValueError: time data does not match format")
      else if oldest < start.value then Ok(scan.kept)
      else
        var rest :- Fetch(pages[1..], start, end, read);
        Ok(scan.kept + rest)
  }

  /** The merged pull requests of the period from `startDate` to `endDate`, both included. */
  function FetchMergedPrs(pages: seq<seq<Pull>>, startDate: string, endDate: string): (r: Result<seq<Pull>>)
    ensures r.Ok? ==> forall p :: p in r.value ==>
              && Truthy(p.mergedAt) && !IsBot(p.author)
              && ParseStamp(p.mergedAt.value).Some? && Timestamps.ParseYmd(startDate).Some? && Timestamps.ParseYmd(endDate).Some?
              && StartOf(startDate).value <= ParseStamp(p.mergedAt.value).value < EndOf(endDate).value
  {
    Fetch(pages, StartOf(startDate), EndOf(endDate), ParseStamp)
  }

  /** One turn of the loop: the page's kept pull requests, then the rest only when the loop goes on. */
  lemma FetchStep(pages: seq<seq<Pull>>, start: Option<int>, end: Option<int>, read: Reader)
    requires pages != [] && Fetch(pages, start, end, read).Ok?
    ensures pages[0] != [] ==> ScanPage(pages[0], start, end, read).Ok?
    ensures pages[0] == [] ==> Fetch(pages, start, end, read).value == [] && !Continues(pages[0], start, read)
    ensures Continues(pages[0], start, read) ==>
              && Fetch(pages[1..], start, end, read).Ok?
              && Fetch(pages, start, end, read).value
                 == ScanPage(pages[0], start, end, read).value.kept + Fetch(pages[1..], start, end, read).value
    ensures pages[0] != [] && !Continues(pages[0], start, read) ==>
              Fetch(pages, start, end, read).value == ScanPage(pages[0], start, end, read).value.kept
  {
    if pages[0] != [] {
      OldestUpdateSince(pages[0], start.value, read);
    }
  }

  /** A pull request `Fetch` returns is one the period keeps, from a page the loop reaches. */
  lemma {:induction false} FetchSound(pages: seq<seq<Pull>>, start: Option<int>, end: Option<int>, read: Reader, p: Pull)
    requires Fetch(pages, start, end, read).Ok? && p in Fetch(pages, start, end, read).value
    ensures exists i :: 0 <= i < |pages| && p in pages[i] && Reached(pages, i, start, read)
    decreases |pages|
  {
    FetchStep(pages, start, end, read);
    if p in ScanPage(pages[0], start, end, read).value.kept {
      assert Reached(pages, 0, start, read);
    } else {
      FetchSound(pages[1..], start, end, read, p);
      var i :| 0 <= i < |pages[1..]| && p in pages[1..][i] && Reached(pages[1..], i, start, read);
      assert p in pages[i + 1] && Reached(pages, i + 1, start, read);
    }
  }

  /** The first page's kept pull requests are always returned. */
  lemma FirstPageReturned(pages: seq<seq<Pull>>, start: Option<int>, end: Option<int>, read: Reader, p: Pull)
    requires Fetch(pages, start, end, read).Ok?
    requires pages != [] && p in pages[0] && Kept(p, start, end, read)
    ensures p in Fetch(pages, start, end, read).value
  {
    FetchStep(pages, start, end, read);
  }

  /** When the loop goes on past the first page, what the rest returns is returned. */
  lemma LaterPagesReturned(pages: seq<seq<Pull>>, start: Option<int>, end: Option<int>, read: Reader, p: Pull)
    requires Fetch(pages, start, end, read).Ok?
    requires pages != [] && Continues(pages[0], start, read)
    ensures Fetch(pages[1..], start, end, read).Ok?
    ensures p in Fetch(pages[1..], start, end, read).value ==> p in Fetch(pages, start, end, read).value
  {
    FetchStep(pages, start, end, read);
  }

  /** Reaching a later page means going on past the first and reaching it among the rest. */
  lemma ReachedTail(pages: seq<seq<Pull>>, i: nat, start: Option<int>, read: Reader, p: Pull)
    requires 0 < i < |pages| && p in pages[i] && Reached(pages, i, start, read)
    ensures Continues(pages[0], start, read) && Reached(pages[1..], i - 1, start, read) && p in pages[1..][i - 1]
  {
  }

  /** Every pull request the period keeps, on a page the loop reaches, is returned by `Fetch`. */
  lemma {:induction false} FetchComplete(pages: seq<seq<Pull>>, start: Option<int>, end: Option<int>, read: Reader, p: Pull, i: nat)
    requires Fetch(pages, start, end, read).Ok?
    requires i < |pages| && p in pages[i] && Reached(pages, i, start, read) && Kept(p, start, end, read)
    ensures p in Fetch(pages, start, end, read).value
    decreases i
  {
    if i == 0 {
      FirstPageReturned(pages, start, end, read, p);
    } else {
      ReachedTail(pages, i, start, read, p);
      LaterPagesReturned(pages, start, end, read, p);
      FetchComplete(pages[1..], start, end, read, p, i - 1);
    }
  }

  /**
   * The pull requests `Fetch` returns are exactly the period's pull requests
   * of the pages the loop reaches.
   */
  lemma FetchExact(pages: seq<seq<Pull>>, start: Option<int>, end: Option<int>, read: Reader, p: Pull)
    requires Fetch(pages, start, end, read).Ok?
    ensures p in Fetch(pages, start, end, read).value <==>
            Kept(p, start, end, read) && exists i :: 0 <= i < |pages| && p in pages[i] && Reached(pages, i, start, read)
  {
    if p in Fetch(pages, start, end, read).value {
      FetchSound(pages, start, end, read, p);
    }
    if Kept(p, start, end, read) && exists i :: 0 <= i < |pages| && p in pages[i] && Reached(pages, i, start, read) {
      var i :| 0 <= i < |pages| && p in pages[i] && Reached(pages, i, start, read);
      FetchComplete(pages, start, end, read, p, i);
    }
  }

  /** Where the script as written does not raise, it returns exactly what `Fetch` returns. */
  lemma {:induction false} FetchAgrees(pages: seq<seq<Pull>>, start: Option<int>, end: Option<int>, read: Reader, considered: bool)
    requires considered ==> start.Some?
    requires FetchAsWritten(pages, start, end, read, considered).Ok?
    ensures Fetch(pages, start, end, read) == FetchAsWritten(pages, start, end, read, considered)
    decreases |pages|
  {
    if pages != [] && pages[0] != [] {
      var scan := ScanPage(pages[0], start, end, read);
      var oldest := OldestUpdate(pages[0], read);
      assert scan.Ok? && oldest.Ok?;
      assert considered || scan.value.considered;
      if oldest.value >= start.value {
        FetchAgrees(pages[1..], start, end, read, true);
      }
    }
  }

  /** A first page with no merged pull request by a person: the script raises, the loop finds nothing. */
  lemma QuietFirstPage(page: seq<Pull>, start: Option<int>, end: Option<int>, read: Reader)
    requires page != [] && start.Some?
    requires forall p :: p in page ==> !Considered(p)
    requires UpdateTimes(page, read).Ok?
    ensures FetchAsWritten([page], start, end, read, false) == Raises(UnboundStart)
    ensures Fetch([page], start, end, read) == Ok([])
  {
    ScanPageOutcome(page, start, end, read);
    var scan := ScanPage(page, start, end, read);
    assert scan.Ok? && !scan.value.considered;
    var oldest := OldestUpdate(page, read);
    assert oldest.Ok?;
    var pages := [page];
    assert pages[0] == page && pages[1..] == [];
    assert Fetch(pages[1..], start, end, read) == Ok([]);
    assert scan.value.kept + [] == [];
  }

  /**
   * A first page holding only a closed, unmerged pull request makes the
   * script raise, where the loop was meant to return nothing.
   */
  lemma UnmergedFirstPageRaises(dt: Timestamps.DateTime, startDate: string, endDate: string)
    requires dt.Valid() && dt.micro == 0 && dt.offset == 0
    requires Timestamps.ParseYmd(startDate).Some?
    ensures var pages := [[Pull(1, "octocat", None, FormatStamp(dt))]];
            && FetchAsWritten(pages, StartOf(startDate), EndOf(endDate), ParseStamp, false) == Raises(UnboundStart)
            && FetchMergedPrs(pages, startDate, endDate) == Ok([])
  {
    var page := [Pull(1, "octocat", None, FormatStamp(dt))];
    StampRoundTrip(dt);
    assert forall p :: p in page ==> p == page[0];
    assert ParseStamp(page[0].updatedAt).Some?;
    QuietFirstPage(page, StartOf(startDate), EndOf(endDate), ParseStamp);
  }
}

=== FILE: jira_changes.dfy ===
/**
 * The "Key Changes" section of the Jira comparison report: which metrics are
 * compared between the first and the last phase, and how.
 */
module JiraChanges {
  import opened Wrappers
  import opened ReportParse
  import ReportUtils
  import opened JiraTable
  import PhaseConfig

  // ---------------------------------------------------------------------------
  // Key changes between the first and the last phase

  /**
   * A throughput as the table shows it (`{t:.2f}`) and as the key changes
   * read it back: the nearest hundredth, halves rounded up.
   */
  function Rounded(x: real): (r: real)
    ensures x - 0.005 < r <= x + 0.005
  {
    (x * 100.0 + 0.5).Floor as real / 100.0
  }

  /** A non-negative rate reads back as positive exactly when it is at least half a hundredth. */
  lemma RoundedPositive(x: real)
    requires x >= 0.0
    ensures Rounded(x) > 0.0 <==> x >= 0.005
  {
    var f := (x * 100.0 + 0.5).Floor;
    if x >= 0.005 {
      assert x * 100.0 + 0.5 >= 1.0;
      assert f >= 1;
    } else {
      assert x * 100.0 + 0.5 < 1.0;
      assert f <= 0;
    }
  }

  type MetricChange = ReportUtils.MetricChange

  /** A change that is recorded relative to a positive baseline, with its percentage. */
  predicate IsRelative(c: MetricChange) {
    c.before > 0.0 && !c.isAbsolute && ReportUtils.PercentChange(c.before, c.after) == Some(c.change)
  }

  /** Which per-state measure a group of key changes compares. */
  datatype Measure = StateAvg | Reentry

  function MeasureOf(m: Measure, r: Report, state: string): real {
    match m
    case StateAvg => StateTime(r, state)
    case Reentry => ReentryRate(r, state)
  }

  function MeasureSuffix(m: Measure): string {
    match m
    case StateAvg => " State"
    case Reentry => " Re-entry Rate"
  }

  function MeasureUnit(m: Measure): string {
    match m
    case StateAvg => "d"
    case Reentry => "x"
  }

  /** The change a state contributes when its first-phase measure is positive. */
  function StateChange(m: Measure, first: Report, last: Report, state: string): MetricChange {
    var before := MeasureOf(m, first, state);
    var after := MeasureOf(m, last, state);
    ReportUtils.MetricChange(state + MeasureSuffix(m), before, after, ReportUtils.PercentChange(before, after).GetOr(0.0), MeasureUnit(m), false)
  }

  /** The changes a group of states contributes: one per state whose first-phase value is positive, in order. */
  function Listed(m: Measure, first: Report, last: Report, states: seq<string>): (r: seq<MetricChange>)
    ensures |r| <= |states|
    decreases |states|
  {
    if states == [] then []
    else (if MeasureOf(m, first, states[0]) > 0.0 then [StateChange(m, first, last, states[0])] else [])
         + Listed(m, first, last, states[1..])
  }

  /**
   * Every listed change belongs to a state of the group whose first-phase
   * value is positive, is relative to it and carries the group's unit; and
   * every such state is listed.
   */
  lemma {:induction false} ListedExactly(m: Measure, first: Report, last: Report, states: seq<string>)
    ensures forall c :: c in Listed(m, first, last, states) ==> IsRelative(c) && c.unit == MeasureUnit(m)
    ensures forall c :: c in Listed(m, first, last, states) ==>
              exists k :: 0 <= k < |states| && MeasureOf(m, first, states[k]) > 0.0 && c == StateChange(m, first, last, states[k])
    ensures forall k :: 0 <= k < |states| && MeasureOf(m, first, states[k]) > 0.0 ==>
              StateChange(m, first, last, states[k]) in Listed(m, first, last, states)
    decreases |states|
  {
    if states != [] {
      ListedExactly(m, first, last, states[1..]);
      assert forall k :: 1 <= k < |states| ==> states[k] == states[1..][k - 1];
    }
  }

  /**
   * The loop over one group of states, appending through `add_metric_change`:
   * it adds exactly the group's listed changes after those already collected.
   */
  function StateChanges(changes: seq<MetricChange>, m: Measure, first: Report, last: Report, states: seq<string>)
    : (r: seq<MetricChange>)
    ensures r == changes + Listed(m, first, last, states)
    decreases |states|
  {
    if states == [] then changes
    else
      var before := MeasureOf(m, first, states[0]);
      var next := if before > 0.0
        then ReportUtils.AddMetricChange(changes, states[0] + MeasureSuffix(m), before,
                                         MeasureOf(m, last, states[0]), MeasureUnit(m), false)
        else changes;
      var added := if before > 0.0 then [StateChange(m, first, last, states[0])] else [];
      assert next == changes + added;
      var rest := Listed(m, first, last, states[1..]);
      assert Listed(m, first, last, states) == added + rest;
      assert changes + (added + rest) == (changes + added) + rest;
      StateChanges(next, m, first, last, states[1..])
  }

  /** `a + s == b + s` only when `a == b`. */
  lemma SuffixCancels(a: string, b: string, s: string)
    requires a + s == b + s
    ensures a == b
  {
    assert |a| == |b|;
    assert a == (a + s)[..|a|];
  }

  /** Within one group, a state's change is listed exactly when its first-phase value is positive. */
  lemma StateChangeListed(m: Measure, first: Report, last: Report, states: seq<string>, k: nat)
    requires k < |states|
    ensures StateChange(m, first, last, states[k]) in Listed(m, first, last, states)
            <==> MeasureOf(m, first, states[k]) > 0.0
  {
    var r := Listed(m, first, last, states);
    ListedExactly(m, first, last, states);
    if StateChange(m, first, last, states[k]) in r {
      var i :| 0 <= i < |r| && r[i] == StateChange(m, first, last, states[k]);
      var j :| 0 <= j < |states| && MeasureOf(m, first, states[j]) > 0.0 && r[i] == StateChange(m, first, last, states[j]);
      SuffixCancels(states[j], states[k], MeasureSuffix(m));
    }
  }

  /**
   * The average-closure and throughput changes, which come first: each needs a
   * positive first-phase value, and the throughputs are compared as the table
   * shows them, to the hundredth.
   */
  function HeadChanges(avgBefore: real, avgAfter: real, tpBefore: Option<real>, tpAfter: Option<real>): (r: seq<MetricChange>)
    ensures |r| <= 2 && forall c :: c in r ==> IsRelative(c) && c.unit != "x"
    ensures forall c :: c in r ==> c.name in {"Average Closure Time", "Daily Throughput"}
    ensures (exists c :: c in r && c.name == "Average Closure Time") <==> avgBefore > 0.0
    ensures (exists c :: c in r && c.name == "Daily Throughput")
            <==> tpBefore.Some? && tpAfter.Some? && Rounded(tpBefore.value) > 0.0
  {
    var avg := if avgBefore > 0.0
      then ReportUtils.AddMetricChange([], "Average Closure Time", avgBefore, avgAfter, "d", false)
      else [];
    if tpBefore.Some? && tpAfter.Some? && Rounded(tpBefore.value) > 0.0
    then ReportUtils.AddMetricChange(avg, "Daily Throughput", Rounded(tpBefore.value), Rounded(tpAfter.value), "/d", false)
    else avg
  }

  /**
   * The changes the comparison ranks: none unless there are two phases to
   * compare; otherwise the average closure time, the throughput, each state's
   * average time and each state's re-entry rate, every one relative to a
   * positive first-phase value.
   */
  function KeyChanges(reports: seq<Report>): (r: seq<MetricChange>)
    ensures |reports| < 2 ==> r == []
    ensures |r| <= 2 + |TableStates| + |TableReentryStates|
    ensures forall c :: c in r ==> IsRelative(c)
  {
    if |reports| < 2 then []
    else
      var first := reports[0];
      var last := reports[|reports| - 1];
      var head := HeadChanges(AvgDays(first), AvgDays(last), ThroughputOf(first), ThroughputOf(last));
      ListedExactly(StateAvg, first, last, TableStates);
      ListedExactly(Reentry, first, last, TableReentryStates);
      var states := StateChanges(head, StateAvg, first, last, TableStates);
      var r := StateChanges(states, Reentry, first, last, TableReentryStates);
      assert forall c :: c in r ==> c in head || c in Listed(StateAvg, first, last, TableStates) || c in Listed(Reentry, first, last, TableReentryStates);
      r
  }

  /** The lines the changes section shows: the five largest increases and the five largest decreases. */
  function KeyChangeLines(reports: seq<Report>): (lines: seq<ReportUtils.Line>)
    ensures 6 <= |lines| <= 14
  {
    ReportUtils.FormatLength(KeyChanges(reports), 5);
    ReportUtils.FormatMetricChanges(KeyChanges(reports), 5)
  }

  /**
   * The computed part of `generate_csv_report`: nothing without a phase
   * configuration; otherwise the metric table over the aligned phases, one
   * column per configured phase, and the key changes between the first and the
   * last of those phases.
   */
  function CsvReport(config: seq<PhaseConfig.Phase>, reports: seq<Report>): (r: Option<(seq<Row>, seq<ReportUtils.Line>)>)
    ensures r.None? <==> config == []
    ensures r.Some? ==> |r.value.0| == |RowTitles|
    ensures r.Some? ==> forall k, i :: 0 <= k < |RowTitles| && 0 <= i < |config| ==>
              |r.value.0[k].cells| == |config| &&
              r.value.0[k].cells[i] == Column(if i < |reports| then reports[i] else EmptyReport(config[i]))[k]
    ensures r.Some? ==> 6 <= |r.value.1| <= 14
    ensures r.Some? && |config| < 2 ==> r.value.1 == ReportUtils.FormatMetricChanges([], 5)
  {
    var phases :- AlignPhases(config, reports);
    Some((MetricTable(phases), KeyChangeLines(phases)))
  }

  /** A state's name is never one of the two leading metrics. */
  lemma StateNamesNotHead(state: string)
    ensures state + " State" !in {"Average Closure Time", "Daily Throughput"}
  {
    var name := state + " State";
    assert name[|name| - 6..] == " State";
    assert "Average Closure Time"[14..] != " State" && "Daily Throughput"[10..] != " State";
  }

  /**
   * A state's average time is compared exactly when there are two phases and
   * the state took time in the first one.
   */
  lemma StateTimeCompared(reports: seq<Report>, k: nat)
    requires k < |TableStates|
    ensures |reports| >= 2 ==>
              (StateChange(StateAvg, reports[0], reports[|reports| - 1], TableStates[k]) in KeyChanges(reports)
               <==> StateTime(reports[0], TableStates[k]) > 0.0)
  {
    if |reports| >= 2 {
      var first := reports[0];
      var last := reports[|reports| - 1];
      var c := StateChange(StateAvg, first, last, TableStates[k]);
      var head := HeadChanges(AvgDays(first), AvgDays(last), ThroughputOf(first), ThroughputOf(last));
      StateChangeListed(StateAvg, first, last, TableStates, k);
      assert c !in head by {
        StateNamesNotHead(TableStates[k]);
      }
      assert c !in Listed(Reentry, first, last, TableReentryStates) by {
        ListedExactly(Reentry, first, last, TableReentryStates);
      }
      assert KeyChanges(reports) == head + Listed(StateAvg, first, last, TableStates) + Listed(Reentry, first, last, TableReentryStates);
    }
  }

  /**
   * A state's re-entry rate is compared exactly when there are two phases and
   * the state was re-entered in the first one.
   */
  lemma ReentryCompared(reports: seq<Report>, k: nat)
    requires k < |TableReentryStates|
    ensures |reports| >= 2 ==>
              (StateChange(Reentry, reports[0], reports[|reports| - 1], TableReentryStates[k]) in KeyChanges(reports)
               <==> ReentryRate(reports[0], TableReentryStates[k]) > 0.0)
  {
    if |reports| >= 2 {
      var first := reports[0];
      var last := reports[|reports| - 1];
      var c := StateChange(Reentry, first, last, TableReentryStates[k]);
      var head := HeadChanges(AvgDays(first), AvgDays(last), ThroughputOf(first), ThroughputOf(last));
      StateChangeListed(Reentry, first, last, TableReentryStates, k);
      assert c !in head;
      assert c !in Listed(StateAvg, first, last, TableStates) by {
        ListedExactly(StateAvg, first, last, TableStates);
      }
      assert KeyChanges(reports) == head + Listed(StateAvg, first, last, TableStates) + Listed(Reentry, first, last, TableReentryStates);
    }
  }
}

=== FILE: jira_comparison.dfy ===
/**
 * The Jira comparison report (`generate_jira_comparison_report.py`): reading
 * the period back out of a JQL query, lining parsed reports up with the
 * configured phases, the metric table with one column per phase, the key
 * changes between the first and the last phase, and the choice of report
 * files to compare.
 */
module JiraComparison {
  import opened Wrappers
  import opened Text
  import Jql

  // ---------------------------------------------------------------------------
  // Reading the resolution window out of a JQL query

  /** `resolved` at the start of `t`, in any letter case (the patterns are compiled with IGNORECASE). */
  predicate ResolvedAt(t: string) {
    |t| >= 8 && Lower(t[..8]) == "resolved"
  }

  /** `resolved\s*OP=\s*` at the start of `t`: what follows it. */
  function BoundClause(t: string, op: char): (r: Option<string>)
    ensures r.Some? ==> ResolvedAt(t)
  {
    if !ResolvedAt(t) then None
    else
      var u := t[8..];
      var v := u[LeadingSpaces(u)..];
      if |v| < 2 || v[0] != op || v[1] != '=' then None
      else Some(v[2..][LeadingSpaces(v[2..])..])
  }

  /** `(\d+)d` at the start of `t`, the `d` in either case: the number and what follows the `d`. */
  function DaysNumber(t: string): Option<(nat, string)> {
    var n := DigitRun(t);
    if n == 0 || n == |t| || LowerChar(t[n]) != 'd' then None
    else Some((DigitsValue(t[..n]), t[n + 1..]))
  }

  /** `"-?(\d+)d"`: the minus sign is optional and not kept. */
  function QuotedDays(t: string): Option<nat> {
    if t == [] || t[0] != '"' then None
    else
      var w := t[1..];
      var found :- DaysNumber(if w != [] && w[0] == '-' then w[1..] else w);
      if found.1 != [] && found.1[0] == '"' then Some(found.0) else None
  }

  /** `"?-(\d+)d"?`: the minus sign is required; the closing quote is optional and so never decides. */
  function DashDays(t: string): Option<nat> {
    var w := if t != [] && t[0] == '"' then t[1..] else t;
    if w == [] || w[0] != '-' then None
    else
      var found :- DaysNumber(w[1..]);
      Some(found.0)
  }

  function DatesFrom(t: string): (r: Option<nat>)
    ensures r.Some? ==> BoundClause(t, '>').Some?
  {
    var rest :- BoundClause(t, '>');
    QuotedDays(rest)
  }

  function DatesUntil(t: string): (r: Option<nat>)
    ensures r.Some? ==> BoundClause(t, '<').Some?
  {
    var rest :- BoundClause(t, '<');
    QuotedDays(rest)
  }

  function PeriodFrom(t: string): (r: Option<nat>)
    ensures r.Some? ==> BoundClause(t, '>').Some?
  {
    var rest :- BoundClause(t, '>');
    DashDays(rest)
  }

  function PeriodUntil(t: string): (r: Option<nat>)
    ensures r.Some? ==> BoundClause(t, '<').Some?
  {
    var rest :- BoundClause(t, '<');
    DashDays(rest)
  }

  /**
   * `extract_dates_from_jql`: the two day counts of the first `resolved >=`
   * and the first `resolved <=` bound, or nothing unless both are found.
   */
  function ExtractDatesFromJql(q: string): (r: Option<(nat, nat)>)
    ensures r.Some? <==> Search(q, DatesFrom).Some? && Search(q, DatesUntil).Some?
    ensures r.Some? ==> r.value == (Search(q, DatesFrom).value, Search(q, DatesUntil).value)
  {
    var from :- Search(q, DatesFrom);
    var until :- Search(q, DatesUntil);
    Some((from, until))
  }

  /** `extract_period_info`: `~N days` for the distance between the two bounds, else `N/A`. */
  function ExtractPeriodInfo(q: string): (r: string)
    ensures r == "N/A" <==> Search(q, PeriodFrom).None? || Search(q, PeriodUntil).None?
    ensures r != "N/A" ==> r == PeriodText(Search(q, PeriodFrom).value, Search(q, PeriodUntil).value)
  {
    match Search(q, PeriodFrom)
    case None => "N/A"
    case Some(from) =>
      match Search(q, PeriodUntil)
      case None => "N/A"
      case Some(until) => PeriodText(from, until)
  }

  /** The window length, from-offset minus until-offset, as `~N days`; never the `N/A` placeholder. */
  function PeriodText(from: nat, until: nat): (r: string)
    ensures |r| > 0 && r[0] == '~' && r != "N/A"
  {
    "~" + IntToString(from - until) + " days"
  }

  // Reading back what `build_jql_query` writes

  /** No character of `s` is an `r` in either case, so no `resolved` starts inside it. */
  predicate NoR(s: string) {
    forall k :: 0 <= k < |s| ==> LowerChar(s[k]) != 'r'
  }

  lemma NoRConcat(a: string, b: string)
    requires NoR(a) && NoR(b)
    ensures NoR(a + b)
  {
    assert forall k :: |a| <= k < |a + b| ==> (a + b)[k] == b[k - |a|];
  }

  lemma NumeralNoR(n: nat)
    ensures NoR(NatToString(n))
  {
    var s := NatToString(n);
    assert forall k :: 0 <= k < |s| ==> IsDigit(s[k]);
  }

  lemma NotResolvedAt(t: string)
    requires t != [] && LowerChar(t[0]) != 'r'
    ensures !ResolvedAt(t)
  {
    if |t| >= 8 {
      assert Lower(t[..8])[0] == LowerChar(t[0]);
    }
  }

  /** A search passes over a prefix in which no `resolved` starts. */
  lemma SkipPrefix(a: string, b: string, m: string -> Option<nat>, op: char)
    requires forall i :: 0 <= i < |a| ==> !ResolvedAt(a[i..] + b)
    requires forall t :: m(t).Some? ==> BoundClause(t, op).Some?
    ensures Search(a + b, m) == Search(b, m)
  {
    SearchSkips(a, b, m);
  }

  /** A search passes over text without an `r` for any pattern that starts with `resolved`. */
  lemma SkipNoR(a: string, b: string, m: string -> Option<nat>, op: char)
    requires NoR(a)
    requires forall t :: m(t).Some? ==> BoundClause(t, op).Some?
    ensures Search(a + b, m) == Search(b, m)
  {
    forall i | 0 <= i < |a|
      ensures !ResolvedAt(a[i..] + b)
    {
      assert (a[i..] + b)[0] == a[i];
      NotResolvedAt(a[i..] + b);
    }
    SkipPrefix(a, b, m, op);
  }

  /** `resolved OP= ` followed by `rest` yields `rest`. */
  lemma BoundClauseOf(op: char, rest: string)
    requires op == '>' || op == '<'
    requires rest != [] && !IsSpace(rest[0])
    ensures BoundClause("resolved " + [op] + "= " + rest, op) == Some(rest)
  {
    var t := "resolved " + [op] + "= " + rest;
    assert t[..8] == "resolved";
    assert Lower("resolved") == "resolved";
    var u := t[8..];
    assert u == " " + ([op] + "= " + rest);
    SpacesAt(" ", [op] + "= " + rest);
    var v := u[1..];
    assert v == [op] + "= " + rest;
    assert v[2..] == " " + rest;
    SpacesAt(" ", rest);
    assert (" " + rest)[1..] == rest;
  }

  /** The digits of `n` followed by `d` and `rest`. */
  lemma DaysNumberOf(n: nat, rest: string)
    ensures DaysNumber(NatToString(n) + "d" + rest) == Some((n, rest))
  {
    var s := NatToString(n);
    var t := s + ("d" + rest);
    assert t == s + "d" + rest;
    DigitRunAt(s, "d" + rest);
    assert t[..|s|] == s;
    assert t[|s|] == 'd';
    assert t[|s| + 1..] == rest;
    NatToStringRoundTrip(n);
  }

  /** A past offset `"-Nd"` followed by `rest` is read as `N` by both patterns. */
  lemma PastOffsetDays(n: nat, rest: string)
    requires n > 0
    ensures QuotedDays(Jql.RelativeDays(n) + rest) == Some(n)
    ensures DashDays(Jql.RelativeDays(n) + rest) == Some(n)
  {
    var s := NatToString(n);
    var t := Jql.RelativeDays(n) + rest;
    assert t == "\"-" + (s + "d" + ("\"" + rest));
    assert t[1..] == "-" + (s + "d" + ("\"" + rest));
    assert t[1..][1..] == s + "d" + ("\"" + rest);
    DaysNumberOf(n, "\"" + rest);
  }

  /** A `>=` bound at the start of the text is the one both searches find. */
  lemma FromBoundFirst(from: nat, rest: string)
    requires from > 0
    ensures var t := "resolved >= " + Jql.RelativeDays(from) + rest;
            Search(t, DatesFrom) == Some(from) && Search(t, PeriodFrom) == Some(from)
  {
    var t := "resolved >= " + Jql.RelativeDays(from) + rest;
    assert t == "resolved " + ['>'] + "= " + (Jql.RelativeDays(from) + rest);
    BoundClauseOf('>', Jql.RelativeDays(from) + rest);
    PastOffsetDays(from, rest);
    assert t[0..] == t;
  }

  /** Likewise for a `<=` bound. */
  lemma UntilBoundFirst(until: nat, rest: string)
    requires until > 0
    ensures var t := "resolved <= " + Jql.RelativeDays(until) + rest;
            Search(t, DatesUntil) == Some(until) && Search(t, PeriodUntil) == Some(until)
  {
    var t := "resolved <= " + Jql.RelativeDays(until) + rest;
    assert t == "resolved " + ['<'] + "= " + (Jql.RelativeDays(until) + rest);
    BoundClauseOf('<', Jql.RelativeDays(until) + rest);
    PastOffsetDays(until, rest);
    assert t[0..] == t;
  }

  /** The text of a `>=` clause after its first letter. */
  function FromClauseTail(from: nat): string {
    "esolved >= \"-" + NatToString(from) + "d\" AND "
  }

  lemma FromClauseTailNoR(from: nat)
    ensures NoR(FromClauseTail(from))
  {
    NumeralNoR(from);
    NoRConcat("esolved >= \"-", NatToString(from));
    NoRConcat("esolved >= \"-" + NatToString(from), "d\" AND ");
  }

  /** A `>=` clause is not a `<=` bound. */
  lemma FromClauseNotUntil(from: nat, second: string)
    ensures BoundClause("r" + (FromClauseTail(from) + second), '<').None?
  {
    var window := "r" + (FromClauseTail(from) + second);
    var after := ">= \"-" + NatToString(from) + "d\" AND " + second;
    assert window[..8] == "resolved";
    assert Lower("resolved") == "resolved";
    assert window[8..] == " " + after;
    SpacesAt(" ", after);
    assert (" " + after)[1..] == after;
  }

  lemma FromClauseText(from: nat, second: string)
    requires from > 0
    ensures "r" + (FromClauseTail(from) + second) == "resolved >= " + Jql.RelativeDays(from) + " AND " + second
  {
  }

  /** A search for the `<=` bound passes over a `>=` clause. */
  lemma PassFromClause(from: nat, second: string, m: string -> Option<nat>)
    requires from > 0
    requires forall t :: m(t).Some? ==> BoundClause(t, '<').Some?
    ensures Search("resolved >= " + Jql.RelativeDays(from) + " AND " + second, m) == Search(second, m)
  {
    var tail := FromClauseTail(from);
    FromClauseText(from, second);
    FromClauseNotUntil(from, second);
    assert "r"[0..] + (tail + second) == "r" + (tail + second);
    SearchSkips("r", tail + second, m);
    FromClauseTailNoR(from);
    SkipNoR(tail, second, m, '<');
  }

  /** The two resolution clauses of `build_jql_query`, joined as it joins them, and whatever follows. */
  function Window(from: nat, until: nat, rest: string): string {
    Jql.Render(Jql.ResolvedFrom(Jql.RelativeDays(from))) + " AND " + Jql.Render(Jql.ResolvedUntil(Jql.RelativeDays(until))) + rest
  }

  lemma WindowText(from: nat, until: nat, rest: string)
    ensures Window(from, until, rest) == "resolved >= " + Jql.RelativeDays(from) + (" AND " + ("resolved <= " + Jql.RelativeDays(until) + rest))
    ensures Window(from, until, rest) == "resolved >= " + Jql.RelativeDays(from) + " AND " + ("resolved <= " + Jql.RelativeDays(until) + rest)
  {
  }

  /** The `>=` bound of a resolution window after a clean prefix. */
  lemma WindowFrom(prefix: string, from: nat, until: nat, rest: string)
    requires from > 0
    requires forall i :: 0 <= i < |prefix| ==> !ResolvedAt(prefix[i..] + Window(from, until, rest))
    ensures Search(prefix + Window(from, until, rest), DatesFrom) == Some(from)
    ensures Search(prefix + Window(from, until, rest), PeriodFrom) == Some(from)
  {
    var window := Window(from, until, rest);
    var second := "resolved <= " + Jql.RelativeDays(until) + rest;
    WindowText(from, until, rest);
    SkipPrefix(prefix, window, DatesFrom, '>');
    SkipPrefix(prefix, window, PeriodFrom, '>');
    FromBoundFirst(from, " AND " + second);
  }

  /** The `<=` bound of a resolution window after a clean prefix. */
  lemma WindowUntil(prefix: string, from: nat, until: nat, rest: string)
    requires from > 0 && until > 0
    requires forall i :: 0 <= i < |prefix| ==> !ResolvedAt(prefix[i..] + Window(from, until, rest))
    ensures Search(prefix + Window(from, until, rest), DatesUntil) == Some(until)
    ensures Search(prefix + Window(from, until, rest), PeriodUntil) == Some(until)
  {
    var window := Window(from, until, rest);
    var second := "resolved <= " + Jql.RelativeDays(until) + rest;
    WindowText(from, until, rest);
    UntilBoundFirst(until, rest);
    SkipPrefix(prefix, window, DatesUntil, '<');
    SkipPrefix(prefix, window, PeriodUntil, '<');
    PassFromClause(from, second, DatesUntil);
    PassFromClause(from, second, PeriodUntil);
  }

  /**
   * The resolution window `build_jql_query` writes for two past dates, after
   * any text in which no `resolved` starts, reads back as the two day counts
   * and their distance.
   */
  lemma ReadResolvedWindow(prefix: string, from: nat, until: nat, rest: string)
    requires from > 0 && until > 0
    requires forall i :: 0 <= i < |prefix| ==> !ResolvedAt(prefix[i..] + Window(from, until, rest))
    ensures ExtractDatesFromJql(prefix + Window(from, until, rest)) == Some((from, until))
    ensures ExtractPeriodInfo(prefix + Window(from, until, rest)) == PeriodText(from, until)
  {
    WindowFrom(prefix, from, until, rest);
    WindowUntil(prefix, from, until, rest);
  }

  /** A future offset `"Nd"` is read by the first pattern without its direction, and not at all by the second. */
  lemma FutureOffsetDays(n: nat, rest: string)
    requires n > 0
    ensures QuotedDays(Jql.RelativeDays(-(n as int)) + rest) == Some(n)
    ensures DashDays(Jql.RelativeDays(-(n as int)) + rest) == None
  {
    var s := NatToString(n);
    var t := Jql.RelativeDays(-(n as int)) + rest;
    assert t == "\"" + (s + "d" + ("\"" + rest));
    assert t[1..] == s + "d" + ("\"" + rest);
    assert IsDigit(s[0]);
    DaysNumberOf(n, "\"" + rest);
  }
}

=== FILE: jira_report_files.dfy ===
/**
 * The files around the Jira comparison: which saved reports it reads, which
 * of them it compares, and the name it gives its own output.
 */
module JiraReportFiles {
  import opened Wrappers
  import opened Text
  import ReportUtils
  import Lex

  const ReportsDir: string := "reports/jira/"
  const ReportPrefix: string := "jira_report_"

  // ---------------------------------------------------------------------------
  // Report file names

  /** A `%Y%m%d_%H%M%S` timestamp: eight digits, an underscore and six digits. */
  predicate IsStamp(t: string) {
    |t| == 15 && AllDigits(t[..8]) && t[8] == '_' && AllDigits(t[9..])
  }

  /** `strftime("%Y%m%d_%H%M%S")` for a four-digit year. */
  function FormatStamp(year: nat, month: nat, day: nat, hour: nat, minute: nat, second: nat): (t: string)
    ensures IsStamp(t)
  {
    var date := Pad(year, 4) + Pad(month, 2) + Pad(day, 2);
    var time := Pad(hour, 2) + Pad(minute, 2) + Pad(second, 2);
    assert date == (date + "_" + time)[..8];
    assert time == (date + "_" + time)[9..];
    date + "_" + time
  }

  /**
   * The name the Jira metrics script saves a report under: the assignee's
   * local part (everything before `@`), or `general` for the whole team.
   */
  function SavedReportName(assignee: Option<string>, stamp: string): string {
    var who := if Truthy(assignee) then Before(assignee.value, '@') else "general";
    ReportPrefix + who + "_" + stamp + ".txt"
  }

  /** Whose reports the comparison looks for: the normalised assignee, or `general`. */
  function Owner(assignee: Option<string>): (who: string)
    ensures Truthy(assignee) ==> '@' !in who
    ensures !Truthy(assignee) ==> who == "general"
  {
    if Truthy(assignee) then ReportUtils.NormalizeUsername(assignee).value else "general"
  }

  /** The names a report search looks for: `<prefix>…<extension>`, carrying `<prefix><owner>_`. */
  datatype Pattern = Pattern(prefix: string, extension: string)

  const JiraReports: Pattern := Pattern(ReportPrefix, ".txt")

  predicate Named(name: string, pattern: Pattern, owner: string) {
    && StartsWith(name, pattern.prefix) && EndsWith(name, pattern.extension)
    && Contains(name, pattern.prefix + owner + "_")
  }

  /** The filter of `find_reports`: a text report whose name carries `jira_report_<owner>_`. */
  predicate Wanted(name: string, owner: string) {
    Named(name, JiraReports, owner)
  }

  /** The wanted names of a directory listing, as paths in `dir`, in listing order. */
  function Matching(names: seq<string>, dir: string, pattern: Pattern, owner: string): (paths: seq<string>)
    ensures |paths| <= |names|
    ensures forall p :: p in paths <==> exists n :: n in names && Named(n, pattern, owner) && p == dir + n
  {
    if names == [] then []
    else
      var rest := Matching(names[1..], dir, pattern, owner);
      assert forall n :: n in names[1..] ==> n in names;
      assert forall n :: n in names ==> n == names[0] || n in names[1..];
      if Named(names[0], pattern, owner) then [dir + names[0]] + rest else rest
  }

  /**
   * The search both comparison scripts make: nothing when the directory does
   * not exist; otherwise exactly the wanted files of its listing, in sorted order.
   */
  function FindIn(listing: Option<seq<string>>, dir: string, pattern: Pattern, owner: string): (paths: seq<string>)
    ensures listing.None? ==> paths == []
    ensures listing.Some? ==> forall p :: p in paths <==>
              exists n :: n in listing.value && Named(n, pattern, owner) && p == dir + n
    ensures listing.Some? ==> |paths| <= |listing.value|
    ensures forall i, j :: 0 <= i < j < |paths| ==> Lex.LexLe(paths[i], paths[j])
  {
    match listing
    case None => []
    case Some(names) =>
      var found := Matching(names, dir, pattern, owner);
      var sorted := Lex.SortStrings(found);
      assert forall p :: p in sorted <==> p in multiset(sorted);
      assert forall p :: p in found <==> p in multiset(found);
      sorted
  }

  /** `find_reports`: the wanted reports of the normalised assignee (or the team) in `reports/jira/`. */
  function FindReports(listing: Option<seq<string>>, assignee: Option<string>): (paths: seq<string>)
    ensures listing.None? ==> paths == []
    ensures listing.Some? ==> forall p :: p in paths <==>
              exists n :: n in listing.value && Wanted(n, Owner(assignee)) && p == ReportsDir + n
    ensures forall i, j :: 0 <= i < j < |paths| ==> Lex.LexLe(paths[i], paths[j])
  {
    FindIn(listing, ReportsDir, JiraReports, Owner(assignee))
  }

  /** A plain user name behind an e-mail address is what normalisation keeps. */
  lemma NormalizeAddress(n: string, domain: string)
    requires ReportUtils.IsBaseName(n)
    ensures ReportUtils.NormalizeUsername(Some(n + "@" + domain)) == Some(n)
  {
    BeforeAt(n, '@', domain);
    assert Before(n, '@') == n;
    ReportUtils.NormalizeBaseName(n);
  }

  /**
   * A report saved for an e-mail address whose local part is already a plain
   * user name is found again when comparing that address; so is a team report.
   */
  lemma SavedReportFound(n: string, domain: string, stamp: string)
    requires ReportUtils.IsBaseName(n)
    ensures Wanted(SavedReportName(Some(n + "@" + domain), stamp), Owner(Some(n + "@" + domain)))
    ensures Wanted(SavedReportName(None, stamp), Owner(None))
  {
    var address := n + "@" + domain;
    NormalizeAddress(n, domain);
    BeforeAt(n, '@', domain);
    var name := SavedReportName(Some(address), stamp);
    assert name == (ReportPrefix + n + "_") + (stamp + ".txt");
    ContainsAtIndex(name, ReportPrefix + n + "_", 0);
    var team := SavedReportName(None, stamp);
    assert team == (ReportPrefix + "general" + "_") + (stamp + ".txt");
    ContainsAtIndex(team, ReportPrefix + "general" + "_", 0);
  }

  /** A numbered address: the report is saved under the numbered local part, but searched for under the plain name. */
  lemma NumberedOwner(n: string, suffix: nat, domain: string)
    requires ReportUtils.IsBaseName(n)
    ensures var address := n + "-" + NatToString(suffix) + "@" + domain;
            && Before(address, '@') == n + "-" + NatToString(suffix)
            && Owner(Some(address)) == n
  {
    var digits := NatToString(suffix);
    var local := n + "-" + digits;
    assert '@' !in local by {
      assert forall k :: 0 <= k < |digits| ==> IsDigit(digits[k]);
      assert '@' !in digits;
    }
    assert local + "@" + domain == local + ['@'] + domain;
    BeforeAt(local, '@', domain);
    ReportUtils.NormalizeNumbered(n, suffix);
    assert Before(local, '@') == local;
  }

  /**
   * A report the metrics script saves for a numbered address is never found
   * again when comparing that address: it is saved under `<name>-<k>`, while
   * the search wants `jira_report_<name>_`. (Stated for names without the
   * letter `j`, which then starts the prefix only.)
   */
  lemma NumberedReportLost(n: string, suffix: nat, domain: string, stamp: string)
    requires ReportUtils.IsBaseName(n) && 'j' !in n && IsStamp(stamp)
    ensures var address := n + "-" + NatToString(suffix) + "@" + domain;
            !Wanted(SavedReportName(Some(address), stamp), Owner(Some(address)))
  {
    var address := n + "-" + NatToString(suffix) + "@" + domain;
    NumberedOwner(n, suffix, domain);
    var digits := NatToString(suffix);
    var tail := "-" + digits + "_" + stamp + ".txt";
    NumberedTail(digits, stamp);
    NameParts(n, digits, stamp);
    PrefixLetters();
    NotContainsDiverging(ReportPrefix, n, tail, '_');
    assert ReportPrefix + n + "_" == ReportPrefix + n + ['_'];
  }

  lemma NameParts(n: string, digits: string, stamp: string)
    ensures ReportPrefix + (n + "-" + digits) + "_" + stamp + ".txt" == ReportPrefix + n + ("-" + digits + "_" + stamp + ".txt")
  {
  }

  /** What follows the plain name in a numbered report's name has no `j`, and does not start with `_`. */
  lemma NumberedTail(digits: string, stamp: string)
    requires IsNumeral(digits) && IsStamp(stamp)
    ensures var tail := "-" + digits + "_" + stamp + ".txt";
            'j' !in tail && tail[0] == '-'
  {
    assert forall k :: 0 <= k < |digits| ==> IsDigit(digits[k]);
    StampLetters(stamp);
  }

  /** The report prefix has its `j` at the start only. */
  lemma PrefixLetters()
    ensures ReportPrefix[0] == 'j' && 'j' !in ReportPrefix[1..]
  {
    assert ReportPrefix[1..] == "ira_report_";
  }

  /** A timestamp holds digits and one underscore, so no `j`. */
  lemma StampLetters(stamp: string)
    requires IsStamp(stamp)
    ensures 'j' !in stamp
  {
    forall k | 0 <= k < |stamp| ensures stamp[k] != 'j' {
      if k < 8 { assert stamp[k] == stamp[..8][k]; }
      else if k > 8 { assert stamp[k] == stamp[9..][k - 9]; }
    }
  }

  /**
   * The address the numbered-account example is about, `sbudhwar-1@redhat.com`,
   * with a report saved at 2025-10-22 11:16:14.
   */
  lemma NumberedReportLostExample()
    ensures var address := "sbudhwar" + "-" + NatToString(1) + "@" + "redhat.com";
            !Wanted(SavedReportName(Some(address), FormatStamp(2025, 10, 22, 11, 16, 14)), Owner(Some(address)))
  {
    ExampleBaseName();
    NumberedReportLost("sbudhwar", 1, "redhat.com", FormatStamp(2025, 10, 22, 11, 16, 14));
  }

  lemma ExampleBaseName()
    ensures ReportUtils.IsBaseName("sbudhwar") && 'j' !in "sbudhwar"
  {
    var n := "sbudhwar";
    assert (n + "-")[0] == 's' && ReportUtils.EmployeePrefix[0] == 'r';
    assert n[|n| - 1] == 'r';
  }

  /**
   * The name the metrics script evidently means to save under: the
   * normalised assignee, as the search and the single-report script use.
   */
  function SavedReportNameCorrected(assignee: Option<string>, stamp: string): (name: string)
    ensures Wanted(name, Owner(assignee))
  {
    var name := ReportPrefix + Owner(assignee) + "_" + stamp + ".txt";
    assert name == (ReportPrefix + Owner(assignee) + "_") + (stamp + ".txt");
    ContainsAtIndex(name, ReportPrefix + Owner(assignee) + "_", 0);
    name
  }

  /** For a plain user name, with or without a domain, and for the team, the two names agree. */
  lemma SavedNamesAgree(n: string, domain: string, stamp: string)
    requires ReportUtils.IsBaseName(n)
    ensures SavedReportNameCorrected(Some(n + "@" + domain), stamp) == SavedReportName(Some(n + "@" + domain), stamp)
    ensures SavedReportNameCorrected(None, stamp) == SavedReportName(None, stamp)
  {
    NormalizeAddress(n, domain);
    BeforeAt(n, '@', domain);
  }

  // ---------------------------------------------------------------------------
  // Which reports are compared

  /** Sorting keeps exactly the same names. */
  lemma SortedSameNames(names: seq<string>)
    ensures forall p :: p in Lex.SortStrings(names) <==> p in names
  {
    var sorted := Lex.SortStrings(names);
    forall p
      ensures p in sorted <==> p in names
    {
      assert p in sorted <==> p in multiset(sorted);
      assert p in names <==> p in multiset(names);
    }
  }

  /** The last `n` elements of a sequence. */
  function Last<T>(s: seq<T>, n: nat): (r: seq<T>)
    requires n <= |s|
    ensures |r| == n && forall i :: 0 <= i < n ==> r[i] == s[|s| - n + i]
  {
    s[|s| - n..]
  }

  /**
   * The checks and the choice in `main`: at least two reports are needed, and
   * of more than four only the last four in sorted order are used.
   */
  function SelectReports(files: seq<string>): (r: Result<seq<string>>)
    ensures r.Ok? <==> |files| >= 2
    ensures r.Ok? ==> r.value == Last(Lex.SortStrings(files), ReportUtils.Min(4, |files|))
    ensures r.Ok? ==> forall i, j :: 0 <= i < j < |r.value| ==> Lex.LexLe(r.value[i], r.value[j])
    ensures r.Ok? ==> forall p :: p in r.value ==> p in files
  {
    if |files| == 0 then Raises("no reports found")
    else if |files| < 2 then Raises("need at least 2 reports for comparison")
    else
      var sorted := Lex.SortStrings(files);
      SortedSameNames(files);
      var chosen := if |files| > 4 then sorted[|sorted| - 4..] else sorted;
      assert chosen == Last(sorted, ReportUtils.Min(4, |files|));
      Ok(chosen)
  }

  /** Applied to what `find_reports` returns, the selection is simply its last (at most) four files. */
  lemma SelectFoundReports(listing: Option<seq<string>>, assignee: Option<string>)
    ensures var files := FindReports(listing, assignee);
            |files| >= 2 ==> SelectReports(files) == Ok(Last(files, ReportUtils.Min(4, |files|)))
  {
    var files := FindReports(listing, assignee);
    assert Lex.SortedBy(files, Lex.Identity);
    Lex.SortSortedUnchanged(files, Lex.Identity);
    assert Lex.SortStrings(files) == files;
  }

  // ---------------------------------------------------------------------------
  // The output name

  /** `os.path.basename`: the text after the last `/`. */
  function Basename(path: string): (b: string)
    ensures '/' !in b && EndsWith(path, b)
    ensures |b| < |path| ==> path[|path| - |b| - 1] == '/'
  {
    if path == [] || path[|path| - 1] == '/' then []
    else
      var b := Basename(path[..|path| - 1]);
      assert path[|path| - |b| - 1..] == path[..|path| - 1][|path| - 1 - |b|..] + [path[|path| - 1]];
      b + [path[|path| - 1]]
  }

  /** A file in a directory has its own name as its base name. */
  lemma BasenameInDir(dir: string, name: string)
    requires '/' !in name && dir != [] && dir[|dir| - 1] == '/'
    ensures Basename(dir + name) == name
  {
    var p := dir + name;
    var b := Basename(p);
    assert forall k :: |dir| <= k < |p| ==> p[k] == name[k - |dir|];
    assert p[|dir| - 1] == '/';
    assert |b| == |name|;
    assert b == p[|p| - |b|..] == name;
  }

  /**
   * `re.search(r"_(\d{8}_\d{6})\.txt$", name)`: the timestamp at the end of a
   * report name. `$` also matches before a final newline.
   */
  function TimestampOf(name: string): (r: Option<string>)
    ensures r.Some? ==> IsStamp(r.value)
    ensures r.Some? ==> EndsWith(name, "_" + r.value + ".txt") || EndsWith(name, "_" + r.value + ".txt\n")
  {
    var body := if name != [] && name[|name| - 1] == '\n' then name[..|name| - 1] else name;
    if |body| >= 20 && body[|body| - 20] == '_' && IsStamp(body[|body| - 19..|body| - 4]) && body[|body| - 4..] == ".txt" then
      var stamp := body[|body| - 19..|body| - 4];
      assert body[|body| - 20..] == "_" + stamp + ".txt";
      assert body == name ==> EndsWith(name, "_" + stamp + ".txt");
      assert body != name ==> name[|name| - 21..] == "_" + stamp + ".txt\n";
      Some(stamp)
    else None
  }

  /** A name that ends in `_<timestamp>.txt` yields that timestamp, whatever comes before it. */
  lemma TimestampOfName(prefix: string, stamp: string)
    requires IsStamp(stamp)
    ensures TimestampOf(prefix + "_" + stamp + ".txt") == Some(stamp)
  {
    var name := prefix + "_" + stamp + ".txt";
    assert name[|name| - 20] == '_';
    assert name[|name| - 19..|name| - 4] == stamp;
    assert name[|name| - 4..] == ".txt";
  }

  /**
   * The file the comparison is written to: the requested name, or one built
   * from the owner and the timestamp of the last compared report (the current
   * time, `now`, when that report's name carries none).
   */
  function OutputName(output: Option<string>, assignee: Option<string>, lastReport: string, now: string): (path: string)
    ensures Truthy(output) ==> path == output.value
    ensures !Truthy(output) ==> StartsWith(path, ReportsDir + "jira_comparison_" + Owner(assignee) + "_") && EndsWith(path, ".tsv")
  {
    if Truthy(output) then output.value
    else
      var stamp := match TimestampOf(Basename(lastReport)) case Some(t) => t case None => now;
      var path := ReportsDir + "jira_comparison_" + Owner(assignee) + "_" + stamp + ".tsv";
      assert path == (ReportsDir + "jira_comparison_" + Owner(assignee) + "_") + (stamp + ".tsv");
      path
  }

  /**
   * A comparison of team reports is named after the timestamp of the last
   * report compared, not after the time it is made.
   */
  lemma OutputFollowsLastReport(stamp: string, now: string)
    requires IsStamp(stamp)
    ensures OutputName(None, None, ReportsDir + SavedReportName(None, stamp), now)
            == ReportsDir + "jira_comparison_general_" + stamp + ".tsv"
  {
    TeamReportStamp(stamp);
    OutputStamped(None, ReportsDir + SavedReportName(None, stamp), stamp, now);
    TeamOutputPrefix();
  }

  /** Without `--output`, the name carries the owner and the stamp read from the last report. */
  lemma OutputStamped(assignee: Option<string>, lastReport: string, stamp: string, now: string)
    requires TimestampOf(Basename(lastReport)) == Some(stamp)
    ensures OutputName(None, assignee, lastReport, now)
            == (ReportsDir + "jira_comparison_" + Owner(assignee) + "_") + stamp + ".tsv"
  {
  }

  lemma TeamOutputPrefix()
    ensures ReportsDir + "jira_comparison_" + Owner(None) + "_" == ReportsDir + "jira_comparison_general_"
  {
    assert Owner(None) == "general";
  }

  /** The timestamp read back from a saved team report's path is the one it was saved with. */
  lemma TeamReportStamp(stamp: string)
    requires IsStamp(stamp)
    ensures TimestampOf(Basename(ReportsDir + SavedReportName(None, stamp))) == Some(stamp)
  {
    var name := SavedReportName(None, stamp);
    assert '/' !in name by {
      StampNoSlash(stamp);
      assert name == ReportPrefix + "general" + "_" + stamp + ".txt";
    }
    BasenameInDir(ReportsDir, name);
    TimestampOfName(ReportPrefix + "general", stamp);
  }

  lemma StampNoSlash(stamp: string)
    requires IsStamp(stamp)
    ensures '/' !in stamp
  {
    assert forall k :: 0 <= k < 8 ==> stamp[k] == stamp[..8][k];
    assert forall k :: 9 <= k < 15 ==> stamp[k] == stamp[9..][k - 9];
  }
}

=== FILE: jira_table.dfy ===
/**
 * The metric table of the Jira comparison report: one column per configured
 * phase, filled from that phase's report or from an empty one.
 */
module JiraTable {
  import opened Wrappers
  import opened Text
  import Timestamps
  import opened ReportParse
  import PhaseConfig

  // ---------------------------------------------------------------------------
  // Phases without a report

  const NotAvailableText: string := "N/A"

  /** `create_empty_jira_report`: a phase with no data, shown with zero totals and unknown dates. */
  function EmptyReport(phase: PhaseConfig.Phase): (r: Report)
    ensures PeriodOf(r).None? && ThroughputOf(r).None?
    ensures r.summary.totalIssues == 0 && AvgDays(r) == 0.0
    ensures r.issueTypes == map[] && r.stateTimes == map[] && r.stateReentry == map[]
    ensures r.startDate == Some(phase.start) && r.endDate == Some(phase.end)
  {
    Report(
      "(no data for " + phase.name + ")",
      Summary(None, None, Some(NotAvailableText), Some(NotAvailableText), Some(NotAvailableText), Some(0), 0, Some(0.0), Some(0.0)),
      map[], map[], map[], Some(phase.start), Some(phase.end))
  }

  /**
   * The alignment at the top of `generate_csv_report`: nothing without a
   * phase configuration; otherwise one report per configured phase, the
   * report at the same position when there is one and an empty one after the
   * reports run out.
   */
  function AlignPhases(config: seq<PhaseConfig.Phase>, reports: seq<Report>): (r: Option<seq<Report>>)
    ensures r.None? <==> config == []
    ensures r.Some? ==> |r.value| == |config|
    ensures r.Some? ==> forall i :: 0 <= i < |config| ==>
              r.value[i] == if i < |reports| then reports[i] else EmptyReport(config[i])
  {
    if config == [] then None
    else
      var used := if |reports| < |config| then reports else reports[..|config|];
      Some(used + EmptyReports(config[|used|..]))
  }

  function EmptyReports(phases: seq<PhaseConfig.Phase>): (r: seq<Report>)
    ensures |r| == |phases| && forall i :: 0 <= i < |phases| ==> r[i] == EmptyReport(phases[i])
  {
    if phases == [] then [] else [EmptyReport(phases[0])] + EmptyReports(phases[1..])
  }

  // ---------------------------------------------------------------------------
  // The metric table

  const TableStates: seq<string> := ["New", "To Do", "In Progress", "Review", "Release Pending", "Waiting"]
  const TableReentryStates: seq<string> := ["To Do", "In Progress", "Review", "Waiting"]
  const TableTypes: seq<string> := ["Story", "Task", "Bug", "Epic"]

  /** One cell of the table, before its number is formatted. */
  datatype Cell =
    | PeriodDays(days: int)        // `12d`
    | Count(n: nat)                // `12`
    | Days(d: real)                // `1.50d`
    | PerDay(v: real)              // `0.25/d`
    | Times(x: real)               // `1.20x`
    | Percent(p: real)             // `40.00%`
    | NotAvailable                 // `N/A`

  /** Length of the run of non-whitespace characters at the start of `s`. */
  function TokenLength(s: string): (n: nat)
    ensures n <= |s| && (forall k :: 0 <= k < n ==> !IsSpace(s[k])) && (n < |s| ==> IsSpace(s[n]))
  {
    if s != [] && !IsSpace(s[0]) then 1 + TokenLength(s[1..]) else 0
  }

  /** `s.split()[0]`: the first whitespace-separated token, if any. */
  function FirstToken(s: string): (r: Option<string>)
    ensures r.Some? ==> r.value != [] && forall k :: 0 <= k < |r.value| ==> !IsSpace(r.value[k])
    decreases |s|
  {
    if s == [] then None
    else if IsSpace(s[0]) then FirstToken(s[1..])
    else Some(s[..TokenLength(s)])
  }

  /** The day number of the date a resolution timestamp starts with. */
  function DateOf(s: string): Option<int> {
    var token :- FirstToken(s);
    Timestamps.ParseYmd(token)
  }

  /**
   * The analysis period of a report in days, from its earliest to its latest
   * resolution date; `None` (shown as `N/A`) when either is missing or `N/A`,
   * or when either does not start with a `YYYY-MM-DD` date.
   */
  function PeriodOf(r: Report): Option<int> {
    PeriodBetween(r.summary.earliestResolved.GetOr(NotAvailableText), r.summary.latestResolved.GetOr(NotAvailableText))
  }

  /**
   * The period between two resolution timestamps: the number of days between
   * the dates they fall on (see `DateOfRendered` for the dates the metrics
   * report writes).
   */
  function PeriodBetween(earliest: string, latest: string): (p: Option<int>)
    ensures p.Some? <==> earliest != NotAvailableText && latest != NotAvailableText && DateOf(earliest).Some? && DateOf(latest).Some?
    ensures p.Some? ==> p.value == DateOf(latest).value - DateOf(earliest).value
  {
    if earliest == NotAvailableText || latest == NotAvailableText then None
    else
      var start :- DateOf(earliest);
      var end :- DateOf(latest);
      Some(end - start)
  }

  /** `total / days` for a positive number of days. */
  function PerDayRate(total: nat, days: int): (v: real)
    requires days > 0
    ensures v * days as real == total as real
  {
    total as real / days as real
  }

  /** Issues per day over the period, 0 for a period that is not positive, `None` without a period. */
  function Throughput(period: Option<int>, total: nat): (t: Option<real>)
    ensures t.None? <==> period.None?
    ensures t.Some? && period.value > 0 ==> t.value * period.value as real == total as real
    ensures t.Some? && period.value <= 0 ==> t.value == 0.0
  {
    match period
    case None => None
    case Some(days) => if days > 0 then Some(PerDayRate(total, days)) else Some(0.0)
  }

  function ThroughputOf(r: Report): Option<real> {
    Throughput(PeriodOf(r), r.summary.totalIssues)
  }

  function AvgDays(r: Report): real {
    r.summary.avgDays.GetOr(0.0)
  }

  function StateTime(r: Report, state: string): real {
    if state in r.stateTimes then r.stateTimes[state] else 0.0
  }

  function ReentryRate(r: Report, state: string): real {
    if state in r.stateReentry then r.stateReentry[state] else 0.0
  }

  /** A positive amount, or `N/A`. */
  function PositiveOr(v: real, cell: Cell): Cell {
    if v > 0.0 then cell else NotAvailable
  }

  function StateCells(r: Report, states: seq<string>): (cells: seq<Cell>)
    ensures |cells| == |states|
    ensures forall k :: 0 <= k < |states| ==>
              cells[k] == if StateTime(r, states[k]) > 0.0 then Days(StateTime(r, states[k])) else NotAvailable
  {
    if states == [] then []
    else [PositiveOr(StateTime(r, states[0]), Days(StateTime(r, states[0])))] + StateCells(r, states[1..])
  }

  function ReentryCells(r: Report, states: seq<string>): (cells: seq<Cell>)
    ensures |cells| == |states|
    ensures forall k :: 0 <= k < |states| ==>
              cells[k] == if ReentryRate(r, states[k]) > 0.0 then Times(ReentryRate(r, states[k])) else NotAvailable
  {
    if states == [] then []
    else [PositiveOr(ReentryRate(r, states[0]), Times(ReentryRate(r, states[0])))] + ReentryCells(r, states[1..])
  }

  function TypeCells(r: Report, types: seq<string>): (cells: seq<Cell>)
    ensures |cells| == |types|
    ensures forall k :: 0 <= k < |types| ==>
              cells[k] == Percent(if types[k] in r.issueTypes then r.issueTypes[types[k]].percentage else 0.0)
  {
    if types == [] then []
    else
      var p := if types[0] in r.issueTypes then r.issueTypes[types[0]].percentage else 0.0;
      [Percent(p)] + TypeCells(r, types[1..])
  }

  /** The column of one phase, top to bottom. */
  function Column(r: Report): (cells: seq<Cell>)
    ensures |cells| == |RowTitles|
  {
    var period := match PeriodOf(r) case Some(d) => PeriodDays(d) case None => NotAvailable;
    var throughput := match ThroughputOf(r) case Some(v) => PerDay(v) case None => NotAvailable;
    [period, Count(r.summary.totalIssues), Days(AvgDays(r)), Days(r.summary.maxDays.GetOr(0.0)), throughput]
    + StateCells(r, TableStates) + ReentryCells(r, TableReentryStates) + TypeCells(r, TableTypes)
  }

  function Suffixed(names: seq<string>, suffix: string): (r: seq<string>)
    ensures |r| == |names| && forall k :: 0 <= k < |names| ==> r[k] == names[k] + suffix
  {
    if names == [] then [] else [names[0] + suffix] + Suffixed(names[1..], suffix)
  }

  const RowTitles: seq<string> :=
    ["Analysis Period", "Total Issues Completed", "Average Closure Time", "Longest Closure Time", "Daily Throughput"]
    + Suffixed(TableStates, " State Avg Time") + Suffixed(TableReentryStates, " Re-entry Rate")
    + Suffixed(TableTypes, " Percentage")

  /** One row of the table: its title and one cell per phase. */
  datatype Row = Row(title: string, cells: seq<Cell>)

  /** The metric table: every row has exactly one cell per phase, taken from that phase's column. */
  function MetricTable(reports: seq<Report>): (rows: seq<Row>)
    ensures |rows| == |RowTitles| == 19
    ensures forall k :: 0 <= k < |rows| ==> rows[k].title == RowTitles[k] && |rows[k].cells| == |reports|
    ensures forall k, i :: 0 <= k < |rows| && 0 <= i < |reports| ==> rows[k].cells[i] == Column(reports[i])[k]
  {
    seq(|RowTitles|, k requires 0 <= k < |RowTitles| =>
      Row(RowTitles[k], seq(|reports|, i requires 0 <= i < |reports| => Column(reports[i])[k])))
  }

  /**
   * A phase without a report shows no period, no throughput and no state
   * figures, zero issues and closure times, and a zero share for every type.
   */
  lemma EmptyColumn(phase: PhaseConfig.Phase)
    ensures Column(EmptyReport(phase))
            == [NotAvailable, Count(0), Days(0.0), Days(0.0), NotAvailable]
               + seq(|TableStates| + |TableReentryStates|, _ => NotAvailable)
               + seq(|TableTypes|, _ => Percent(0.0))
  {
    var r := EmptyReport(phase);
    assert PeriodOf(r) == None;
    var states := StateCells(r, TableStates);
    var reentry := ReentryCells(r, TableReentryStates);
    var types := TypeCells(r, TableTypes);
    assert states + reentry == seq(|TableStates| + |TableReentryStates|, _ => NotAvailable);
    assert types == seq(|TableTypes|, _ => Percent(0.0));
  }

  lemma {:induction false} TokenLengthAt(token: string, rest: string)
    requires forall k :: 0 <= k < |token| ==> !IsSpace(token[k])
    requires rest == [] || IsSpace(rest[0])
    ensures TokenLength(token + rest) == |token|
    decreases |token|
  {
    if token == [] {
      assert token + rest == rest;
    } else {
      TokenLengthAt(token[1..], rest);
      assert (token + rest)[1..] == token[1..] + rest;
    }
  }

  /** A token followed by whitespace is the first token. */
  lemma TokenFirst(token: string, rest: string)
    requires token != [] && forall k :: 0 <= k < |token| ==> !IsSpace(token[k])
    requires rest == [] || IsSpace(rest[0])
    ensures FirstToken(token + rest) == Some(token)
  {
    var s := token + rest;
    TokenLengthAt(token, rest);
    assert s[..|token|] == token;
  }

  /** A rendered date is a single token. */
  lemma DateIsToken(y: nat, m: nat, d: nat, time: string)
    ensures FirstToken(Timestamps.FormatDate(y, m, d) + " " + time) == Some(Timestamps.FormatDate(y, m, d))
  {
    var date := Timestamps.FormatDate(y, m, d);
    var year, month, day := Pad(y, 4), Pad(m, 2), Pad(d, 2);
    assert forall k :: 0 <= k < |date| ==> !IsSpace(date[k]) by {
      assert forall k :: 0 <= k < 4 ==> date[k] == year[k];
      assert forall k :: 5 <= k < 7 ==> date[k] == month[k - 5];
      assert forall k :: 8 <= k < 10 ==> date[k] == day[k - 8];
    }
    assert date + " " + time == date + (" " + time);
    TokenFirst(date, " " + time);
  }

  /** The day a rendered resolution timestamp falls on. */
  lemma DateOfRendered(y: nat, m: nat, d: nat, time: string)
    requires 1 <= y <= 9999 && Timestamps.ValidDate(y, m, d)
    ensures DateOf(Timestamps.FormatDate(y, m, d) + " " + time) == Some(Timestamps.DaysFromCivil(y, m, d))
    ensures Timestamps.FormatDate(y, m, d) + " " + time != NotAvailableText
  {
    DateIsToken(y, m, d, time);
    Timestamps.YmdRoundTrip(y, m, d);
    assert |Timestamps.FormatDate(y, m, d) + " " + time| != |NotAvailableText|;
  }
}

=== FILE: jql.dfy ===
/**
 * The JQL query the Jira scripts send: `convert_date_to_jql` turns a
 * `YYYY-MM-DD` date into a day offset relative to today, and
 * `build_jql_query` joins the project, assignee, resolution-date and status
 * conditions with ` AND `.
 */
module Jql {
  import opened Wrappers
  import opened Text
  import opened Timestamps

  /**
   * `(datetime.now() - input_date).days`: whole days from midnight of day
   * number `day` to the local wall-clock reading `now` (microseconds), rounded
   * toward negative infinity as `timedelta.days` is.
   */
  function DaysAgo(day: int, now: int): (d: int)
    ensures (day + d) * MicrosPerDay <= now < (day + d + 1) * MicrosPerDay
  {
    (now - day * MicrosPerDay) / MicrosPerDay
  }

  /** `startOfDay()` for today, `"-Nd"` for N days ago, `"Nd"` for N days ahead. */
  function RelativeDays(d: int): string {
    if d == 0 then "startOfDay()"
    else if d > 0 then "\"-" + NatToString(d) + "d\""
    else "\"" + NatToString(-d) + "d\""
  }

  /** Reads an offset back from its JQL form. */
  function ReadRelativeDays(r: string): Option<int> {
    if r == "startOfDay()" then Some(0)
    else if |r| >= 4 && r[0] == '"' && r[1] == '-' && r[|r| - 2] == 'd' && r[|r| - 1] == '"' && IsNumeral(r[2..|r| - 2]) then
      Some(DigitsValue(r[2..|r| - 2]))
    else if |r| >= 3 && r[0] == '"' && r[|r| - 2] == 'd' && r[|r| - 1] == '"' && IsNumeral(r[1..|r| - 2]) then
      var ahead: int := DigitsValue(r[1..|r| - 2]);
      Some(-ahead)
    else None
  }

  /** The offset can be read back from the rendered expression: no two offsets render alike. */
  lemma RelativeDaysRoundTrip(d: int)
    ensures ReadRelativeDays(RelativeDays(d)) == Some(d)
  {
    var r := RelativeDays(d);
    if d > 0 {
      NatToStringRoundTrip(d);
      assert r[2..|r| - 2] == NatToString(d);
    } else if d < 0 {
      NatToStringRoundTrip(-d);
      assert r[1..|r| - 2] == NatToString(-d);
      assert r[1] != '-';
    }
  }

  /**
   * `convert_date_to_jql(date_str)` with the local clock reading `now`:
   * `None` for a missing or empty date, the date quoted verbatim when it is
   * not `YYYY-MM-DD`, and the relative offset otherwise.
   */
  function ConvertDateToJql(date: Option<string>, now: int): (r: Option<string>)
    ensures r.None? <==> !Truthy(date)
    ensures Truthy(date) && ParseYmd(date.value).None? ==> r == Some("\"" + date.value + "\"")
    ensures Truthy(date) && ParseYmd(date.value).Some? ==>
              && r.Some? && ReadRelativeDays(r.value).Some?
              && var day, days := ParseYmd(date.value).value, ReadRelativeDays(r.value).value;
                 (day + days) * MicrosPerDay <= now < (day + days + 1) * MicrosPerDay
  {
    if !Truthy(date) then None
    else match ParseYmd(date.value)
      case None => Some("\"" + date.value + "\"")
      case Some(day) =>
        RelativeDaysRoundTrip(DaysAgo(day, now));
        Some(RelativeDays(DaysAgo(day, now)))
  }

  /** A well-formed date converts to its offset from today, in whole days. */
  lemma ConvertDateOffset(y: nat, m: nat, d: nat, now: int)
    requires 1 <= y <= 9999 && ValidDate(y, m, d)
    ensures var days := DaysAgo(DaysFromCivil(y, m, d), now);
            && ConvertDateToJql(Some(FormatDate(y, m, d)), now) == Some(RelativeDays(days))
            && (DaysFromCivil(y, m, d) + days) * MicrosPerDay <= now < (DaysFromCivil(y, m, d) + days + 1) * MicrosPerDay
  {
    YmdRoundTrip(y, m, d);
    assert FormatDate(y, m, d) != "";
  }

  /** One condition of the query. */
  datatype Clause =
    | Project(key: string)
    | Assignee(name: string)
    | ResolvedFrom(expr: string)
    | ResolvedUntil(expr: string)
    | Status(name: string)

  function Render(c: Clause): string {
    match c
    case Project(k) => "project = \"" + k + "\""
    case Assignee(a) => "assignee = \"" + a + "\""
    case ResolvedFrom(e) => "resolved >= " + e
    case ResolvedUntil(e) => "resolved <= " + e
    case Status(s) => "status = \"" + s + "\""
  }

  /**
   * The date or status conditions: the resolution bounds if either date is
   * given (with the already converted expressions), otherwise the status if given.
   */
  function Filters(start: Option<string>, end: Option<string>, status: Option<string>,
                   fromExpr: string, untilExpr: string): (fs: seq<Clause>)
    ensures (exists c :: c in fs && c.ResolvedFrom?) <==> Truthy(start)
    ensures (exists c :: c in fs && c.ResolvedUntil?) <==> Truthy(end)
    ensures (exists c :: c in fs && c.Status?) <==> Truthy(status) && !Truthy(start) && !Truthy(end)
    ensures forall c :: c in fs ==> (c.ResolvedFrom? && Truthy(start) && c.expr == fromExpr)
                                    || (c.ResolvedUntil? && Truthy(end) && c.expr == untilExpr)
                                    || (c.Status? && Some(c.name) == status)
    ensures forall i, j :: 0 <= i < |fs| && 0 <= j < |fs| && fs[i].ResolvedFrom? && fs[j].ResolvedUntil? ==> i < j
    ensures |fs| <= 2
  {
    var from := if Truthy(start) then [ResolvedFrom(fromExpr)] else [];
    var until := if Truthy(end) then [ResolvedUntil(untilExpr)] else [];
    var fs := if Truthy(start) || Truthy(end) then from + until
              else if Truthy(status) then [Status(status.value)]
              else [];
    assert Truthy(start) ==> from[0] in fs;
    assert Truthy(end) ==> until[0] in fs;
    assert Truthy(status) && !Truthy(start) && !Truthy(end) ==> fs[0] in fs;
    fs
  }

  /**
   * The conditions `build_jql_query` collects, in order: the project, the
   * assignee if given, then the filters.
   */
  function Clauses(project: string, start: Option<string>, end: Option<string>, status: Option<string>,
                   assignee: Option<string>, now: int): (cs: seq<Clause>)
    ensures |cs| >= 1 && cs[0] == Project(project) && forall c :: c in cs[1..] ==> !c.Project?
    ensures (exists c :: c in cs && c.Assignee?) <==> Truthy(assignee)
    ensures Truthy(assignee) ==> |cs| >= 2 && cs[1] == Assignee(assignee.value)
    ensures forall i :: 0 <= i < |cs| && cs[i].Assignee? ==> i == 1
    ensures forall i, j :: 0 <= i < |cs| && 0 <= j < |cs| && cs[i].ResolvedFrom? && cs[j].ResolvedUntil? ==> i < j
    ensures forall c :: c in cs && c.Assignee? ==> Some(c.name) == assignee
    ensures forall c :: c in cs && c.Status? ==> Some(c.name) == status
    ensures forall c :: c in cs && c.ResolvedFrom? ==> Some(c.expr) == ConvertDateToJql(start, now)
    ensures forall c :: c in cs && c.ResolvedUntil? ==> Some(c.expr) == ConvertDateToJql(end, now)
    ensures |cs| <= 4
  {
    ClausesOf(project, start, end, status, assignee, ConvertDateToJql(start, now), ConvertDateToJql(end, now))
  }

  /** `Clauses` with the two converted dates given. */
  function ClausesOf(project: string, start: Option<string>, end: Option<string>, status: Option<string>,
                     assignee: Option<string>, fromExpr: Option<string>, untilExpr: Option<string>): (cs: seq<Clause>)
    requires fromExpr.Some? <==> Truthy(start)
    requires untilExpr.Some? <==> Truthy(end)
    ensures |cs| >= 1 && cs[0] == Project(project) && forall c :: c in cs[1..] ==> !c.Project?
    ensures (exists c :: c in cs && c.Assignee?) <==> Truthy(assignee)
    ensures Truthy(assignee) ==> |cs| >= 2 && cs[1] == Assignee(assignee.value)
    ensures forall i :: 0 <= i < |cs| && cs[i].Assignee? ==> i == 1
    ensures forall i, j :: 0 <= i < |cs| && 0 <= j < |cs| && cs[i].ResolvedFrom? && cs[j].ResolvedUntil? ==> i < j
    ensures forall c :: c in cs && c.Assignee? ==> Some(c.name) == assignee
    ensures forall c :: c in cs && c.Status? ==> Some(c.name) == status
    ensures forall c :: c in cs && c.ResolvedFrom? ==> Some(c.expr) == fromExpr
    ensures forall c :: c in cs && c.ResolvedUntil? ==> Some(c.expr) == untilExpr
    ensures |cs| <= 4
  {
    var rs := Conditions(start, end, status, assignee, fromExpr, untilExpr);
    var cs := [Project(project)] + rs;
    assert cs[1..] == rs;
    assert forall i :: 1 <= i < |cs| ==> cs[i] == rs[i - 1];
    assert forall c :: c in cs ==> c == Project(project) || c in rs;
    cs
  }

  /** The conditions after the project one: the assignee if given, then the filters. */
  function Conditions(start: Option<string>, end: Option<string>, status: Option<string>,
                      assignee: Option<string>, fromExpr: Option<string>, untilExpr: Option<string>): (rs: seq<Clause>)
    ensures (exists c :: c in rs && c.Assignee?) <==> Truthy(assignee)
    ensures forall c :: c in rs ==> !c.Project?
                                    && (c.Assignee? ==> Some(c.name) == assignee)
                                    && (c.Status? ==> Some(c.name) == status)
                                    && (c.ResolvedFrom? ==> Truthy(start) && c.expr == fromExpr.GetOr(""))
                                    && (c.ResolvedUntil? ==> Truthy(end) && c.expr == untilExpr.GetOr(""))
    ensures Truthy(assignee) ==> |rs| >= 1 && rs[0] == Assignee(assignee.value)
    ensures forall i :: 0 <= i < |rs| && rs[i].Assignee? ==> i == 0
    ensures forall i, j :: 0 <= i < |rs| && 0 <= j < |rs| && rs[i].ResolvedFrom? && rs[j].ResolvedUntil? ==> i < j
    ensures |rs| <= 3
  {
    var who := if Truthy(assignee) then [Assignee(assignee.value)] else [];
    var fs := Filters(start, end, status, fromExpr.GetOr(""), untilExpr.GetOr(""));
    assert Truthy(assignee) ==> who[0] in who + fs;
    assert forall i :: |who| <= i < |who + fs| ==> (who + fs)[i] == fs[i - |who|];
    who + fs
  }

  /**
   * A resolution bound is present exactly when its date is given; the status
   * condition exactly when a status is given and neither date is.
   */
  lemma ClausesFilters(project: string, start: Option<string>, end: Option<string>, status: Option<string>,
                       assignee: Option<string>, now: int)
    ensures var cs := Clauses(project, start, end, status, assignee, now);
            && ((exists c :: c in cs && c.ResolvedFrom?) <==> Truthy(start))
            && ((exists c :: c in cs && c.ResolvedUntil?) <==> Truthy(end))
            && ((exists c :: c in cs && c.Status?) <==> Truthy(status) && !Truthy(start) && !Truthy(end))
  {
    var rs := Conditions(start, end, status, assignee, ConvertDateToJql(start, now), ConvertDateToJql(end, now));
    ConditionsFilters(start, end, status, assignee, ConvertDateToJql(start, now), ConvertDateToJql(end, now));
    var cs := Clauses(project, start, end, status, assignee, now);
    assert cs == [Project(project)] + rs;
    assert forall c :: c in cs && !c.Project? ==> c in rs;
  }

  lemma ConditionsFilters(start: Option<string>, end: Option<string>, status: Option<string>,
                          assignee: Option<string>, fromExpr: Option<string>, untilExpr: Option<string>)
    ensures var rs := Conditions(start, end, status, assignee, fromExpr, untilExpr);
            && ((exists c :: c in rs && c.ResolvedFrom?) <==> Truthy(start))
            && ((exists c :: c in rs && c.ResolvedUntil?) <==> Truthy(end))
            && ((exists c :: c in rs && c.Status?) <==> Truthy(status) && !Truthy(start) && !Truthy(end))
  {
    var who := if Truthy(assignee) then [Assignee(assignee.value)] else [];
    var fs := Filters(start, end, status, fromExpr.GetOr(""), untilExpr.GetOr(""));
    assert Conditions(start, end, status, assignee, fromExpr, untilExpr) == who + fs;
  }

  function RenderAll(cs: seq<Clause>): (r: seq<string>)
    ensures |r| == |cs| && forall i :: 0 <= i < |cs| ==> r[i] == Render(cs[i])
  {
    seq(|cs|, i requires 0 <= i < |cs| => Render(cs[i]))
  }

  /** `build_jql_query(...)`: the rendered conditions joined with ` AND `. */
  function BuildJql(project: string, start: Option<string>, end: Option<string>, status: Option<string>,
                    assignee: Option<string>, now: int): (q: string)
    ensures StartsWith(q, Render(Project(project)))
  {
    var parts := RenderAll(Clauses(project, start, end, status, assignee, now));
    assert parts[0] == Render(Project(project));
    JoinStartsWith(parts, " AND ");
    Join(parts, " AND ")
  }

  lemma JoinStartsWith(parts: seq<string>, sep: string)
    requires parts != []
    ensures StartsWith(Join(parts, sep), parts[0])
  {
    var j := Join(parts, sep);
    if |parts| > 1 {
      assert j == parts[0] + (sep + Join(parts[1..], sep));
    }
    assert j[..|parts[0]|] == parts[0];
  }

  /** `" AND ".join` of three and of four parts. */
  lemma JoinThree(a: string, b: string, c: string, sep: string)
    ensures Join([a, b, c], sep) == a + sep + b + sep + c
  {
    assert [a, b, c][1..] == [b, c] && [b, c][1..] == [c];
    assert Join([b, c], sep) == b + sep + c;
    assert Join([a, b, c], sep) == a + sep + (b + sep + c);
  }

  lemma JoinFour(a: string, b: string, c: string, d: string, sep: string)
    ensures Join([a, b, c, d], sep) == a + sep + b + sep + c + sep + d
  {
    assert [a, b, c, d][1..] == [b, c, d];
    JoinThree(b, c, d, sep);
    assert Join([a, b, c, d], sep) == a + sep + (b + sep + c + sep + d);
  }

  /**
   * With every argument given, the query names the project, the assignee and
   * the two resolution bounds, in that order; a status is then ignored.
   */
  lemma FullQuery(project: string, start: string, end: string, status: Option<string>, assignee: string, now: int)
    requires start != "" && end != "" && assignee != ""
    ensures var from := ConvertDateToJql(Some(start), now);
            var until := ConvertDateToJql(Some(end), now);
            && from.Some? && until.Some?
            && BuildJql(project, Some(start), Some(end), status, Some(assignee), now)
               == Render(Project(project)) + " AND " + Render(Assignee(assignee)) + " AND "
                  + Render(ResolvedFrom(from.value)) + " AND " + Render(ResolvedUntil(until.value))
  {
    var from := ConvertDateToJql(Some(start), now).value;
    var until := ConvertDateToJql(Some(end), now).value;
    var cs := Clauses(project, Some(start), Some(end), status, Some(assignee), now);
    assert cs == ClausesOf(project, Some(start), Some(end), status, Some(assignee), Some(from), Some(until));
    FullClauses(project, start, end, status, assignee, from, until);
    assert RenderAll(cs) == [Render(Project(project)), Render(Assignee(assignee)), Render(ResolvedFrom(from)), Render(ResolvedUntil(until))];
    JoinFour(Render(Project(project)), Render(Assignee(assignee)), Render(ResolvedFrom(from)), Render(ResolvedUntil(until)), " AND ");
  }

  lemma FullClauses(project: string, start: string, end: string, status: Option<string>, assignee: string, from: string, until: string)
    requires start != "" && end != "" && assignee != ""
    ensures ClausesOf(project, Some(start), Some(end), status, Some(assignee), Some(from), Some(until))
            == [Project(project), Assignee(assignee), ResolvedFrom(from), ResolvedUntil(until)]
  {
    var fs := Filters(Some(start), Some(end), status, from, until);
    assert fs == [ResolvedFrom(from), ResolvedUntil(until)];
    var rs := Conditions(Some(start), Some(end), status, Some(assignee), Some(from), Some(until));
    assert rs == [Assignee(assignee)] + fs;
  }

  /** Without dates, the status condition follows the assignee. */
  lemma StatusQuery(project: string, status: string, assignee: string, now: int)
    requires status != "" && assignee != ""
    ensures BuildJql(project, None, None, Some(status), Some(assignee), now)
            == Render(Project(project)) + " AND " + Render(Assignee(assignee)) + " AND " + Render(Status(status))
  {
    var fs := Filters(None, None, Some(status), "", "");
    assert fs == [Status(status)];
    var rs := Conditions(None, None, Some(status), Some(assignee), None, None);
    assert rs == [Assignee(assignee)] + fs;
    var cs := Clauses(project, None, None, Some(status), Some(assignee), now);
    assert cs == [Project(project)] + rs;
    assert cs == [Project(project), Assignee(assignee), Status(status)];
    assert RenderAll(cs) == [Render(Project(project)), Render(Assignee(assignee)), Render(Status(status))];
    JoinThree(Render(Project(project)), Render(Assignee(assignee)), Render(Status(status)), " AND ");
  }

  /** With no other filter, the query is just the project condition. */
  lemma ProjectOnly(project: string, now: int)
    ensures BuildJql(project, None, None, None, None, now) == "project = \"" + project + "\""
  {
  }
}

=== FILE: legacy_comparison.dfy ===
/**
 * The older comparison script (`generate_comparison_report.py`), which reads
 * the Chinese-labelled reports: it labels its columns by how many reports
 * there are rather than by a phase configuration, sorts the reports by file
 * name, shares the metric table with the Jira comparison, and closes with a
 * few "conclusions" and a one-line verdict on the average closure time.
 */
module LegacyComparison {
  import opened Wrappers
  import opened Text
  import Lex
  import opened ReportParse
  import JiraTable
  import JiraReportFiles
  import ReportUtils

  // ---------------------------------------------------------------------------
  // Phase labels

  /** `"Phase {i+1}"`. */
  function GenericLabel(i: nat): string {
    "Phase " + NatToString(i + 1)
  }

  /** Two reports are before and after; three are the three tool periods; any other count is numbered. */
  function PhaseNames(n: nat): (names: seq<string>)
    ensures |names| == n
  {
    if n == 2 then ["Before AI", "After AI"]
    else if n == 3 then ["No AI", "Cursor", "Comprehensive AI Tools"]
    else seq(n, i requires 0 <= i < n => GenericLabel(i))
  }

  lemma GenericLabelsDistinct(i: nat, j: nat)
    requires i != j
    ensures GenericLabel(i) != GenericLabel(j)
  {
    var a, b := NatToString(i + 1), NatToString(j + 1);
    NatToStringRoundTrip(i + 1);
    NatToStringRoundTrip(j + 1);
    assert GenericLabel(i)[6..] == a;
    assert GenericLabel(j)[6..] == b;
  }

  /** No two columns share a label, whatever the number of reports. */
  lemma PhaseNamesDistinct(n: nat)
    ensures forall i, j :: 0 <= i < j < n ==> PhaseNames(n)[i] != PhaseNames(n)[j]
  {
    if n != 2 && n != 3 {
      forall i, j | 0 <= i < j < n
        ensures PhaseNames(n)[i] != PhaseNames(n)[j]
      {
        GenericLabelsDistinct(i, j);
      }
    }
  }

  /** Four or more reports are numbered from one, in order. */
  lemma PhaseNamesNumbered(n: nat, i: nat)
    requires n >= 4 && i < n
    ensures PhaseNames(n)[i] == "Phase " + NatToString(i + 1)
  {
  }

  // ---------------------------------------------------------------------------
  // Phase lines

  /** One `Phase i: label (from to until, period)` line. */
  datatype PhaseLine = PhaseLine(name: string, since: string, until: string, period: Option<int>)

  /**
   * `earliest.split()[0]` unless the text is `N/A`, as the script writes it:
   * a blank text has no first token, and the index raises.
   */
  function ShownDateAsWritten(s: string): (r: Result<string>)
    ensures r.Raises? <==> s != JiraTable.NotAvailableText && JiraTable.FirstToken(s).None?
  {
    if s == JiraTable.NotAvailableText then Ok(JiraTable.NotAvailableText)
    else match JiraTable.FirstToken(s)
      case None => Raises("IndexError: list index out of range")
      case Some(t) => Ok(t)
  }

  /** The date shown for a resolution timestamp, `N/A` when the text has no first token. */
  function ShownDate(s: string): (d: string)
    ensures ShownDateAsWritten(s).Ok? ==> d == ShownDateAsWritten(s).value
    ensures ShownDateAsWritten(s).Raises? ==> d == JiraTable.NotAvailableText
  {
    if s == JiraTable.NotAvailableText then JiraTable.NotAvailableText
    else JiraTable.FirstToken(s).GetOr(JiraTable.NotAvailableText)
  }

  function Earliest(r: Report): string {
    r.summary.earliestResolved.GetOr(JiraTable.NotAvailableText)
  }

  function Latest(r: Report): string {
    r.summary.latestResolved.GetOr(JiraTable.NotAvailableText)
  }

  /** The phase lines as written: the first report whose resolution text is blank makes the script raise. */
  function PhaseLinesAsWritten(labels: seq<string>, reports: seq<Report>): (r: Result<seq<PhaseLine>>)
    requires |labels| == |reports|
    ensures r.Ok? ==> |r.value| == |reports|
  {
    if reports == [] then Ok([])
    else
      var since :- ShownDateAsWritten(Earliest(reports[0]));
      var until :- ShownDateAsWritten(Latest(reports[0]));
      var rest :- PhaseLinesAsWritten(labels[1..], reports[1..]);
      Ok([PhaseLine(labels[0], since, until, JiraTable.PeriodBetween(Earliest(reports[0]), Latest(reports[0])))] + rest)
  }

  /**
   * The phase lines, one per report: its label, the dates its earliest and
   * latest resolution fall on, and the period between them, which is the
   * period of the report's table column.
   */
  function PhaseLines(labels: seq<string>, reports: seq<Report>): (lines: seq<PhaseLine>)
    requires |labels| == |reports|
    ensures |lines| == |reports|
    ensures forall i :: 0 <= i < |reports| ==>
              && lines[i].name == labels[i]
              && lines[i].since == ShownDate(Earliest(reports[i]))
              && lines[i].until == ShownDate(Latest(reports[i]))
              && lines[i].period == JiraTable.PeriodOf(reports[i])
  {
    if reports == [] then []
    else
      var line := PhaseLine(labels[0], ShownDate(Earliest(reports[0])), ShownDate(Latest(reports[0])),
                            JiraTable.PeriodBetween(Earliest(reports[0]), Latest(reports[0])));
      [line] + PhaseLines(labels[1..], reports[1..])
  }

  /** Wherever the script does not raise, it writes exactly the corrected lines. */
  lemma {:induction false} PhaseLinesAgree(labels: seq<string>, reports: seq<Report>)
    requires |labels| == |reports|
    ensures PhaseLinesAsWritten(labels, reports).Ok? ==> PhaseLinesAsWritten(labels, reports).value == PhaseLines(labels, reports)
  {
    if reports != [] {
      PhaseLinesAgree(labels[1..], reports[1..]);
    }
  }

  /** The script raises exactly when some report's resolution text is present, not `N/A`, and blank. */
  lemma {:induction false} PhaseLinesRaise(labels: seq<string>, reports: seq<Report>)
    requires |labels| == |reports|
    ensures PhaseLinesAsWritten(labels, reports).Raises? <==>
            exists i :: 0 <= i < |reports| && (ShownDateAsWritten(Earliest(reports[i])).Raises?
                                               || ShownDateAsWritten(Latest(reports[i])).Raises?)
  {
    if reports != [] {
      PhaseLinesRaise(labels[1..], reports[1..]);
      assert forall i :: 1 <= i < |reports| ==> reports[i] == reports[1..][i - 1];
      assert forall i :: 0 <= i < |reports| - 1 ==> reports[1..][i] == reports[i + 1];
    }
  }

  /**
   * A report whose `最早解决时间:` line is present but empty reads back as an
   * empty earliest resolution; the phase lines then raise, although the table
   * shows that report's period as `N/A`.
   */
  lemma BlankResolutionRaises(r: Report)
    requires r.summary.earliestResolved == Some("")
    ensures PhaseLinesAsWritten(["Phase"], [r]).Raises?
    ensures JiraTable.PeriodOf(r).None?
    ensures PhaseLines(["Phase"], [r])[0].since == JiraTable.NotAvailableText
  {
    assert Earliest(r) == "";
    assert ShownDateAsWritten("").Raises?;
  }

  // ---------------------------------------------------------------------------
  // Conclusions

  /** `(first - last) / first * 100`: the fall in percent, positive when the value went down. */
  function Improvement(first: real, last: real): (p: real)
    requires first > 0.0
    ensures p > 0.0 <==> last < first
    ensures p == 0.0 <==> last == first
    ensures ReportUtils.PercentChange(first, last) == Some(-p)
  {
    var p := (first - last) / first * 100.0;
    assert p * first == (first - last) * 100.0;
    assert (last - first) / first * 100.0 == -p;
    p
  }

  /** One `• metric: first → last (±x% change)` line. */
  datatype Conclusion = Conclusion(metric: string, first: real, last: real, improvement: real)

  const ConclusionStates: seq<string> := ["To Do", "In Progress", "Review"]

  /** A state's line appears only when both the first and the last report spent time in it. */
  function StateConclusions(first: Report, last: Report, states: seq<string>): (cs: seq<Conclusion>)
    ensures forall c :: c in cs ==> c.metric in states && c.first > 0.0 && c.last > 0.0
                                    && c.first == JiraTable.StateTime(first, c.metric)
                                    && c.last == JiraTable.StateTime(last, c.metric)
                                    && c.improvement == Improvement(c.first, c.last)
    ensures forall s :: s in states && JiraTable.StateTime(first, s) > 0.0 && JiraTable.StateTime(last, s) > 0.0
              ==> exists c :: c in cs && c.metric == s
    ensures |cs| <= |states|
  {
    if states == [] then []
    else
      var s := states[0];
      var a, b := JiraTable.StateTime(first, s), JiraTable.StateTime(last, s);
      var rest := StateConclusions(first, last, states[1..]);
      if a > 0.0 && b > 0.0 then
        var c := Conclusion(s, a, b, Improvement(a, b));
        assert c in [c] + rest;
        [c] + rest
      else rest
  }

  /**
   * The conclusion lines: the average closure time when the first report's is
   * positive, then each of To Do, In Progress and Review present in both.
   */
  function Conclusions(first: Report, last: Report): (cs: seq<Conclusion>)
    ensures |cs| <= 4
    ensures (exists c :: c in cs && c.metric == "Average Task Closure Time") <==> JiraTable.AvgDays(first) > 0.0
    ensures forall c :: c in cs ==> c.first > 0.0 && c.improvement == Improvement(c.first, c.last)
  {
    var a, b := JiraTable.AvgDays(first), JiraTable.AvgDays(last);
    var head := if a > 0.0 then [Conclusion("Average Task Closure Time", a, b, Improvement(a, b))] else [];
    var states := StateConclusions(first, last, ConclusionStates);
    assert a > 0.0 ==> head[0] in head + states;
    head + states
  }

  /** The verdict: positive exactly when the average closure time fell from a positive start. */
  function Positive(first: Report, last: Report): (positive: bool)
    ensures positive <==> JiraTable.AvgDays(first) > 0.0 && JiraTable.AvgDays(last) < JiraTable.AvgDays(first)
  {
    var a := JiraTable.AvgDays(first);
    var improvement := if a > 0.0 then Improvement(a, JiraTable.AvgDays(last)) else 0.0;
    improvement > 0.0
  }

  // ---------------------------------------------------------------------------
  // The report

  function Filename(r: Report): string {
    r.filename
  }

  datatype Comparison = Comparison(
    labels: seq<string>, phases: seq<PhaseLine>, table: seq<JiraTable.Row>,
    conclusions: seq<Conclusion>, positive: bool)

  /** A report whose earliest or latest resolution text makes the script's `split()[0]` raise. */
  predicate BlankResolution(r: Report) {
    ShownDateAsWritten(Earliest(r)).Raises? || ShownDateAsWritten(Latest(r)).Raises?
  }

  /**
   * `generate_csv_report` as written: nothing for fewer than two reports;
   * otherwise it raises when some report has a blank resolution line, and
   * else writes exactly the corrected comparison.
   */
  function GenerateReport(reports: seq<Report>): (r: Result<Option<Comparison>>)
    ensures |reports| < 2 ==> r == Ok(None)
    ensures |reports| >= 2 ==> (r.Raises? <==> exists i :: 0 <= i < |reports| && BlankResolution(reports[i]))
    ensures r.Ok? ==> r.value == GenerateReportCorrected(reports)
  {
    if |reports| < 2 then Ok(None)
    else
      var sorted := Lex.SortByKey(reports, Filename);
      var labels := PhaseNames(|sorted|);
      PhaseLinesAgree(labels, sorted);
      PhaseLinesRaise(labels, sorted);
      SameBlanks(reports, sorted);
      var phases :- PhaseLinesAsWritten(labels, sorted);
      Ok(Some(Comparison(labels, phases, JiraTable.MetricTable(sorted),
                         Conclusions(sorted[0], sorted[|sorted| - 1]), Positive(sorted[0], sorted[|sorted| - 1]))))
  }

  /** Reordering the reports does not change whether one of them has a blank resolution line. */
  lemma SameBlanks(reports: seq<Report>, sorted: seq<Report>)
    requires multiset(sorted) == multiset(reports)
    ensures (exists i :: 0 <= i < |reports| && BlankResolution(reports[i]))
            <==> (exists i :: 0 <= i < |sorted| && BlankResolution(sorted[i]))
  {
    if i :| 0 <= i < |reports| && BlankResolution(reports[i]) {
      assert reports[i] in multiset(sorted);
      var j :| 0 <= j < |sorted| && sorted[j] == reports[i];
    }
    if i :| 0 <= i < |sorted| && BlankResolution(sorted[i]) {
      assert sorted[i] in multiset(reports);
      var j :| 0 <= j < |reports| && reports[j] == sorted[i];
    }
  }

  /**
   * `generate_csv_report` with the blank resolution shown as `N/A`: nothing
   * for fewer than two reports; otherwise the reports in file-name order,
   * labelled by their number, with the shared metric table and the
   * conclusions from the first and the last.
   */
  function GenerateReportCorrected(reports: seq<Report>): (r: Option<Comparison>)
    ensures r.None? <==> |reports| < 2
    ensures r.Some? ==> |r.value.labels| == |r.value.phases| == |reports|
    ensures r.Some? ==> var sorted := Lex.SortByKey(reports, Filename);
              && Lex.SortedBy(sorted, Filename) && multiset(sorted) == multiset(reports)
              && r.value.table == JiraTable.MetricTable(sorted)
              && r.value.positive == Positive(sorted[0], sorted[|sorted| - 1])
  {
    if |reports| < 2 then None
    else
      var sorted := Lex.SortByKey(reports, Filename);
      var labels := PhaseNames(|sorted|);
      Some(Comparison(labels, PhaseLines(labels, sorted), JiraTable.MetricTable(sorted),
                      Conclusions(sorted[0], sorted[|sorted| - 1]), Positive(sorted[0], sorted[|sorted| - 1])))
  }

  // ---------------------------------------------------------------------------
  // Finding the reports

  const LegacyDir: string := "reports/"

  /** The local part of the assignee's address, or `general`. */
  function LegacyOwner(assignee: Option<string>): string {
    if Truthy(assignee) then Before(assignee.value, '@') else "general"
  }

  /** `find_reports`: the wanted reports of the assignee's local part (or the team) in `reports/`. */
  function FindReports(listing: Option<seq<string>>, assignee: Option<string>): (paths: seq<string>)
    ensures listing.None? ==> paths == []
    ensures listing.Some? ==> forall p :: p in paths <==>
              exists n :: n in listing.value && JiraReportFiles.Wanted(n, LegacyOwner(assignee)) && p == LegacyDir + n
    ensures forall i, j :: 0 <= i < j < |paths| ==> Lex.LexLe(paths[i], paths[j])
  {
    JiraReportFiles.FindIn(listing, LegacyDir, JiraReportFiles.JiraReports, LegacyOwner(assignee))
  }

  /** A name built from an owner and a timestamp is wanted for that owner. */
  lemma OwnNameWanted(who: string, stamp: string)
    ensures JiraReportFiles.Wanted(JiraReportFiles.ReportPrefix + who + "_" + stamp + ".txt", who)
  {
    var name := JiraReportFiles.ReportPrefix + who + "_" + stamp + ".txt";
    assert name == (JiraReportFiles.ReportPrefix + who + "_") + (stamp + ".txt");
    ContainsAtIndex(name, JiraReportFiles.ReportPrefix + who + "_", 0);
  }

  /** Every report the metrics script saves is found again for the same assignee, whatever the address. */
  lemma SavedReportFound(assignee: Option<string>, stamp: string)
    ensures JiraReportFiles.Wanted(JiraReportFiles.SavedReportName(assignee, stamp), LegacyOwner(assignee))
  {
    OwnNameWanted(LegacyOwner(assignee), stamp);
  }
}

=== FILE: lex.dfy ===
/**
 * Python's ordering of strings (code point by code point, a proper prefix
 * first) and `sorted(..., key=...)` over it, as the scripts use to order
 * report file names.
 */
module Lex {

  /** `a <= b` on Python strings. */
  predicate LexLe(a: string, b: string)
    decreases |a|
  {
    a == [] || (b != [] && (a[0] < b[0] || (a[0] == b[0] && LexLe(a[1..], b[1..]))))
  }

  lemma {:induction false} LexLeTotal(a: string, b: string)
    ensures LexLe(a, b) || LexLe(b, a)
    decreases |a|
  {
    if a != [] && b != [] && a[0] == b[0] {
      LexLeTotal(a[1..], b[1..]);
    }
  }

  lemma {:induction false} LexLeTrans(a: string, b: string, c: string)
    requires LexLe(a, b) && LexLe(b, c)
    ensures LexLe(a, c)
    decreases |a|
  {
    if a != [] && b != [] && c != [] && a[0] == b[0] && b[0] == c[0] {
      LexLeTrans(a[1..], b[1..], c[1..]);
    }
  }

  lemma {:induction false} LexLeAntisym(a: string, b: string)
    requires LexLe(a, b) && LexLe(b, a)
    ensures a == b
    decreases |a|
  {
    if a != [] && b != [] {
      LexLeAntisym(a[1..], b[1..]);
      assert a == [a[0]] + a[1..] && b == [b[0]] + b[1..];
    }
  }

  predicate SortedBy<T>(s: seq<T>, key: T -> string) {
    forall i, j :: 0 <= i < j < |s| ==> LexLe(key(s[i]), key(s[j]))
  }

  /** Puts `x` before the first element whose key is not smaller: earlier equal keys stay first. */
  function InsertByKey<T>(x: T, s: seq<T>, key: T -> string): (r: seq<T>)
    ensures multiset(r) == multiset(s) + multiset{x}
    ensures |r| == |s| + 1 && (r[0] == x || (s != [] && r[0] == s[0]))
  {
    if s == [] || LexLe(key(x), key(s[0])) then [x] + s
    else
      assert s == [s[0]] + s[1..];
      [s[0]] + InsertByKey(x, s[1..], key)
  }

  lemma {:induction false} InsertByKeySorted<T>(x: T, s: seq<T>, key: T -> string)
    requires SortedBy(s, key)
    ensures SortedBy(InsertByKey(x, s, key), key)
  {
    if s == [] || LexLe(key(x), key(s[0])) {
      var r := [x] + s;
      forall i, j | 0 <= i < j < |r|
        ensures LexLe(key(r[i]), key(r[j]))
      {
        if i == 0 {
          assert r[j] == s[j - 1];
          if j > 1 {
            LexLeTrans(key(x), key(s[0]), key(s[j - 1]));
          }
        } else {
          assert r[i] == s[i - 1] && r[j] == s[j - 1];
        }
      }
    } else {
      LexLeTotal(key(x), key(s[0]));
      var rest := InsertByKey(x, s[1..], key);
      InsertByKeySorted(x, s[1..], key);
      forall j | 0 <= j < |rest|
        ensures LexLe(key(s[0]), key(rest[j]))
      {
        assert rest[j] in multiset(rest);
        if rest[j] != x {
          assert rest[j] in multiset(s[1..]);
          var k :| 0 <= k < |s[1..]| && s[1..][k] == rest[j];
          assert s[k + 1] == rest[j];
        }
      }
      var r := [s[0]] + rest;
      forall i, j | 0 <= i < j < |r|
        ensures LexLe(key(r[i]), key(r[j]))
      {
        assert r[j] == rest[j - 1];
        if i > 0 {
          assert r[i] == rest[i - 1];
        }
      }
    }
  }

  /** Python's stable `sorted(s, key=key)`. */
  function SortByKey<T>(s: seq<T>, key: T -> string): (r: seq<T>)
    ensures SortedBy(r, key) && multiset(r) == multiset(s) && |r| == |s|
  {
    if s == [] then []
    else
      assert s == [s[0]] + s[1..];
      var rest := SortByKey(s[1..], key);
      InsertByKeySorted(s[0], rest, key);
      assert |multiset(InsertByKey(s[0], rest, key))| == |multiset(s)|;
      InsertByKey(s[0], rest, key)
  }

  /** The elements whose key is `k`, in their order. */
  function WithKey<T>(s: seq<T>, key: T -> string, k: string): seq<T> {
    if s == [] then [] else (if key(s[0]) == k then [s[0]] else []) + WithKey(s[1..], key, k)
  }

  lemma WithKeyCons<T>(x: T, t: seq<T>, key: T -> string, k: string)
    ensures WithKey([x] + t, key, k) == (if key(x) == k then [x] else []) + WithKey(t, key, k)
  {
    assert ([x] + t)[1..] == t;
  }

  /** Inserting `x` puts it ahead of every element with the same key. */
  lemma {:induction false} InsertWithKey<T>(x: T, s: seq<T>, key: T -> string, k: string)
    ensures WithKey(InsertByKey(x, s, key), key, k) == (if key(x) == k then [x] else []) + WithKey(s, key, k)
  {
    if s == [] || LexLe(key(x), key(s[0])) {
      assert InsertByKey(x, s, key) == [x] + s;
      WithKeyCons(x, s, key, k);
    } else {
      LexLeTotal(key(x), key(x));
      assert key(x) != key(s[0]);
      var rest := InsertByKey(x, s[1..], key);
      InsertWithKey(x, s[1..], key, k);
      assert InsertByKey(x, s, key) == [s[0]] + rest;
      assert s == [s[0]] + s[1..];
      WithKeyCons(s[0], rest, key, k);
      WithKeyCons(s[0], s[1..], key, k);
    }
  }

  /** The sort is stable: elements with equal keys keep their order. */
  lemma {:induction false} SortByKeyStable<T>(s: seq<T>, key: T -> string, k: string)
    ensures WithKey(SortByKey(s, key), key, k) == WithKey(s, key, k)
  {
    if s != [] {
      SortByKeyStable(s[1..], key, k);
      InsertWithKey(s[0], SortByKey(s[1..], key), key, k);
      assert s == [s[0]] + s[1..];
      WithKeyCons(s[0], s[1..], key, k);
    }
  }

  /** Input already in order comes back unchanged. */
  lemma {:induction false} SortSortedUnchanged<T>(s: seq<T>, key: T -> string)
    requires SortedBy(s, key)
    ensures SortByKey(s, key) == s
  {
    if s != [] {
      assert SortedBy(s[1..], key) by {
        forall i, j | 0 <= i < j < |s[1..]|
          ensures LexLe(key(s[1..][i]), key(s[1..][j]))
        {
          assert s[1..][i] == s[i + 1] && s[1..][j] == s[j + 1];
        }
      }
      SortSortedUnchanged(s[1..], key);
      if |s| > 1 {
        assert LexLe(key(s[0]), key(s[1]));
      }
    }
  }

  function Identity(s: string): string {
    s
  }

  /** `sorted(names)`. */
  function SortStrings(names: seq<string>): (r: seq<string>)
    ensures multiset(r) == multiset(names) && |r| == |names|
    ensures forall i, j :: 0 <= i < j < |r| ==> LexLe(r[i], r[j])
  {
    SortByKey(names, Identity)
  }
}

=== FILE: map_sums.dfy ===
/**
 * Sums over the values of a finite map, the way the scripts total a
 * dictionary's entries (`sum(d[k][field] for k in d)`), independent of the
 * order in which the keys are visited.
 */
module MapSums {

  /** The sum of `f(m[k])` over every key `k` of `m`. */
  ghost function SumOf<K, V>(m: map<K, V>, f: V -> int): int
    decreases |m|
  {
    if m == map[] then 0
    else
      var k :| k in m;
      f(m[k]) + SumOf(m - {k}, f)
  }

  /** Any key can be taken out first: the sum does not depend on the visiting order. */
  lemma {:induction false} SumOfRemove<K, V>(m: map<K, V>, f: V -> int, k: K)
    requires k in m
    ensures SumOf(m, f) == f(m[k]) + SumOf(m - {k}, f)
    decreases |m|
  {
    var j :| j in m && SumOf(m, f) == f(m[j]) + SumOf(m - {j}, f);
    if j != k {
      SumOfRemove(m - {j}, f, k);
      SumOfRemove(m - {k}, f, j);
      assert (m - {j}) - {k} == (m - {k}) - {j};
    }
  }

  /** Writing `v` at `k` changes the sum by the difference between `v` and what was there. */
  lemma SumOfUpdate<K, V>(m: map<K, V>, f: V -> int, k: K, v: V)
    ensures SumOf(m[k := v], f) == SumOf(m, f) - (if k in m then f(m[k]) else 0) + f(v)
  {
    SumOfRemove(m[k := v], f, k);
    assert m[k := v] - {k} == m - {k};
    if k in m {
      SumOfRemove(m, f, k);
    } else {
      assert m - {k} == m;
    }
  }

  lemma SumOfSingleton<K, V>(k: K, v: V, f: V -> int)
    ensures SumOf(map[k := v], f) == f(v)
  {
    SumOfRemove(map[k := v], f, k);
    assert map[k := v] - {k} == map[];
  }
}

=== FILE: phase_config.dfy ===
/**
 * The phase configuration shared by both comparison reports: a shell-style
 * array `PHASES=( "Name|start|end" ... )` (or `GITHUB_PHASES=(...)` for pull
 * requests), read line by line and turned into (name, start, end) triples.
 */
module PhaseConfig {
  import opened Wrappers
  import opened Text
  import Tally

  const JiraMarker: string := "PHASES=("
  const GithubMarker: string := "GITHUB_PHASES=("

  /** One configured phase. */
  datatype Phase = Phase(name: string, start: string, end: string)

  predicate IsComment(line: string) {
    StartsWith(Strip(line), "#")
  }

  /**
   * The text of the array: comment lines are skipped; the text after the
   * first marker starts it (a later marker line starts it again); inside the
   * array whole lines are taken; the first line holding `)` ends it.
   */
  function ArrayLines(lines: seq<string>, marker: string, inArray: bool): seq<string> {
    if lines == [] then []
    else
      var line := lines[0];
      if IsComment(line) then ArrayLines(lines[1..], marker, inArray)
      else match After(line, marker)
        case Some(rest) =>
          [rest] + (if ')' in rest then [] else ArrayLines(lines[1..], marker, true))
        case None =>
          if inArray then [line] + (if ')' in line then [] else ArrayLines(lines[1..], marker, true))
          else ArrayLines(lines[1..], marker, false)
  }

  /**
   * `re.findall(r'"([^"]+)"', s)`: the non-empty texts between quote pairs,
   * scanning left to right. An empty pair `""` does not match, and the
   * search resumes at its second quote.
   */
  function Quoted(s: string): (r: seq<string>)
    ensures forall k :: 0 <= k < |r| ==> r[k] != [] && '"' !in r[k]
    decreases |s|
  {
    if s == [] then []
    else if s[0] != '"' then Quoted(s[1..])
    else match IndexOf(s[1..], '"')
      case None => []
      case Some(i) =>
        if i == 0 then Quoted(s[1..])
        else [s[1..i + 1]] + Quoted(s[i + 2..])
  }

  /** An entry with exactly three `|`-separated parts, each stripped. */
  function PhaseOf(entry: string): (r: Option<Phase>)
    ensures r.Some? <==> |Split(entry, '|')| == 3
    ensures r.Some? ==> '|' !in r.value.name && '|' !in r.value.start && '|' !in r.value.end
  {
    var parts := Split(entry, '|');
    if |parts| == 3 then
      assert forall c :: c in Strip(parts[0]) ==> c in parts[0];
      Some(Phase(Strip(parts[0]), Strip(parts[1]), Strip(parts[2])))
    else None
  }

  /** The phases of the well-formed entries. */
  function Phases(entries: seq<string>): (r: seq<Phase>)
    ensures |r| <= |entries|
    ensures forall p :: p in r <==> exists k :: 0 <= k < |entries| && PhaseOf(entries[k]) == Some(p)
  {
    Tally.Kept(entries, PhaseOf)
  }

  /**
   * The phases are those of the well-formed entries, one for one and in the
   * order of the array: nothing is reordered, merged or repeated.
   */
  lemma PhasesInOrder(entries: seq<string>)
    ensures Tally.Paired(Tally.Filter(entries, Tally.Defined(PhaseOf)), Phases(entries), PhaseOf)
  {
    Tally.KeptInOrder(entries, PhaseOf);
  }

  /**
   * `parse_phase_config`: no phases when the file is absent; otherwise the
   * well-formed entries of the array, in order.
   */
  function ParsePhaseConfig(file: Option<seq<string>>, marker: string): (r: seq<Phase>)
    ensures file.None? ==> r == []
    ensures forall p :: p in r ==> '|' !in p.name && '|' !in p.start && '|' !in p.end
  {
    match file
    case None => []
    case Some(lines) => Phases(Quoted(Concat(ArrayLines(lines, marker, false))))
  }

  /** Phase `k` is the first whose dates are `start` and `end`. */
  predicate FirstWithDates(phases: seq<Phase>, k: int, start: string, end: string) {
    && 0 <= k < |phases| && phases[k].start == start && phases[k].end == end
    && forall j :: 0 <= j < k ==> !(phases[j].start == start && phases[j].end == end)
  }

  /** `get_phase_name_for_report`: the first phase whose dates equal the report's. */
  function PhaseNameFor(start: string, end: string, phases: seq<Phase>): (r: Option<string>)
    ensures r.None? <==> forall k :: 0 <= k < |phases| ==> !(phases[k].start == start && phases[k].end == end)
    ensures r.Some? ==> exists k :: FirstWithDates(phases, k, start, end) && phases[k].name == r.value
  {
    if phases == [] then None
    else if phases[0].start == start && phases[0].end == end then Some(phases[0].name)
    else
      var r := PhaseNameFor(start, end, phases[1..]);
      PhaseNameShift(start, end, phases, r);
      r
  }

  lemma PhaseNameShift(start: string, end: string, phases: seq<Phase>, r: Option<string>)
    requires phases != [] && !(phases[0].start == start && phases[0].end == end)
    requires r.Some? ==> exists k :: FirstWithDates(phases[1..], k, start, end) && phases[1..][k].name == r.value
    ensures r.Some? ==> exists k :: FirstWithDates(phases, k, start, end) && phases[k].name == r.value
  {
    if r.Some? {
      var k :| FirstWithDates(phases[1..], k, start, end) && phases[1..][k].name == r.value;
      assert phases[k + 1] == phases[1..][k];
      assert forall j :: 1 <= j < k + 1 ==> phases[j] == phases[1..][j - 1];
      assert FirstWithDates(phases, k + 1, start, end);
    }
  }

  // ---------------------------------------------------------------------------
  // Round trip: a configuration written on one line reads back.

  /** A field that survives the format: no quote, no bar, no surrounding whitespace. */
  predicate PlainField(f: string) {
    '"' !in f && '|' !in f && Strip(f) == f
  }

  predicate Writable(p: Phase) {
    PlainField(p.name) && PlainField(p.start) && PlainField(p.end)
  }

  function Entry(p: Phase): string {
    p.name + "|" + p.start + "|" + p.end
  }

  function Entries(phases: seq<Phase>): string {
    if phases == [] then "" else "\"" + Entry(phases[0]) + "\" " + Entries(phases[1..])
  }

  /** `MARKER=("a|b|c" "d|e|f" )` on one line. */
  function ConfigLine(marker: string, phases: seq<Phase>): string {
    marker + Entries(phases) + ")"
  }

  lemma SplitEntry(p: Phase)
    requires Writable(p)
    ensures Split(Entry(p), '|') == [p.name, p.start, p.end]
  {
    SplitThree(p.name, p.start, p.end);
  }

  lemma SplitThree(a: string, b: string, c: string)
    requires '|' !in a && '|' !in b && '|' !in c
    ensures Split(a + "|" + b + "|" + c, '|') == [a, b, c]
  {
    assert a + "|" + b + "|" + c == a + ['|'] + (b + ['|'] + c);
    SplitAt(a, '|', b + ['|'] + c);
    SplitAt(b, '|', c);
    assert IndexOf(c, '|') == None;
  }

  lemma PhaseOfEntry(p: Phase)
    requires Writable(p)
    ensures PhaseOf(Entry(p)) == Some(p)
  {
    SplitEntry(p);
  }

  function EntryTexts(phases: seq<Phase>): seq<string> {
    if phases == [] then [] else [Entry(phases[0])] + EntryTexts(phases[1..])
  }

  /** A quoted non-empty text is found, and the search goes on after its closing quote. */
  lemma QuotedAt(e: string, tail: string)
    requires e != [] && '"' !in e
    ensures Quoted("\"" + e + "\"" + tail) == [e] + Quoted(tail)
  {
    var s := "\"" + e + "\"" + tail;
    assert s[1..] == e + ['"'] + tail;
    IndexOfAt(e, '"', tail);
    assert s[1..|e| + 1] == e;
    assert s[|e| + 2..] == tail;
  }

  lemma {:induction false} QuotedEntries(phases: seq<Phase>, rest: string)
    requires forall k :: 0 <= k < |phases| ==> Writable(phases[k])
    requires '"' !in rest
    ensures Quoted(Entries(phases) + rest) == EntryTexts(phases)
  {
    if phases == [] {
      assert Entries(phases) + rest == rest;
      QuotedNone(rest);
    } else {
      var e := Entry(phases[0]);
      var tail := Entries(phases[1..]) + rest;
      assert Entries(phases) + rest == "\"" + e + "\"" + (" " + tail);
      assert '"' !in e;
      QuotedAt(e, " " + tail);
      assert (" " + tail)[1..] == tail;
      QuotedEntries(phases[1..], rest);
    }
  }

  lemma QuotedNone(s: string)
    requires '"' !in s
    ensures Quoted(s) == []
  {
    if s != [] {
      assert '"' !in s[1..];
      QuotedNone(s[1..]);
    }
  }

  lemma {:induction false} PhasesOfEntries(phases: seq<Phase>)
    requires forall k :: 0 <= k < |phases| ==> Writable(phases[k])
    ensures Phases(EntryTexts(phases)) == phases
  {
    if phases != [] {
      PhaseOfEntry(phases[0]);
      assert EntryTexts(phases)[1..] == EntryTexts(phases[1..]);
      PhasesOfEntries(phases[1..]);
    }
  }

  lemma StripUnpadded(s: string)
    requires s != [] && !IsSpace(s[0])
    ensures Strip(s) != [] && Strip(s)[0] == s[0]
  {
    assert LeadingSpaces(s) == 0;
    assert !IsSpace(s[0]);
  }

  /** The marker line starts the array and, holding the closing parenthesis, ends it. */
  lemma ArrayOfConfigLine(marker: string, phases: seq<Phase>)
    requires marker == JiraMarker || marker == GithubMarker
    ensures ArrayLines([ConfigLine(marker, phases)], marker, false) == [Entries(phases) + ")"]
  {
    var body := Entries(phases) + ")";
    assert ConfigLine(marker, phases) == marker + body;
    assert marker[0] == 'P' || marker[0] == 'G';
    MarkerLineNotComment(marker, body);
    AfterPrefix(marker, body);
    assert body[|body| - 1] == ')';
    OneMarkerLine(marker + body, marker, body);
  }

  lemma MarkerLineNotComment(marker: string, body: string)
    requires marker != [] && (marker[0] == 'P' || marker[0] == 'G')
    ensures !IsComment(marker + body)
  {
    var line := marker + body;
    assert line[0] == marker[0];
    StripUnpadded(line);
  }

  /** The text after a leading marker is the rest of the line. */
  lemma AfterPrefix(marker: string, body: string)
    ensures After(marker + body, marker) == Some(body)
  {
    var line := marker + body;
    assert line[..|marker|] == marker;
    assert Find(line, marker) == Some(0);
    assert line[|marker|..] == body;
  }

  lemma OneMarkerLine(line: string, marker: string, body: string)
    requires !IsComment(line) && After(line, marker) == Some(body) && ')' in body
    ensures ArrayLines([line], marker, false) == [body]
  {
  }

  /**
   * A configuration whose one array line follows any number of comment lines
   * parses back to exactly its phases, for either marker.
   */
  lemma ConfigRoundTrip(comments: seq<string>, marker: string, phases: seq<Phase>)
    requires marker == JiraMarker || marker == GithubMarker
    requires forall k :: 0 <= k < |comments| ==> IsComment(comments[k])
    requires forall k :: 0 <= k < |phases| ==> Writable(phases[k])
    ensures ParsePhaseConfig(Some(comments + [ConfigLine(marker, phases)]), marker) == phases
  {
    var body := Entries(phases) + ")";
    SkipComments(comments, [ConfigLine(marker, phases)], marker);
    ArrayOfConfigLine(marker, phases);
    assert Concat([body]) == body;
    QuotedEntries(phases, ")");
    PhasesOfEntries(phases);
  }

  lemma {:induction false} SkipComments(comments: seq<string>, rest: seq<string>, marker: string)
    requires forall k :: 0 <= k < |comments| ==> IsComment(comments[k])
    ensures ArrayLines(comments + rest, marker, false) == ArrayLines(rest, marker, false)
  {
    if comments != [] {
      var all := comments + rest;
      assert all[0] == comments[0] && IsComment(all[0]);
      assert all[1..] == comments[1..] + rest;
      assert ArrayLines(all, marker, false) == ArrayLines(all[1..], marker, false);
      SkipComments(comments[1..], rest, marker);
    } else {
      assert comments + rest == rest;
    }
  }

  /** Without a marker line there are no phases. */
  lemma NoMarkerNoPhases(lines: seq<string>, marker: string)
    requires forall k :: 0 <= k < |lines| ==> !Contains(lines[k], marker)
    ensures ParsePhaseConfig(Some(lines), marker) == []
  {
    NoMarkerNoLines(lines, marker);
  }

  lemma {:induction false} NoMarkerNoLines(lines: seq<string>, marker: string)
    requires forall k :: 0 <= k < |lines| ==> !Contains(lines[k], marker)
    ensures ArrayLines(lines, marker, false) == []
  {
    if lines != [] {
      NoMarkerNoLines(lines[1..], marker);
    }
  }
}

=== FILE: pr_comparison.dfy ===
/**
 * The PR comparison report: the saved pull-request metrics of several
 * periods, each matched to a phase of the configuration by its dates, put
 * side by side with the trends from the first period to the last and a
 * one-line verdict on AI adoption.
 */
module PrComparison {
  import opened Wrappers
  import opened Text
  import opened Tally
  import Lex
  import PhaseConfig
  import ReportUtils
  import JiraReportFiles

  // ---------------------------------------------------------------------------
  // Overall metrics of one period

  /** A pull request as a saved metrics file holds it: any field may be missing or null. */
  datatype SavedPr = SavedPr(
    mergeDays: Option<real>, firstReviewHours: Option<real>, changesRequested: Option<real>, commits: Option<real>,
    reviewers: Option<real>, comments: Option<real>, additions: Option<real>, deletions: Option<real>,
    filesChanged: Option<real>, humanReviewers: Option<real>, humanComments: Option<real>,
    humanSubstantiveComments: Option<real>)

  /** `[pr[key] for pr in prs if pr.get(key) is not None]`. */
  function Present(prs: seq<SavedPr>, field: SavedPr -> Option<real>): (values: seq<real>)
    ensures |values| <= |prs|
    ensures |values| == |prs| <==> forall i :: 0 <= i < |prs| ==> field(prs[i]).Some?
    ensures forall v :: v in values <==> exists i :: 0 <= i < |prs| && field(prs[i]) == Some(v)
    ensures Paired(Filter(prs, Defined(field)), values, field)
  {
    KeptInOrder(prs, field);
    Kept(prs, field)
  }

  /** The averages over all pull requests of a period, AI-assisted or not. */
  datatype Overall = Overall(
    mergeDays: real, firstReviewHours: real, changesRequested: real, commits: real, reviewers: real,
    comments: real, additions: real, deletions: real, filesChanged: real,
    humanReviewers: real, humanComments: real, humanSubstantiveComments: real)

  function MergeDaysOf(p: SavedPr): Option<real> { p.mergeDays }
  function FirstReviewOf(p: SavedPr): Option<real> { p.firstReviewHours }
  function ChangesOf(p: SavedPr): Option<real> { p.changesRequested }
  function CommitsOf(p: SavedPr): Option<real> { p.commits }
  function ReviewersOf(p: SavedPr): Option<real> { p.reviewers }
  function CommentsOf(p: SavedPr): Option<real> { p.comments }
  function AdditionsOf(p: SavedPr): Option<real> { p.additions }
  function DeletionsOf(p: SavedPr): Option<real> { p.deletions }
  function FilesOf(p: SavedPr): Option<real> { p.filesChanged }
  function HumanReviewersOf(p: SavedPr): Option<real> { p.humanReviewers }
  function HumanCommentsOf(p: SavedPr): Option<real> { p.humanComments }
  function HumanSubstantiveOf(p: SavedPr): Option<real> { p.humanSubstantiveComments }

  /**
   * `calculate_overall_metrics`: no metrics at all (`{}`) for a period
   * without pull requests; otherwise each average is taken over the pull
   * requests that have the value, and is 0 when none has.
   */
  function OverallMetrics(prs: seq<SavedPr>): (r: Option<Overall>)
    ensures r.None? <==> prs == []
    ensures r.Some? ==> && r.value.mergeDays == Mean(Present(prs, MergeDaysOf))
                        && r.value.firstReviewHours == Mean(Present(prs, FirstReviewOf))
                        && r.value.changesRequested == Mean(Present(prs, ChangesOf))
                        && r.value.commits == Mean(Present(prs, CommitsOf))
                        && r.value.reviewers == Mean(Present(prs, ReviewersOf))
                        && r.value.comments == Mean(Present(prs, CommentsOf))
                        && r.value.additions == Mean(Present(prs, AdditionsOf))
                        && r.value.deletions == Mean(Present(prs, DeletionsOf))
                        && r.value.filesChanged == Mean(Present(prs, FilesOf))
                        && r.value.humanReviewers == Mean(Present(prs, HumanReviewersOf))
                        && r.value.humanComments == Mean(Present(prs, HumanCommentsOf))
                        && r.value.humanSubstantiveComments == Mean(Present(prs, HumanSubstantiveOf))
  {
    if prs == [] then None
    else
      Some(Overall(
        Mean(Present(prs, MergeDaysOf)), Mean(Present(prs, FirstReviewOf)), Mean(Present(prs, ChangesOf)),
        Mean(Present(prs, CommitsOf)), Mean(Present(prs, ReviewersOf)), Mean(Present(prs, CommentsOf)),
        Mean(Present(prs, AdditionsOf)), Mean(Present(prs, DeletionsOf)), Mean(Present(prs, FilesOf)),
        Mean(Present(prs, HumanReviewersOf)), Mean(Present(prs, HumanCommentsOf)),
        Mean(Present(prs, HumanSubstantiveOf))))
  }

  /**
   * Missing values neither count nor pull an average down: it is 0 when no
   * pull request has the value, and otherwise lies within any bounds the
   * present values keep.
   */
  lemma PresentAverage(prs: seq<SavedPr>, field: SavedPr -> Option<real>, lo: real, hi: real)
    requires forall i :: 0 <= i < |prs| && field(prs[i]).Some? ==> lo <= field(prs[i]).value <= hi
    ensures (forall i :: 0 <= i < |prs| ==> field(prs[i]).None?) ==> Mean(Present(prs, field)) == 0.0
    ensures (exists i :: 0 <= i < |prs| && field(prs[i]).Some?) ==> lo <= Mean(Present(prs, field)) <= hi
  {
    var values := Present(prs, field);
    if exists i :: 0 <= i < |prs| && field(prs[i]).Some? {
      var i :| 0 <= i < |prs| && field(prs[i]).Some?;
      assert field(prs[i]).value in values;
      forall j | 0 <= j < |values|
        ensures lo <= values[j] <= hi
      {
        assert values[j] in values;
      }
      MeanBounds(values, lo, hi);
    }
  }

  // ---------------------------------------------------------------------------
  // Trends

  /** `(last - first) / first * 100 if first > 0 else 0`: the change from the first period to the last, in percent. */
  function Trend(first: real, last: real): (change: real)
    ensures first <= 0.0 ==> change == 0.0
    ensures first > 0.0 ==> (change > 0.0 <==> last > first) && (change == 0.0 <==> last == first)
  {
    if first > 0.0 then
      TrendSign(last - first, first);
      (last - first) / first * 100.0
    else 0.0
  }

  lemma TrendSign(d: real, base: real)
    requires base > 0.0
    ensures d / base * 100.0 > 0.0 <==> d > 0.0
    ensures d / base * 100.0 == 0.0 <==> d == 0.0
  {
    if d > 0.0 {
      DivideOrdered(0.0, d, base);
    } else {
      DivideOrdered(d, 0.0, base);
      if d / base == 0.0 {
        assert d == d / base * base;
      }
    }
  }

  /** For a positive first value the trend is the percentage change the Jira reports use too. */
  lemma TrendIsPercentChange(first: real, last: real)
    requires first > 0.0
    ensures ReportUtils.PercentChange(first, last) == Some(Trend(first, last))
  {
  }

  // ---------------------------------------------------------------------------
  // The report

  /** What the comparison reads of one saved report. */
  datatype PrReport = PrReport(filename: string, startDate: string, endDate: string,
                               totalPrs: int, aiPrs: int, nonAiPrs: int, adoptionRate: real,
                               claudePrs: int, cursorPrs: int, overall: Option<Overall>)

  function StartKey(r: PrReport): string {
    r.startDate
  }

  /** The phase whose dates are the report's, when it has a non-empty name. */
  predicate Named(r: PrReport, config: seq<PhaseConfig.Phase>) {
    Truthy(PhaseConfig.PhaseNameFor(r.startDate, r.endDate, config))
  }

  /** The phase name of every report, in order; the first report without one stops the report. */
  function PhaseNames(reports: seq<PrReport>, config: seq<PhaseConfig.Phase>): (names: Option<seq<string>>)
    ensures names.Some? <==> forall i :: 0 <= i < |reports| ==> Named(reports[i], config)
    ensures names.Some? ==> |names.value| == |reports| && forall i :: 0 <= i < |reports| ==>
              Some(names.value[i]) == PhaseConfig.PhaseNameFor(reports[i].startDate, reports[i].endDate, config)
  {
    if reports == [] then Some([])
    else
      assert forall i :: 1 <= i < |reports| ==> reports[i] == reports[1..][i - 1];
      var name := PhaseConfig.PhaseNameFor(reports[0].startDate, reports[0].endDate, config);
      if !Truthy(name) then None
      else
        var rest :- PhaseNames(reports[1..], config);
        Some([name.value] + rest)
  }

  /** A row of the overall table: one value per report, `None` ("N/A") for a report without overall metrics. */
  function OverallRow(reports: seq<PrReport>, field: Overall -> real): (row: seq<Option<real>>)
    ensures |row| == |reports|
    ensures forall i :: 0 <= i < |reports| ==>
              (row[i].None? <==> reports[i].overall.None?) && (row[i].Some? ==> row[i].value == field(reports[i].overall.value))
  {
    seq(|reports|, i requires 0 <= i < |reports| => if reports[i].overall.Some? then Some(field(reports[i].overall.value)) else None)
  }

  function AvgMergeDays(o: Overall): real { o.mergeDays }
  function AvgFirstReview(o: Overall): real { o.firstReviewHours }
  function AvgChanges(o: Overall): real { o.changesRequested }
  function AvgCommits(o: Overall): real { o.commits }
  function AvgReviewers(o: Overall): real { o.reviewers }
  function AvgHumanReviewers(o: Overall): real { o.humanReviewers }
  function AvgComments(o: Overall): real { o.comments }
  function AvgHumanSubstantive(o: Overall): real { o.humanSubstantiveComments }
  function AvgAdditions(o: Overall): real { o.additions }
  function AvgDeletions(o: Overall): real { o.deletions }
  function AvgFiles(o: Overall): real { o.filesChanged }

  /**
   * The averages of the overall table, in the order the report prints them:
   * merge time, first review, changes requested, commits, reviewers,
   * reviewers without bots, comments, substantive comments, lines added,
   * lines deleted, files changed.
   */
  const RowMetrics: seq<Overall -> real> :=
    [AvgMergeDays, AvgFirstReview, AvgChanges, AvgCommits, AvgReviewers, AvgHumanReviewers,
     AvgComments, AvgHumanSubstantive, AvgAdditions, AvgDeletions, AvgFiles]

  /**
   * The table's overall rows: row `k` holds the `k`-th average of every
   * report, "N/A" for a report without overall metrics.
   */
  function OverallRows(reports: seq<PrReport>): (rows: seq<seq<Option<real>>>)
    ensures |rows| == |RowMetrics|
    ensures forall k :: 0 <= k < |rows| ==> rows[k] == OverallRow(reports, RowMetrics[k]) && |rows[k]| == |reports|
    ensures forall k, i :: 0 <= k < |rows| && 0 <= i < |reports| ==>
              rows[k][i] == if reports[i].overall.Some? then Some(RowMetrics[k](reports[i].overall.value)) else None
  {
    [OverallRow(reports, AvgMergeDays), OverallRow(reports, AvgFirstReview), OverallRow(reports, AvgChanges),
     OverallRow(reports, AvgCommits), OverallRow(reports, AvgReviewers), OverallRow(reports, AvgHumanReviewers),
     OverallRow(reports, AvgComments), OverallRow(reports, AvgHumanSubstantive), OverallRow(reports, AvgAdditions),
     OverallRow(reports, AvgDeletions), OverallRow(reports, AvgFiles)]
  }

  /** The values of one average over the reports that have overall metrics, in order. */
  function Measured(reports: seq<PrReport>, field: Overall -> real): (values: seq<real>)
    ensures |values| <= |reports|
    ensures |values| == |reports| <==> forall i :: 0 <= i < |reports| ==> reports[i].overall.Some?
  {
    if reports == [] then []
    else
      assert forall i :: 1 <= i < |reports| ==> reports[i] == reports[1..][i - 1];
      var rest := Measured(reports[1..], field);
      if reports[0].overall.Some? then [field(reports[0].overall.value)] + rest else rest
  }

  /** A trend line appears only when at least two reports have the value. */
  function TrendOf(values: seq<real>): (r: Option<real>)
    ensures r.Some? <==> |values| >= 2
    ensures r.Some? ==> r.value == Trend(values[0], values[|values| - 1])
  {
    if |values| >= 2 then Some(Trend(values[0], values[|values| - 1])) else None
  }

  datatype Band = Strong | Moderate | Early

  /** The adoption verdict: above 50 percent strong, above 20 moderate, early otherwise. */
  function BandOf(rate: real): (b: Band)
    ensures b == Strong <==> rate > 50.0
    ensures b == Moderate <==> 20.0 < rate <= 50.0
    ensures b == Early <==> rate <= 20.0
  {
    if rate > 50.0 then Strong else if rate > 20.0 then Moderate else Early
  }

  /** The summary: the last period's band, and the productivity line, printed only with strong adoption. */
  datatype Summary = Summary(band: Band, productivityLine: bool)

  function SummaryOf(adoption: seq<real>, mergeTimes: seq<real>): (s: Option<Summary>)
    requires adoption != []
    ensures s.Some? <==> |mergeTimes| >= 2
    ensures s.Some? ==> s.value.band == BandOf(adoption[|adoption| - 1])
    ensures s.Some? ==> (s.value.productivityLine <==>
                          adoption[|adoption| - 1] > 50.0 && mergeTimes[|mergeTimes| - 1] < mergeTimes[0])
  {
    if |mergeTimes| >= 2 then
      var band := BandOf(adoption[|adoption| - 1]);
      Some(Summary(band, band == Strong && mergeTimes[|mergeTimes| - 1] < mergeTimes[0]))
    else None
  }

  function AdoptionRate(r: PrReport): real {
    r.adoptionRate
  }

  /** `[r["ai_adoption_rate"] for r in reports]`. */
  function Rates(reports: seq<PrReport>): (rates: seq<real>)
    ensures |rates| == |reports| && forall i :: 0 <= i < |reports| ==> rates[i] == reports[i].adoptionRate
  {
    if reports == [] then []
    else
      assert forall i :: 1 <= i < |reports| ==> reports[i] == reports[1..][i - 1];
      [reports[0].adoptionRate] + Rates(reports[1..])
  }

  datatype TsvReport = TsvReport(
    reports: seq<PrReport>, phaseNames: seq<string>, overallRows: seq<seq<Option<real>>>,
    adoptionChange: real, mergeTrend: Option<real>, reviewTrend: Option<real>,
    humanReviewerTrend: Option<real>, humanCommentTrend: Option<real>, summary: Option<Summary>)

  /**
   * `generate_tsv_report`: nothing without two reports or a configuration,
   * or when a report (in start-date order) has no phase; otherwise one column
   * per report in that order.
   */
  function GenerateTsvReport(reports: seq<PrReport>, config: seq<PhaseConfig.Phase>): (r: Option<TsvReport>)
    ensures r.Some? <==> |reports| >= 2 && config != [] && forall i :: 0 <= i < |reports| ==> Named(reports[i], config)
    ensures r.Some? ==> r.value.reports == Lex.SortByKey(reports, StartKey)
    ensures r.Some? ==> Lex.SortedBy(r.value.reports, StartKey) && multiset(r.value.reports) == multiset(reports)
    ensures r.Some? ==> |r.value.phaseNames| == |reports| && forall i :: 0 <= i < |reports| ==>
              Some(r.value.phaseNames[i]) == PhaseConfig.PhaseNameFor(r.value.reports[i].startDate, r.value.reports[i].endDate, config)
    ensures r.Some? ==> r.value.overallRows == OverallRows(r.value.reports)
    ensures r.Some? ==> && r.value.mergeTrend == TrendOf(Measured(r.value.reports, AvgMergeDays))
                        && r.value.reviewTrend == TrendOf(Measured(r.value.reports, AvgFirstReview))
                        && r.value.humanReviewerTrend == TrendOf(Measured(r.value.reports, AvgHumanReviewers))
                        && r.value.humanCommentTrend == TrendOf(Measured(r.value.reports, AvgHumanSubstantive))
    ensures r.Some? ==> r.value.adoptionChange == r.value.reports[|reports| - 1].adoptionRate - r.value.reports[0].adoptionRate
    ensures r.Some? && r.value.summary.Some? ==> r.value.summary.value.band == BandOf(r.value.reports[|reports| - 1].adoptionRate)
    ensures r.Some? && (forall i :: 0 <= i < |reports| ==> reports[i].overall.Some?) ==>
              && (forall i :: 0 <= i < |reports| ==> r.value.reports[i].overall.Some?)
              && r.value.mergeTrend == Some(Trend(r.value.reports[0].overall.value.mergeDays,
                                                  r.value.reports[|reports| - 1].overall.value.mergeDays))
  {
    if |reports| < 2 || config == [] then None
    else
      var columns := Columns(reports, config);
      if columns.None? then None
      else
        var t := Tables(columns.value.0, columns.value.1);
        assert t.reports == columns.value.0 && |t.reports| == |reports|;
        assert t.adoptionChange == t.reports[|reports| - 1].adoptionRate - t.reports[0].adoptionRate;
        Some(t)
  }

  /** The reports in start-date order with their phase names, unless a report has no phase. */
  function Columns(reports: seq<PrReport>, config: seq<PhaseConfig.Phase>): (c: Option<(seq<PrReport>, seq<string>)>)
    ensures c.Some? <==> forall i :: 0 <= i < |reports| ==> Named(reports[i], config)
    ensures c.Some? ==> c.value.0 == Lex.SortByKey(reports, StartKey) && |c.value.0| == |reports|
    ensures c.Some? ==> Lex.SortedBy(c.value.0, StartKey) && multiset(c.value.0) == multiset(reports)
    ensures c.Some? ==> |c.value.1| == |reports| && forall i :: 0 <= i < |reports| ==>
              Some(c.value.1[i]) == PhaseConfig.PhaseNameFor(c.value.0[i].startDate, c.value.0[i].endDate, config)
    ensures c.Some? && (forall i :: 0 <= i < |reports| ==> reports[i].overall.Some?) ==>
              forall i :: 0 <= i < |reports| ==> c.value.0[i].overall.Some?
  {
    var sorted := Lex.SortByKey(reports, StartKey);
    SameReports(reports, sorted, config);
    SortedOverall(reports, sorted);
    match PhaseNames(sorted, config)
    case None => None
    case Some(names) => Some((sorted, names))
  }

  /**
   * The report's tables for reports already in start-date order: the
   * overall rows, the adoption change from the first period to the last and
   * the trend lines, each over the reports that have overall metrics.
   */
  function Tables(sorted: seq<PrReport>, names: seq<string>): (t: TsvReport)
    requires |sorted| >= 2
    ensures t.reports == sorted && t.phaseNames == names
    ensures t.overallRows == OverallRows(sorted)
    ensures t.adoptionChange == sorted[|sorted| - 1].adoptionRate - sorted[0].adoptionRate
    ensures && t.mergeTrend == TrendOf(Measured(sorted, AvgMergeDays))
            && t.reviewTrend == TrendOf(Measured(sorted, AvgFirstReview))
            && t.humanReviewerTrend == TrendOf(Measured(sorted, AvgHumanReviewers))
            && t.humanCommentTrend == TrendOf(Measured(sorted, AvgHumanSubstantive))
    ensures t.summary.Some? <==> t.mergeTrend.Some?
    ensures t.summary.Some? ==> t.summary.value.band == BandOf(sorted[|sorted| - 1].adoptionRate)
    ensures (forall i :: 0 <= i < |sorted| ==> sorted[i].overall.Some?) ==>
              t.mergeTrend == Some(Trend(sorted[0].overall.value.mergeDays, sorted[|sorted| - 1].overall.value.mergeDays))
  {
    MeasuredTrend(sorted, AvgMergeDays);
    TsvReport(
      sorted, names, OverallRows(sorted),
      sorted[|sorted| - 1].adoptionRate - sorted[0].adoptionRate,
      TrendOf(Measured(sorted, AvgMergeDays)), TrendOf(Measured(sorted, AvgFirstReview)),
      TrendOf(Measured(sorted, AvgHumanReviewers)), TrendOf(Measured(sorted, AvgHumanSubstantive)),
      Summarize(sorted))
  }

  /**
   * The summary of reports in start-date order: present when at least two
   * reports have a merge time, banded by the last period's adoption rate.
   */
  function Summarize(sorted: seq<PrReport>): (s: Option<Summary>)
    requires sorted != []
    ensures s.Some? <==> |Measured(sorted, AvgMergeDays)| >= 2
    ensures s.Some? ==> s.value.band == BandOf(sorted[|sorted| - 1].adoptionRate)
    ensures s.Some? ==> var mergeTimes := Measured(sorted, AvgMergeDays);
              (s.value.productivityLine <==>
                 sorted[|sorted| - 1].adoptionRate > 50.0 && mergeTimes[|mergeTimes| - 1] < mergeTimes[0])
  {
    var adoption := Rates(sorted);
    assert adoption[|adoption| - 1] == sorted[|sorted| - 1].adoptionRate;
    SummaryOf(adoption, Measured(sorted, AvgMergeDays))
  }

  /** Sorting keeps the same reports, so every report has a phase exactly when every sorted one has. */
  lemma SameReports(reports: seq<PrReport>, sorted: seq<PrReport>, config: seq<PhaseConfig.Phase>)
    requires multiset(sorted) == multiset(reports)
    ensures (forall i :: 0 <= i < |reports| ==> Named(reports[i], config)) <==>
            (forall i :: 0 <= i < |sorted| ==> Named(sorted[i], config))
  {
    forall r | r in reports ensures r in sorted {
      assert r in multiset(reports);
    }
    forall r | r in sorted ensures r in reports {
      assert r in multiset(sorted);
    }
    if forall i :: 0 <= i < |reports| ==> Named(reports[i], config) {
      forall i | 0 <= i < |sorted| ensures Named(sorted[i], config) {
        assert sorted[i] in reports;
      }
    }
    if forall i :: 0 <= i < |sorted| ==> Named(sorted[i], config) {
      forall i | 0 <= i < |reports| ensures Named(reports[i], config) {
        assert reports[i] in sorted;
      }
    }
  }

  /** Sorting keeps the reports, so when every report has overall metrics every sorted one has. */
  lemma SortedOverall(reports: seq<PrReport>, sorted: seq<PrReport>)
    requires multiset(sorted) == multiset(reports)
    ensures |sorted| == |reports|
    ensures (forall i :: 0 <= i < |reports| ==> reports[i].overall.Some?) ==>
              forall i :: 0 <= i < |sorted| ==> sorted[i].overall.Some?
  {
    assert |sorted| == |multiset(sorted)| == |multiset(reports)| == |reports|;
    if forall i :: 0 <= i < |reports| ==> reports[i].overall.Some? {
      forall i | 0 <= i < |sorted| ensures sorted[i].overall.Some? {
        assert sorted[i] in multiset(reports);
      }
    }
  }

  /** When every report has overall metrics, the trend runs from the first report to the last. */
  lemma MeasuredTrend(reports: seq<PrReport>, field: Overall -> real)
    requires |reports| >= 2
    ensures (forall i :: 0 <= i < |reports| ==> reports[i].overall.Some?) ==>
              TrendOf(Measured(reports, field)) == Some(Trend(field(reports[0].overall.value), field(reports[|reports| - 1].overall.value)))
  {
    if forall i :: 0 <= i < |reports| ==> reports[i].overall.Some? {
      MeasuredEnds(reports, field);
    }
  }

  lemma {:induction false} MeasuredEnds(reports: seq<PrReport>, field: Overall -> real)
    requires forall i :: 0 <= i < |reports| ==> reports[i].overall.Some?
    ensures |Measured(reports, field)| == |reports|
    ensures forall i :: 0 <= i < |reports| ==> Measured(reports, field)[i] == field(reports[i].overall.value)
  {
    if reports != [] {
      assert forall i :: 1 <= i < |reports| ==> reports[i] == reports[1..][i - 1];
      MeasuredEnds(reports[1..], field);
    }
  }

  // ---------------------------------------------------------------------------
  // Which reports are compared

  const PrReportsDir: string := "reports/github/"

  const PrReports: JiraReportFiles.Pattern := JiraReportFiles.Pattern("pr_metrics_", ".json")

  /** Whose reports are compared: the author's, or the team's (`general`). */
  function PrOwner(author: Option<string>): string {
    if Truthy(author) then author.value else "general"
  }

  /** `find_pr_reports`: the author's (or the team's) metrics files in `reports/github`, sorted. */
  function FindPrReports(listing: Option<seq<string>>, author: Option<string>): (paths: seq<string>)
    ensures listing.None? ==> paths == []
    ensures listing.Some? ==> forall p :: p in paths <==>
              exists n :: n in listing.value && JiraReportFiles.Named(n, PrReports, PrOwner(author)) && p == PrReportsDir + n
    ensures forall i, j :: 0 <= i < j < |paths| ==> Lex.LexLe(paths[i], paths[j])
  {
    JiraReportFiles.FindIn(listing, PrReportsDir, PrReports, PrOwner(author))
  }

  /** The name `get_pr_metrics` saves its metrics under. */
  function SavedPrReportName(author: Option<string>, stamp: string): string {
    "pr_metrics_" + PrOwner(author) + "_" + stamp + ".json"
  }

  /** A saved metrics file is found again by the comparison for the same author (or the team). */
  lemma SavedPrReportFound(author: Option<string>, stamp: string)
    ensures JiraReportFiles.Named(SavedPrReportName(author, stamp), PrReports, PrOwner(author))
  {
    var who := PrOwner(author);
    var name := SavedPrReportName(author, stamp);
    assert name == ("pr_metrics_" + who + "_") + (stamp + ".json");
    ContainsAtIndex(name, "pr_metrics_" + who + "_", 0);
  }

  /** Of the files found, the comparison uses the last four at most, and needs two. */
  lemma SelectFoundPrReports(listing: Option<seq<string>>, author: Option<string>)
    ensures var files := FindPrReports(listing, author);
            && (JiraReportFiles.SelectReports(files).Ok? <==> |files| >= 2)
            && (|files| >= 2 ==> JiraReportFiles.SelectReports(files) == Ok(JiraReportFiles.Last(files, ReportUtils.Min(4, |files|))))
  {
    var files := FindPrReports(listing, author);
    assert Lex.SortedBy(files, Lex.Identity);
    Lex.SortSortedUnchanged(files, Lex.Identity);
    assert Lex.SortStrings(files) == files;
  }
}

=== FILE: pr_metrics.dfy ===
/**
 * The statistics `get_pr_metrics` draws from the metrics of a period's
 * merged pull requests: how many were AI-assisted and with which tool, the
 * averages of each group, and how far the AI group's merge time and
 * requested changes fall below the others'.
 */
module PrMetrics {
  import opened Wrappers
  import opened Text
  import opened Tally
  import GitHubClient
  import PullDetails
  import ReportUtils

  type Metrics = PullDetails.Metrics

  /** The averages of one group of pull requests. */
  datatype GroupStats = GroupStats(
    count: nat, mergeDays: real, firstReviewHours: real, changesRequested: real, commits: real,
    reviewers: real, comments: real, additions: real, deletions: real, filesChanged: real)

  /** How much lower the AI group's averages are, in percent of the others'. */
  datatype Comparison = Comparison(mergeTimeImprovement: real, changesRequestedReduction: real)

  /** The per-tool counts and group statistics, present only for a non-empty input. */
  datatype Details = Details(claudePrs: nat, cursorPrs: nat, bothToolsPrs: nat,
                             aiStats: Option<GroupStats>, nonAiStats: Option<GroupStats>, comparison: Comparison)

  datatype Statistics = Statistics(totalPrs: nat, aiPrs: nat, nonAiPrs: nat, adoptionRate: real, details: Option<Details>)

  predicate IsAi(m: Metrics) {
    m.hasAi
  }

  predicate NotAi(m: Metrics) {
    !m.hasAi
  }

  predicate NamesClaude(m: Metrics) {
    "Claude" in m.aiTools
  }

  predicate NamesCursor(m: Metrics) {
    "Cursor" in m.aiTools
  }

  predicate NamesSeveral(m: Metrics) {
    |m.aiTools| > 1
  }

  /** `[pr[field] for pr in group]`. */
  function Column(group: seq<Metrics>, field: Metrics -> real): (values: seq<real>)
    ensures |values| == |group| && forall i :: 0 <= i < |group| ==> values[i] == field(group[i])
  {
    seq(|group|, i requires 0 <= i < |group| => field(group[i]))
  }

  /**
   * The waits for a first review that are truthy: a pull request without
   * reviews (`None`) and one reviewed at the very moment it was opened (0)
   * are both left out.
   */
  function ReviewWaits(group: seq<Metrics>): (waits: seq<real>)
    ensures |waits| <= |group|
    ensures forall w :: w in waits ==> w != 0.0 && exists i :: 0 <= i < |group| && group[i].firstReviewHours == Some(w)
    ensures forall i :: 0 <= i < |group| && group[i].firstReviewHours.Some? && group[i].firstReviewHours.value != 0.0 ==>
              group[i].firstReviewHours.value in waits
    ensures Paired(Filter(group, Defined(WaitOf)), waits, WaitOf)
  {
    KeptInOrder(group, WaitOf);
    Kept(group, WaitOf)
  }

  /** The time to first review when there is one and it is not zero. */
  function WaitOf(m: Metrics): (w: Option<real>)
    ensures w.Some? <==> m.firstReviewHours.Some? && m.firstReviewHours.value != 0.0
    ensures w.Some? ==> m.firstReviewHours == w
  {
    match m.firstReviewHours
    case Some(h) => if h != 0.0 then Some(h) else None
    case None => None
  }

  function MergeDays(m: Metrics): real { m.mergeDays }
  function ChangesRequestedOf(m: Metrics): real { m.changesRequested as real }
  function CommitsOf(m: Metrics): real { m.totalCommits as real }
  function ReviewersOf(m: Metrics): real { m.reviewerCount as real }
  function CommentsOf(m: Metrics): real { m.totalComments as real }
  function AdditionsOf(m: Metrics): real { m.additions as real }
  function DeletionsOf(m: Metrics): real { m.deletions as real }
  function FilesOf(m: Metrics): real { m.changedFiles as real }

  /** The averages of a group, and no statistics at all (`{}`) for an empty one. */
  function GroupStatsOf(group: seq<Metrics>): (s: Option<GroupStats>)
    ensures s.None? <==> group == []
    ensures s.Some? ==> s.value.count == |group|
    ensures s.Some? ==> AverageOf(s.value.mergeDays, Column(group, MergeDays))
    ensures s.Some? ==> s.value.firstReviewHours == Mean(ReviewWaits(group))
    ensures s.Some? ==> && s.value.mergeDays == Mean(Column(group, MergeDays))
                        && s.value.changesRequested == Mean(Column(group, ChangesRequestedOf))
                        && s.value.commits == Mean(Column(group, CommitsOf))
                        && s.value.reviewers == Mean(Column(group, ReviewersOf))
                        && s.value.comments == Mean(Column(group, CommentsOf))
                        && s.value.additions == Mean(Column(group, AdditionsOf))
                        && s.value.deletions == Mean(Column(group, DeletionsOf))
                        && s.value.filesChanged == Mean(Column(group, FilesOf))
  {
    if group == [] then None
    else
      MeanIsAverage(Column(group, MergeDays));
      Some(Averages(group))
  }

  /** `m` is the average of `xs`: `len(xs)` times it makes their sum. */
  predicate AverageOf(m: real, xs: seq<real>) {
    m * |xs| as real == Sum(xs)
  }

  lemma MeanIsAverage(xs: seq<real>)
    ensures AverageOf(Mean(xs), xs)
  {
  }

  function Averages(group: seq<Metrics>): GroupStats {
    GroupStats(
      |group|, Mean(Column(group, MergeDays)), Mean(ReviewWaits(group)),
      Mean(Column(group, ChangesRequestedOf)), Mean(Column(group, CommitsOf)), Mean(Column(group, ReviewersOf)),
      Mean(Column(group, CommentsOf)), Mean(Column(group, AdditionsOf)), Mean(Column(group, DeletionsOf)),
      Mean(Column(group, FilesOf)))
  }

  /** `stats.get(key, default)` on a group's statistics. */
  function Avg(s: Option<GroupStats>, field: GroupStats -> real, default: real): real {
    if s.Some? then field(s.value) else default
  }

  function AvgMergeDays(g: GroupStats): real { g.mergeDays }
  function AvgChangesRequested(g: GroupStats): real { g.changesRequested }

  /** `(other - ai) / other * 100` when the others' average is positive, else 0. */
  function Reduction(ai: Option<GroupStats>, other: Option<GroupStats>, field: GroupStats -> real): (p: real)
    ensures Avg(other, field, 0.0) <= 0.0 ==> p == 0.0
    ensures Avg(other, field, 0.0) > 0.0 ==> (p > 0.0 <==> Avg(ai, field, 0.0) < Avg(other, field, 0.0))
    ensures Avg(other, field, 0.0) > 0.0 ==> (p == 0.0 <==> Avg(ai, field, 0.0) == Avg(other, field, 0.0))
    ensures Avg(other, field, 0.0) > 0.0 ==>
              p == (Avg(other, field, 0.0) - Avg(ai, field, 0.0)) / Avg(other, field, 0.0) * 100.0
  {
    var base := Avg(other, field, 0.0);
    if base > 0.0 then
      var d := base - Avg(ai, field, 0.0);
      SignOfShare(d, Avg(other, field, 1.0));
      d / Avg(other, field, 1.0) * 100.0
    else 0.0
  }

  /**
   * The reduction is the percentage change from the others' average to the
   * AI group's, with the sign turned round: a drop counts as an improvement.
   */
  lemma ReductionIsPercentChange(ai: Option<GroupStats>, other: Option<GroupStats>, field: GroupStats -> real)
    requires Avg(other, field, 0.0) > 0.0
    ensures ReportUtils.PercentChange(Avg(other, field, 0.0), Avg(ai, field, 0.0)) == Some(-Reduction(ai, other, field))
  {
    var base := Avg(other, field, 0.0);
    var d := base - Avg(ai, field, 0.0);
    NegatedShare(d, base);
  }

  lemma NegatedShare(d: real, base: real)
    requires base > 0.0
    ensures (-d) / base * 100.0 == -(d / base * 100.0)
  {
    var q := d / base;
    assert q * base == d;
    assert (-q) * base == -d;
  }

  lemma SignOfShare(d: real, base: real)
    requires base > 0.0
    ensures d / base * 100.0 > 0.0 <==> d > 0.0
    ensures d / base * 100.0 == 0.0 <==> d == 0.0
  {
    if d > 0.0 {
      DivideOrdered(0.0, d, base);
    } else {
      DivideOrdered(d, 0.0, base);
      if d / base == 0.0 {
        assert d == d / base * base;
      }
    }
  }

  /** `calculate_statistics`. */
  function CalculateStatistics(prs: seq<Metrics>): (s: Statistics)
    ensures prs == [] ==> s == Statistics(0, 0, 0, 0.0, None)
    ensures s.details.Some? <==> prs != []
    ensures s.totalPrs == |prs| && s.aiPrs == CountWhere(prs, IsAi) && s.nonAiPrs == CountWhere(prs, NotAi)
    ensures s.details.Some? ==> s.details.value.aiStats.Some? == (s.aiPrs > 0) && s.details.value.nonAiStats.Some? == (s.nonAiPrs > 0)
    ensures s.details.Some? ==> var d := s.details.value;
                                && d.aiStats == GroupStatsOf(Filter(prs, IsAi))
                                && d.nonAiStats == GroupStatsOf(Filter(prs, NotAi))
    ensures s.details.Some? ==> var d := s.details.value;
                                && d.claudePrs == CountWhere(Filter(prs, IsAi), NamesClaude)
                                && d.cursorPrs == CountWhere(Filter(prs, IsAi), NamesCursor)
                                && d.bothToolsPrs == CountWhere(Filter(prs, IsAi), NamesSeveral)
    ensures s.details.Some? ==> var d := s.details.value;
                                d.comparison == Comparison(Reduction(d.aiStats, d.nonAiStats, AvgMergeDays),
                                                           Reduction(d.aiStats, d.nonAiStats, AvgChangesRequested))
  {
    if prs == [] then Statistics(0, 0, 0, 0.0, None)
    else
      var ai := Filter(prs, IsAi);
      var others := Filter(prs, NotAi);
      CountIsFilterLength(prs, IsAi);
      CountIsFilterLength(prs, NotAi);
      var aiStats := GroupStatsOf(ai);
      var otherStats := GroupStatsOf(others);
      var comparison := Comparison(Reduction(aiStats, otherStats, AvgMergeDays),
                                   Reduction(aiStats, otherStats, AvgChangesRequested));
      var details := Details(CountWhere(ai, NamesClaude), CountWhere(ai, NamesCursor), CountWhere(ai, NamesSeveral),
                             aiStats, otherStats, comparison);
      Statistics(|prs|, |ai|, |others|, Percentage(|ai|, |prs|), Some(details))
  }

  /** Every pull request is in exactly one group, and the adoption rate is the AI group's share. */
  lemma GroupsPartition(prs: seq<Metrics>)
    ensures CalculateStatistics(prs).aiPrs + CalculateStatistics(prs).nonAiPrs == CalculateStatistics(prs).totalPrs
    ensures CalculateStatistics(prs).adoptionRate == Percentage(CalculateStatistics(prs).aiPrs, CalculateStatistics(prs).totalPrs)
    ensures 0.0 <= CalculateStatistics(prs).adoptionRate <= 100.0
  {
    CountSplit(prs, IsAi, NotAi);
    if prs != [] {
      var ai := CountWhere(prs, IsAi);
      CountIsFilterLength(prs, IsAi);
      PercentageBound(ai, |prs|);
    }
  }

  /** The per-tool counts are drawn from the AI group only. */
  lemma ToolCountsBounded(prs: seq<Metrics>)
    requires prs != []
    ensures var d := CalculateStatistics(prs).details.value;
            d.claudePrs <= CalculateStatistics(prs).aiPrs && d.cursorPrs <= CalculateStatistics(prs).aiPrs && d.bothToolsPrs <= CalculateStatistics(prs).aiPrs
  {
    CountIsFilterLength(prs, IsAi);
  }

  /** Tool lists as `detect_ai_assistance` writes them: distinct names of the two assistants. */
  predicate KnownTools(m: Metrics) {
    (forall t :: t in m.aiTools ==> t == "Claude" || t == "Cursor")
    && forall i, j :: 0 <= i < j < |m.aiTools| ==> m.aiTools[i] != m.aiTools[j]
  }

  lemma SeveralMeansBoth(m: Metrics)
    requires KnownTools(m) && NamesSeveral(m)
    ensures NamesClaude(m) && NamesCursor(m)
  {
    var a, b := m.aiTools[0], m.aiTools[1];
    assert a != b && a in m.aiTools && b in m.aiTools;
  }

  /** With tool lists as the client writes them, a pull request counted for both tools is counted for each. */
  lemma BothWithinEach(prs: seq<Metrics>)
    requires prs != []
    requires forall i :: 0 <= i < |prs| ==> KnownTools(prs[i])
    ensures var d := CalculateStatistics(prs).details.value;
            d.bothToolsPrs <= d.claudePrs && d.bothToolsPrs <= d.cursorPrs
  {
    var ai := Filter(prs, IsAi);
    forall i | 0 <= i < |ai| && NamesSeveral(ai[i])
      ensures NamesClaude(ai[i]) && NamesCursor(ai[i])
    {
      assert ai[i] in prs;
      SeveralMeansBoth(ai[i]);
    }
    CountMonotone(ai, NamesSeveral, NamesClaude);
    CountMonotone(ai, NamesSeveral, NamesCursor);
  }

  /**
   * The merge-time comparison is positive exactly when AI-assisted pull
   * requests merged faster on average; a missing group averages 0.
   */
  lemma MergeImprovementSign(prs: seq<Metrics>)
    requires prs != []
    ensures var s := CalculateStatistics(prs).details.value;
            var other := Avg(s.nonAiStats, AvgMergeDays, 0.0);
            && (other <= 0.0 ==> s.comparison.mergeTimeImprovement == 0.0)
            && (other > 0.0 ==> (s.comparison.mergeTimeImprovement > 0.0 <==> Avg(s.aiStats, AvgMergeDays, 0.0) < other))
  {
  }

  /** `--author`: the pull requests opened by that login, when one is given. */
  function ByAuthor(prs: seq<GitHubClient.Pull>, author: Option<string>): (r: seq<GitHubClient.Pull>)
    ensures !Truthy(author) ==> r == prs
    ensures Truthy(author) ==> forall p :: p in r <==> p in prs && p.author == author.value
  {
    if Truthy(author) then Filter(prs, (p: GitHubClient.Pull) => p.author == author.value) else prs
  }
}

=== FILE: pull_details.dfy ===
/**
 * What the GitHub client works out about one merged pull request once its
 * commits, reviews and comments have been fetched: which reviews are bare
 * approvals, whether the commits name an AI assistant, how many reviews,
 * reviewers and comments there were (all of them, and people's only), and
 * how long the pull request waited for its first review and its merge.
 */
module PullDetails {
  import opened Wrappers
  import opened Text
  import opened Tally
  import Lex
  import GitHubClient

  /** A review as the API lists it; an absent `body` reads as the empty text. */
  datatype Review = Review(id: Option<int>, user: Option<string>, state: Option<string>, body: string, submittedAt: Option<string>)

  /** An inline or conversation comment. */
  datatype Comment = Comment(user: Option<string>, body: string)

  // ---------------------------------------------------------------------------
  // Approval-only reviews

  /** The stock remarks an approval may carry and still say nothing more. */
  const ApprovalPhrases: seq<string> := ["lgtm", "approved", "approve", "\U{1F44D}", ":+1:", "looks good"]

  /** An approval whose stripped body is empty, under ten characters, or a stock remark. */
  predicate ApprovalOnly(r: Review) {
    r.state == Some("APPROVED") &&
    var body := Strip(r.body);
    body == "" || |body| < 10 || Lower(body) in ApprovalPhrases
  }

  /**
   * Of the stock remarks only "looks good" is ten characters long, so an
   * approval is a bare one exactly when its body is short or says "looks good".
   */
  lemma ApprovalOnlyShort(r: Review)
    ensures ApprovalOnly(r) <==> r.state == Some("APPROVED") && (|Strip(r.body)| < 10 || Lower(Strip(r.body)) == "looks good")
  {
    var body := Strip(r.body);
    if Lower(body) in ApprovalPhrases && Lower(body) != "looks good" {
      assert |Lower(body)| < 10;
    }
  }

  /** The ids of the approval-only reviews; a review without an id contributes `None`. */
  function ApprovalIds(reviews: seq<Review>): (ids: set<Option<int>>)
    ensures forall id :: id in ids <==> exists i :: 0 <= i < |reviews| && ApprovalOnly(reviews[i]) && reviews[i].id == id
  {
    if reviews == [] then {}
    else
      var rest := ApprovalIds(reviews[1..]);
      assert forall i :: 1 <= i < |reviews| ==> reviews[i] == reviews[1..][i - 1];
      if ApprovalOnly(reviews[0]) then {reviews[0].id} + rest else rest
  }

  /** What `get_pr_comments` returns: both comment lists, their total and the approval-only ids. */
  datatype CommentsInfo = CommentsInfo(reviewComments: seq<Comment>, issueComments: seq<Comment>, total: nat,
                                       approvalIds: set<Option<int>>)

  function CommentsOf(reviewComments: seq<Comment>, issueComments: seq<Comment>, reviews: seq<Review>): (c: CommentsInfo)
    ensures c.total == |c.reviewComments| + |c.issueComments|
    ensures forall i :: 0 <= i < |reviews| && ApprovalOnly(reviews[i]) ==> reviews[i].id in c.approvalIds
  {
    CommentsInfo(reviewComments, issueComments, |reviewComments| + |issueComments|, ApprovalIds(reviews))
  }

  // ---------------------------------------------------------------------------
  // AI assistance named in commit messages

  predicate ClaudeAssisted(message: string) {
    Contains(message, "Assisted-by: Claude") || Contains(Lower(message), "assisted-by: claude")
  }

  predicate CursorAssisted(message: string) {
    Contains(message, "Assisted-by: Cursor") || Contains(Lower(message), "assisted-by: cursor")
  }

  /** The co-author trailer is looked for in this spelling only. */
  predicate ClaudeCoAuthored(message: string) {
    Contains(message, "Co-Authored-By: Claude")
  }

  predicate UsesClaude(message: string) {
    ClaudeAssisted(message) || ClaudeCoAuthored(message)
  }

  predicate AiCommit(message: string) {
    UsesClaude(message) || CursorAssisted(message)
  }

  /** How many of the three tests a commit message passes: each adds one to the script's count. */
  function Matches(message: string): (n: nat)
    ensures n <= 3 && (n == 0 <==> !AiCommit(message))
  {
    (if ClaudeAssisted(message) then 1 else 0) + (if CursorAssisted(message) then 1 else 0)
    + (if ClaudeCoAuthored(message) then 1 else 0)
  }

  lemma {:induction false} LowerSlice(s: string, i: nat, j: nat)
    requires i <= j <= |s|
    ensures Lower(s)[i..j] == Lower(s[i..j])
  {
  }

  /** A text found in a message is found, lower-cased, in the lower-cased message. */
  lemma {:induction false} ContainsLower(s: string, sub: string)
    requires Contains(s, sub)
    ensures Contains(Lower(s), Lower(sub))
    decreases |s|
  {
    if StartsWith(s, sub) {
      LowerSlice(s, 0, |sub|);
    } else {
      ContainsLower(s[1..], sub);
      LowerSlice(s, 1, |s|);
      assert Lower(s)[1..] == Lower(s[1..]);
    }
  }

  /** Looking for a trailer as written, or for its lower-case spelling in the lower-cased message, is one test. */
  lemma EitherCase(message: string, trailer: string, lowered: string)
    requires Lower(trailer) == lowered
    ensures Contains(message, trailer) || Contains(Lower(message), lowered) <==> Contains(Lower(message), lowered)
  {
    if Contains(message, trailer) {
      ContainsLower(message, trailer);
    }
  }

  /** The exact-case test adds nothing: the trailers are found in any letter case. */
  lemma TrailersIgnoreCase(message: string)
    ensures ClaudeAssisted(message) <==> Contains(Lower(message), "assisted-by: claude")
    ensures CursorAssisted(message) <==> Contains(Lower(message), "assisted-by: cursor")
  {
    EitherCase(message, "Assisted-by: Claude", "assisted-by: claude");
    EitherCase(message, "Assisted-by: Cursor", "assisted-by: cursor");
  }

  /** `sorted(list(ai_tools))`: the assistants some commit names. */
  function Tools(messages: seq<string>): (tools: seq<string>)
    ensures "Claude" in tools <==> exists i :: 0 <= i < |messages| && UsesClaude(messages[i])
    ensures "Cursor" in tools <==> exists i :: 0 <= i < |messages| && CursorAssisted(messages[i])
    ensures forall t :: t in tools ==> t == "Claude" || t == "Cursor"
    ensures forall i, j :: 0 <= i < j < |tools| ==> Lex.LexLe(tools[i], tools[j]) && tools[i] != tools[j]
    ensures tools != [] <==> exists i :: 0 <= i < |messages| && AiCommit(messages[i])
  {
    var claude := if exists i :: 0 <= i < |messages| && UsesClaude(messages[i]) then ["Claude"] else [];
    var cursor := if exists i :: 0 <= i < |messages| && CursorAssisted(messages[i]) then ["Cursor"] else [];
    assert Lex.LexLe("Claude", "Cursor");
    claude + cursor
  }

  /** What `detect_ai_assistance` reports. */
  datatype AiInfo = AiInfo(hasAi: bool, tools: seq<string>, aiCommits: nat, totalCommits: nat, percentage: real)

  /** The number of trailer matches over all commits. */
  function MatchCount(messages: seq<string>): (n: nat)
    ensures n <= 3 * |messages|
    ensures n == 0 <==> forall i :: 0 <= i < |messages| ==> !AiCommit(messages[i])
  {
    if messages == [] then 0
    else
      assert forall i :: 1 <= i < |messages| ==> messages[i] == messages[1..][i - 1];
      Matches(messages[0]) + MatchCount(messages[1..])
  }

  /** `detect_ai_assistance` as written: every passed test adds to the count of AI commits. */
  function DetectAiAsWritten(messages: seq<string>): (info: AiInfo)
    ensures info.totalCommits == |messages| && info.aiCommits <= 3 * info.totalCommits
    ensures info.hasAi <==> info.tools != []
    ensures info.hasAi <==> info.aiCommits > 0
  {
    var ai := MatchCount(messages);
    AiInfo(Tools(messages) != [], Tools(messages), ai, |messages|, Percentage(ai, |messages|))
  }

  /** One commit carrying both Claude trailers counts twice: two AI commits out of one, 200 percent. */
  lemma DoubleCountedCommit()
    ensures var info := DetectAiAsWritten(["Assisted-by: Claude\nCo-Authored-By: Claude"]);
            info.totalCommits == 1 && info.aiCommits >= 2 && info.percentage >= 200.0
  {
    var a, b := "Assisted-by: Claude", "Co-Authored-By: Claude";
    var m := a + "\n" + b;
    assert m == "Assisted-by: Claude\nCo-Authored-By: Claude";
    assert m[0..|a|] == a && m[|a| + 1..|a| + 1 + |b|] == b;
    ContainsAtIndex(m, a, 0);
    ContainsAtIndex(m, b, |a| + 1);
    var messages := [m];
    assert messages[1..] == [];
    assert MatchCount(messages) == Matches(m);
  }

  /** `detect_ai_assistance` counting each commit once, however many trailers it carries. */
  function DetectAi(messages: seq<string>): (info: AiInfo)
    ensures info.totalCommits == |messages| && info.aiCommits <= info.totalCommits
    ensures info.aiCommits == CountWhere(messages, AiCommit)
    ensures info.hasAi <==> info.tools != []
    ensures info.hasAi <==> info.aiCommits > 0
    ensures 0.0 <= info.percentage <= 100.0
  {
    var ai := CountWhere(messages, AiCommit);
    PercentageBound(ai, |messages|);
    AiInfo(Tools(messages) != [], Tools(messages), ai, |messages|, Percentage(ai, |messages|))
  }

  /** Where no commit carries two trailers, counting tests and counting commits agree. */
  lemma {:induction false} DetectAiAgrees(messages: seq<string>)
    requires forall i :: 0 <= i < |messages| ==> Matches(messages[i]) <= 1
    ensures DetectAi(messages) == DetectAiAsWritten(messages)
  {
    SingleMatchesCounted(messages);
  }

  lemma {:induction false} SingleMatchesCounted(messages: seq<string>)
    requires forall i :: 0 <= i < |messages| ==> Matches(messages[i]) <= 1
    ensures MatchCount(messages) == CountWhere(messages, AiCommit)
  {
    if messages != [] {
      assert forall i :: 1 <= i < |messages| ==> messages[i] == messages[1..][i - 1];
      SingleMatchesCounted(messages[1..]);
    }
  }

  // ---------------------------------------------------------------------------
  // Reviews, reviewers and comments

  predicate Approved(r: Review) {
    r.state == Some("APPROVED")
  }

  predicate ChangesRequested(r: Review) {
    r.state == Some("CHANGES_REQUESTED")
  }

  /** A review or comment by someone (the `user` is present) who is not a bot. */
  predicate Human(user: Option<string>) {
    user.Some? && !GitHubClient.IsBot(user.value)
  }

  predicate MentionsCodeRabbit(body: string) {
    Contains(Lower(body), "@coderabbit")
  }

  /** The distinct logins of the reviews' authors. */
  function Reviewers(reviews: seq<Review>): (logins: set<string>)
    ensures forall u :: u in logins <==> exists i :: 0 <= i < |reviews| && reviews[i].user == Some(u)
  {
    if reviews == [] then {}
    else
      var rest := Reviewers(reviews[1..]);
      assert forall i :: 1 <= i < |reviews| ==> reviews[i] == reviews[1..][i - 1];
      if reviews[0].user.Some? then {reviews[0].user.value} + rest else rest
  }

  /** The distinct logins of the reviews' authors who are not bots. */
  function HumanReviewers(reviews: seq<Review>): (logins: set<string>)
    ensures forall u :: u in logins <==> exists i :: 0 <= i < |reviews| && reviews[i].user == Some(u) && Human(reviews[i].user)
  {
    if reviews == [] then {}
    else
      var rest := HumanReviewers(reviews[1..]);
      assert forall i :: 1 <= i < |reviews| ==> reviews[i] == reviews[1..][i - 1];
      if Human(reviews[0].user) then {reviews[0].user.value} + rest else rest
  }

  /** People are the reviewers who are not bots. */
  lemma HumanReviewersAreReviewers(reviews: seq<Review>)
    ensures HumanReviewers(reviews) == set u | u in Reviewers(reviews) && !GitHubClient.IsBot(u)
  {
  }

  /** A review body that says something: non-blank, and not an approval-only review's (by id). */
  predicate Substantive(r: Review, approved: set<Option<int>>) {
    Strip(r.body) != "" && r.id !in approved
  }

  /** A substantive review body written by a person and not addressed to CodeRabbit. */
  predicate HumanSubstantive(r: Review, approved: set<Option<int>>) {
    Substantive(r, approved) && Human(r.user) && !MentionsCodeRabbit(Strip(r.body))
  }

  function SubstantiveIn(approved: set<Option<int>>): Review -> bool {
    r => Substantive(r, approved)
  }

  function HumanSubstantiveIn(approved: set<Option<int>>): Review -> bool {
    r => HumanSubstantive(r, approved)
  }

  predicate HumanComment(c: Comment) {
    Human(c.user) && !MentionsCodeRabbit(c.body)
  }

  /** An approval-only review's body never counts as a comment. */
  lemma ApprovalOnlyNotSubstantive(reviews: seq<Review>, i: nat)
    requires i < |reviews| && ApprovalOnly(reviews[i])
    ensures !Substantive(reviews[i], ApprovalIds(reviews))
  {
  }

  /**
   * Approvals are matched by id, so a review without an id never counts once
   * any approval-only review lacks one.
   */
  lemma MissingIdsShareApproval(reviews: seq<Review>, i: nat, j: nat)
    requires i < |reviews| && j < |reviews| && ApprovalOnly(reviews[i]) && reviews[i].id.None? && reviews[j].id.None?
    ensures !Substantive(reviews[j], ApprovalIds(reviews))
  {
  }

  /** Substantive review bodies come from the reviews that are not approval-only. */
  lemma SubstantiveBound(reviews: seq<Review>)
    ensures CountWhere(reviews, SubstantiveIn(ApprovalIds(reviews))) <= |reviews| - CountWhere(reviews, ApprovalOnly)
  {
    var ids := ApprovalIds(reviews);
    assert forall i :: 0 <= i < |reviews| ==> !(ApprovalOnly(reviews[i]) && SubstantiveIn(ids)(reviews[i]));
    CountDisjoint(reviews, ApprovalOnly, SubstantiveIn(ids));
  }

  // ---------------------------------------------------------------------------
  // Timing

  const MicrosPerHour: int := 3600000000

  /** Hours from one instant (in microseconds) to another. */
  function Hours(start: int, end: int): real {
    (end - start) as real / MicrosPerHour as real
  }

  lemma HoursMonotone(start: int, a: int, b: int)
    requires a <= b
    ensures Hours(start, a) <= Hours(start, b)
  {
    DivideOrdered((a - start) as real, (b - start) as real, MicrosPerHour as real);
  }

  /** The submission times of the reviews that have one, read in order; an unreadable one raises. */
  function SubmittedTimes(reviews: seq<Review>, read: GitHubClient.Reader): (r: Result<seq<int>>)
    ensures r.Raises? <==> exists i :: 0 <= i < |reviews| && Truthy(reviews[i].submittedAt) && read(reviews[i].submittedAt.value).None?
    ensures r.Ok? ==> (r.value == [] <==> forall i :: 0 <= i < |reviews| ==> !Truthy(reviews[i].submittedAt))
    ensures r.Ok? ==> forall i :: 0 <= i < |reviews| && Truthy(reviews[i].submittedAt) ==>
              read(reviews[i].submittedAt.value).Some? && read(reviews[i].submittedAt.value).value in r.value
    ensures r.Ok? ==> forall t :: t in r.value ==>
              exists i :: 0 <= i < |reviews| && Truthy(reviews[i].submittedAt) && read(reviews[i].submittedAt.value) == Some(t)
  {
    if reviews == [] then Ok([])
    else
      assert forall i :: 1 <= i < |reviews| ==> reviews[i] == reviews[1..][i - 1];
      if !Truthy(reviews[0].submittedAt) then SubmittedTimes(reviews[1..], read)
      else
        match read(reviews[0].submittedAt.value)
        case None => Raises("ValueError: time data does not match format")
        case Some(t) =>
          var rest :- SubmittedTimes(reviews[1..], read);
          Ok([t] + rest)
  }

  const EmptyMin: string := "ValueError: min() arg is an empty sequence"

  /**
   * Hours from creation to the earliest submitted review: `None` without
   * reviews; reviews none of which was submitted leave `min` nothing and raise.
   */
  function FirstReviewHours(reviews: seq<Review>, created: int, read: GitHubClient.Reader): (r: Result<Option<real>>)
    ensures r == Ok(None) <==> reviews == []
    ensures reviews != [] && (forall i :: 0 <= i < |reviews| ==> !Truthy(reviews[i].submittedAt)) ==> r == Raises(EmptyMin)
    ensures r.Ok? && r.value.Some? ==>
              && (exists i :: 0 <= i < |reviews| && Truthy(reviews[i].submittedAt) && read(reviews[i].submittedAt.value).Some?
                             && r.value.value == Hours(created, read(reviews[i].submittedAt.value).value))
              && (forall i :: 0 <= i < |reviews| && Truthy(reviews[i].submittedAt) ==>
                    read(reviews[i].submittedAt.value).Some? && r.value.value <= Hours(created, read(reviews[i].submittedAt.value).value))
  {
    if reviews == [] then Ok(None)
    else
      var times :- SubmittedTimes(reviews, read);
      if times == [] then Raises(EmptyMin)
      else
        var first := GitHubClient.Least(times);
        assert forall i :: 0 <= i < |reviews| && Truthy(reviews[i].submittedAt) ==>
          read(reviews[i].submittedAt.value).value in times;
        EarliestHours(times, first, created);
        Ok(Some(Hours(created, first)))
  }

  lemma EarliestHours(times: seq<int>, first: int, created: int)
    requires forall t :: t in times ==> first <= t
    ensures forall t :: t in times ==> Hours(created, first) <= Hours(created, t)
  {
    forall t | t in times {
      HoursMonotone(created, first, t);
    }
  }

  // ---------------------------------------------------------------------------
  // The metrics of one pull request

  /** The fields of the listed pull request the metrics repeat. */
  datatype PullRecord = PullRecord(number: int, title: string, author: string, createdAt: string, mergedAt: string, url: string)

  /** The size fields of the full pull request, each possibly absent. */
  datatype Sizes = Sizes(additions: Option<int>, deletions: Option<int>, changedFiles: Option<int>)

  datatype Metrics = Metrics(
    number: int, title: string, author: string, createdAt: string, mergedAt: string, url: string,
    hasAi: bool, aiTools: seq<string>, aiCommits: nat, totalCommits: nat, aiPercentage: real,
    mergeHours: real, mergeDays: real, firstReviewHours: Option<real>,
    changesRequested: nat, approvals: nat, reviewerCount: nat, reviewers: set<string>,
    reviewComments: nat, issueComments: nat, totalComments: nat, substantiveComments: nat,
    humanReviewerCount: nat, humanReviewers: set<string>,
    humanReviewComments: nat, humanIssueComments: nat, humanTotalComments: nat, humanSubstantiveComments: nat,
    additions: int, deletions: int, changedFiles: int)

  /** A timestamp `strptime` reads, or the exception it raises. */
  function Readable(t: Option<int>): (r: Result<int>)
    ensures r.Ok? <==> t.Some?
    ensures r.Ok? ==> t == Some(r.value)
  {
    match t
    case Some(v) => Ok(v)
    case None => Raises("ValueError: time data does not match format")
  }

  /** What was fetched about one pull request: its listing, its full record's sizes, its commits' messages, reviews and comments. */
  datatype Fetched = Fetched(pr: PullRecord, sizes: Sizes, messages: seq<string>, reviews: seq<Review>,
                             reviewComments: seq<Comment>, issueComments: seq<Comment>)

  /** The metrics record once the timestamps have been read and the commits' AI trailers counted. */
  function Assemble(f: Fetched, ai: AiInfo, created: int, merged: int, firstReview: Option<real>): Metrics {
    var comments := CommentsOf(f.reviewComments, f.issueComments, f.reviews);
    var hours := Hours(created, merged);
    var substantive := CountWhere(f.reviews, SubstantiveIn(comments.approvalIds));
    var humanSubstantive := CountWhere(f.reviews, HumanSubstantiveIn(comments.approvalIds));
    var humanReview := Filter(comments.reviewComments, HumanComment);
    var humanIssue := Filter(comments.issueComments, HumanComment);
    Metrics(
      f.pr.number, f.pr.title, f.pr.author, f.pr.createdAt, f.pr.mergedAt, f.pr.url,
      ai.hasAi, ai.tools, ai.aiCommits, ai.totalCommits, ai.percentage,
      hours, hours / 24.0, firstReview,
      CountWhere(f.reviews, ChangesRequested), CountWhere(f.reviews, Approved),
      |Reviewers(f.reviews)|, Reviewers(f.reviews),
      |comments.reviewComments|, |comments.issueComments|, comments.total,
      |comments.reviewComments| + |comments.issueComments| + substantive,
      |HumanReviewers(f.reviews)|, HumanReviewers(f.reviews),
      |humanReview|, |humanIssue|, |humanReview| + |humanIssue|,
      |humanReview| + |humanIssue| + humanSubstantive,
      f.sizes.additions.GetOr(0), f.sizes.deletions.GetOr(0), f.sizes.changedFiles.GetOr(0))
  }

  /**
   * `get_pr_detailed_metrics`, with `read` reading GitHub's timestamps: it
   * raises where the creation or merge time cannot be read, or the first
   * review's time cannot be found. As written, the AI commits are counted by
   * `DetectAiAsWritten`, one per trailer found.
   */
  function DetailedMetrics(f: Fetched, read: GitHubClient.Reader): (r: Result<Metrics>)
    ensures r.Ok? <==> read(f.pr.createdAt).Some? && read(f.pr.mergedAt).Some?
                       && FirstReviewHours(f.reviews, read(f.pr.createdAt).value, read).Ok?
    ensures r.Ok? ==> (r.value.firstReviewHours.None? <==> f.reviews == [])
    ensures r.Ok? ==> r.value.mergeHours == Hours(read(f.pr.createdAt).value, read(f.pr.mergedAt).value)
    ensures r.Ok? ==> r.value.totalCommits == |f.messages| && r.value.aiCommits == MatchCount(f.messages)
    ensures r.Ok? ==> (r.value.hasAi <==> r.value.aiCommits > 0)
  {
    var created :- Readable(read(f.pr.createdAt));
    var merged :- Readable(read(f.pr.mergedAt));
    var firstReview :- FirstReviewHours(f.reviews, created, read);
    Ok(Assemble(f, DetectAiAsWritten(f.messages), created, merged, firstReview))
  }

  /** The same metrics with each AI commit counted once, so the AI share stays within 100 percent. */
  function DetailedMetricsCorrected(f: Fetched, read: GitHubClient.Reader): (r: Result<Metrics>)
    ensures r.Ok? <==> DetailedMetrics(f, read).Ok?
    ensures r.Ok? ==> r.value.aiCommits == CountWhere(f.messages, AiCommit) && r.value.aiCommits <= r.value.totalCommits
    ensures r.Ok? ==> 0.0 <= r.value.aiPercentage <= 100.0
  {
    var created :- Readable(read(f.pr.createdAt));
    var merged :- Readable(read(f.pr.mergedAt));
    var firstReview :- FirstReviewHours(f.reviews, created, read);
    Ok(Assemble(f, DetectAi(f.messages), created, merged, firstReview))
  }

  /** The corrected metrics differ from the script's only in the AI commit count and share. */
  lemma CorrectedOnlyRecounts(f: Fetched, read: GitHubClient.Reader)
    requires DetailedMetrics(f, read).Ok?
    ensures var m := DetailedMetricsCorrected(f, read).value;
            m == DetailedMetrics(f, read).value.(aiCommits := m.aiCommits, aiPercentage := m.aiPercentage)
  {
    var created := read(f.pr.createdAt).value;
    var merged := read(f.pr.mergedAt).value;
    var firstReview := FirstReviewHours(f.reviews, created, read).value;
    var a, b := DetectAiAsWritten(f.messages), DetectAi(f.messages);
    assert DetailedMetrics(f, read).value == Assemble(f, a, created, merged, firstReview);
    assert DetailedMetricsCorrected(f, read).value == Assemble(f, b, created, merged, firstReview);
    AssembleRecount(f, a, b, created, merged, firstReview);
  }

  lemma AssembleRecount(f: Fetched, a: AiInfo, b: AiInfo, created: int, merged: int, firstReview: Option<real>)
    requires a.hasAi == b.hasAi && a.tools == b.tools && a.totalCommits == b.totalCommits
    ensures Assemble(f, b, created, merged, firstReview)
            == Assemble(f, a, created, merged, firstReview).(aiCommits := b.aiCommits, aiPercentage := b.percentage)
  {
  }

  /** Where no commit carries two trailers, the script's metrics are the corrected ones. */
  lemma DetailedMetricsAgree(f: Fetched, read: GitHubClient.Reader)
    requires forall i :: 0 <= i < |f.messages| ==> Matches(f.messages[i]) <= 1
    ensures DetailedMetrics(f, read) == DetailedMetricsCorrected(f, read)
  {
    DetectAiAgrees(f.messages);
  }

  /** The metrics of a merged pull request, reading timestamps as GitHub writes them. */
  function PullMetrics(f: Fetched): (r: Result<Metrics>)
    ensures r.Ok? ==> r.value.number == f.pr.number && r.value.totalCommits == |f.messages|
    ensures r.Ok? ==> r.value.aiCommits == MatchCount(f.messages) && r.value.aiCommits <= 3 * r.value.totalCommits
  {
    DetailedMetrics(f, GitHubClient.ParseStamp)
  }

  /** Review counts: verdicts are exclusive, and people are among the reviewers. */
  lemma ReviewCountsBounded(f: Fetched, ai: AiInfo, created: int, merged: int, firstReview: Option<real>)
    ensures var m := Assemble(f, ai, created, merged, firstReview);
            && m.changesRequested + m.approvals <= |f.reviews|
            && m.humanReviewers <= m.reviewers && m.humanReviewerCount <= m.reviewerCount
  {
    assert forall i :: 0 <= i < |f.reviews| ==> !(ChangesRequested(f.reviews[i]) && Approved(f.reviews[i]));
    CountDisjoint(f.reviews, ChangesRequested, Approved);
    HumanReviewersSubset(f.reviews);
  }

  /**
   * Comment counts: people's comments are among all comments, and review
   * bodies add at most the reviews that are not bare approvals.
   */
  lemma CommentCountsBounded(f: Fetched, ai: AiInfo, created: int, merged: int, firstReview: Option<real>)
    ensures var m := Assemble(f, ai, created, merged, firstReview);
            && m.totalComments == m.reviewComments + m.issueComments
            && m.humanReviewComments <= m.reviewComments && m.humanIssueComments <= m.issueComments
            && m.totalComments <= m.substantiveComments <= m.totalComments + |f.reviews| - CountWhere(f.reviews, ApprovalOnly)
            && m.humanTotalComments <= m.humanSubstantiveComments
            && m.humanSubstantiveComments <= m.substantiveComments
  {
    var ids := ApprovalIds(f.reviews);
    SubstantiveBound(f.reviews);
    assert forall i :: 0 <= i < |f.reviews| && HumanSubstantiveIn(ids)(f.reviews[i]) ==> SubstantiveIn(ids)(f.reviews[i]);
    CountMonotone(f.reviews, HumanSubstantiveIn(ids), SubstantiveIn(ids));
    CountIsFilterLength(f.reviewComments, HumanComment);
    CountIsFilterLength(f.issueComments, HumanComment);
    CountMonotone(f.reviewComments, HumanComment, AnyComment);
    CountMonotone(f.issueComments, HumanComment, AnyComment);
  }

  predicate AnyComment(c: Comment) {
    true
  }

  /** Everything the metrics of one pull request promise about themselves. */
  lemma MetricsConsistent(f: Fetched, read: GitHubClient.Reader)
    requires DetailedMetrics(f, read).Ok?
    ensures var m := DetailedMetrics(f, read).value;
            && m.changesRequested + m.approvals <= |f.reviews|
            && m.humanReviewers <= m.reviewers
            && m.humanSubstantiveComments <= m.substantiveComments
            && m.totalComments <= m.substantiveComments <= m.totalComments + |f.reviews| - CountWhere(f.reviews, ApprovalOnly)
            && m.mergeDays * 24.0 == m.mergeHours
            && m.aiCommits <= 3 * m.totalCommits && m.additions == f.sizes.additions.GetOr(0)
  {
    var created := read(f.pr.createdAt).value;
    var merged := read(f.pr.mergedAt).value;
    var firstReview := FirstReviewHours(f.reviews, created, read).value;
    var ai := DetectAiAsWritten(f.messages);
    assert DetailedMetrics(f, read).value == Assemble(f, ai, created, merged, firstReview);
    ReviewCountsBounded(f, ai, created, merged, firstReview);
    CommentCountsBounded(f, ai, created, merged, firstReview);
  }
  lemma HumanReviewersSubset(reviews: seq<Review>)
    ensures HumanReviewers(reviews) <= Reviewers(reviews)
    ensures |HumanReviewers(reviews)| <= |Reviewers(reviews)|
  {
    HumanReviewersAreReviewers(reviews);
    SubsetSize(HumanReviewers(reviews), Reviewers(reviews));
  }

  lemma SubsetSize(a: set<string>, b: set<string>)
    requires a <= b
    ensures |a| <= |b|
  {
    assert b == a + (b - a);
  }
}

=== FILE: report_parse.dfy ===
/**
 * Reading a text report back into numbers, as both comparison scripts do
 * (`parse_jira_report`): four passes over the lines, each a small pattern
 * match. The English report and the older Chinese-labelled one differ only in
 * their labels, the header of the state table, the units a state row may use
 * and whether non-positive state times are kept; `Labels` carries those
 * differences so that one parser serves both.
 */
module ReportParse {
  import opened Wrappers
  import opened Text

  // ---------------------------------------------------------------------------
  // Numbers

  predicate IsNumberChar(c: char) {
    IsDigit(c) || c == '.'
  }

  predicate IsSignedNumberChar(c: char) {
    IsNumberChar(c) || c == '-'
  }

  /** `float(s)` for digits with at most one dot and at least one digit. */
  function Unsigned(s: string): (r: Option<real>)
    ensures r.Some? ==> r.value >= 0.0
  {
    match IndexOf(s, '.')
    case None => if IsNumeral(s) then Some(DigitsValue(s) as real) else None
    case Some(i) =>
      var whole := s[..i];
      var frac := s[i + 1..];
      if AllDigits(whole) && AllDigits(frac) && (whole != [] || frac != []) then
        Some(DigitsValue(whole) as real + DigitsValue(frac) as real / Pow10(|frac|) as real)
      else None
  }

  /**
   * Python's `float(s)` on a text the patterns captured (digits, dots and
   * minus signs): `None` where Python raises `ValueError`.
   */
  function ParseFloat(s: string): Option<real> {
    if s != [] && s[0] == '-' then
      match Unsigned(s[1..])
      case None => None
      case Some(v) => Some(-v)
    else Unsigned(s)
  }

  /** The `:.2f` rendering of a non-negative amount given in hundredths. */
  function Hundredths(cents: nat): string {
    NatToString(cents / 100) + "." + Pad(cents % 100, 2)
  }

  lemma CentsSplit(cents: nat)
    ensures (cents / 100) as real + (cents % 100) as real / 100.0 == cents as real / 100.0
  {
    var q, m := cents / 100, cents % 100;
    assert cents == 100 * q + m;
    assert cents as real == 100.0 * q as real + m as real;
  }

  lemma CentsValue(whole: string, frac: string, cents: nat)
    requires AllDigits(whole) && AllDigits(frac) && |frac| == 2
    requires DigitsValue(whole) == cents / 100 && DigitsValue(frac) == cents % 100
    ensures DigitsValue(whole) as real + DigitsValue(frac) as real / Pow10(|frac|) as real == cents as real / 100.0
  {
    assert Pow10(|frac|) == 100;
    CentsSplit(cents);
  }

  /** A two-decimal figure as the reports write it reads back exactly. */
  lemma HundredthsRoundTrip(cents: nat)
    ensures ParseFloat(Hundredths(cents)) == Some(cents as real / 100.0)
    ensures Run(Hundredths(cents), IsNumberChar) == |Hundredths(cents)|
  {
    var whole := NatToString(cents / 100);
    var frac := Pad(cents % 100, 2);
    var s := Hundredths(cents);
    assert s == whole + ['.'] + frac;
    assert forall k :: 0 <= k < |whole| ==> IsDigit(whole[k]);
    assert Unsigned(s) == Some(DigitsValue(whole) as real + DigitsValue(frac) as real / Pow10(|frac|) as real) by {
      assert '.' !in whole;
      IndexOfAt(whole, '.', frac);
      assert s[..|whole|] == whole && s[|whole| + 1..] == frac;
    }
    assert DigitsValue(whole) as real + DigitsValue(frac) as real / Pow10(|frac|) as real == cents as real / 100.0 by {
      NatToStringRoundTrip(cents / 100);
      PadValue(cents % 100, 2);
      CentsValue(whole, frac, cents);
    }
    assert ParseFloat(s) == Unsigned(s) by {
      assert s[0] == whole[0];
    }
    assert Run(s, IsNumberChar) == |s| by {
      assert forall k :: 0 <= k < |s| ==> IsNumberChar(s[k]);
      RunAt(s, [], IsNumberChar);
      assert s + [] == s;
    }
  }


  // ---------------------------------------------------------------------------
  // Labels

  /** How a state-table row ends: the characters of the figure, its units, and the filter. */
  datatype RowStyle = RowStyle(signed: bool, units: seq<(string, Divisor)>, positiveOnly: bool)

  /** What a unit's figure is divided by to give days. */
  type Divisor = n: nat | n >= 1 witness 1

  datatype Labels = Labels(
    assignee: string, jql: string, total: string, avgClosure: string, maxClosure: string,
    earliestCreated: string, earliestResolved: string, latestResolved: string, dataSpan: string,
    day: string, typesHeader: string, stateHeader: seq<string>, stateTitle: string,
    row: RowStyle, reentryMarker: string, times: string)

  /** The labels of the current English report. */
  const English: Labels := Labels(
    "Assignee:", "JQL Query:", "Total:", "Average Closure Time:", "Longest Closure Time:",
    "Earliest Created:", "Earliest Resolved:", "Latest Resolved:", "Data Span:",
    "days", "--- Issue Type Statistics ---", ["State", "Occurrences", "Avg Duration"], "State",
    RowStyle(true, [("days", 1), ("hours", 24)], true),
    EnglishMarker, "times")

  /** The English re-entry marker, named so that its characters can be examined alone. */
  const EnglishMarker: string := "Average times per " + "issue entering this state"

  /** The labels of the older report written with Chinese labels. */
  const Chinese: Labels := Labels(
    "分配人:", "JQL查询:", "总计:", "平均关闭时间:", "最长关闭时间:",
    "最早创建时间:", "最早解决时间:", "最晚解决时间:", "数据跨度:",
    "天", "--- Issue 类型统计 ---", ["状态                   出现次数"], "状态",
    RowStyle(false, [("天", 1)], false),
    "平均每个issue进入此状态", "次")

  // ---------------------------------------------------------------------------
  // The report record

  datatype TypeStat = TypeStat(count: nat, percentage: real)

  /** The labelled header fields; `None` marks one the file did not provide. */
  datatype Summary = Summary(
    assignee: Option<string>, jqlQuery: Option<string>,
    earliestCreated: Option<string>, earliestResolved: Option<string>, latestResolved: Option<string>,
    spanDays: Option<nat>, totalIssues: nat, avgDays: Option<real>, maxDays: Option<real>)

  const NoSummary: Summary := Summary(None, None, None, None, None, None, 0, None, None)

  /** What a report file yields. */
  datatype Report = Report(
    filename: string, summary: Summary, issueTypes: map<string, TypeStat>,
    stateTimes: map<string, real>, stateReentry: map<string, real>,
    startDate: Option<string>, endDate: Option<string>)

  // ---------------------------------------------------------------------------
  // Pass 1: labelled header lines

  /** `line.split(":", 1)[1].strip()`. */
  function AfterColon(line: string): string {
    match After(line, ":")
    case Some(rest) => Strip(rest)
    case None => ""
  }

  /** `LABEL\s*(\d+)` at the start of `t`. */
  function CountAt(t: string, tag: string): Option<nat> {
    if !StartsWith(t, tag) then None
    else
      var u := t[|tag|..];
      var v := u[LeadingSpaces(u)..];
      var n := DigitRun(v);
      if n == 0 then None else Some(DigitsValue(v[..n]))
  }

  /** `LABEL\s*([\d.]+)\s*UNIT` at the start of `t`: the captured figure. */
  function AmountAt(t: string, tag: string, unit: string): Option<string> {
    if !StartsWith(t, tag) then None
    else
      var u := t[|tag|..];
      var v := u[LeadingSpaces(u)..];
      var n := Run(v, IsNumberChar);
      var w := v[n..];
      if n > 0 && StartsWith(w[LeadingSpaces(w)..], unit) then Some(v[..n]) else None
  }

  /** `LABEL\s*(\d+)\s*UNIT` at the start of `t`. */
  function SpanAt(t: string, tag: string, unit: string): Option<nat> {
    if !StartsWith(t, tag) then None
    else
      var u := t[|tag|..];
      var v := u[LeadingSpaces(u)..];
      var n := DigitRun(v);
      var w := v[n..];
      if n > 0 && StartsWith(w[LeadingSpaces(w)..], unit) then Some(DigitsValue(v[..n])) else None
  }

  /** The searches of the first pass, one per numeric label. */
  function CountIn(tag: string): string -> Option<nat> {
    t => CountAt(t, tag)
  }

  function AmountIn(tag: string, unit: string): string -> Option<string> {
    t => AmountAt(t, tag, unit)
  }

  function SpanIn(tag: string, unit: string): string -> Option<nat> {
    t => SpanAt(t, tag, unit)
  }

  /** A captured figure converted by `float`, or the `ValueError` it raises. */
  function Float(text: string): Result<real> {
    match ParseFloat(text)
    case Some(v) => Ok(v)
    case None => Raises("could not convert string to float")
  }

  /** One line of the first pass: the first tag the line starts with decides. */
  function HeaderLine(line: string, L: Labels, r: Summary): (out: Result<Summary>)
    ensures out.Ok? && !StartsWith(line, L.total) ==> out.value.totalIssues == r.totalIssues
    ensures out.Ok? && !StartsWith(line, L.avgClosure) ==> out.value.avgDays == r.avgDays
    ensures out.Ok? && !StartsWith(line, L.dataSpan) ==> out.value.spanDays == r.spanDays
    ensures out.Raises? ==> StartsWith(line, L.avgClosure) || StartsWith(line, L.maxClosure)
  {
    if StartsWith(line, L.assignee) then Ok(r.(assignee := Some(AfterColon(line))))
    else if StartsWith(line, L.jql) then Ok(r.(jqlQuery := Some(AfterColon(line))))
    else if StartsWith(line, L.total) then
      match Search(line, CountIn(L.total))
      case Some(n) => Ok(r.(totalIssues := n))
      case None => Ok(r)
    else if StartsWith(line, L.avgClosure) then
      match Search(line, AmountIn(L.avgClosure, L.day))
      case Some(text) => var v :- Float(text); Ok(r.(avgDays := Some(v)))
      case None => Ok(r)
    else if StartsWith(line, L.maxClosure) then
      match Search(line, AmountIn(L.maxClosure, L.day))
      case Some(text) => var v :- Float(text); Ok(r.(maxDays := Some(v)))
      case None => Ok(r)
    else if StartsWith(line, L.earliestCreated) then Ok(r.(earliestCreated := Some(AfterColon(line))))
    else if StartsWith(line, L.earliestResolved) then Ok(r.(earliestResolved := Some(AfterColon(line))))
    else if StartsWith(line, L.latestResolved) then Ok(r.(latestResolved := Some(AfterColon(line))))
    else if StartsWith(line, L.dataSpan) then
      match Search(line, SpanIn(L.dataSpan, L.day))
      case Some(n) => Ok(r.(spanDays := Some(n)))
      case None => Ok(r)
    else Ok(r)
  }

  /**
   * The first pass: each line in turn updates the fields. A field changes
   * only on a line under its own label, and the pass raises only on a
   * closure-time line whose figure `float` rejects.
   */
  function HeaderPass(lines: seq<string>, L: Labels, r: Summary): (out: Result<Summary>)
    ensures out.Ok? && (forall k :: 0 <= k < |lines| ==> !StartsWith(lines[k], L.total))
            ==> out.value.totalIssues == r.totalIssues
    ensures out.Ok? && (forall k :: 0 <= k < |lines| ==> !StartsWith(lines[k], L.avgClosure))
            ==> out.value.avgDays == r.avgDays
    ensures out.Ok? && (forall k :: 0 <= k < |lines| ==> !StartsWith(lines[k], L.dataSpan))
            ==> out.value.spanDays == r.spanDays
    ensures out.Raises? ==> exists k :: 0 <= k < |lines| && (StartsWith(lines[k], L.avgClosure) || StartsWith(lines[k], L.maxClosure))
    decreases |lines|
  {
    if lines == [] then Ok(r)
    else
      var next :- HeaderLine(lines[0], L, r);
      assert forall k :: 0 <= k < |lines| - 1 ==> lines[1..][k] == lines[k + 1];
      HeaderPass(lines[1..], L, next)
  }

  // ---------------------------------------------------------------------------
  // Pass 2: the issue-type section

  const IssueTypeNames: seq<string> := ["Story", "Task", "Bug", "Epic", "Sub-task"]

  /** The first of `names` that `t` starts with. */
  function FirstPrefix(t: string, names: seq<string>): (r: Option<string>)
    ensures r.Some? ==> r.value in names && StartsWith(t, r.value)
  {
    if names == [] then None
    else if StartsWith(t, names[0]) then Some(names[0])
    else FirstPrefix(t, names[1..])
  }

  /** `\s*(Story|Task|Bug|Epic|Sub-task)\s+(\d+)\s*\(\s*([\d.]+)%\)` at the start of `line`. */
  function TypeRow(line: string): (r: Option<(string, nat, string)>)
    ensures r.Some? ==> r.value.0 in IssueTypeNames
  {
    var t0 := line[LeadingSpaces(line)..];
    var name :- FirstPrefix(t0, IssueTypeNames);
    var t1 := t0[|name|..];
    var a := LeadingSpaces(t1);
    var t2 := t1[a..];
    var d := DigitRun(t2);
    var t3 := t2[d..];
    var t4 := t3[LeadingSpaces(t3)..];
    if a == 0 || d == 0 || !StartsWith(t4, "(") then None
    else
      var t5 := t4[1..];
      var t6 := t5[LeadingSpaces(t5)..];
      var n := Run(t6, IsNumberChar);
      if n > 0 && StartsWith(t6[n..], "%)") then Some((name, DigitsValue(t2[..d]), t6[..n])) else None
  }

  function TypePass(lines: seq<string>, L: Labels, inSection: bool, types: map<string, TypeStat>)
    : (r: Result<map<string, TypeStat>>)
    ensures r.Ok? ==> forall k :: k in r.value ==> k in types || k in IssueTypeNames
    decreases |lines|
  {
    if lines == [] then Ok(types)
    else
      var line := lines[0];
      if StartsWith(line, L.typesHeader) then TypePass(lines[1..], L, true, types)
      else if !inSection then TypePass(lines[1..], L, false, types)
      else if StartsWith(line, "---") then Ok(types)
      else match TypeRow(line)
        case None => TypePass(lines[1..], L, true, types)
        case Some((name, count, text)) =>
          var p :- Float(text);
          TypePass(lines[1..], L, true, types[name := TypeStat(count, p)])
  }

  // ---------------------------------------------------------------------------
  // Pass 3: the state table

  predicate IsNonSpace(c: char) {
    !IsSpace(c)
  }

  predicate ContainsAll(line: string, parts: seq<string>) {
    forall k :: 0 <= k < |parts| ==> Contains(line, parts[k])
  }

  /** The divisor of the first unit `t` starts with (`days|hours` tries `days` first). */
  function UnitAt(t: string, units: seq<(string, Divisor)>): Option<Divisor> {
    if units == [] then None
    else if StartsWith(t, units[0].0) then Some(units[0].1)
    else UnitAt(t, units[1..])
  }

  /** `\s+(\d+)` at the start of `t`: what follows the number. */
  function SpacedNumber(t: string): Option<string> {
    var u := t[LeadingSpaces(t)..];
    var d := DigitRun(u);
    if LeadingSpaces(t) == 0 || d == 0 then None else Some(u[d..])
  }

  /** `\s+(FIGURE)` at the start of `t`: the figure and what follows it. */
  function SpacedFigure(t: string, signed: bool): Option<(string, string)> {
    var u := t[LeadingSpaces(t)..];
    var n := if signed then Run(u, IsSignedNumberChar) else Run(u, IsNumberChar);
    if LeadingSpaces(t) == 0 || n == 0 then None else Some((u[..n], u[n..]))
  }

  /** `\s+(\d+)\s+(\d+)\s+(FIGURE)\s*(UNIT)` at the start of `t`: the figure and its unit's divisor. */
  function RowTail(t: string, style: RowStyle): Option<(string, Divisor)> {
    var afterOccurrences :- SpacedNumber(t);
    var afterIssues :- SpacedNumber(afterOccurrences);
    var figure :- SpacedFigure(afterIssues, style.signed);
    var divisor :- UnitAt(figure.1[LeadingSpaces(figure.1)..], style.units);
    Some((figure.0, divisor))
  }

  /**
   * `^(\S+(?:\s+\S+)?)\s+(\d+)\s+(\d+)\s+(FIGURE)\s*(UNIT)` on a stripped
   * line: the state name is two words when the rest then matches, else one.
   */
  function StateRow(s: string, style: RowStyle): Option<(string, string, Divisor)> {
    var k := Run(s, IsNonSpace);
    var two := match SecondWord(s, k) case Some(e) => NamedRow(s, e, style) case None => None;
    if k == 0 then None
    else if two.Some? then two
    else NamedRow(s, k, style)
  }

  /** `(?:\s+\S+)` after a first word ending at `k`: where the second word ends. */
  function SecondWord(s: string, k: nat): (e: Option<nat>)
    requires k <= |s|
    ensures e.Some? ==> k < e.value <= |s|
  {
    var w := LeadingSpaces(s[k..]);
    var k2 := Run(s[k + w..], IsNonSpace);
    if w > 0 && k2 > 0 then Some(k + w + k2) else None
  }

  /** The row with its name taken as `s[..e]`, when the rest of the line matches the columns. */
  function NamedRow(s: string, e: nat, style: RowStyle): Option<(string, string, Divisor)>
    requires e <= |s|
  {
    var tail :- RowTail(s[e..], style);
    Some((s[..e], tail.0, tail.1))
  }

  function StatePass(lines: seq<string>, L: Labels, inSection: bool, times: map<string, real>)
    : Result<map<string, real>>
    decreases |lines|
  {
    if lines == [] then Ok(times)
    else
      var line := lines[0];
      var s := Strip(line);
      if ContainsAll(line, L.stateHeader) then StatePass(lines[1..], L, true, times)
      else if !inSection then StatePass(lines[1..], L, false, times)
      else if StartsWith(line, "---") then Ok(times)
      else if s == [] || StartsWith(s, L.stateTitle) || StartsWith(s, "=") then StatePass(lines[1..], L, true, times)
      else
        var next :- StoreRow(s, L.row, times);
        StatePass(lines[1..], L, true, next)
  }

  /** An average read in a unit worth `divisor` of the reported unit, converted to days. */
  function InDays(v: real, divisor: Divisor): (days: real)
    ensures days * divisor as real == v
    ensures days > 0.0 <==> v > 0.0
  {
    assert v == (v / divisor as real) * divisor as real;
    v / divisor as real
  }

  /** A table row's average in days (hours divided by 24), stored under its state unless filtered out. */
  function StoreRow(s: string, style: RowStyle, times: map<string, real>): Result<map<string, real>> {
    match StateRow(s, style)
    case None => Ok(times)
    case Some((name, figure, divisor)) =>
      var v :- Float(figure);
      var days := InDays(v, divisor);
      if !style.positiveOnly || days > 0.0 then Ok(times[name := days]) else Ok(times)
  }

  lemma StoreRowPositive(s: string, style: RowStyle, times: map<string, real>)
    ensures style.positiveOnly && AllPositive(times) && StoreRow(s, style, times).Ok?
            ==> AllPositive(StoreRow(s, style, times).value)
  {
  }

  predicate AllPositive(times: map<string, real>) {
    forall k :: k in times ==> times[k] > 0.0
  }

  /** Where only positive times are kept, every stored time is positive. */
  lemma {:induction false} StatePassPositive(lines: seq<string>, L: Labels, inSection: bool, times: map<string, real>)
    ensures L.row.positiveOnly && AllPositive(times) && StatePass(lines, L, inSection, times).Ok?
            ==> AllPositive(StatePass(lines, L, inSection, times).value)
    decreases |lines|
  {
    if lines != [] {
      StoreRowPositive(Strip(lines[0]), L.row, times);
      StatePassPositive(lines[1..], L, true, times);
      StatePassPositive(lines[1..], L, false, times);
      var next := StoreRow(Strip(lines[0]), L.row, times);
      if next.Ok? {
        StatePassPositive(lines[1..], L, true, next.value);
      }
    }
  }

  // ---------------------------------------------------------------------------
  // Pass 4: re-entry figures under their state's heading

  const ReentryStates: seq<string> := ["To Do", "In Progress", "Review", "New", "Waiting",
                                       "Release Pending", "Backlog", "Closed", "Code Review", "Refinement"]

  /** `s.rstrip(c)`. */
  function RStripChar(s: string, c: char): (r: string)
    ensures StartsWith(s, r) && (r == [] || r[|r| - 1] != c)
  {
    if s != [] && s[|s| - 1] == c then RStripChar(s[..|s| - 1], c) else s
  }

  /** `([\d.]+)\s*UNIT` at the start of `t`. */
  function TimesAt(t: string, unit: string): Option<string> {
    var n := Run(t, IsNumberChar);
    var w := t[n..];
    if n > 0 && StartsWith(w[LeadingSpaces(w)..], unit) then Some(t[..n]) else None
  }

  function TimesIn(unit: string): string -> Option<string> {
    t => TimesAt(t, unit)
  }

  /** The state a heading line names, if it is one of the tracked states. */
  function Heading(line: string): Option<string> {
    var s := Strip(line);
    if EndsWith(s, ":") && !StartsWith(line, "-") && RStripChar(s, ':') in ReentryStates then Some(RStripChar(s, ':'))
    else None
  }

  predicate IsHeadingLine(line: string) {
    EndsWith(Strip(line), ":") && !StartsWith(line, "-")
  }

  function ReentryPass(lines: seq<string>, L: Labels, current: Option<string>, rates: map<string, real>)
    : (r: Result<map<string, real>>)
    requires current.Some? ==> current.value in ReentryStates
    ensures r.Ok? && (forall k :: k in rates ==> k in ReentryStates) ==> forall k :: k in r.value ==> k in ReentryStates
    decreases |lines|
  {
    if lines == [] then Ok(rates)
    else
      var line := lines[0];
      if IsHeadingLine(line) then
        var next := match Heading(line) case Some(state) => Some(state) case None => current;
        ReentryPass(lines[1..], L, next, rates)
      else if current.Some? && Contains(line, L.reentryMarker) then
        match Search(line, TimesIn(L.times))
        case None => ReentryPass(lines[1..], L, current, rates)
        case Some(figure) =>
          var v :- Float(figure);
          ReentryPass(lines[1..], L, current, rates[current.value := v])
      else ReentryPass(lines[1..], L, current, rates)
  }

  /**
   * `parse_jira_report` on the file's text: the four passes in turn; a figure
   * that `float` rejects raises.
   */
  function ParseReport(filename: string, content: string, L: Labels): (r: Result<Report>)
    ensures r.Ok? ==> r.value.filename == filename && r.value.startDate.None? && r.value.endDate.None?
    ensures r.Ok? ==> forall k :: k in r.value.issueTypes ==> k in IssueTypeNames
    ensures r.Ok? ==> forall k :: k in r.value.stateReentry ==> k in ReentryStates
    ensures r.Ok? && L.row.positiveOnly ==> AllPositive(r.value.stateTimes)
  {
    var lines := Split(content, '\n');
    var summary :- HeaderPass(lines, L, NoSummary);
    var types :- TypePass(lines, L, false, map[]);
    var times :- StatePass(lines, L, false, map[]);
    StatePassPositive(lines, L, false, map[]);
    var rates :- ReentryPass(lines, L, None, map[]);
    Ok(Report(filename, summary, types, times, rates, None, None))
  }


  // ---------------------------------------------------------------------------
  // Reading back what the report writer lays out

  predicate Word(w: string) {
    w != [] && forall k :: 0 <= k < |w| ==> !IsSpace(w[k])
  }

  /** The columns after a state name: occurrences, issues affected, the average and its unit. */
  function RowColumns(occurrences: nat, issues: nat, cents: nat, unit: string): string {
    " " + NatToString(occurrences) + " " + NatToString(issues) + " " + Hundredths(cents) + " " + unit
  }

  lemma NumeralStart(n: nat, rest: string)
    ensures DigitRun(NatToString(n) + rest) >= 1
    ensures (NatToString(n) + rest)[0] == NatToString(n)[0] && !IsSpace(NatToString(n)[0])
  {
    assert IsDigit(NatToString(n)[0]);
  }

  lemma NumberColumn(n: nat, rest: string)
    requires rest != [] && rest[0] == ' '
    ensures SpacedNumber(" " + NatToString(n) + rest) == Some(rest)
  {
    var s := " " + NatToString(n) + rest;
    NumeralStart(n, rest);
    SpacesAt(" ", NatToString(n) + rest);
    assert s == " " + (NatToString(n) + rest);
    assert s[1..] == NatToString(n) + rest;
    DigitRunAt(NatToString(n), rest);
    assert (NatToString(n) + rest)[|NatToString(n)|..] == rest;
  }

  lemma HundredthsChars(cents: nat)
    ensures forall k :: 0 <= k < |Hundredths(cents)| ==> IsNumberChar(Hundredths(cents)[k])
    ensures Hundredths(cents) != [] && IsDigit(Hundredths(cents)[0])
    ensures exists whole, frac :: Hundredths(cents) == whole + "." + frac && IsNumeral(whole)
  {
    HundredthsRoundTrip(cents);
    var whole := NatToString(cents / 100);
    assert Hundredths(cents) == whole + "." + Pad(cents % 100, 2);
    assert IsDigit(whole[0]);
  }

  lemma FigureColumn(cents: nat, rest: string, signed: bool)
    requires rest != [] && rest[0] == ' '
    ensures SpacedFigure(" " + Hundredths(cents) + rest, signed) == Some((Hundredths(cents), rest))
  {
    var h := Hundredths(cents);
    var s := " " + h + rest;
    HundredthsChars(cents);
    SpacesAt(" ", h + rest);
    assert s == " " + (h + rest);
    assert s[1..] == h + rest;
    RunAt(h, rest, IsSignedNumberChar);
    RunAt(h, rest, IsNumberChar);
    assert (h + rest)[..|h|] == h && (h + rest)[|h|..] == rest;
  }

  /** Read as a count, the average column stops at its decimal point. */
  lemma FigureAsNumber(cents: nat, rest: string) returns (tail: string)
    ensures SpacedNumber(" " + Hundredths(cents) + rest) == Some(tail) && tail != [] && tail[0] == '.'
  {
    HundredthsChars(cents);
    var whole, frac :| Hundredths(cents) == whole + "." + frac && IsNumeral(whole);
    tail := "." + (frac + rest);
    var u := whole + tail;
    var s := " " + u;
    assert s == " " + Hundredths(cents) + rest;
    assert IsDigit(whole[0]);
    SpacesAt(" ", u);
    assert s[1..] == u;
    DigitRunAt(whole, tail);
    assert u[|whole|..] == tail;
    assert SpacedNumber(s) == Some(tail);
  }

  lemma UnitColumn(unit: string, i: nat)
    requires i < |English.row.units| && unit == English.row.units[i].0
    ensures var t := " " + unit; UnitAt(t[LeadingSpaces(t)..], English.row.units) == Some(English.row.units[i].1)
  {
    SpacesAt(" ", unit);
    assert (" " + unit)[1..] == unit;
  }

  /** The columns after the name match the tail of the row pattern. */
  lemma RowTailReads(occurrences: nat, issues: nat, cents: nat, i: nat)
    requires i < |English.row.units|
    ensures RowTail(RowColumns(occurrences, issues, cents, English.row.units[i].0), English.row)
            == Some((Hundredths(cents), English.row.units[i].1))
  {
    var unit := English.row.units[i].0;
    var h := Hundredths(cents);
    var t := RowColumns(occurrences, issues, cents, unit);
    assert t == " " + NatToString(occurrences) + (" " + NatToString(issues) + (" " + h + (" " + unit)));
    NumberColumn(occurrences, " " + NatToString(issues) + (" " + h + (" " + unit)));
    NumberColumn(issues, " " + h + (" " + unit));
    FigureColumn(cents, " " + unit, true);
    UnitColumn(unit, i);
  }

  /** Starting one column late, the average's decimal point stops the pattern. */
  lemma RowTailStops(issues: nat, cents: nat, unit: string, style: RowStyle)
    ensures RowTail(" " + NatToString(issues) + " " + Hundredths(cents) + " " + unit, style) == None
  {
    var tail := FigureAsNumber(cents, " " + unit);
    RowTailAfterIssues(issues, Hundredths(cents), unit, tail, style);
  }

  lemma RowTailAfterIssues(issues: nat, h: string, unit: string, tail: string, style: RowStyle)
    requires SpacedNumber(" " + h + (" " + unit)) == Some(tail) && tail != [] && tail[0] == '.'
    ensures RowTail(" " + NatToString(issues) + " " + h + " " + unit, style) == None
  {
    var figureOn := " " + h + (" " + unit);
    assert " " + NatToString(issues) + " " + h + " " + unit == " " + NatToString(issues) + figureOn;
    RowTailPoint(issues, figureOn, tail, style);
  }

  lemma RowTailPoint(n: nat, figureOn: string, tail: string, style: RowStyle)
    requires figureOn != [] && figureOn[0] == ' '
    requires SpacedNumber(figureOn) == Some(tail) && tail != [] && tail[0] == '.'
    ensures RowTail(" " + NatToString(n) + figureOn, style) == None
  {
    NumberColumn(n, figureOn);
    PointStopsFigure(tail, style.signed);
    RowTailThirdFails(" " + NatToString(n) + figureOn, figureOn, style);
  }

  /** A figure column cannot start at a decimal point: it must follow a space. */
  lemma PointStopsFigure(tail: string, signed: bool)
    requires tail != [] && tail[0] == '.'
    ensures SpacedFigure(tail, signed) == None
  {
    assert LeadingSpaces(tail) == 0;
  }

  lemma RowTailThirdFails(t: string, afterOccurrences: string, style: RowStyle)
    requires SpacedNumber(t) == Some(afterOccurrences)
    requires SpacedNumber(afterOccurrences).Some?
    requires SpacedFigure(SpacedNumber(afterOccurrences).value, style.signed) == None
    ensures RowTail(t, style) == None
  {
  }

  lemma NamedRowAt(name: string, t: string, style: RowStyle)
    ensures NamedRow(name + t, |name|, style)
            == (if RowTail(t, style).Some? then Some((name, RowTail(t, style).value.0, RowTail(t, style).value.1)) else None)
  {
    assert (name + t)[|name|..] == t && (name + t)[..|name|] == name;
  }

  lemma WordAt(w: string, t: string)
    requires Word(w) && (t == [] || IsSpace(t[0]))
    ensures Run(w + t, IsNonSpace) == |w|
  {
    RunAt(w, t, IsNonSpace);
  }

  /** A number column after the first word is taken for a second word. */
  lemma NumberAsSecondWord(name: string, n: string, after: string)
    requires Word(name) && IsNumeral(n) && after != [] && after[0] == ' '
    ensures SecondWord(name + " " + n + after, |name|) == Some(|name| + 1 + |n|)
  {
    var s := name + " " + n + after;
    assert s[|name|..] == " " + (n + after);
    assert IsDigit(n[0]);
    SpacesAt(" ", n + after);
    assert s[|name| + 1..] == n + after;
    assert forall k :: 0 <= k < |n| ==> IsDigit(n[k]);
    RunAt(n, after, IsNonSpace);
  }

  /** In a one-word row the occurrence count is taken for a second word, and the rest then fails. */
  lemma OneWordNotTwo(name: string, occurrences: nat, issues: nat, cents: nat, unit: string)
    requires Word(name)
    ensures var s := name + RowColumns(occurrences, issues, cents, unit);
            SecondWord(s, |name|).Some? && NamedRow(s, SecondWord(s, |name|).value, English.row) == None
  {
    var n := NatToString(occurrences);
    var after := " " + NatToString(issues) + " " + Hundredths(cents) + " " + unit;
    var s := name + RowColumns(occurrences, issues, cents, unit);
    assert s == name + " " + n + after;
    NumberAsSecondWord(name, n, after);
    assert s == (name + " " + n) + after;
    NamedRowAt(name + " " + n, after, English.row);
    RowTailStops(issues, cents, unit, English.row);
  }

  /** A one-word state's row, as the report writes it, reads back as its name, average and unit. */
  lemma StateRowOneWord(name: string, occurrences: nat, issues: nat, cents: nat, i: nat)
    requires Word(name) && i < |English.row.units|
    ensures StateRow(name + RowColumns(occurrences, issues, cents, English.row.units[i].0), English.row)
            == Some((name, Hundredths(cents), English.row.units[i].1))
  {
    var unit := English.row.units[i].0;
    var cols := RowColumns(occurrences, issues, cents, unit);
    WordAt(name, cols);
    OneWordNotTwo(name, occurrences, issues, cents, unit);
    NamedRowAt(name, cols, English.row);
    RowTailReads(occurrences, issues, cents, i);
  }

  /** After a first word, a space and a second word, the second word ends where the columns start. */
  lemma SecondWordAt(first: string, second: string, cols: string)
    requires Word(first) && Word(second) && cols != [] && cols[0] == ' '
    ensures SecondWord(first + (" " + (second + cols)), |first|) == Some(|first| + 1 + |second|)
  {
    var tail := second + cols;
    var rest := " " + tail;
    var s := first + rest;
    WordAt(first, rest);
    assert s[|first|..] == rest;
    SpacesAt(" ", tail);
    assert rest[1..] == tail;
    assert s[|first| + 1..] == tail;
    WordAt(second, cols);
    SecondWordOf(s, |first|, 1, |second|);
  }

  lemma SecondWordOf(s: string, k: nat, w: nat, k2: nat)
    requires k + w <= |s| && LeadingSpaces(s[k..]) == w && Run(s[k + w..], IsNonSpace) == k2 && w > 0 && k2 > 0
    ensures SecondWord(s, k) == Some(k + w + k2)
  {
  }

  /** A two-word state's row reads back with both words. */
  lemma StateRowTwoWords(first: string, second: string, occurrences: nat, issues: nat, cents: nat, i: nat)
    requires Word(first) && Word(second) && i < |English.row.units|
    ensures StateRow(first + " " + second + RowColumns(occurrences, issues, cents, English.row.units[i].0), English.row)
            == Some((first + " " + second, Hundredths(cents), English.row.units[i].1))
  {
    var name := first + " " + second;
    var cols := RowColumns(occurrences, issues, cents, English.row.units[i].0);
    var s := name + cols;
    assert s == first + (" " + (second + cols));
    WordAt(first, " " + (second + cols));
    SecondWordAt(first, second, cols);
    NamedRowAt(name, cols, English.row);
    RowTailReads(occurrences, issues, cents, i);
  }

  /**
   * Storing a row: an average given in hours is divided by 24, one in days
   * is kept as it is, and (in the English report) only a positive average is
   * stored.
   */
  lemma StoreRowUnits(name: string, occurrences: nat, issues: nat, cents: nat, i: nat, times: map<string, real>)
    requires Word(name) && i < |English.row.units|
    ensures StoreRow(name + RowColumns(occurrences, issues, cents, English.row.units[i].0), English.row, times)
            == Ok(if cents > 0 then times[name := InDays(cents as real / 100.0, English.row.units[i].1)] else times)
    ensures English.row.units[0] == ("days", 1) && English.row.units[1] == ("hours", 24)
  {
    var h := Hundredths(cents);
    var v := cents as real / 100.0;
    HundredthsValue(cents, h, v);
    var s := name + RowColumns(occurrences, issues, cents, English.row.units[i].0);
    StateRowOneWord(name, occurrences, issues, cents, i);
    StoreRowOf(s, English.row, times, name, h, English.row.units[i].1, v);
  }

  lemma HundredthsValue(cents: nat, h: string, v: real)
    requires h == Hundredths(cents) && v == cents as real / 100.0
    ensures ParseFloat(h) == Some(v) && (v > 0.0 <==> cents > 0)
  {
    HundredthsRoundTrip(cents);
  }

  lemma StoreRowOf(s: string, style: RowStyle, times: map<string, real>, name: string, figure: string, divisor: Divisor, v: real)
    requires StateRow(s, style) == Some((name, figure, divisor)) && ParseFloat(figure) == Some(v)
    ensures StoreRow(s, style, times)
            == Ok(if !style.positiveOnly || v > 0.0 then times[name := InDays(v, divisor)] else times)
  {
  }

  // ---------------------------------------------------------------------------
  // Reading back the header lines the writer lays out

  /** Neither label is a prefix of the other. */
  predicate Diverge(a: string, b: string) {
    !StartsWith(a, b) && !StartsWith(b, a)
  }

  /** A line under one label does not start with a label that diverges from it. */
  lemma NotUnder(tag: string, rest: string, other: string)
    requires Diverge(tag, other)
    ensures !StartsWith(tag + rest, other)
  {
    var line := tag + rest;
    if |other| <= |tag| {
      assert line[..|other|] == tag[..|other|];
    } else if |other| <= |line| {
      assert line[..|other|][..|tag|] == tag;
    }
  }

  /** The text after a label and a space, as the patterns' `\s*` leaves it. */
  lemma SpacedAfterTag(tag: string, v: string)
    requires v != [] && !IsSpace(v[0])
    ensures StartsWith(tag + " " + v, tag)
    ensures var u := (tag + " " + v)[|tag|..]; u[LeadingSpaces(u)..] == v
  {
    var line := tag + (" " + v);
    assert line == tag + " " + v;
    assert line[..|tag|] == tag && line[|tag|..] == " " + v;
    SpacesAt(" ", v);
    assert (" " + v)[1..] == v;
  }

  /** A space then the unit: the pattern's `\s*UNIT` holds. */
  lemma UnitFollows(unit: string, rest: string)
    requires unit != [] && !IsSpace(unit[0])
    ensures var w := " " + unit + rest; StartsWith(w[LeadingSpaces(w)..], unit)
  {
    var w := " " + (unit + rest);
    assert w == " " + unit + rest;
    SpacesAt(" ", unit + rest);
    assert w[1..] == unit + rest;
    assert (unit + rest)[..|unit|] == unit;
  }

  /** After the label: a space, then a numeral, then something that is not a digit. */
  lemma CountAfter(tag: string, digits: string, rest: string)
    requires IsNumeral(digits) && (rest == [] || !IsDigit(rest[0]))
    ensures CountAt(tag + " " + digits + rest, tag) == Some(DigitsValue(digits))
  {
    var v := digits + rest;
    assert tag + " " + digits + rest == tag + " " + v;
    assert IsDigit(digits[0]);
    SpacedAfterTag(tag, v);
    DigitRunAt(digits, rest);
    assert v[..|digits|] == digits;
  }

  /** A figure of digits and dots. */
  predicate Figure(h: string) {
    h != [] && forall k :: 0 <= k < |h| ==> IsNumberChar(h[k])
  }

  /** After the label: a space, a figure, a space and the unit. */
  lemma AmountAfter(tag: string, h: string, unit: string, rest: string)
    requires Figure(h) && unit != [] && !IsSpace(unit[0])
    ensures AmountAt(tag + " " + h + " " + unit + rest, tag, unit) == Some(h)
  {
    var w := " " + unit + rest;
    var v := h + w;
    assert tag + " " + h + " " + unit + rest == tag + " " + v;
    assert IsNumberChar(h[0]);
    SpacedAfterTag(tag, v);
    RunAt(h, w, IsNumberChar);
    assert v[..|h|] == h && v[|h|..] == w;
    UnitFollows(unit, rest);
  }

  /** After the label: a space, a numeral, a space and the unit. */
  lemma SpanAfter(tag: string, digits: string, unit: string, rest: string)
    requires IsNumeral(digits) && unit != [] && !IsSpace(unit[0])
    ensures SpanAt(tag + " " + digits + " " + unit + rest, tag, unit) == Some(DigitsValue(digits))
  {
    var w := " " + unit + rest;
    var v := digits + w;
    assert tag + " " + digits + " " + unit + rest == tag + " " + v;
    assert IsDigit(digits[0]);
    SpacedAfterTag(tag, v);
    DigitRunAt(digits, w);
    assert v[..|digits|] == digits && v[|digits|..] == w;
    UnitFollows(unit, rest);
  }

  /** A search that matches at the first position returns that match. */
  lemma SearchHere<T>(s: string, m: string -> Option<T>)
    requires m(s).Some?
    ensures Search(s, m) == m(s)
  {
  }

  /** `Total: N issues` sets the issue count to N. */
  lemma TotalLineReads(L: Labels, digits: string, rest: string, r: Summary)
    requires Diverge(L.total, L.assignee) && Diverge(L.total, L.jql)
    requires IsNumeral(digits) && (rest == [] || !IsDigit(rest[0]))
    ensures HeaderLine(L.total + " " + digits + rest, L, r) == Ok(r.(totalIssues := DigitsValue(digits)))
  {
    var tail := " " + digits + rest;
    var line := L.total + " " + digits + rest;
    assert !StartsWith(line, L.assignee) && !StartsWith(line, L.jql) && StartsWith(line, L.total) by {
      assert line == L.total + tail;
      NotUnder(L.total, tail, L.assignee);
      NotUnder(L.total, tail, L.jql);
      assert line[..|L.total|] == L.total;
    }
    assert Search(line, CountIn(L.total)) == Some(DigitsValue(digits)) by {
      CountAfter(L.total, digits, rest);
      SearchHere(line, CountIn(L.total));
    }
  }

  /** `Average Closure Time: X days ...` sets the average to the figure. */
  lemma AverageLineReads(L: Labels, h: string, v: real, rest: string, r: Summary)
    requires Diverge(L.avgClosure, L.assignee) && Diverge(L.avgClosure, L.jql) && Diverge(L.avgClosure, L.total)
    requires L.day != [] && !IsSpace(L.day[0])
    requires Figure(h) && ParseFloat(h) == Some(v)
    ensures HeaderLine(L.avgClosure + " " + h + " " + L.day + rest, L, r) == Ok(r.(avgDays := Some(v)))
  {
    var tail := " " + h + " " + L.day + rest;
    var line := L.avgClosure + " " + h + " " + L.day + rest;
    assert !StartsWith(line, L.assignee) && !StartsWith(line, L.jql) && !StartsWith(line, L.total)
           && StartsWith(line, L.avgClosure) by {
      assert line == L.avgClosure + tail;
      NotUnder(L.avgClosure, tail, L.assignee);
      NotUnder(L.avgClosure, tail, L.jql);
      NotUnder(L.avgClosure, tail, L.total);
      assert line[..|L.avgClosure|] == L.avgClosure;
    }
    assert Search(line, AmountIn(L.avgClosure, L.day)) == Some(h) by {
      AmountAfter(L.avgClosure, h, L.day, rest);
      SearchHere(line, AmountIn(L.avgClosure, L.day));
    }
  }

  /** `Longest Closure Time: X days` sets the longest time to the figure. */
  lemma LongestLineReads(L: Labels, h: string, v: real, rest: string, r: Summary)
    requires Diverge(L.maxClosure, L.assignee) && Diverge(L.maxClosure, L.jql) && Diverge(L.maxClosure, L.total)
    requires Diverge(L.maxClosure, L.avgClosure)
    requires L.day != [] && !IsSpace(L.day[0])
    requires Figure(h) && ParseFloat(h) == Some(v)
    ensures HeaderLine(L.maxClosure + " " + h + " " + L.day + rest, L, r) == Ok(r.(maxDays := Some(v)))
  {
    var tail := " " + h + " " + L.day + rest;
    var line := L.maxClosure + " " + h + " " + L.day + rest;
    assert !StartsWith(line, L.assignee) && !StartsWith(line, L.jql) && !StartsWith(line, L.total)
           && !StartsWith(line, L.avgClosure) && StartsWith(line, L.maxClosure) by {
      assert line == L.maxClosure + tail;
      NotUnder(L.maxClosure, tail, L.assignee);
      NotUnder(L.maxClosure, tail, L.jql);
      NotUnder(L.maxClosure, tail, L.total);
      NotUnder(L.maxClosure, tail, L.avgClosure);
      assert line[..|L.maxClosure|] == L.maxClosure;
    }
    assert Search(line, AmountIn(L.maxClosure, L.day)) == Some(h) by {
      AmountAfter(L.maxClosure, h, L.day, rest);
      SearchHere(line, AmountIn(L.maxClosure, L.day));
    }
  }

  /** `Data Span: N days` sets the span to N. */
  lemma SpanLineReads(L: Labels, digits: string, rest: string, r: Summary)
    requires Diverge(L.dataSpan, L.assignee) && Diverge(L.dataSpan, L.jql) && Diverge(L.dataSpan, L.total)
    requires Diverge(L.dataSpan, L.avgClosure) && Diverge(L.dataSpan, L.maxClosure)
    requires Diverge(L.dataSpan, L.earliestCreated) && Diverge(L.dataSpan, L.earliestResolved)
    requires Diverge(L.dataSpan, L.latestResolved)
    requires L.day != [] && !IsSpace(L.day[0])
    requires IsNumeral(digits)
    ensures HeaderLine(L.dataSpan + " " + digits + " " + L.day + rest, L, r) == Ok(r.(spanDays := Some(DigitsValue(digits))))
  {
    var tail := " " + digits + " " + L.day + rest;
    var line := L.dataSpan + " " + digits + " " + L.day + rest;
    assert !StartsWith(line, L.assignee) && !StartsWith(line, L.jql) && !StartsWith(line, L.total)
           && !StartsWith(line, L.avgClosure) && !StartsWith(line, L.maxClosure) by {
      assert line == L.dataSpan + tail;
      NotUnder(L.dataSpan, tail, L.assignee);
      NotUnder(L.dataSpan, tail, L.jql);
      NotUnder(L.dataSpan, tail, L.total);
      NotUnder(L.dataSpan, tail, L.avgClosure);
      NotUnder(L.dataSpan, tail, L.maxClosure);
    }
    assert !StartsWith(line, L.earliestCreated) && !StartsWith(line, L.earliestResolved)
           && !StartsWith(line, L.latestResolved) && StartsWith(line, L.dataSpan) by {
      assert line == L.dataSpan + tail;
      NotUnder(L.dataSpan, tail, L.earliestCreated);
      NotUnder(L.dataSpan, tail, L.earliestResolved);
      NotUnder(L.dataSpan, tail, L.latestResolved);
      assert line[..|L.dataSpan|] == L.dataSpan;
    }
    assert Search(line, SpanIn(L.dataSpan, L.day)) == Some(DigitsValue(digits)) by {
      SpanAfter(L.dataSpan, digits, L.day, rest);
      SearchHere(line, SpanIn(L.dataSpan, L.day));
    }
  }

  /** Two labels that differ at some position diverge. */
  lemma DivergeAt(a: string, b: string, k: nat)
    requires k < |a| && k < |b| && a[k] != b[k]
    ensures Diverge(a, b)
  {
    if |b| <= |a| {
      assert a[..|b|][k] == a[k];
    } else {
      assert b[..|a|][k] == b[k];
    }
  }

  /** The English labels tried before a count or closure-time line are told apart from it. */
  lemma EnglishCountLabels()
    ensures Diverge(English.total, English.assignee) && Diverge(English.total, English.jql)
    ensures Diverge(English.avgClosure, English.assignee) && Diverge(English.avgClosure, English.jql)
    ensures Diverge(English.avgClosure, English.total)
    ensures Diverge(English.maxClosure, English.assignee) && Diverge(English.maxClosure, English.jql)
    ensures Diverge(English.maxClosure, English.total) && Diverge(English.maxClosure, English.avgClosure)
    ensures English.day != [] && !IsSpace(English.day[0])
  {
    var E := English;
    DivergeAt(E.total, E.assignee, 0);
    DivergeAt(E.total, E.jql, 0);
    DivergeAt(E.avgClosure, E.assignee, 1);
    DivergeAt(E.avgClosure, E.jql, 0);
    DivergeAt(E.avgClosure, E.total, 0);
    DivergeAt(E.maxClosure, E.assignee, 0);
    DivergeAt(E.maxClosure, E.jql, 0);
    DivergeAt(E.maxClosure, E.total, 0);
    DivergeAt(E.maxClosure, E.avgClosure, 0);
  }

  /** The English labels tried before `Data Span:` are told apart from it. */
  lemma EnglishSpanLabels()
    ensures Diverge(English.dataSpan, English.assignee) && Diverge(English.dataSpan, English.jql)
    ensures Diverge(English.dataSpan, English.total) && Diverge(English.dataSpan, English.avgClosure)
    ensures Diverge(English.dataSpan, English.maxClosure) && Diverge(English.dataSpan, English.earliestCreated)
    ensures Diverge(English.dataSpan, English.earliestResolved) && Diverge(English.dataSpan, English.latestResolved)
  {
    var E := English;
    DivergeAt(E.dataSpan, E.assignee, 0);
    DivergeAt(E.dataSpan, E.jql, 0);
    DivergeAt(E.dataSpan, E.total, 0);
    DivergeAt(E.dataSpan, E.avgClosure, 0);
    DivergeAt(E.dataSpan, E.maxClosure, 0);
    DivergeAt(E.dataSpan, E.earliestCreated, 0);
    DivergeAt(E.dataSpan, E.earliestResolved, 0);
    DivergeAt(E.dataSpan, E.latestResolved, 0);
  }

  /** The header lines as the metrics script writes them. */
  function SpanLine(days: nat): string {
    English.dataSpan + " " + NatToString(days) + " " + English.day
  }

  function TotalLine(issues: nat): string {
    English.total + " " + NatToString(issues) + " issues"
  }

  function AverageLine(cents: nat, hourCents: nat): string {
    English.avgClosure + " " + Hundredths(cents) + " " + English.day + " (" + Hundredths(hourCents) + " hours)"
  }

  function LongestLine(cents: nat): string {
    English.maxClosure + " " + Hundredths(cents) + " " + English.day
  }

  lemma HundredthsFigure(cents: nat)
    ensures Figure(Hundredths(cents)) && ParseFloat(Hundredths(cents)) == Some(cents as real / 100.0)
  {
    HundredthsChars(cents);
    HundredthsRoundTrip(cents);
  }

  /** The written span reads back as the number of days. */
  lemma SpanLineWritten(days: nat, r: Summary)
    ensures HeaderLine(SpanLine(days), English, r) == Ok(r.(spanDays := Some(days)))
  {
    EnglishSpanLabels();
    EnglishCountLabels();
    NatToStringRoundTrip(days);
    assert SpanLine(days) == English.dataSpan + " " + NatToString(days) + " " + English.day + "";
    SpanLineReads(English, NatToString(days), "", r);
  }

  /** The written total reads back as the number of issues. */
  lemma TotalLineWritten(issues: nat, r: Summary)
    ensures HeaderLine(TotalLine(issues), English, r) == Ok(r.(totalIssues := issues))
  {
    EnglishCountLabels();
    NatToStringRoundTrip(issues);
    TotalLineReads(English, NatToString(issues), " issues", r);
  }

  /** The written average reads back as its figure in days; the hours in brackets are ignored. */
  lemma AverageLineWritten(cents: nat, hourCents: nat, r: Summary)
    ensures HeaderLine(AverageLine(cents, hourCents), English, r) == Ok(r.(avgDays := Some(cents as real / 100.0)))
  {
    EnglishCountLabels();
    HundredthsFigure(cents);
    var rest := " (" + Hundredths(hourCents) + " hours)";
    assert AverageLine(cents, hourCents) == English.avgClosure + " " + Hundredths(cents) + " " + English.day + rest;
    AverageLineReads(English, Hundredths(cents), cents as real / 100.0, rest, r);
  }

  /** The written longest time reads back as its figure in days. */
  lemma LongestLineWritten(cents: nat, r: Summary)
    ensures HeaderLine(LongestLine(cents), English, r) == Ok(r.(maxDays := Some(cents as real / 100.0)))
  {
    EnglishCountLabels();
    HundredthsFigure(cents);
    assert LongestLine(cents) == English.maxClosure + " " + Hundredths(cents) + " " + English.day + "";
    LongestLineReads(English, Hundredths(cents), cents as real / 100.0, "", r);
  }

  lemma HeaderPassStep(line: string, rest: seq<string>, L: Labels, r: Summary)
    requires HeaderLine(line, L, r).Ok?
    ensures HeaderPass([line] + rest, L, r) == HeaderPass(rest, L, HeaderLine(line, L, r).value)
  {
    assert ([line] + rest)[1..] == rest;
  }

  /** The header lines that carry figures, in the order the metrics script writes them. */
  function WrittenHeader(days: nat, issues: nat, cents: nat, hourCents: nat, maxCents: nat): seq<string> {
    [SpanLine(days), TotalLine(issues), AverageLine(cents, hourCents), LongestLine(maxCents)]
  }

  /**
   * The written header lines read back as the span, the total, the average
   * and the longest closure time, and the lines after them continue from
   * those values.
   */
  lemma WrittenHeaderReads(days: nat, issues: nat, cents: nat, hourCents: nat, maxCents: nat, rest: seq<string>, r: Summary)
    ensures HeaderPass(WrittenHeader(days, issues, cents, hourCents, maxCents) + rest, English, r)
            == HeaderPass(rest, English, r.(spanDays := Some(days), totalIssues := issues,
                                            avgDays := Some(cents as real / 100.0), maxDays := Some(maxCents as real / 100.0)))
  {
    var r1 := r.(spanDays := Some(days));
    var r2 := r1.(totalIssues := issues);
    var r3 := r2.(avgDays := Some(cents as real / 100.0));
    var r4 := r3.(maxDays := Some(maxCents as real / 100.0));
    var l3 := [LongestLine(maxCents)] + rest;
    var l2 := [AverageLine(cents, hourCents)] + l3;
    var l1 := [TotalLine(issues)] + l2;
    assert WrittenHeader(days, issues, cents, hourCents, maxCents) + rest == [SpanLine(days)] + l1;
    assert HeaderPass([SpanLine(days)] + l1, English, r) == HeaderPass(l1, English, r1) by {
      SpanLineWritten(days, r);
      HeaderPassStep(SpanLine(days), l1, English, r);
    }
    assert HeaderPass(l1, English, r1) == HeaderPass(l2, English, r2) by {
      TotalLineWritten(issues, r1);
      HeaderPassStep(TotalLine(issues), l2, English, r1);
    }
    assert HeaderPass(l2, English, r2) == HeaderPass(l3, English, r3) by {
      AverageLineWritten(cents, hourCents, r2);
      HeaderPassStep(AverageLine(cents, hourCents), l3, English, r2);
    }
    assert HeaderPass(l3, English, r3) == HeaderPass(rest, English, r4) by {
      LongestLineWritten(maxCents, r3);
      HeaderPassStep(LongestLine(maxCents), rest, English, r3);
    }
  }


  // ---------------------------------------------------------------------------
  // Reading back the detailed state analysis the writer lays out

  /** A line ending in a character other than a space or a colon is no heading. */
  lemma NotHeadingLine(line: string)
    requires line != [] && !IsSpace(line[|line| - 1]) && line[|line| - 1] != ':'
    ensures !IsHeadingLine(line)
  {
    var t := line[LeadingSpaces(line)..];
    assert t[|t| - 1] == line[|line| - 1];
    assert TrailingSpaces(t) == 0;
    assert Strip(line) == t;
  }

  /** What a tracked state's name looks like: it fits in a heading of its own. */
  predicate HeadingName(name: string) {
    name != [] && !IsSpace(name[0]) && name[0] != '-' && name[|name| - 1] != ':'
  }

  lemma HeadingOf(name: string)
    requires HeadingName(name)
    ensures IsHeadingLine(name + ":") && RStripChar(Strip(name + ":"), ':') == name
  {
    var line := name + ":";
    assert LeadingSpaces(line) == 0;
    assert line[0..] == line;
    assert TrailingSpaces(line) == 0;
    assert Strip(line) == line;
    assert line[..|line| - 1] == name;
  }

  lemma ReentryStatesNamed()
    ensures forall name :: name in ReentryStates ==> HeadingName(name)
  {
    forall k | 0 <= k < |ReentryStates|
      ensures HeadingName(ReentryStates[k])
    {
    }
  }

  /** The writer's heading for a tracked state names that state. */
  lemma HeadingReads(state: string)
    requires state in ReentryStates
    ensures IsHeadingLine(state + ":") && Heading(state + ":") == Some(state)
  {
    ReentryStatesNamed();
    HeadingOf(state);
  }

  /** A heading line makes its state current when the state is tracked; any other heading leaves the current state. */
  lemma ReentryHeadingStep(line: string, rest: seq<string>, L: Labels, current: Option<string>, rates: map<string, real>)
    requires current.Some? ==> current.value in ReentryStates
    requires IsHeadingLine(line)
    ensures Heading(line).Some? ==> Heading(line).value in ReentryStates
    ensures ReentryPass([line] + rest, L, current, rates)
            == ReentryPass(rest, L, if Heading(line).Some? then Heading(line) else current, rates)
  {
    assert ([line] + rest)[1..] == rest;
  }

  /** A line that is no heading is passed over before any heading, or when it lacks the marker. */
  lemma ReentrySkipStep(line: string, rest: seq<string>, L: Labels, current: Option<string>, rates: map<string, real>)
    requires current.Some? ==> current.value in ReentryStates
    requires !IsHeadingLine(line) && (current.None? || !Contains(line, L.reentryMarker))
    ensures ReentryPass([line] + rest, L, current, rates) == ReentryPass(rest, L, current, rates)
  {
    assert ([line] + rest)[1..] == rest;
  }

  /** The re-entry line as the metrics script writes it, around a figure. */
  function MarkerLine(L: Labels, h: string): string {
    "  - " + L.reentryMarker + " " + h + " " + L.times
  }

  /** Labels whose marker holds no figure characters and whose unit is a word ending the line. */
  predicate MarkerLabels(L: Labels) {
    && (forall k :: 0 <= k < |L.reentryMarker| ==> !IsNumberChar(L.reentryMarker[k]))
    && L.times != [] && !IsSpace(L.times[0]) && !IsSpace(L.times[|L.times| - 1]) && L.times[|L.times| - 1] != ':'
  }

  /** A figure, a space and the unit match `([\d.]+)\s*UNIT` at once. */
  lemma TimesAfter(h: string, unit: string)
    requires Figure(h) && unit != [] && !IsSpace(unit[0])
    ensures TimesAt(h + " " + unit, unit) == Some(h)
  {
    var w := " " + unit;
    var b := h + w;
    assert b == h + " " + unit;
    RunAt(h, w, IsNumberChar);
    assert b[..|h|] == h && b[|h|..] == w;
    SpacesAt(" ", unit);
    assert w[1..] == unit && unit[..|unit|] == unit;
  }

  /** The pattern cannot match where the text starts with no figure character. */
  lemma TimesNotAt(t: string, unit: string)
    requires t != [] && !IsNumberChar(t[0])
    ensures TimesAt(t, unit).None?
  {
  }

  /** The figure is the first place in the marker line where `([\d.]+)\s*times` matches. */
  lemma MarkerFigure(L: Labels, h: string)
    requires MarkerLabels(L) && Figure(h)
    ensures Search(MarkerLine(L, h), TimesIn(L.times)) == Some(h)
  {
    var a := "  - " + L.reentryMarker + " ";
    var b := h + " " + L.times;
    assert MarkerLine(L, h) == a + b;
    assert forall i :: 0 <= i < |a| ==> TimesIn(L.times)(a[i..] + b).None? by {
      forall i | 0 <= i < |a|
        ensures TimesIn(L.times)(a[i..] + b).None?
      {
        assert (a[i..] + b)[0] == a[i];
        assert i < 4 || i == |a| - 1 || a[i] == L.reentryMarker[i - 4];
        TimesNotAt(a[i..] + b, L.times);
      }
    }
    SearchSkips(a, b, TimesIn(L.times));
    TimesAfter(h, L.times);
    SearchHere(b, TimesIn(L.times));
  }

  /** The marker line is no heading and carries the marker. */
  lemma MarkerLineShape(L: Labels, h: string)
    requires MarkerLabels(L)
    ensures !IsHeadingLine(MarkerLine(L, h)) && Contains(MarkerLine(L, h), L.reentryMarker)
  {
    var line := MarkerLine(L, h);
    var m := L.reentryMarker;
    assert line == "  - " + (m + (" " + h + " " + L.times));
    assert line[4..4 + |m|] == m;
    ContainsAtIndex(line, m, 4);
    assert line[|line| - 1] == L.times[|L.times| - 1];
    NotHeadingLine(line);
  }

  /** Under a tracked state, the written re-entry line stores its figure for that state. */
  lemma ReentryMarkerStep(L: Labels, state: string, h: string, v: real, rest: seq<string>, rates: map<string, real>)
    requires MarkerLabels(L) && state in ReentryStates
    requires Figure(h) && ParseFloat(h) == Some(v)
    ensures ReentryPass([MarkerLine(L, h)] + rest, L, Some(state), rates)
            == ReentryPass(rest, L, Some(state), rates[state := v])
  {
    MarkerLineShape(L, h);
    MarkerFigure(L, h);
    assert ([MarkerLine(L, h)] + rest)[1..] == rest;
  }

  lemma EnglishMarkerHasNoFigure()
    ensures forall k :: 0 <= k < |EnglishMarker| ==> !IsNumberChar(EnglishMarker[k])
    ensures EnglishMarker != [] && EnglishMarker[0] == 'A'
  {
  }

  lemma EnglishMarkerLabels()
    ensures MarkerLabels(English)
    ensures English.reentryMarker != [] && English.reentryMarker[0] == 'A'
  {
    EnglishMarkerHasNoFigure();
  }

  /** The lines the metrics script writes for one state of the detailed analysis. */
  function IssuesLine(issues: nat): string {
    "  - " + NatToString(issues) + IssuesTail
  }

  const IssuesTail: string := " issues experienced this state"

  /** Written in pieces: the prover reads a short literal character by character, a long one not. */
  const WarningLine: string :=
    "  ⚠️  Warning: " + "This state was " + "entered multiple times, " + "indicating possible " + "back-and-forth transitions"

  /**
   * `"\n{state}:"` gives an empty line and the heading; then the issue count,
   * the re-entry figure and, for a state entered more than 1.5 times per
   * issue, the warning.
   */
  function StateBlock(state: string, issues: nat, cents: nat, warned: bool): seq<string> {
    ["", state + ":", IssuesLine(issues), MarkerLine(English, Hundredths(cents))] + (if warned then [WarningLine] else [])
  }

  /** Whatever the current state, the empty line before a heading is passed over. */
  lemma EmptyLinePassedOver()
    ensures !IsHeadingLine("") && !Contains("", English.reentryMarker)
  {
    EnglishMarkerLabels();
    assert Strip("") == "";
    NotContainsShort("", English.reentryMarker);
  }

  /** The issue-count line is passed over: it carries no marker. */
  lemma IssuesLinePassedOver(issues: nat)
    ensures !IsHeadingLine(IssuesLine(issues)) && !Contains(IssuesLine(issues), English.reentryMarker)
  {
    EnglishMarkerLabels();
    var line := IssuesLine(issues);
    var digits := NatToString(issues);
    assert forall k :: 0 <= k < |IssuesTail| ==> IssuesTail[k] != 'A';
    assert forall k :: 0 <= k < |digits| ==> IsDigit(digits[k]);
    assert forall k :: 0 <= k < |line| ==> line[k] != 'A' by {
      assert line == "  - " + digits + IssuesTail;
      forall k | 0 <= k < |line|
        ensures line[k] != 'A'
      {
        if k >= 4 + |digits| {
          assert line[k] == IssuesTail[k - 4 - |digits|];
        } else if k >= 4 {
          assert line[k] == digits[k - 4];
        }
      }
    }
    assert line[|line| - 1] == IssuesTail[|IssuesTail| - 1] == 'e';
    NotHeadingLine(line);
    NotContainsAbsentHead(line, English.reentryMarker);
  }

  lemma WarningHasNoA()
    ensures 'A' !in WarningLine && WarningLine[|WarningLine| - 1] == 's'
  {
  }

  /** The warning line is passed over: it carries no marker. */
  lemma WarningLinePassedOver()
    ensures !IsHeadingLine(WarningLine) && !Contains(WarningLine, English.reentryMarker)
  {
    WarningHasNoA();
    EnglishMarkerLabels();
    NotHeadingLine(WarningLine);
    NotContainsAbsentHead(WarningLine, English.reentryMarker);
  }

  /** The written re-entry line stores its figure, in hundredths, for the current state. */
  lemma WrittenMarkerStep(state: string, cents: nat, rest: seq<string>, rates: map<string, real>)
    requires state in ReentryStates
    ensures ReentryPass([MarkerLine(English, Hundredths(cents))] + rest, English, Some(state), rates)
            == ReentryPass(rest, English, Some(state), rates[state := cents as real / 100.0])
  {
    EnglishMarkerLabels();
    HundredthsFigure(cents);
    ReentryMarkerStep(English, state, Hundredths(cents), cents as real / 100.0, rest, rates);
  }

  /**
   * The block the metrics script writes for a tracked state makes that state
   * current and stores its re-entry figure, whatever state was current before.
   */
  lemma WrittenStateBlockReads(state: string, issues: nat, cents: nat, warned: bool, rest: seq<string>,
                               current: Option<string>, rates: map<string, real>)
    requires state in ReentryStates && (current.Some? ==> current.value in ReentryStates)
    ensures ReentryPass(StateBlock(state, issues, cents, warned) + rest, English, current, rates)
            == ReentryPass(rest, English, Some(state), rates[state := cents as real / 100.0])
  {
    var block := StateBlock(state, issues, cents, warned);
    var marker := MarkerLine(English, Hundredths(cents));
    var tail := (if warned then [WarningLine] else []) + rest;
    var rates' := rates[state := cents as real / 100.0];
    var afterHeading := [IssuesLine(issues)] + ([marker] + tail);
    assert ReentryPass(block + rest, English, current, rates) == ReentryPass([state + ":"] + afterHeading, English, current, rates) by {
      assert block + rest == [""] + ([state + ":"] + afterHeading);
      EmptyLinePassedOver();
      ReentrySkipStep("", [state + ":"] + afterHeading, English, current, rates);
    }
    assert ReentryPass([state + ":"] + afterHeading, English, current, rates) == ReentryPass(afterHeading, English, Some(state), rates) by {
      HeadingReads(state);
      ReentryHeadingStep(state + ":", afterHeading, English, current, rates);
    }
    assert ReentryPass(afterHeading, English, Some(state), rates) == ReentryPass([marker] + tail, English, Some(state), rates) by {
      IssuesLinePassedOver(issues);
      ReentrySkipStep(IssuesLine(issues), [marker] + tail, English, Some(state), rates);
    }
    assert ReentryPass([marker] + tail, English, Some(state), rates) == ReentryPass(tail, English, Some(state), rates') by {
      WrittenMarkerStep(state, cents, tail, rates);
    }
    assert ReentryPass(tail, English, Some(state), rates') == ReentryPass(rest, English, Some(state), rates') by {
      if warned {
        WarningLinePassedOver();
        ReentrySkipStep(WarningLine, rest, English, Some(state), rates');
      } else {
        assert tail == rest;
      }
    }
  }

  // ---------------------------------------------------------------------------
  // Reading back a whole written report

  /** A line under none of the header labels, which the first pass passes over. */
  predicate Unlabelled(line: string, L: Labels) {
    && !StartsWith(line, L.assignee) && !StartsWith(line, L.jql) && !StartsWith(line, L.total)
    && !StartsWith(line, L.avgClosure) && !StartsWith(line, L.maxClosure) && !StartsWith(line, L.earliestCreated)
    && !StartsWith(line, L.earliestResolved) && !StartsWith(line, L.latestResolved) && !StartsWith(line, L.dataSpan)
  }

  lemma {:induction false} HeaderPassUnlabelled(lines: seq<string>, L: Labels, r: Summary)
    requires forall k :: 0 <= k < |lines| ==> Unlabelled(lines[k], L)
    ensures HeaderPass(lines, L, r) == Ok(r)
    decreases |lines|
  {
    if lines != [] {
      assert HeaderLine(lines[0], L, r) == Ok(r);
      assert forall k :: 0 <= k < |lines| - 1 ==> lines[1..][k] == lines[k + 1];
      HeaderPassUnlabelled(lines[1..], L, r);
    }
  }

  /** Before the issue-type header every line is passed over. */
  lemma {:induction false} TypePassOutside(lines: seq<string>, L: Labels, types: map<string, TypeStat>)
    requires forall k :: 0 <= k < |lines| ==> !StartsWith(lines[k], L.typesHeader)
    ensures TypePass(lines, L, false, types) == Ok(types)
    decreases |lines|
  {
    if lines != [] {
      assert forall k :: 0 <= k < |lines| - 1 ==> lines[1..][k] == lines[k + 1];
      TypePassOutside(lines[1..], L, types);
    }
  }

  /** Before the state table's header every line is passed over. */
  lemma {:induction false} StatePassOutside(lines: seq<string>, L: Labels, times: map<string, real>)
    requires forall k :: 0 <= k < |lines| ==> !ContainsAll(lines[k], L.stateHeader)
    ensures StatePass(lines, L, false, times) == Ok(times)
    decreases |lines|
  {
    if lines != [] {
      assert forall k :: 0 <= k < |lines| - 1 ==> lines[1..][k] == lines[k + 1];
      StatePassOutside(lines[1..], L, times);
    }
  }

  /** Before any heading every line that is no heading is passed over. */
  lemma {:induction false} ReentryPassUnheaded(lines: seq<string>, rest: seq<string>, L: Labels, rates: map<string, real>)
    requires forall k :: 0 <= k < |lines| ==> !IsHeadingLine(lines[k])
    ensures ReentryPass(lines + rest, L, None, rates) == ReentryPass(rest, L, None, rates)
    decreases |lines|
  {
    if lines != [] {
      assert (lines + rest)[0] == lines[0] && (lines + rest)[1..] == lines[1..] + rest;
      assert forall k :: 0 <= k < |lines| - 1 ==> lines[1..][k] == lines[k + 1];
      ReentryPassUnheaded(lines[1..], rest, L, rates);
    } else {
      assert lines + rest == rest;
    }
  }

  /** A line the second and third passes pass over while outside their sections. */
  predicate Quiet(line: string, L: Labels) {
    !StartsWith(line, L.typesHeader) && !ContainsAll(line, L.stateHeader)
  }

  /** With no `-` in front and no capital `O` (of `Occurrences`), a line opens neither section. */
  lemma QuietByLetters(line: string)
    requires line == [] || line[0] != '-'
    requires 'O' !in line
    ensures Quiet(line, English)
  {
    var header := English.stateHeader;
    assert header[1] == "Occurrences" && header[1][0] == 'O';
    NotContainsAbsentHead(line, header[1]);
    assert English.typesHeader[0] == '-';
  }

  /** A line whose first character starts no English header label but `Total:`, and which does not start with that one. */
  lemma UnlabelledBesidesTotal(line: string)
    requires line != [] && line[0] !in "AJLED" && !StartsWith(line, English.total)
    ensures Unlabelled(line, English)
  {
    var E := English;
    assert E.assignee[0] == 'A' && E.jql[0] == 'J' && E.avgClosure[0] == 'A';
    assert E.maxClosure[0] == 'L' && E.earliestCreated[0] == 'E' && E.earliestResolved[0] == 'E';
    assert E.latestResolved[0] == 'L' && E.dataSpan[0] == 'D';
  }

  /** A line whose first character starts none of the English header labels. */
  lemma UnlabelledByLead(line: string)
    requires line != [] && line[0] !in "AJTLED"
    ensures Unlabelled(line, English)
  {
    var E := English;
    assert E.assignee[0] == 'A' && E.jql[0] == 'J' && E.total[0] == 'T' && E.avgClosure[0] == 'A';
    assert E.maxClosure[0] == 'L' && E.earliestCreated[0] == 'E' && E.earliestResolved[0] == 'E';
    assert E.latestResolved[0] == 'L' && E.dataSpan[0] == 'D';
  }

  lemma NumeralLetters(n: nat)
    ensures 'O' !in NatToString(n) && '-' !in NatToString(n)
  {
    var digits := NatToString(n);
    assert forall k :: 0 <= k < |digits| ==> IsDigit(digits[k]);
  }

  lemma FigureLetters(cents: nat)
    ensures 'O' !in Hundredths(cents) && '-' !in Hundredths(cents)
  {
    var h := Hundredths(cents);
    HundredthsChars(cents);
    assert forall k :: 0 <= k < |h| ==> IsNumberChar(h[k]);
  }

  /** A written line that opens no section, ends in a word or bracket and so is no heading. */
  lemma QuietLine(line: string)
    requires line != [] && line[0] != '-' && 'O' !in line
    requires line[|line| - 1] == 's' || line[|line| - 1] == ')'
    ensures Quiet(line, English) && !IsHeadingLine(line)
  {
    QuietByLetters(line);
    NotHeadingLine(line);
  }

  lemma SpanLineQuiet(days: nat)
    ensures Quiet(SpanLine(days), English) && !IsHeadingLine(SpanLine(days))
  {
    NumeralLetters(days);
    QuietLine(SpanLine(days));
  }

  lemma TotalLineQuiet(issues: nat)
    ensures Quiet(TotalLine(issues), English) && !IsHeadingLine(TotalLine(issues))
  {
    NumeralLetters(issues);
    QuietLine(TotalLine(issues));
  }

  lemma AverageLineQuiet(cents: nat, hourCents: nat)
    ensures Quiet(AverageLine(cents, hourCents), English) && !IsHeadingLine(AverageLine(cents, hourCents))
  {
    FigureLetters(cents);
    FigureLetters(hourCents);
    QuietLine(AverageLine(cents, hourCents));
  }

  lemma LongestLineQuiet(cents: nat)
    ensures Quiet(LongestLine(cents), English) && !IsHeadingLine(LongestLine(cents))
  {
    FigureLetters(cents);
    QuietLine(LongestLine(cents));
  }

  /** The written header lines open no section and are no headings. */
  lemma WrittenHeaderQuiet(days: nat, issues: nat, cents: nat, hourCents: nat, maxCents: nat)
    ensures var head := WrittenHeader(days, issues, cents, hourCents, maxCents);
            forall k :: 0 <= k < |head| ==> Quiet(head[k], English) && !IsHeadingLine(head[k])
  {
    var head := WrittenHeader(days, issues, cents, hourCents, maxCents);
    forall k | 0 <= k < |head|
      ensures Quiet(head[k], English) && !IsHeadingLine(head[k])
    {
      if k == 0 {
        SpanLineQuiet(days);
      } else if k == 1 {
        TotalLineQuiet(issues);
      } else if k == 2 {
        AverageLineQuiet(cents, hourCents);
      } else {
        LongestLineQuiet(maxCents);
      }
    }
  }



  lemma EmptyLineQuiet()
    ensures Quiet("", English) && Unlabelled("", English)
  {
    QuietByLetters("");
  }

  lemma IssuesLineQuiet(issues: nat)
    ensures Quiet(IssuesLine(issues), English) && Unlabelled(IssuesLine(issues), English)
  {
    NumeralLetters(issues);
    assert 'O' !in IssuesTail;
    QuietByLetters(IssuesLine(issues));
    UnlabelledByLead(IssuesLine(issues));
  }

  lemma MarkerLineQuiet(cents: nat)
    ensures Quiet(MarkerLine(English, Hundredths(cents)), English) && Unlabelled(MarkerLine(English, Hundredths(cents)), English)
  {
    FigureLetters(cents);
    assert 'O' !in EnglishMarker;
    QuietByLetters(MarkerLine(English, Hundredths(cents)));
    UnlabelledByLead(MarkerLine(English, Hundredths(cents)));
  }

  lemma WarningLineQuiet()
    ensures Quiet(WarningLine, English) && Unlabelled(WarningLine, English)
  {
    assert 'O' !in WarningLine && WarningLine[0] == ' ';
    QuietByLetters(WarningLine);
    UnlabelledByLead(WarningLine);
  }

  /** The tracked states hold no capital `O`, and only `To Do` shares a first letter with a header label. */
  lemma StatesLetters(state: string)
    requires state in ReentryStates
    ensures state != [] && 'O' !in state && (state[0] !in "AJLEDT" || state == "To Do")
  {
  }

  lemma ToDoUnlabelled()
    ensures Unlabelled("To Do:", English)
  {
    var line := "To Do:";
    DivergeAt(line, English.total, 2);
    NotUnder(line, [], English.total);
    assert line + [] == line;
    UnlabelledBesidesTotal(line);
  }

  /** The heading of a tracked state opens no section and carries no header label. */
  lemma StateHeadingQuiet(state: string)
    requires state in ReentryStates
    ensures Quiet(state + ":", English) && Unlabelled(state + ":", English)
  {
    var line := state + ":";
    StatesLetters(state);
    assert 'O' !in line && line[0] == state[0];
    QuietByLetters(line);
    if state == "To Do" {
      ToDoUnlabelled();
    } else {
      UnlabelledByLead(line);
    }
  }


  /** The written block of a tracked state opens no section and carries no header label. */
  lemma StateBlockQuiet(state: string, issues: nat, cents: nat, warned: bool)
    requires state in ReentryStates
    ensures var block := StateBlock(state, issues, cents, warned);
            forall k :: 0 <= k < |block| ==> Quiet(block[k], English) && Unlabelled(block[k], English)
  {
    var block := StateBlock(state, issues, cents, warned);
    forall k | 0 <= k < |block|
      ensures Quiet(block[k], English) && Unlabelled(block[k], English)
    {
      if k == 0 {
        EmptyLineQuiet();
      } else if k == 1 {
        StateHeadingQuiet(state);
      } else if k == 2 {
        IssuesLineQuiet(issues);
      } else if k == 3 {
        MarkerLineQuiet(cents);
      } else {
        assert block[k] == WarningLine;
        WarningLineQuiet();
      }
    }
  }


  /** A report as the metrics script lays it out: the header lines with figures, then one state's block. */
  function WrittenReport(days: nat, issues: nat, cents: nat, hourCents: nat, maxCents: nat,
                         state: string, stateIssues: nat, reentryCents: nat, warned: bool): seq<string> {
    WrittenHeader(days, issues, cents, hourCents, maxCents) + StateBlock(state, stateIssues, reentryCents, warned)
  }

  /** The whole written report is quiet for the issue-type and state-table passes. */
  lemma WrittenReportQuiet(days: nat, issues: nat, cents: nat, hourCents: nat, maxCents: nat,
                           state: string, stateIssues: nat, reentryCents: nat, warned: bool)
    requires state in ReentryStates
    ensures var lines := WrittenReport(days, issues, cents, hourCents, maxCents, state, stateIssues, reentryCents, warned);
            TypePass(lines, English, false, map[]) == Ok(map[]) && StatePass(lines, English, false, map[]) == Ok(map[])
  {
    var head := WrittenHeader(days, issues, cents, hourCents, maxCents);
    var block := StateBlock(state, stateIssues, reentryCents, warned);
    var lines := head + block;
    WrittenHeaderQuiet(days, issues, cents, hourCents, maxCents);
    StateBlockQuiet(state, stateIssues, reentryCents, warned);
    forall k | 0 <= k < |lines|
      ensures Quiet(lines[k], English)
    {
      if k < |head| {
        assert lines[k] == head[k];
      } else {
        assert lines[k] == block[k - |head|];
      }
    }
    TypePassOutside(lines, English, map[]);
    StatePassOutside(lines, English, map[]);
  }

  /** The first pass over the written report reads the header figures and nothing from the state's block. */
  lemma WrittenReportSummary(days: nat, issues: nat, cents: nat, hourCents: nat, maxCents: nat,
                             state: string, stateIssues: nat, reentryCents: nat, warned: bool)
    requires state in ReentryStates
    ensures HeaderPass(WrittenReport(days, issues, cents, hourCents, maxCents, state, stateIssues, reentryCents, warned),
                       English, NoSummary)
            == Ok(NoSummary.(spanDays := Some(days), totalIssues := issues, avgDays := Some(cents as real / 100.0),
                             maxDays := Some(maxCents as real / 100.0)))
  {
    var block := StateBlock(state, stateIssues, reentryCents, warned);
    WrittenHeaderReads(days, issues, cents, hourCents, maxCents, block, NoSummary);
    StateBlockQuiet(state, stateIssues, reentryCents, warned);
    HeaderPassUnlabelled(block, English, NoSummary.(spanDays := Some(days), totalIssues := issues,
                                                     avgDays := Some(cents as real / 100.0), maxDays := Some(maxCents as real / 100.0)));
  }

  /** The last pass over the written report reads the state's re-entry figure. */
  lemma WrittenReportRates(days: nat, issues: nat, cents: nat, hourCents: nat, maxCents: nat,
                           state: string, stateIssues: nat, reentryCents: nat, warned: bool)
    requires state in ReentryStates
    ensures ReentryPass(WrittenReport(days, issues, cents, hourCents, maxCents, state, stateIssues, reentryCents, warned),
                        English, None, map[])
            == Ok(map[state := reentryCents as real / 100.0])
  {
    var head := WrittenHeader(days, issues, cents, hourCents, maxCents);
    var block := StateBlock(state, stateIssues, reentryCents, warned);
    WrittenHeaderQuiet(days, issues, cents, hourCents, maxCents);
    ReentryPassUnheaded(head, block, English, map[]);
    assert block + [] == block;
    WrittenStateBlockReads(state, stateIssues, reentryCents, warned, [], None, map[]);
  }

  /** The report is assembled from what the four passes return. */
  lemma ParseReportOf(filename: string, content: string, L: Labels, summary: Summary, types: map<string, TypeStat>,
                      times: map<string, real>, rates: map<string, real>)
    requires var lines := Split(content, '\n');
             && HeaderPass(lines, L, NoSummary) == Ok(summary) && TypePass(lines, L, false, map[]) == Ok(types)
             && StatePass(lines, L, false, map[]) == Ok(times) && ReentryPass(lines, L, None, map[]) == Ok(rates)
    ensures ParseReport(filename, content, L) == Ok(Report(filename, summary, types, times, rates, None, None))
  {
  }

  /**
   * Parsing a report whose lines are laid out as the metrics script writes
   * them yields exactly the figures written: the span, the total, the average
   * and longest closure times, and the state's re-entry figure; the issue-type
   * and state-time maps stay empty since the report has no such sections.
   */
  lemma WrittenReportReads(filename: string, content: string, days: nat, issues: nat, cents: nat, hourCents: nat,
                           maxCents: nat, state: string, stateIssues: nat, reentryCents: nat, warned: bool)
    requires state in ReentryStates
    requires Split(content, '\n') == WrittenReport(days, issues, cents, hourCents, maxCents, state, stateIssues, reentryCents, warned)
    ensures ParseReport(filename, content, English)
            == Ok(Report(filename,
                         NoSummary.(spanDays := Some(days), totalIssues := issues, avgDays := Some(cents as real / 100.0),
                                    maxDays := Some(maxCents as real / 100.0)),
                         map[], map[], map[state := reentryCents as real / 100.0], None, None))
  {
    WrittenReportQuiet(days, issues, cents, hourCents, maxCents, state, stateIssues, reentryCents, warned);
    WrittenReportSummary(days, issues, cents, hourCents, maxCents, state, stateIssues, reentryCents, warned);
    WrittenReportRates(days, issues, cents, hourCents, maxCents, state, stateIssues, reentryCents, warned);
    ParseReportOf(filename, content, English,
                  NoSummary.(spanDays := Some(days), totalIssues := issues, avgDays := Some(cents as real / 100.0),
                             maxDays := Some(maxCents as real / 100.0)),
                  map[], map[], map[state := reentryCents as real / 100.0]);
  }
}

=== FILE: report_utils.dfy ===
/**
 * Helpers shared by the comparison reports (report_utils.py): the canonical
 * form of a user name used in file and sheet names, the percentage change
 * between two periods, and the "top increases / decreases" summary.
 */
module ReportUtils {
  import opened Wrappers
  import opened Text
  import Tally

  // ---------------------------------------------------------------------------
  // normalize_username

  const EmployeePrefix: string := "rh-ee-"

  /** Length of the run of digits at the end of `s`. */
  function TrailingDigits(s: string): (n: nat)
    ensures n <= |s| && AllDigits(s[|s| - n..]) && (n < |s| ==> !IsDigit(s[|s| - n - 1]))
  {
    if s != [] && IsDigit(s[|s| - 1]) then
      var n := 1 + TrailingDigits(s[..|s| - 1]);
      assert s[|s| - n..] == s[..|s| - 1][|s| - n..] + [s[|s| - 1]];
      n
    else 0
  }

  /** `s` without a final `-<digits>`, if it has one. */
  function DropNumericTail(s: string): (r: string)
    ensures StartsWith(s, r)
  {
    var n := TrailingDigits(s);
    if n > 0 && n < |s| && s[|s| - n - 1] == '-' then s[..|s| - n - 1] else s
  }

  /**
   * `re.sub(r'-\d+$', '', s)`. A match must run to the end of the text or
   * stop just before a final newline (where `$` also matches); the only
   * candidate is the hyphen before the trailing digits.
   */
  function DropNumericSuffix(s: string): string {
    if s != [] && s[|s| - 1] == '\n' then DropNumericTail(s[..|s| - 1]) + "\n" else DropNumericTail(s)
  }

  /** The local part without the `rh-ee-` prefix, when it has one. */
  function DropEmployeePrefix(s: string): string {
    if StartsWith(s, EmployeePrefix) then s[|EmployeePrefix|..] else s
  }

  /**
   * `normalize_username`: falsy names are returned as they are; otherwise the
   * e-mail domain, the `rh-ee-` prefix and a numeric suffix are removed.
   */
  function NormalizeUsername(username: Option<string>): (r: Option<string>)
    ensures !Truthy(username) ==> r == username
    ensures Truthy(username) ==> r.Some? && '@' !in r.value && |r.value| <= |username.value|
  {
    if !Truthy(username) then username
    else
      var name := DropEmployeePrefix(Before(username.value, '@'));
      var r := DropNumericSuffix(name);
      assert forall c :: c in r ==> c in name || c == '\n';
      Some(r)
  }

  /**
   * A base name: what normalisation is meant to arrive at. Neither it nor it
   * followed by a hyphen runs into the employee prefix ("rh", "rh-ee").
   */
  predicate IsBaseName(n: string) {
    && n != [] && '@' !in n && '\n' !in n && !IsDigit(n[|n| - 1])
    && !StartsWith(n + "-", EmployeePrefix) && !StartsWith(EmployeePrefix, n + "-")
  }

  lemma NoPrefixOfBase(n: string, rest: string)
    requires IsBaseName(n)
    ensures !StartsWith(n, EmployeePrefix) && !StartsWith(n + "-" + rest, EmployeePrefix)
  {
    var d := n + "-";
    var s := d + rest;
    assert s[..|d|] == d;
    if |d| >= |EmployeePrefix| {
      assert s[..|EmployeePrefix|] == d[..|EmployeePrefix|];
    }
  }

  /** A base name is left alone. */
  lemma NormalizeBaseName(n: string)
    requires IsBaseName(n)
    ensures NormalizeUsername(Some(n)) == Some(n)
  {
    NoPrefixOfBase(n, "");
    assert Before(n, '@') == n;
  }

  lemma {:induction false} TrailingDigitsOf(a: string, digits: string)
    requires IsNumeral(digits) && a != [] && !IsDigit(a[|a| - 1])
    ensures TrailingDigits(a + digits) == |digits|
    decreases |digits|
  {
    var s := a + digits;
    if |digits| > 1 {
      TrailingDigitsOf(a, digits[..|digits| - 1]);
      assert s[..|s| - 1] == a + digits[..|digits| - 1];
    } else {
      assert s[..|s| - 1] == a;
    }
  }

  /** The numeric suffix comes off a base name, and only it. */
  lemma DropSuffixOf(n: string, digits: string)
    requires IsBaseName(n) && IsNumeral(digits)
    ensures DropNumericSuffix(n + "-" + digits) == n
  {
    var s := n + "-" + digits;
    assert s[|s| - 1] == digits[|digits| - 1];
    TrailingDigitsOf(n + "-", digits);
    assert s[..|s| - |digits| - 1] == n;
  }

  /**
   * Decorating a base name with the employee prefix, a numeric suffix and an
   * e-mail domain is undone by normalisation.
   */
  lemma NormalizeDecoratedName(n: string, suffix: nat, domain: string)
    requires IsBaseName(n)
    ensures NormalizeUsername(Some(EmployeePrefix + n + "-" + NatToString(suffix) + "@" + domain))
            == Some(n)
  {
    var digits := NatToString(suffix);
    var name := n + "-" + digits;
    var local := EmployeePrefix + name;
    assert '@' !in local by {
      assert forall k :: 0 <= k < |digits| ==> IsDigit(digits[k]);
      assert '@' !in digits;
    }
    assert EmployeePrefix + n + "-" + digits + "@" + domain == local + ['@'] + domain;
    BeforeAt(local, '@', domain);
    assert local[..|EmployeePrefix|] == EmployeePrefix;
    assert DropEmployeePrefix(local) == name;
    DropSuffixOf(n, digits);
  }

  /** A plain name with a numeric suffix loses only the suffix. */
  lemma NormalizeNumbered(n: string, suffix: nat)
    requires IsBaseName(n)
    ensures NormalizeUsername(Some(n + "-" + NatToString(suffix))) == Some(n)
  {
    var digits := NatToString(suffix);
    var s := n + "-" + digits;
    assert '@' !in s by {
      assert forall k :: 0 <= k < |digits| ==> IsDigit(digits[k]);
      assert '@' !in digits;
    }
    assert Before(s, '@') == s;
    NoPrefixOfBase(n, digits);
    DropSuffixOf(n, digits);
  }

  /** The examples the function documents: an e-mail address, ... */
  lemma NormalizeEmail()
    ensures NormalizeUsername(Some("wlin@redhat.com")) == Some("wlin")
  {
    assert "wlin@redhat.com" == "wlin" + ['@'] + "redhat.com";
    BeforeAt("wlin", '@', "redhat.com");
    assert "wlin-"[0] != EmployeePrefix[0];
    NormalizeBaseName("wlin");
  }

  /** ... a numbered account, ... */
  lemma NormalizeNumberedExample()
    ensures NormalizeUsername(Some("sbudhwar-1")) == Some("sbudhwar")
  {
    var n := "sbudhwar";
    assert n + "-" == "sbudhwar-";
    assert !StartsWith(n + "-", EmployeePrefix) by {
      assert (n + "-")[0] != EmployeePrefix[0];
    }
    assert !StartsWith(EmployeePrefix, n + "-") by {
      assert (n + "-")[0] != EmployeePrefix[0];
    }
    assert IsBaseName(n);
    assert NatToString(1) == "1";
    NormalizeNumbered(n, 1);
    assert n + "-" + "1" == "sbudhwar-1";
  }

  /** ... and an employee account. */
  lemma NormalizeEmployeeExample()
    ensures NormalizeUsername(Some("rh-ee-djanaki")) == Some("djanaki")
  {
    var n := "djanaki";
    var s := EmployeePrefix + n;
    assert s == "rh-ee-djanaki";
    assert '@' !in s by {
      assert '@' !in EmployeePrefix && '@' !in n;
    }
    assert Before(s, '@') == s;
    assert s[..|EmployeePrefix|] == EmployeePrefix && s[|EmployeePrefix|..] == n;
    assert DropEmployeePrefix(s) == n;
    assert !IsDigit(n[|n| - 1]);
    assert TrailingDigits(n) == 0;
    assert n[|n| - 1] != '\n';
    assert DropNumericSuffix(n) == n;
  }

  // ---------------------------------------------------------------------------
  // calculate_percentage_change and add_metric_change

  /** `(after - before) / before * 100`, or `None` from a zero baseline. */
  function PercentChange(before: real, after: real): (r: Option<real>)
    ensures r.None? <==> before == 0.0
  {
    if before == 0.0 then None else Some((after - before) / before * 100.0)
  }

  /** Applying the change to the baseline gives the later value back. */
  lemma PercentChangeInverse(before: real, after: real)
    requires before != 0.0
    ensures before + before * PercentChange(before, after).value / 100.0 == after
    ensures before > 0.0 ==> (PercentChange(before, after).value > 0.0 <==> after > before)
    ensures before < 0.0 ==> (PercentChange(before, after).value > 0.0 <==> after < before)
  {
    var q := (after - before) / before;
    assert q * before == after - before;
    SignOfQuotient(after - before, before);
  }

  lemma SignOfQuotient(x: real, y: real)
    requires y != 0.0
    ensures (x / y * 100.0 > 0.0) <==> (x > 0.0 && y > 0.0) || (x < 0.0 && y < 0.0)
  {
    var q := x / y;
    assert q * y == x;
    if y > 0.0 {
      assert q > 0.0 <==> x > 0.0;
    } else {
      assert q > 0.0 <==> x < 0.0;
    }
  }

  /** One entry of the changes list. */
  datatype MetricChange = MetricChange(name: string, before: real, after: real, change: real,
                                       unit: string, isAbsolute: bool)

  /**
   * `add_metric_change`: an absolute change is always recorded with the later
   * value as its change; a relative one only when the baseline is non-zero.
   */
  function AddMetricChange(changes: seq<MetricChange>, name: string, before: real, after: real,
                           unit: string, isAbsolute: bool): (r: seq<MetricChange>)
    ensures |r| == |changes| + (if isAbsolute || before != 0.0 then 1 else 0)
    ensures r[..|changes|] == changes
    ensures |r| > |changes| ==> r[|changes|] == MetricChange(name, before, after,
              if isAbsolute then after else (after - before) / before * 100.0, unit, isAbsolute)
  {
    if isAbsolute then changes + [MetricChange(name, before, after, after, unit, true)]
    else match PercentChange(before, after)
      case None => changes
      case Some(p) => changes + [MetricChange(name, before, after, p, unit, false)]
  }

  // ---------------------------------------------------------------------------
  // format_metric_changes

  function Abs(x: real): real {
    if x < 0.0 then -x else x
  }

  /** The test a change passes to be listed under increases, or under decreases. */
  function Direction(increases: bool): MetricChange -> bool {
    (m: MetricChange) => if increases then m.change > 0.0 else m.change < 0.0
  }

  /** The changes strictly above (or below) zero, in input order; zero changes are dropped. */
  function Select(changes: seq<MetricChange>, increases: bool): (r: seq<MetricChange>)
    ensures forall m :: m in r <==> m in changes && (if increases then m.change > 0.0 else m.change < 0.0)
    ensures |r| <= |changes|
    ensures r == Tally.Filter(changes, Direction(increases))
  {
    if changes == [] then []
    else
      var m := changes[0];
      var keep := if increases then m.change > 0.0 else m.change < 0.0;
      assert forall x :: x in changes <==> x == m || x in changes[1..];
      (if keep then [m] else []) + Select(changes[1..], increases)
  }

  predicate ByMagnitude(s: seq<MetricChange>) {
    forall i, j :: 0 <= i < j < |s| ==> Abs(s[i].change) >= Abs(s[j].change)
  }

  /** Puts `m` before the first element whose magnitude is not larger. */
  function InsertByMagnitude(m: MetricChange, s: seq<MetricChange>): (r: seq<MetricChange>)
    ensures multiset(r) == multiset(s) + multiset{m}
    ensures |r| == |s| + 1 && (r[0] == m || (s != [] && r[0] == s[0]))
  {
    if s == [] || Abs(s[0].change) <= Abs(m.change) then [m] + s
    else
      assert s == [s[0]] + s[1..];
      [s[0]] + InsertByMagnitude(m, s[1..])
  }

  lemma InsertByMagnitudeMembers(m: MetricChange, s: seq<MetricChange>)
    ensures forall y :: y in InsertByMagnitude(m, s) ==> y == m || y in s
  {
    forall y | y in InsertByMagnitude(m, s)
      ensures y == m || y in s
    {
      assert y in multiset(InsertByMagnitude(m, s));
    }
  }

  /** In a sequence ordered by magnitude, the first metric is the largest. */
  lemma ByMagnitudeFirst(s: seq<MetricChange>)
    requires ByMagnitude(s) && s != []
    ensures forall y :: y in s ==> Abs(s[0].change) >= Abs(y.change)
  {
    forall y | y in s
      ensures Abs(s[0].change) >= Abs(y.change)
    {
      var k :| 0 <= k < |s| && s[k] == y;
    }
  }

  lemma ByMagnitudeCons(x: MetricChange, rest: seq<MetricChange>)
    requires ByMagnitude(rest) && forall y :: y in rest ==> Abs(x.change) >= Abs(y.change)
    ensures ByMagnitude([x] + rest)
  {
    var r := [x] + rest;
    forall i, j | 0 <= i < j < |r|
      ensures Abs(r[i].change) >= Abs(r[j].change)
    {
      assert r[j] == rest[j - 1];
      if i > 0 {
        assert r[i] == rest[i - 1];
      }
    }
  }

  lemma {:induction false} InsertByMagnitudeSorted(m: MetricChange, s: seq<MetricChange>)
    requires ByMagnitude(s)
    ensures ByMagnitude(InsertByMagnitude(m, s))
  {
    if s == [] || Abs(s[0].change) <= Abs(m.change) {
      assert InsertByMagnitude(m, s) == [m] + s;
      if s != [] {
        ByMagnitudeFirst(s);
      }
      ByMagnitudeCons(m, s);
    } else {
      var rest := InsertByMagnitude(m, s[1..]);
      assert ByMagnitude(s[1..]);
      InsertByMagnitudeSorted(m, s[1..]);
      InsertByMagnitudeMembers(m, s[1..]);
      ByMagnitudeFirst(s);
      assert forall y :: y in s[1..] ==> y in s;
      ByMagnitudeCons(s[0], rest);
      assert InsertByMagnitude(m, s) == [s[0]] + rest;
    }
  }

  /** `list.sort(key=lambda x: abs(x["change"]), reverse=True)`. */
  function SortByMagnitude(s: seq<MetricChange>): (r: seq<MetricChange>)
    ensures ByMagnitude(r) && multiset(r) == multiset(s)
  {
    if s == [] then []
    else
      assert s == [s[0]] + s[1..];
      InsertByMagnitudeSorted(s[0], SortByMagnitude(s[1..]));
      InsertByMagnitude(s[0], SortByMagnitude(s[1..]))
  }

  /** The metrics of one magnitude, in their order. */
  function WithMagnitude(s: seq<MetricChange>, a: real): seq<MetricChange> {
    if s == [] then [] else (if Abs(s[0].change) == a then [s[0]] else []) + WithMagnitude(s[1..], a)
  }

  lemma WithMagnitudeCons(x: MetricChange, t: seq<MetricChange>, a: real)
    ensures WithMagnitude([x] + t, a) == (if Abs(x.change) == a then [x] else []) + WithMagnitude(t, a)
  {
    assert ([x] + t)[1..] == t;
  }

  /** Prepending a larger metric keeps the extra metric `m` of magnitude `a` in front. */
  lemma WithMagnitudeStep(x: MetricChange, m: MetricChange, t: seq<MetricChange>, rest: seq<MetricChange>, a: real)
    requires Abs(x.change) > Abs(m.change)
    requires WithMagnitude(rest, a) == (if Abs(m.change) == a then [m] else []) + WithMagnitude(t, a)
    ensures WithMagnitude([x] + rest, a) == (if Abs(m.change) == a then [m] else []) + WithMagnitude([x] + t, a)
  {
    WithMagnitudeCons(x, rest, a);
    WithMagnitudeCons(x, t, a);
  }

  lemma {:induction false} InsertWithMagnitude(m: MetricChange, s: seq<MetricChange>, a: real)
    ensures WithMagnitude(InsertByMagnitude(m, s), a) == (if Abs(m.change) == a then [m] else []) + WithMagnitude(s, a)
  {
    if s == [] || Abs(s[0].change) <= Abs(m.change) {
      assert InsertByMagnitude(m, s) == [m] + s;
      WithMagnitudeCons(m, s, a);
    } else {
      var rest := InsertByMagnitude(m, s[1..]);
      InsertWithMagnitude(m, s[1..], a);
      assert InsertByMagnitude(m, s) == [s[0]] + rest;
      assert s == [s[0]] + s[1..];
      WithMagnitudeStep(s[0], m, s[1..], rest, a);
    }
  }

  /** The sort is stable: metrics with equal magnitude keep their order. */
  lemma {:induction false} SortByMagnitudeStable(s: seq<MetricChange>, a: real)
    ensures WithMagnitude(SortByMagnitude(s), a) == WithMagnitude(s, a)
  {
    if s != [] {
      SortByMagnitudeStable(s[1..], a);
      InsertWithMagnitude(s[0], SortByMagnitude(s[1..]), a);
    }
  }

  /** One line of the summary. */
  datatype Line =
    | Blank
    | Heading(topN: int, increases: bool)
    | Item(metric: MetricChange)
    | NothingDetected(increases: bool)

  /** The metrics one section lists: the `top_n` largest by magnitude (Python slice semantics). */
  function Shown(changes: seq<MetricChange>, topN: int, increases: bool): seq<MetricChange> {
    var sorted := SortByMagnitude(Select(changes, increases));
    sorted[..SliceStop(|sorted|, topN)]
  }

  /** A blank line, the heading, then the listed metrics or the "No ... detected" line. */
  function Section(changes: seq<MetricChange>, topN: int, increases: bool): (r: seq<Line>)
    ensures |r| >= 2 && r[0] == Blank && r[1] == Heading(topN, increases)
    ensures forall i :: 2 <= i < |r| ==> r[i].Item? || r[i] == NothingDetected(increases)
    ensures forall i :: 0 <= i < |r| && r[i].Item? ==>
              r[i].metric in changes && (if increases then r[i].metric.change > 0.0 else r[i].metric.change < 0.0)
  {
    var shown := Shown(changes, topN, increases);
    ShownSorted(changes, topN, increases);
    var body := if |Select(changes, increases)| > 0 then Items(shown) else [NothingDetected(increases)];
    SectionLines(changes, shown, body, topN, increases);
    [Blank, Heading(topN, increases)] + body
  }

  lemma SectionLines(changes: seq<MetricChange>, shown: seq<MetricChange>, body: seq<Line>, topN: int, increases: bool)
    requires forall m :: m in shown ==> m in changes && (if increases then m.change > 0.0 else m.change < 0.0)
    requires body == Items(shown) || body == [NothingDetected(increases)]
    ensures var r := [Blank, Heading(topN, increases)] + body;
            && (forall i :: 2 <= i < |r| ==> r[i].Item? || r[i] == NothingDetected(increases))
            && (forall i :: 0 <= i < |r| && r[i].Item? ==>
                  r[i].metric in changes && (if increases then r[i].metric.change > 0.0 else r[i].metric.change < 0.0))
  {
    var r := [Blank, Heading(topN, increases)] + body;
    forall i | 2 <= i < |r|
      ensures r[i].Item? || r[i] == NothingDetected(increases)
      ensures r[i].Item? ==> r[i].metric in changes && (if increases then r[i].metric.change > 0.0 else r[i].metric.change < 0.0)
    {
      assert r[i] == body[i - 2];
      if body == Items(shown) {
        assert body[i - 2] == Item(shown[i - 2]);
      }
    }
  }

  /** One `Item` line per listed change, in order. */
  function Items(shown: seq<MetricChange>): (r: seq<Line>)
    ensures |r| == |shown| && forall i :: 0 <= i < |shown| ==> r[i] == Item(shown[i])
  {
    if shown == [] then [] else [Item(shown[0])] + Items(shown[1..])
  }

  /** `format_metric_changes(metric_changes, top_n)`, line by line. */
  function FormatMetricChanges(changes: seq<MetricChange>, topN: int): (r: seq<Line>)
    ensures |r| >= 4 && r[0] == Blank && r[1] == Heading(topN, true)
    ensures Heading(topN, false) in r
    ensures forall i :: 0 <= i < |r| && r[i].Item? ==> r[i].metric in changes && r[i].metric.change != 0.0
    ensures forall i, j :: 0 <= i < |r| && 0 <= j < |r| && r[i].Item? && r[j].Item? && r[i].metric.change > 0.0 && r[j].metric.change < 0.0 ==> i < j
  {
    Section(changes, topN, true) + Section(changes, topN, false)
  }

  lemma SortedLength(s: seq<MetricChange>)
    ensures |SortByMagnitude(s)| == |s|
  {
    assert |multiset(SortByMagnitude(s))| == |multiset(s)|;
  }

  /** A section lists `top_n` changes of its sign, or all of them when there are fewer. */
  lemma ShownCount(changes: seq<MetricChange>, topN: int, increases: bool)
    requires topN >= 0
    ensures var n := |Select(changes, increases)|;
            |Shown(changes, topN, increases)| == if topN < n then topN else n
  {
    SortedLength(Select(changes, increases));
  }

  /** A section lists only changes of its sign, largest magnitude first. */
  lemma ShownSorted(changes: seq<MetricChange>, topN: int, increases: bool)
    ensures var shown := Shown(changes, topN, increases);
            && ByMagnitude(shown)
            && (forall m :: m in shown ==> m in changes && (if increases then m.change > 0.0 else m.change < 0.0))
  {
    var sorted := SortByMagnitude(Select(changes, increases));
    var shown := Shown(changes, topN, increases);
    forall m | m in shown
      ensures m in Select(changes, increases)
    {
      assert m in sorted;
      assert m in multiset(sorted);
    }
  }

  /** The top-N property: no unlisted change of the section's sign is larger than a listed one. */
  lemma ShownAreLargest(changes: seq<MetricChange>, topN: int, increases: bool, m: MetricChange, x: MetricChange)
    requires m in Shown(changes, topN, increases)
    requires x in Select(changes, increases) && x !in Shown(changes, topN, increases)
    ensures Abs(x.change) <= Abs(m.change)
  {
    var sorted := SortByMagnitude(Select(changes, increases));
    assert x in multiset(Select(changes, increases));
    assert x in multiset(sorted);
    PrefixLargest(sorted, SliceStop(|sorted|, topN), m, x);
  }

  /** In a sequence ordered by magnitude, nothing after a prefix is larger than what the prefix holds. */
  lemma PrefixLargest(sorted: seq<MetricChange>, k: nat, m: MetricChange, x: MetricChange)
    requires ByMagnitude(sorted) && k <= |sorted|
    requires m in sorted[..k] && x in sorted && x !in sorted[..k]
    ensures Abs(x.change) <= Abs(m.change)
  {
    var j :| 0 <= j < |sorted| && sorted[j] == x;
    var i :| 0 <= i < k && sorted[..k][i] == m;
    assert sorted[i] == m;
    assert forall q :: 0 <= q < k ==> sorted[q] == sorted[..k][q];
  }

  /** Number of lines a section takes: the listed changes, or the placeholder when its side is empty. */
  lemma SectionLength(changes: seq<MetricChange>, topN: int, increases: bool)
    requires topN >= 0
    ensures var n := |Select(changes, increases)|;
            |Section(changes, topN, increases)|
            == 2 + if n == 0 then 1 else if topN < n then topN else n
  {
    ShownCount(changes, topN, increases);
  }

  /**
   * The summary is two blank lines, two headings and, per side, between one
   * and `top_n` lines (for a positive `top_n`).
   */
  lemma FormatLength(changes: seq<MetricChange>, topN: int)
    requires topN >= 1
    ensures var inc := |Select(changes, true)|;
            var dec := |Select(changes, false)|;
            |FormatMetricChanges(changes, topN)|
            == 4 + Max(1, Min(inc, topN)) + Max(1, Min(dec, topN))
  {
    var up := Section(changes, topN, true);
    var down := Section(changes, topN, false);
    assert FormatMetricChanges(changes, topN) == up + down;
    SectionLength(changes, topN, true);
    SectionLength(changes, topN, false);
    SideLines(|Select(changes, true)|, topN);
    SideLines(|Select(changes, false)|, topN);
  }

  /** The lines one side takes, written with `min` and `max`. */
  lemma SideLines(n: nat, topN: int)
    requires topN >= 1
    ensures (if n == 0 then 1 else if topN < n then topN else n) == Max(1, Min(n, topN))
  {
  }

  function Min(a: int, b: int): int {
    if a < b then a else b
  }

  function Max(a: int, b: int): int {
    if a < b then b else a
  }

  /** With no changes at all, both sections say nothing was detected. */
  lemma FormatNoChanges(topN: int)
    ensures FormatMetricChanges([], topN)
            == [Blank, Heading(topN, true), NothingDetected(true), Blank, Heading(topN, false), NothingDetected(false)]
  {
  }
}

=== FILE: sheets.dfy ===
/**
 * The pure decisions of the spreadsheet upload: how a report file is split
 * into cells, which tab name a report gets from its file name, and whether
 * the upload renames the default tab, creates a new one or writes to the
 * name it was given.
 */
module Sheets {
  import opened Wrappers
  import opened Text

  /** Reports ending in `.tsv` are tab-separated; anything else is read as comma-separated. */
  function Delimiter(path: string): (c: char)
    ensures c == '\t' <==> EndsWith(path, ".tsv")
    ensures c == ',' <==> !EndsWith(path, ".tsv")
  {
    if EndsWith(path, ".tsv") then '\t' else ','
  }

  /** The position of the last `c` in `s`, if any. */
  function LastIndexOf(s: string, c: char): (r: Option<nat>)
    ensures r.Some? ==> r.value < |s| && s[r.value] == c && c !in s[r.value + 1..]
    ensures r.None? ==> c !in s
  {
    if s == [] then None
    else if s[|s| - 1] == c then Some(|s| - 1)
    else
      var r := LastIndexOf(s[..|s| - 1], c);
      assert s == s[..|s| - 1] + [s[|s| - 1]];
      r
  }

  /** `Path(path).name`: the text after the last `/`. */
  function FileName(path: string): (name: string)
    ensures '/' !in name && EndsWith(path, name)
  {
    match LastIndexOf(path, '/')
    case None => path
    case Some(i) => path[i + 1..]
  }

  /** `Path(path).stem`: the file name without its last suffix; a leading or trailing dot is not a suffix. */
  function Stem(path: string): (stem: string)
    ensures StartsWith(FileName(path), stem)
  {
    var name := FileName(path);
    match LastIndexOf(name, '.')
    case Some(i) => if 0 < i < |name| - 1 then name[..i] else name
    case None => name
  }

  // ---------------------------------------------------------------------------
  // Tab names derived from the report file

  /** `<kind> - Team` for the team-wide (`general`) report, `<kind> - <user>` otherwise. */
  function Title(kind: string, owner: string): (t: string)
    ensures owner == "general" ==> t == kind + " - Team"
    ensures owner != "general" ==> t == kind + " - " + owner
  {
    kind + " - " + (if owner == "general" then "Team" else owner)
  }

  /** The first `_`-separated word left once every `prefix` is removed from the stem. */
  function OwnerAfter(stem: string, prefix: string): string
    requires |prefix| > 0
  {
    Before(RemoveAll(stem, prefix), '_')
  }

  /**
   * The tab name `main` derives when none is given, as written: PR
   * comparisons are recognised by their prefix and everything else is taken
   * for a Jira report named `comparison_report_<user>_…`.
   */
  function SheetNameAsWritten(path: string): (name: string)
    ensures StartsWith(Stem(path), "pr_comparison_") ==> name == Title("PR Report", OwnerAfter(Stem(path), "pr_comparison_"))
    ensures !StartsWith(Stem(path), "pr_comparison_") ==> name == Title("Jira Report", OwnerAfter(Stem(path), "comparison_report_"))
  {
    var stem := Stem(path);
    if StartsWith(stem, "pr_comparison_") then Title("PR Report", OwnerAfter(stem, "pr_comparison_"))
    else Title("Jira Report", OwnerAfter(stem, "comparison_report_"))
  }

  /** The corrected derivation also recognises the `jira_comparison_<user>_…` reports the Jira comparison now writes. */
  function SheetName(path: string): (name: string)
    ensures StartsWith(Stem(path), "jira_comparison_") ==> name == Title("Jira Report", OwnerAfter(Stem(path), "jira_comparison_"))
    ensures !StartsWith(Stem(path), "jira_comparison_") ==> name == SheetNameAsWritten(path)
  {
    var stem := Stem(path);
    if StartsWith(stem, "jira_comparison_") then Title("Jira Report", OwnerAfter(stem, "jira_comparison_"))
    else SheetNameAsWritten(path)
  }

  /** `--sheet-name` wins when given; otherwise `main` derives the name from the file, as written. */
  function ChosenSheetName(given: Option<string>, path: string): (name: string)
    ensures Truthy(given) ==> name == given.value
    ensures !Truthy(given) ==> name == SheetNameAsWritten(path)
  {
    if Truthy(given) then given.value else SheetNameAsWritten(path)
  }

  /** The same choice with the corrected derivation; the two differ only on `jira_comparison_` reports. */
  function ChosenSheetNameCorrected(given: Option<string>, path: string): (name: string)
    ensures Truthy(given) ==> name == given.value
    ensures !Truthy(given) ==> name == SheetName(path)
    ensures !StartsWith(Stem(path), "jira_comparison_") ==> name == ChosenSheetName(given, path)
  {
    if Truthy(given) then given.value else SheetName(path)
  }

  /** The path a report generator writes: `<dir>/<prefix><owner>_<timestamp>.tsv`. */
  function SavedPath(dir: string, prefix: string, owner: string, stamp: string): string {
    dir + "/" + prefix + owner + "_" + stamp + ".tsv"
  }

  /** A saved report's file name and stem are what the generator put after the directory. */
  lemma SavedStem(dir: string, prefix: string, owner: string, stamp: string)
    requires '/' !in prefix + owner + stamp && '.' !in prefix + owner + stamp
    ensures Stem(SavedPath(dir, prefix, owner, stamp)) == prefix + (owner + "_" + stamp)
  {
    var base := prefix + (owner + "_" + stamp);
    var name := base + ".tsv";
    var path := SavedPath(dir, prefix, owner, stamp);
    assert path == dir + "/" + name;
    forall k | 0 <= k < |base| ensures base[k] != '/' && base[k] != '.' {
      assert base[k] in prefix + owner + stamp || base[k] == '_';
    }
    LastIndexAt(dir, '/', name);
    assert FileName(path) == name;
    LastIndexAt(base, '.', "tsv");
    assert name == base + ['.'] + "tsv";
  }

  /** The last `c` in `a + [c] + b`, when `b` has none, is the one after `a`. */
  lemma {:induction false} LastIndexAt(a: string, c: char, b: string)
    requires c !in b
    ensures LastIndexOf(a + [c] + b, c) == Some(|a|)
    decreases |b|
  {
    var s := a + [c] + b;
    if b == [] {
      assert s[|s| - 1] == c;
    } else {
      assert s[|s| - 1] == b[|b| - 1] != c;
      assert s[..|s| - 1] == a + [c] + b[..|b| - 1];
      assert LastIndexOf(s, c) == LastIndexOf(s[..|s| - 1], c);
      LastIndexAt(a, c, b[..|b| - 1]);
    }
  }

  /** Removing the file prefix from a name that starts with it leaves the rest, when the rest holds no copy of it. */
  lemma RemoveLeading(prefix: string, rest: string)
    requires |prefix| > 0 && !Contains(rest, prefix)
    ensures RemoveAll(prefix + rest, prefix) == rest
  {
    assert (prefix + rest)[..|prefix|] == prefix && (prefix + rest)[|prefix|..] == rest;
  }

  /** The owner read back from a saved report's stem is the owner it was saved for. */
  lemma OwnerRoundTrip(prefix: string, owner: string, stamp: string)
    requires |prefix| > 0 && '_' !in owner && !Contains(owner + "_" + stamp, prefix)
    ensures OwnerAfter(prefix + (owner + "_" + stamp), prefix) == owner
  {
    RemoveLeading(prefix, owner + "_" + stamp);
    BeforeAt(owner, '_', stamp);
  }

  /** What a saved report's owner and time stamp must avoid for the stem to be read back: the three file prefixes. */
  predicate PlainParts(owner: string, stamp: string) {
    && '_' !in owner && '/' !in owner + stamp && '.' !in owner + stamp
    && !Contains(owner + "_" + stamp, "pr_comparison_")
    && !Contains(owner + "_" + stamp, "jira_comparison_")
    && !Contains(owner + "_" + stamp, "comparison_report_")
  }

  /** A saved PR comparison gets the PR tab name of its author (or of the team). */
  lemma PrReportTitle(dir: string, owner: string, stamp: string)
    requires PlainParts(owner, stamp)
    ensures SheetName(SavedPath(dir, "pr_comparison_", owner, stamp)) == Title("PR Report", owner)
  {
    var rest := owner + "_" + stamp;
    SavedStem(dir, "pr_comparison_", owner, stamp);
    OwnerRoundTrip("pr_comparison_", owner, stamp);
    PrefixesDiffer("pr_comparison_", rest);
    assert StartsWith("pr_comparison_" + rest, "pr_comparison_") by {
      assert ("pr_comparison_" + rest)[..|"pr_comparison_"|] == "pr_comparison_";
    }
  }

  /** A saved Jira comparison gets the Jira tab name of its user (or of the team), once corrected. */
  lemma JiraReportTitle(dir: string, owner: string, stamp: string)
    requires PlainParts(owner, stamp)
    ensures SheetName(SavedPath(dir, "jira_comparison_", owner, stamp)) == Title("Jira Report", owner)
  {
    var rest := owner + "_" + stamp;
    SavedStem(dir, "jira_comparison_", owner, stamp);
    OwnerRoundTrip("jira_comparison_", owner, stamp);
    assert StartsWith("jira_comparison_" + rest, "jira_comparison_") by {
      assert ("jira_comparison_" + rest)[..|"jira_comparison_"|] == "jira_comparison_";
    }
  }

  /** A comparison of the older script (`comparison_report_<user>_…`) gets the Jira tab name of its user. */
  lemma LegacyReportTitle(dir: string, owner: string, stamp: string)
    requires PlainParts(owner, stamp)
    ensures SheetName(SavedPath(dir, "comparison_report_", owner, stamp)) == Title("Jira Report", owner)
  {
    SavedStem(dir, "comparison_report_", owner, stamp);
    OwnerRoundTrip("comparison_report_", owner, stamp);
    PrefixesDiffer("comparison_report_", owner + "_" + stamp);
  }

  lemma PrefixesDiffer(prefix: string, rest: string)
    requires prefix == "pr_comparison_" || prefix == "comparison_report_"
    ensures !StartsWith(prefix + rest, "jira_comparison_")
    ensures prefix == "comparison_report_" ==> !StartsWith(prefix + rest, "pr_comparison_")
  {
    assert (prefix + rest)[0] == prefix[0];
  }

  /**
   * As written, every saved Jira comparison report
   * (`jira_comparison_<user>_<timestamp>.tsv`) gets the tab name
   * "Jira Report - jira": its stem holds no `comparison_report_` before the
   * first `_`, so the first word is the report kind, whoever the user.
   */
  lemma JiraComparisonMisnamed(dir: string, owner: string, stamp: string)
    requires '/' !in owner + stamp && '.' !in owner + stamp
    ensures SheetNameAsWritten(SavedPath(dir, "jira_comparison_", owner, stamp)) == Title("Jira Report", "jira")
  {
    var stem := "jira_comparison_" + (owner + "_" + stamp);
    SavedStem(dir, "jira_comparison_", owner, stamp);
    assert !StartsWith(stem, "pr_comparison_") by { assert stem[..|"pr_comparison_"|][0] == 'j'; }
    KindFirst(owner + "_" + stamp);
  }

  /** Whatever follows `jira_comparison_`, the first word left after the older prefix is removed is `jira`. */
  lemma KindFirst(tail: string)
    ensures OwnerAfter("jira_comparison_" + tail, "comparison_report_") == "jira"
  {
    var rest := "comparison_" + tail;
    assert "jira_comparison_" + tail == "jira_" + rest;
    RemoveAllKeepsHead("jira_", rest, "comparison_report_");
    assert "jira_" + RemoveAll(rest, "comparison_report_") == "jira" + ['_'] + RemoveAll(rest, "comparison_report_");
    BeforeAt("jira", '_', RemoveAll(rest, "comparison_report_"));
  }

  /** Text that cannot start an occurrence of `pat` passes through the removal unchanged. */
  lemma {:induction false} RemoveAllKeepsHead(a: string, t: string, pat: string)
    requires |pat| > 0 && pat[0] !in a
    ensures RemoveAll(a + t, pat) == a + RemoveAll(t, pat)
    decreases |a|
  {
    if a == [] {
      assert a + t == t;
    } else {
      var s := a + t;
      assert s[0] == a[0] && s[1..] == a[1..] + t;
      RemoveAllKeepsHead(a[1..], t, pat);
      if |s| >= |pat| {
        assert s[..|pat|][0] == a[0];
      } else {
        NotContainsShort(t, pat);
        NotContainsShort(s, pat);
      }
    }
  }

  // ---------------------------------------------------------------------------
  // The tab written to

  /** What the upload does to the spreadsheet's tabs before writing. */
  datatype TabAction = RenameDefault | CreateTab | UseGiven

  /** The tab the rows go to, its id (`None` when a new tab's id comes back from the API), and how it was obtained. */
  datatype Tab = Tab(name: string, sheetId: Option<int>, action: TabAction)

  /**
   * `upload_data_to_sheet`: a fresh, timestamped name when a new tab is
   * demanded or the name is taken; the lone default "Sheet1" is renamed to
   * it when the rename succeeds, otherwise a tab is created.
   */
  function TabFor(sheetName: string, existing: seq<string>, createNewTab: bool, stamp: string, renameSucceeds: bool): (t: Tab)
    ensures t.action == UseGiven <==> !createNewTab && sheetName !in existing
    ensures t.action == UseGiven ==> t.name == sheetName && t.sheetId == Some(0)
    ensures t.action != UseGiven ==> t.name == sheetName + " - " + stamp
    ensures t.action == RenameDefault <==> t.action != UseGiven && existing == ["Sheet1"] && renameSucceeds
    ensures t.action == RenameDefault ==> t.sheetId == Some(0)
    ensures t.action == CreateTab ==> t.sheetId.None?
  {
    if createNewTab || sheetName in existing then
      var name := sheetName + " - " + stamp;
      if |existing| == 1 && existing[0] == "Sheet1" && renameSucceeds then Tab(name, Some(0), RenameDefault)
      else
        assert existing == ["Sheet1"] ==> |existing| == 1 && existing[0] == "Sheet1";
        Tab(name, None, CreateTab)
    else Tab(sheetName, Some(0), UseGiven)
  }

  /** An existing tab of the given name is never written over: the upload then goes to a new name. */
  lemma NoClobber(sheetName: string, existing: seq<string>, createNewTab: bool, stamp: string, renameSucceeds: bool)
    requires sheetName in existing
    ensures TabFor(sheetName, existing, createNewTab, stamp, renameSucceeds).name != sheetName
  {
    var t := TabFor(sheetName, existing, createNewTab, stamp, renameSucceeds);
    assert |t.name| > |sheetName|;
  }

  /** `'<name>'!A1`: the range the rows are written to. */
  function RangeFor(name: string): (range: string)
    ensures |range| == |name| + 5 && StartsWith(range, "'") && EndsWith(range, "'!A1")
    ensures range[1..|range| - 4] == name
  {
    "'" + name + "'!A1"
  }

  /**
   * The tab `main` uploads to: into an existing spreadsheet (an id given or
   * taken from the environment) always a new timestamped tab, so earlier
   * uploads stay; into a freshly created one the derived name itself unless
   * that name is already a tab there.
   */
  function MainTab(spreadsheetId: Option<string>, sheetName: string, existing: seq<string>, stamp: string, renameSucceeds: bool): (t: Tab)
    ensures Truthy(spreadsheetId) ==> t.action != UseGiven && t.name == sheetName + " - " + stamp
    ensures !Truthy(spreadsheetId) ==> (t.action == UseGiven <==> sheetName !in existing)
    ensures !Truthy(spreadsheetId) && sheetName !in existing ==> t.name == sheetName && t.sheetId == Some(0)
  {
    TabFor(sheetName, existing, Truthy(spreadsheetId), stamp, renameSucceeds)
  }
}

=== FILE: state_aggregation.dfy ===
/**
 * The batch side of the Jira report (get_jira_metrics.py, and its older twin
 * get_issues.py): the issue-type histogram, the closure time of each resolved
 * issue, and the per-status aggregation of `calculate_state_durations` over
 * all issues, with the re-entry ratio and its warning.
 */
module StateAggregation {
  import opened Wrappers
  import opened Text
  import opened Timestamps
  import opened MapSums
  import opened Changelog

  // ---------------------------------------------------------------------------
  // Issue-type histogram.

  /** `issue["fields"].get("issuetype", {}).get("name", "Unknown")`. */
  function IssueTypeName(issue: Issue): State {
    issue.issueTypeName.GetOr(Some("Unknown"))
  }

  /** `issue_types[issue_type] += 1` over the issues in order. */
  function IssueTypes(issues: seq<Issue>): map<State, nat>
    decreases |issues|
  {
    if issues == [] then map[]
    else
      var h := IssueTypes(issues[..|issues| - 1]);
      var k := IssueTypeName(issues[|issues| - 1]);
      h[k := (if k in h then h[k] else 0) + 1]
  }

  /** How many issues have type `k`. */
  function TypeCount(issues: seq<Issue>, k: State): nat
    decreases |issues|
  {
    if issues == [] then 0
    else TypeCount(issues[..|issues| - 1], k) + (if IssueTypeName(issues[|issues| - 1]) == k then 1 else 0)
  }

  /** Each type's bucket holds exactly the issues of that type, and only types that occur have a bucket. */
  lemma {:induction false} IssueTypesCount(issues: seq<Issue>, k: State)
    ensures k in IssueTypes(issues) <==> TypeCount(issues, k) > 0
    ensures k in IssueTypes(issues) ==> IssueTypes(issues)[k] == TypeCount(issues, k)
    decreases |issues|
  {
    if issues != [] {
      IssueTypesCount(issues[..|issues| - 1], k);
    }
  }

  function NatValue(n: nat): int { n }

  /** Every issue is counted in exactly one bucket: the percentages are of `len(all_issues)`. */
  lemma {:induction false} IssueTypesTotal(issues: seq<Issue>)
    ensures SumOf(IssueTypes(issues), NatValue) == |issues|
    decreases |issues|
  {
    if issues != [] {
      var h := IssueTypes(issues[..|issues| - 1]);
      var k := IssueTypeName(issues[|issues| - 1]);
      IssueTypesTotal(issues[..|issues| - 1]);
      SumOfUpdate(h, NatValue, k, (if k in h then h[k] else 0) + 1);
    }
  }

  // ---------------------------------------------------------------------------
  // Closure time: resolution minus creation, fractional-seconds layout only.

  /**
   * The closure time of one issue, when both timestamps are non-empty and
   * both parse in the layout with a fraction; otherwise the `strptime`
   * raises (or is skipped) and the issue contributes no closure time.
   */
  function ClosureTime(issue: Issue): Option<int> {
    if issue.created.None? || issue.created.value == "" || issue.resolutionDate.None? || issue.resolutionDate.value == "" then None
    else match (ParseFields(issue.created.value, WithFraction), ParseFields(issue.resolutionDate.value, WithFraction))
      case (Some(c), Some(r)) => Some(r.EpochMicros() - c.EpochMicros())
      case _ => None
  }

  /** `closing_times`, in issue order. */
  function ClosureTimes(issues: seq<Issue>): (r: seq<int>)
    ensures |r| <= |issues|
    ensures forall d :: d in r <==> exists i :: 0 <= i < |issues| && ClosureTime(issues[i]) == Some(d)
    decreases |issues|
  {
    if issues == [] then []
    else
      var rest := ClosureTimes(issues[1..]);
      assert forall i :: 0 < i < |issues| ==> issues[i] == issues[1..][i - 1];
      assert forall i :: 0 <= i < |issues| - 1 ==> issues[1..][i] == issues[i + 1];
      (match ClosureTime(issues[0]) case Some(d) => [d] case None => []) + rest
  }

  /**
   * A closure time is the span `parse_datetime` measures too: both
   * timestamps parse there (to the same instants), so the closure time is
   * resolution minus creation as the state analysis sees them.
   */
  lemma ClosureTimeAgreesWithParse(issue: Issue)
    requires ClosureTime(issue).Some?
    ensures ParseDatetime(issue.created).Some? && ParseDatetime(issue.resolutionDate).Some?
    ensures ClosureTime(issue).value == ParseDatetime(issue.resolutionDate).value - ParseDatetime(issue.created).value
  {
  }

  /**
   * For a resolved issue whose statuses are all named, the times per status
   * add up to its closure time.
   */
  lemma ClosureTimeIsSumOfDurations(issue: Issue, now: int, created: int, end: int)
    requires ClosureTime(issue).Some?
    requires ParseDatetime(issue.created) == Some(created) && ParseDatetime(issue.resolutionDate) == Some(end)
    requires var ts := SortByDate(Transitions(issue.histories));
             Truthy(InitialStatus(issue, ts)) && forall i :: 0 <= i < |ts| ==> Truthy(ts[i].to)
    ensures SumOf(StateDurations(issue, now), Micros) == ClosureTime(issue).value
  {
    ClosureTimeAgreesWithParse(issue);
    var ts := SortByDate(Transitions(issue.histories));
    assert StateDurations(issue, now) == Durations(created, InitialStatus(issue, ts), ts, end);
    DurationsCoverLifetime(created, InitialStatus(issue, ts), ts, end);
  }

  // ---------------------------------------------------------------------------
  // Per-status aggregation over all issues.

  /** `total_seconds` (as microseconds), `total_count` and `issue_count` of one status. */
  datatype Aggregate = Aggregate(micros: int, totalCount: nat, issueCount: nat)

  type Aggregated = map<State, Aggregate>

  function Lookup(agg: Aggregated, k: State): Aggregate {
    if k in agg then agg[k] else Aggregate(0, 0, 0)
  }

  /** Folds one issue's result into the totals. */
  function Absorb(agg: Aggregated, stats: Stats): (r: Aggregated)
    ensures r.Keys == agg.Keys + stats.Keys
  {
    map k | k in agg.Keys + stats.Keys ::
      if k in stats then
        Aggregate(Lookup(agg, k).micros + stats[k].micros, Lookup(agg, k).totalCount + stats[k].count,
                  Lookup(agg, k).issueCount + 1)
      else agg[k]
  }

  /** `all_states_aggregated` after the loop over the issues' results. */
  function AggregateAll(perIssue: seq<Stats>): Aggregated
    decreases |perIssue|
  {
    if perIssue == [] then map[] else Absorb(AggregateAll(perIssue[..|perIssue| - 1]), perIssue[|perIssue| - 1])
  }

  /** How many issues passed through `k`. */
  function IssuesWith(perIssue: seq<Stats>, k: State): nat
    decreases |perIssue|
  {
    if perIssue == [] then 0
    else IssuesWith(perIssue[..|perIssue| - 1], k) + (if k in perIssue[|perIssue| - 1] then 1 else 0)
  }

  /** The issues' entry counts for `k`, added up. */
  function CountSum(perIssue: seq<Stats>, k: State): nat
    decreases |perIssue|
  {
    if perIssue == [] then 0
    else
      var last := perIssue[|perIssue| - 1];
      CountSum(perIssue[..|perIssue| - 1], k) + (if k in last then last[k].count else 0)
  }

  /** The issues' times in `k`, added up. */
  function MicrosSum(perIssue: seq<Stats>, k: State): int
    decreases |perIssue|
  {
    if perIssue == [] then 0
    else
      var last := perIssue[|perIssue| - 1];
      MicrosSum(perIssue[..|perIssue| - 1], k) + (if k in last then last[k].micros else 0)
  }

  /**
   * Each status's aggregate is the sum of the per-issue entries for it, and
   * a status appears exactly when some issue passed through it.
   */
  lemma {:induction false} AggregatePerState(perIssue: seq<Stats>, k: State)
    ensures k in AggregateAll(perIssue) <==> IssuesWith(perIssue, k) > 0
    ensures Lookup(AggregateAll(perIssue), k) == Aggregate(MicrosSum(perIssue, k), CountSum(perIssue, k), IssuesWith(perIssue, k))
    decreases |perIssue|
  {
    if perIssue != [] {
      AggregatePerState(perIssue[..|perIssue| - 1], k);
    }
  }

  /** No status is counted for more issues than there are. */
  lemma {:induction false} IssuesWithBound(perIssue: seq<Stats>, k: State)
    ensures IssuesWith(perIssue, k) <= |perIssue|
    decreases |perIssue|
  {
    if perIssue != [] {
      IssuesWithBound(perIssue[..|perIssue| - 1], k);
    }
  }

  predicate EntriesPositive(stats: Stats) {
    forall k :: k in stats ==> stats[k].count >= 1
  }

  /** Every issue enters each of its statuses at least once, so entries are never fewer than issues. */
  lemma {:induction false} CountSumAtLeastIssues(perIssue: seq<Stats>, k: State)
    requires forall i :: 0 <= i < |perIssue| ==> EntriesPositive(perIssue[i])
    ensures CountSum(perIssue, k) >= IssuesWith(perIssue, k)
    decreases |perIssue|
  {
    if perIssue != [] {
      CountSumAtLeastIssues(perIssue[..|perIssue| - 1], k);
    }
  }

  /** The per-issue results of the batch, all with the same reading of the clock. */
  function PerIssue(issues: seq<Issue>, now: int): (r: seq<Stats>)
    ensures |r| == |issues| && forall i :: 0 <= i < |issues| ==> r[i] == StateDurations(issues[i], now)
  {
    seq(|issues|, i requires 0 <= i < |issues| => StateDurations(issues[i], now))
  }

  /** Every aggregate can be averaged: its status was seen in at least one issue. */
  predicate WellFormed(agg: Aggregated) {
    forall k :: k in agg ==> agg[k].issueCount >= 1
  }

  /**
   * Across a batch, every aggregated status was seen in between one and all
   * of the issues, and entered at least as many times as issues saw it: the
   * re-entry ratio is at least 1.
   */
  lemma BatchAggregateBounds(issues: seq<Issue>, now: int, k: State)
    requires k in AggregateAll(PerIssue(issues, now))
    ensures var a := AggregateAll(PerIssue(issues, now))[k];
            1 <= a.issueCount <= |issues| && a.totalCount >= a.issueCount
  {
    var p := PerIssue(issues, now);
    AggregatePerState(p, k);
    IssuesWithBound(p, k);
    forall i | 0 <= i < |p|
      ensures EntriesPositive(p[i])
    {
      StateDurationsCountsPositive(issues[i], now);
    }
    CountSumAtLeastIssues(p, k);
  }

  lemma AggregateAllWellFormed(perIssue: seq<Stats>)
    ensures WellFormed(AggregateAll(perIssue))
  {
    forall k | k in AggregateAll(perIssue)
      ensures AggregateAll(perIssue)[k].issueCount >= 1
    {
      AggregatePerState(perIssue, k);
    }
  }

  // ---------------------------------------------------------------------------
  // The report over the aggregates.

  /** `total_count / issue_count`: average entries per issue. */
  function ReEntryRatio(a: Aggregate): real
    requires a.issueCount > 0
  {
    a.totalCount as real / a.issueCount as real
  }

  /** The back-and-forth warning is printed when the ratio exceeds 1.5. */
  predicate ReEntryWarning(a: Aggregate)
    requires a.issueCount > 0
  {
    ReEntryRatio(a) > 1.5
  }

  /** The warning fires exactly when more than three entries are recorded per two issues. */
  lemma ReEntryWarningExact(a: Aggregate)
    requires a.issueCount > 0
    ensures ReEntryWarning(a) <==> 2 * a.totalCount > 3 * a.issueCount
    ensures ReEntryRatio(a) >= 1.0 <==> a.totalCount >= a.issueCount
  {
    var t, n := a.totalCount as real, a.issueCount as real;
    RatioCompare(t, n, 1.5);
    assert t > 1.5 * n <==> 2 * a.totalCount > 3 * a.issueCount;
    RatioCompare(t, n, 1.0);
  }

  /** Comparing a ratio with a constant is comparing the numerator with the scaled denominator. */
  lemma RatioCompare(t: real, n: real, c: real)
    requires n > 0.0
    ensures t / n > c <==> t > c * n
    ensures t / n >= c <==> t >= c * n
  {
    var r := t / n;
    assert t == r * n;
    assert t - c * n == (r - c) * n;
  }

  /** `total_seconds / issue_count`, the sort key of the report. */
  function Average(a: Aggregate): real
    requires a.issueCount > 0
  {
    a.micros as real / a.issueCount as real
  }

  predicate ByAverageDescending(agg: Aggregated, order: seq<State>)
    requires WellFormed(agg) && forall i :: 0 <= i < |order| ==> order[i] in agg
  {
    forall i, j :: 0 <= i < j < |order| ==> Average(agg[order[i]]) >= Average(agg[order[j]])
  }

  /** Places `k` before the first status whose average is not above its own. */
  function InsertByAverage(agg: Aggregated, k: State, order: seq<State>): (r: seq<State>)
    requires WellFormed(agg) && k in agg && forall i :: 0 <= i < |order| ==> order[i] in agg
    ensures multiset(r) == multiset(order) + multiset{k}
    ensures forall i :: 0 <= i < |r| ==> r[i] in agg
    ensures |r| == |order| + 1 && (r[0] == k || (order != [] && r[0] == order[0]))
    decreases |order|
  {
    if order == [] || Average(agg[k]) >= Average(agg[order[0]]) then [k] + order
    else
      assert order == [order[0]] + order[1..];
      [order[0]] + InsertByAverage(agg, k, order[1..])
  }

  lemma InsertByAverageMembers(agg: Aggregated, k: State, order: seq<State>)
    requires WellFormed(agg) && k in agg && forall i :: 0 <= i < |order| ==> order[i] in agg
    ensures forall y :: y in InsertByAverage(agg, k, order) ==> y == k || y in order
  {
    forall y | y in InsertByAverage(agg, k, order)
      ensures y == k || y in order
    {
      assert y in multiset(InsertByAverage(agg, k, order));
    }
  }

  /** In an order by descending average, the first status has the largest average. */
  lemma ByAverageFirst(agg: Aggregated, order: seq<State>)
    requires WellFormed(agg) && forall i :: 0 <= i < |order| ==> order[i] in agg
    requires ByAverageDescending(agg, order) && order != []
    ensures forall y :: y in order ==> y in agg && Average(agg[order[0]]) >= Average(agg[y])
  {
    forall y | y in order
      ensures y in agg && Average(agg[order[0]]) >= Average(agg[y])
    {
      var m :| 0 <= m < |order| && order[m] == y;
    }
  }

  lemma ByAverageCons(agg: Aggregated, k: State, rest: seq<State>)
    requires WellFormed(agg) && k in agg && forall i :: 0 <= i < |rest| ==> rest[i] in agg
    requires ByAverageDescending(agg, rest)
    requires forall y :: y in rest ==> Average(agg[k]) >= Average(agg[y])
    ensures forall i :: 0 <= i < |[k] + rest| ==> ([k] + rest)[i] in agg
    ensures ByAverageDescending(agg, [k] + rest)
  {
    var r := [k] + rest;
    assert forall i :: 0 < i < |r| ==> r[i] == rest[i - 1];
    forall i, j | 0 <= i < j < |r|
      ensures Average(agg[r[i]]) >= Average(agg[r[j]])
    {
      assert r[j] == rest[j - 1];
      if i > 0 {
        assert r[i] == rest[i - 1];
      }
    }
  }

  lemma {:induction false} InsertByAverageSorted(agg: Aggregated, k: State, order: seq<State>)
    requires WellFormed(agg) && k in agg && forall i :: 0 <= i < |order| ==> order[i] in agg
    requires ByAverageDescending(agg, order)
    ensures ByAverageDescending(agg, InsertByAverage(agg, k, order))
    decreases |order|
  {
    if order == [] || Average(agg[k]) >= Average(agg[order[0]]) {
      assert InsertByAverage(agg, k, order) == [k] + order;
      if order != [] {
        ByAverageFirst(agg, order);
      }
      ByAverageCons(agg, k, order);
    } else {
      var rest := InsertByAverage(agg, k, order[1..]);
      assert ByAverageDescending(agg, order[1..]);
      InsertByAverageSorted(agg, k, order[1..]);
      InsertByAverageMembers(agg, k, order[1..]);
      ByAverageFirst(agg, order);
      assert forall y :: y in order[1..] ==> y in order;
      ByAverageCons(agg, order[0], rest);
      assert InsertByAverage(agg, k, order) == [order[0]] + rest;
    }
  }

  /** Insertion sort by descending average; each status goes before the later ones with its average. */
  function SortByAverage(agg: Aggregated, seen: seq<State>): (r: seq<State>)
    requires WellFormed(agg) && forall i :: 0 <= i < |seen| ==> seen[i] in agg
    ensures multiset(r) == multiset(seen)
    ensures forall i :: 0 <= i < |r| ==> r[i] in agg
    ensures ByAverageDescending(agg, r)
  {
    if seen == [] then []
    else
      assert seen == [seen[0]] + seen[1..];
      InsertByAverageSorted(agg, seen[0], SortByAverage(agg, seen[1..]));
      InsertByAverage(agg, seen[0], SortByAverage(agg, seen[1..]))
  }

  /** The statuses of `order` whose average is `a`, in their order. */
  function WithAverage(agg: Aggregated, order: seq<State>, a: real): seq<State>
    requires WellFormed(agg) && forall i :: 0 <= i < |order| ==> order[i] in agg
  {
    if order == [] then []
    else (if Average(agg[order[0]]) == a then [order[0]] else []) + WithAverage(agg, order[1..], a)
  }

  lemma WithAverageCons(agg: Aggregated, k: State, t: seq<State>, a: real)
    requires WellFormed(agg) && k in agg && forall i :: 0 <= i < |t| ==> t[i] in agg
    ensures forall i :: 0 <= i < |[k] + t| ==> ([k] + t)[i] in agg
    ensures WithAverage(agg, [k] + t, a) == (if Average(agg[k]) == a then [k] else []) + WithAverage(agg, t, a)
  {
    assert ([k] + t)[1..] == t;
  }

  /** Two elements with different scores never both have score `a`, so their filtered parts commute. */
  lemma SwapUnequal<T>(x: T, k: T, ax: real, ak: real, a: real, tail: seq<T>)
    requires ak < ax
    ensures (if ax == a then [x] else []) + ((if ak == a then [k] else []) + tail)
            == (if ak == a then [k] else []) + ((if ax == a then [x] else []) + tail)
  {
  }

  lemma {:induction false} InsertWithAverage(agg: Aggregated, k: State, order: seq<State>, a: real)
    requires WellFormed(agg) && k in agg && forall i :: 0 <= i < |order| ==> order[i] in agg
    ensures WithAverage(agg, InsertByAverage(agg, k, order), a)
            == (if Average(agg[k]) == a then [k] else []) + WithAverage(agg, order, a)
    decreases |order|
  {
    if order == [] || Average(agg[k]) >= Average(agg[order[0]]) {
      assert InsertByAverage(agg, k, order) == [k] + order;
      WithAverageCons(agg, k, order, a);
    } else {
      var x := order[0];
      var rest := InsertByAverage(agg, k, order[1..]);
      InsertWithAverage(agg, k, order[1..], a);
      assert InsertByAverage(agg, k, order) == [x] + rest;
      assert order == [x] + order[1..];
      WithAverageCons(agg, x, rest, a);
      WithAverageCons(agg, x, order[1..], a);
      SwapUnequal(x, k, Average(agg[x]), Average(agg[k]), a, WithAverage(agg, order[1..], a));
    }
  }

  /** The sort is stable: statuses with the same average keep their order. */
  lemma {:induction false} SortByAverageStable(agg: Aggregated, seen: seq<State>, a: real)
    requires WellFormed(agg) && forall i :: 0 <= i < |seen| ==> seen[i] in agg
    ensures WithAverage(agg, SortByAverage(agg, seen), a) == WithAverage(agg, seen, a)
  {
    if seen != [] {
      SortByAverageStable(agg, seen[1..], a);
      InsertWithAverage(agg, seen[0], SortByAverage(agg, seen[1..]), a);
    }
  }

  /** No element repeats in `s`. */
  predicate Distinct(s: seq<State>) {
    forall i, j :: 0 <= i < j < |s| ==> s[i] != s[j]
  }

  /**
   * `sorted(all_states_aggregated.items(), key=average, reverse=True)`, where
   * `seen` is the dictionary's order: the statuses in the order the
   * aggregation first met them. Every status appears once, in non-increasing
   * order of average time per issue, and statuses with equal averages keep
   * the order in which they were first met.
   */
  function OrderStates(agg: Aggregated, seen: seq<State>): (order: seq<State>)
    requires WellFormed(agg)
    requires Distinct(seen) && forall k :: k in agg <==> k in seen
    ensures |order| == |agg.Keys|
    ensures forall k :: k in agg <==> k in order
    ensures Distinct(order)
    ensures forall i :: 0 <= i < |order| ==> order[i] in agg
    ensures ByAverageDescending(agg, order)
    ensures forall a :: WithAverage(agg, order, a) == WithAverage(agg, seen, a)
  {
    var order := SortByAverage(agg, seen);
    SeenIsKeys(agg.Keys, seen);
    OrderOfKeys(agg.Keys, order);
    forall a
      ensures WithAverage(agg, order, a) == WithAverage(agg, seen, a)
    {
      SortByAverageStable(agg, seen, a);
    }
    order
  }

  /** A sequence listing each element of a set exactly once has the set's multiset. */
  lemma SeenIsKeys(keys: set<State>, seen: seq<State>)
    requires Distinct(seen) && forall k :: k in keys <==> k in seen
    ensures multiset(seen) == multiset(keys)
  {
    forall x
      ensures multiset(seen)[x] == multiset(keys)[x]
    {
      DistinctCount(seen, x);
    }
  }

  lemma {:induction false} DistinctCount(s: seq<State>, x: State)
    requires Distinct(s)
    ensures multiset(s)[x] == if x in s then 1 else 0
  {
    if s != [] {
      var t := s[1..];
      assert s == [s[0]] + t;
      assert Distinct(t) by {
        forall i, j | 0 <= i < j < |t|
          ensures t[i] != t[j]
        {
          assert t[i] == s[i + 1] && t[j] == s[j + 1];
        }
      }
      assert s[0] !in t by {
        forall j | 0 <= j < |t|
          ensures t[j] != s[0]
        {
          assert t[j] == s[j + 1];
        }
      }
      DistinctCount(t, x);
    }
  }

  /** A sequence holding each element of a set once. */
  lemma OrderOfKeys(keys: set<State>, order: seq<State>)
    requires multiset(order) == multiset(keys)
    ensures |order| == |keys|
    ensures forall k :: k in keys <==> k in order
    ensures forall i, j :: 0 <= i < j < |order| ==> order[i] != order[j]
  {
    assert |multiset(order)| == |order|;
    assert |multiset(keys)| == |keys| by {
      SetMultisetCard(keys);
    }
    forall k
      ensures k in keys <==> k in order
    {
      assert k in order <==> k in multiset(order);
    }
    forall i, j | 0 <= i < j < |order|
      ensures order[i] != order[j]
    {
      if order[i] == order[j] {
        DuplicateInMultiset(order, i, j);
      }
    }
  }

  lemma {:induction false} SetMultisetCard(s: set<State>)
    ensures |multiset(s)| == |s|
    decreases |s|
  {
    if s != {} {
      var x :| x in s;
      SetMultisetCard(s - {x});
      assert multiset(s) == multiset(s - {x}) + multiset{x};
    }
  }

  lemma DuplicateInMultiset(s: seq<State>, i: nat, j: nat)
    requires i < j < |s| && s[i] == s[j]
    ensures multiset(s)[s[i]] >= 2
  {
    assert s == s[..j] + [s[j]] + s[j + 1..];
    assert s[i] in s[..j];
  }
}

=== FILE: state_durations.dfy ===
/**
 * `calculate_state_durations`: how long an issue spent in each workflow
 * status, and how many times it entered each, reconstructed from its Jira
 * changelog. The same algorithm is written out three times in the
 * repository (utils.py and inline in get_jira_metrics.py and get_issues.py);
 * this module models it once.
 *
 * The issue is open in its initial status from creation until the first
 * status change, in each later status from one change to the next, and in
 * the last status until resolution (or until "now" when unresolved). Time
 * in a status whose name is null or empty is dropped, but entering such a
 * status still counts as an entry.
 */
module Changelog {
  import opened Wrappers
  import opened Text
  import opened Timestamps
  import opened MapSums

  /** A status name from the changelog, which may be JSON null. */
  type State = Option<string>

  /** One changed field of a changelog entry. */
  datatype Item = Item(field: Option<string>, fromString: State, toString: State)

  /** One changelog entry: when it was recorded, and what changed. */
  datatype History = History(created: Option<string>, items: seq<Item>)

  /**
   * The fields of a Jira issue the analysis reads. `statusName` and
   * `issueTypeName` are `None` when the name is missing altogether (read as
   * "Unknown"), and `Some(None)` when it is null.
   */
  datatype Issue = Issue(created: Option<string>, statusName: Option<State>,
                         resolutionDate: Option<string>, histories: seq<History>,
                         issueTypeName: Option<State>)

  /** A status change at an instant (microseconds since the epoch). */
  datatype Transition = Transition(date: int, from: State, to: State)

  /** Per-status totals: time spent, in microseconds, and number of entries. */
  datatype Stat = Stat(micros: int, count: nat)

  type Stats = map<State, Stat>

  predicate IsStatusItem(it: Item) {
    it.field == Some("status")
  }

  function TransitionOf(it: Item, date: int): Transition {
    Transition(date, it.fromString, it.toString)
  }

  /** The status changes among one entry's items, in item order. */
  function StatusTransitions(items: seq<Item>, date: int): (ts: seq<Transition>)
    ensures |ts| <= |items|
    ensures forall t :: t in ts <==> exists it :: it in items && IsStatusItem(it) && t == TransitionOf(it, date)
  {
    if items == [] then []
    else
      var rest := StatusTransitions(items[1..], date);
      assert forall it :: it in items[1..] ==> it in items;
      assert forall it :: it in items ==> it == items[0] || it in items[1..];
      (if IsStatusItem(items[0]) then [TransitionOf(items[0], date)] else []) + rest
  }

  /** Every status change of every entry whose timestamp parses, in changelog order; other entries are skipped. */
  function Transitions(hs: seq<History>): seq<Transition> {
    if hs == [] then []
    else
      var first := match ParseDatetime(hs[0].created)
        case None => []
        case Some(d) => StatusTransitions(hs[0].items, d);
      first + Transitions(hs[1..])
  }

  /** A transition is collected exactly when it is a status item of an entry whose timestamp parses to its date. */
  lemma {:induction false} TransitionsFromChangelog(hs: seq<History>, t: Transition)
    ensures t in Transitions(hs) <==> exists h :: h in hs && ParseDatetime(h.created) == Some(t.date)
                                                 && t in StatusTransitions(h.items, t.date)
  {
    if hs != [] {
      TransitionsFromChangelog(hs[1..], t);
      assert forall h :: h in hs[1..] ==> h in hs;
      assert forall h :: h in hs ==> h == hs[0] || h in hs[1..];
    }
  }

  // ---------------------------------------------------------------------------
  // `status_transitions.sort(key=lambda x: x["date"])`: a stable sort.

  predicate SortedByDate(ts: seq<Transition>) {
    forall i, j :: 0 <= i < j < |ts| ==> ts[i].date <= ts[j].date
  }

  /** Puts `t` before the first element that is not earlier than it. */
  function Insert(t: Transition, s: seq<Transition>): (r: seq<Transition>)
    ensures multiset(r) == multiset(s) + multiset{t}
    ensures |r| == |s| + 1 && (r[0] == t || (s != [] && r[0] == s[0]))
  {
    if s == [] || t.date <= s[0].date then [t] + s
    else
      assert s == [s[0]] + s[1..];
      [s[0]] + Insert(t, s[1..])
  }

  lemma InsertMembers(t: Transition, s: seq<Transition>)
    ensures forall y :: y in Insert(t, s) ==> y == t || y in s
  {
    forall y | y in Insert(t, s)
      ensures y == t || y in s
    {
      assert y in multiset(Insert(t, s));
    }
  }

  /** In a sequence sorted by date, the first transition is the earliest. */
  lemma SortedFirst(s: seq<Transition>)
    requires SortedByDate(s) && s != []
    ensures forall y :: y in s ==> s[0].date <= y.date
  {
    forall y | y in s
      ensures s[0].date <= y.date
    {
      var k :| 0 <= k < |s| && s[k] == y;
    }
  }

  lemma SortedCons(x: Transition, rest: seq<Transition>)
    requires SortedByDate(rest) && forall y :: y in rest ==> x.date <= y.date
    ensures SortedByDate([x] + rest)
  {
    var r := [x] + rest;
    forall i, j | 0 <= i < j < |r|
      ensures r[i].date <= r[j].date
    {
      assert r[j] == rest[j - 1];
      if i > 0 {
        assert r[i] == rest[i - 1];
      }
    }
  }

  lemma {:induction false} InsertSorted(t: Transition, s: seq<Transition>)
    requires SortedByDate(s)
    ensures SortedByDate(Insert(t, s))
  {
    if s == [] || t.date <= s[0].date {
      assert Insert(t, s) == [t] + s;
      if s != [] {
        SortedFirst(s);
      }
      SortedCons(t, s);
    } else {
      var rest := Insert(t, s[1..]);
      assert SortedByDate(s[1..]);
      InsertSorted(t, s[1..]);
      InsertMembers(t, s[1..]);
      SortedFirst(s);
      assert forall y :: y in s[1..] ==> y in s;
      SortedCons(s[0], rest);
      assert Insert(t, s) == [s[0]] + rest;
    }
  }

  function SortByDate(ts: seq<Transition>): (r: seq<Transition>)
    ensures SortedByDate(r)
    ensures multiset(r) == multiset(ts)
  {
    if ts == [] then []
    else
      assert ts == [ts[0]] + ts[1..];
      InsertSorted(ts[0], SortByDate(ts[1..]));
      Insert(ts[0], SortByDate(ts[1..]))
  }

  /** The transitions at instant `d`, in their order. */
  function OnDate(ts: seq<Transition>, d: int): seq<Transition> {
    if ts == [] then []
    else (if ts[0].date == d then [ts[0]] else []) + OnDate(ts[1..], d)
  }

  lemma {:induction false} InsertOnDate(t: Transition, s: seq<Transition>, d: int)
    ensures OnDate(Insert(t, s), d) == (if t.date == d then [t] else []) + OnDate(s, d)
  {
    if s == [] || t.date <= s[0].date {
      assert ([t] + s)[1..] == s;
    } else {
      InsertOnDate(t, s[1..], d);
      assert ([s[0]] + Insert(t, s[1..]))[1..] == Insert(t, s[1..]);
    }
  }

  /** The sort is stable: transitions recorded at the same instant keep their changelog order. */
  lemma {:induction false} SortByDateStable(ts: seq<Transition>, d: int)
    ensures OnDate(SortByDate(ts), d) == OnDate(ts, d)
  {
    if ts != [] {
      SortByDateStable(ts[1..], d);
      InsertOnDate(ts[0], SortByDate(ts[1..]), d);
    }
  }

  // ---------------------------------------------------------------------------
  // The walk over the sorted transitions.

  /** The state of the loop: the current status, when it was entered, and the totals so far. */
  datatype Walker = Walker(current: State, start: int, stats: Stats)

  /** A truthy current status always has an entry. */
  predicate Tracked(w: Walker) {
    Truthy(w.current) ==> w.current in w.stats
  }

  function AddTime(stats: Stats, s: State, delta: int): (r: Stats)
    requires s in stats
    ensures r.Keys == stats.Keys && r[s].micros == stats[s].micros + delta && r[s].count == stats[s].count
    ensures forall k :: k in stats && k != s ==> r[k] == stats[k]
  {
    stats[s := Stat(stats[s].micros + delta, stats[s].count)]
  }

  /** `if s not in stats: create it; stats[s]["count"] += 1` (for any status, null and empty included). */
  function Enter(stats: Stats, s: State): (r: Stats)
    ensures r.Keys == stats.Keys + {s}
    ensures r[s].count == (if s in stats then stats[s].count else 0) + 1
    ensures r[s].micros == (if s in stats then stats[s].micros else 0)
    ensures forall k :: k in stats && k != s ==> r[k] == stats[k]
  {
    stats[s := if s in stats then Stat(stats[s].micros, stats[s].count + 1) else Stat(0, 1)]
  }

  /** Creation: the initial status, when truthy, is entered once. */
  function Begin(initial: State, created: int): (w: Walker)
    ensures Tracked(w)
  {
    Walker(initial, created, if Truthy(initial) then map[initial := Stat(0, 1)] else map[])
  }

  /** One transition: close the current interval, then enter the new status. */
  function Step(w: Walker, t: Transition): (r: Walker)
    requires Tracked(w)
    ensures Tracked(r) && r.current == t.to && r.start == t.date
  {
    var stats := if Truthy(w.current) then AddTime(w.stats, w.current, t.date - w.start) else w.stats;
    Walker(t.to, t.date, Enter(stats, t.to))
  }

  function Walk(w: Walker, ts: seq<Transition>): (r: Walker)
    requires Tracked(w)
    ensures Tracked(r)
    decreases |ts|
  {
    if ts == [] then w else Walk(Step(w, ts[0]), ts[1..])
  }

  /** The final interval runs from the last change to `end`. */
  function Close(w: Walker, end: int): Stats
    requires Tracked(w)
  {
    if Truthy(w.current) then AddTime(w.stats, w.current, end - w.start) else w.stats
  }

  /** The totals once the creation instant, initial status, ordered changes and end instant are known. */
  function Durations(created: int, initial: State, ts: seq<Transition>, end: int): Stats {
    Close(Walk(Begin(initial, created), ts), end)
  }

  /** `calculate_state_durations(issue)` with the clock read as `now`. */
  function StateDurations(issue: Issue, now: int): (r: Stats)
    ensures ParseDatetime(issue.created).None? ==> r == map[]
  {
    match ParseDatetime(issue.created)
    case None => map[]
    case Some(created) =>
      var ts := SortByDate(Transitions(issue.histories));
      Durations(created, InitialStatus(issue, ts), ts, ParseDatetime(issue.resolutionDate).GetOr(now))
  }

  /** The status at creation: the source of the earliest change, or the current status when nothing changed. */
  function InitialStatus(issue: Issue, ts: seq<Transition>): State {
    if ts != [] then ts[0].from else issue.statusName.GetOr(Some("Unknown"))
  }

  /** Every status of an issue's result was entered at least once. */
  lemma StateDurationsCountsPositive(issue: Issue, now: int)
    ensures forall k :: k in StateDurations(issue, now) ==> StateDurations(issue, now)[k].count >= 1
  {
    match ParseDatetime(issue.created)
    case None =>
    case Some(created) =>
      var ts := SortByDate(Transitions(issue.histories));
      var end := ParseDatetime(issue.resolutionDate).GetOr(now);
      assert StateDurations(issue, now) == Durations(created, InitialStatus(issue, ts), ts, end);
      DurationsCountsPositive(created, InitialStatus(issue, ts), ts, end);
  }

  // ---------------------------------------------------------------------------
  // Reference definitions, stated interval by interval.

  /** How many transitions lead into `k`. */
  function CountInto(ts: seq<Transition>, k: State): nat {
    if ts == [] then 0 else (if ts[0].to == k then 1 else 0) + CountInto(ts[1..], k)
  }

  /** How often the issue enters `k`: at creation if it is the truthy initial status, and at each transition into it. */
  function Entries(initial: State, ts: seq<Transition>, k: State): nat {
    (if Truthy(initial) && initial == k then 1 else 0) + CountInto(ts, k)
  }

  /**
   * The time spent in `k`: the interval from `start` to the next change (or to
   * `end`), counted when `k` is the truthy status `cur` occupying it, and so on.
   */
  function TimeIn(k: State, cur: State, start: int, ts: seq<Transition>, end: int): int
    decreases |ts|
  {
    var next := if ts == [] then end else ts[0].date;
    (if Truthy(cur) && cur == k then next - start else 0)
    + (if ts == [] then 0 else TimeIn(k, ts[0].to, ts[0].date, ts[1..], end))
  }

  /** The time spent in any truthy status: every interval whose status is truthy. */
  function TruthyTime(cur: State, start: int, ts: seq<Transition>, end: int): int
    decreases |ts|
  {
    var next := if ts == [] then end else ts[0].date;
    (if Truthy(cur) then next - start else 0)
    + (if ts == [] then 0 else TruthyTime(ts[0].to, ts[0].date, ts[1..], end))
  }

  function Micros(s: Stat): int { s.micros }

  function Count(s: Stat): int { s.count }

  lemma {:induction false} WalkPerStatus(w: Walker, ts: seq<Transition>, end: int, k: State)
    requires Tracked(w)
    ensures var r := Close(Walk(w, ts), end);
            && (k in r <==> k in w.stats || CountInto(ts, k) > 0)
            && (k in r ==> r[k].count == (if k in w.stats then w.stats[k].count else 0) + CountInto(ts, k))
            && (k in r ==> r[k].micros == (if k in w.stats then w.stats[k].micros else 0)
                                         + TimeIn(k, w.current, w.start, ts, end))
    decreases |ts|
  {
    if ts != [] {
      WalkPerStatus(Step(w, ts[0]), ts[1..], end, k);
    }
  }

  /**
   * Per status: it has an entry exactly when it is entered at all; its count
   * is the number of times it is entered, and its time is the sum of the
   * intervals it occupies.
   */
  lemma DurationsPerStatus(created: int, initial: State, ts: seq<Transition>, end: int, k: State)
    ensures var r := Durations(created, initial, ts, end);
            && (k in r <==> Entries(initial, ts, k) > 0)
            && (k in r ==> r[k].count == Entries(initial, ts, k)
                           && r[k].micros == TimeIn(k, initial, created, ts, end))
  {
    WalkPerStatus(Begin(initial, created), ts, end, k);
  }

  /** Every status in the result was entered at least once. */
  lemma DurationsCountsPositive(created: int, initial: State, ts: seq<Transition>, end: int)
    ensures forall k :: k in Durations(created, initial, ts, end) ==> Durations(created, initial, ts, end)[k].count >= 1
  {
    forall k | k in Durations(created, initial, ts, end) {
      DurationsPerStatus(created, initial, ts, end, k);
    }
  }

  /** Closing the final interval adds its length to the time total and leaves the counts alone. */
  lemma CloseTotals(w: Walker, end: int)
    requires Tracked(w)
    ensures SumOf(Close(w, end), Micros) == SumOf(w.stats, Micros) + (if Truthy(w.current) then end - w.start else 0)
    ensures SumOf(Close(w, end), Count) == SumOf(w.stats, Count)
  {
    if Truthy(w.current) {
      var v := Stat(w.stats[w.current].micros + end - w.start, w.stats[w.current].count);
      assert Close(w, end) == w.stats[w.current := v];
      SumOfUpdate(w.stats, Micros, w.current, v);
      SumOfUpdate(w.stats, Count, w.current, v);
    }
  }

  /** One transition adds the closed interval to the time total and one entry to the counts. */
  lemma StepTotals(w: Walker, t: Transition)
    requires Tracked(w)
    ensures SumOf(Step(w, t).stats, Micros) == SumOf(w.stats, Micros) + (if Truthy(w.current) then t.date - w.start else 0)
    ensures SumOf(Step(w, t).stats, Count) == SumOf(w.stats, Count) + 1
  {
    var closed := Close(w, t.date);
    CloseTotals(w, t.date);
    var entered := Enter(closed, t.to);
    assert Step(w, t).stats == entered;
    assert entered == closed[t.to := entered[t.to]];
    SumOfUpdate(closed, Micros, t.to, entered[t.to]);
    SumOfUpdate(closed, Count, t.to, entered[t.to]);
  }

  lemma {:induction false} WalkTotals(w: Walker, ts: seq<Transition>, end: int)
    requires Tracked(w)
    ensures SumOf(Close(Walk(w, ts), end), Micros) == SumOf(w.stats, Micros) + TruthyTime(w.current, w.start, ts, end)
    ensures SumOf(Close(Walk(w, ts), end), Count) == SumOf(w.stats, Count) + |ts|
    decreases |ts|
  {
    if ts == [] {
      CloseTotals(w, end);
    } else {
      StepTotals(w, ts[0]);
      WalkTotals(Step(w, ts[0]), ts[1..], end);
    }
  }

  /**
   * Conservation: the recorded times add up to the time spent in truthy
   * statuses, and the entry counts add up to one per transition plus the
   * initial entry.
   */
  lemma DurationsTotals(created: int, initial: State, ts: seq<Transition>, end: int)
    ensures SumOf(Durations(created, initial, ts, end), Micros) == TruthyTime(initial, created, ts, end)
    ensures SumOf(Durations(created, initial, ts, end), Count) == (if Truthy(initial) then 1 else 0) + |ts|
  {
    var w := Begin(initial, created);
    WalkTotals(w, ts, end);
    if Truthy(initial) {
      SumOfSingleton(initial, Stat(0, 1), Micros);
      SumOfSingleton(initial, Stat(0, 1), Count);
    }
  }

  lemma {:induction false} TruthyTimeTelescopes(cur: State, start: int, ts: seq<Transition>, end: int)
    requires Truthy(cur) && forall i :: 0 <= i < |ts| ==> Truthy(ts[i].to)
    ensures TruthyTime(cur, start, ts, end) == end - start
    decreases |ts|
  {
    if ts != [] {
      TruthyTimeTelescopes(ts[0].to, ts[0].date, ts[1..], end);
    }
  }

  /** When every status along the way is truthy, the times add up to the whole life of the issue. */
  lemma DurationsCoverLifetime(created: int, initial: State, ts: seq<Transition>, end: int)
    requires Truthy(initial) && forall i :: 0 <= i < |ts| ==> Truthy(ts[i].to)
    ensures SumOf(Durations(created, initial, ts, end), Micros) == end - created
  {
    DurationsTotals(created, initial, ts, end);
    TruthyTimeTelescopes(initial, created, ts, end);
  }

  /** Without status changes, the current status (if truthy) holds the whole lifetime, entered once. */
  lemma NoTransitions(issue: Issue, now: int, created: int, end: int)
    requires ParseDatetime(issue.created) == Some(created)
    requires ParseDatetime(issue.resolutionDate).GetOr(now) == end
    requires Transitions(issue.histories) == []
    ensures var status := issue.statusName.GetOr(Some("Unknown"));
            StateDurations(issue, now) == if Truthy(status) then map[status := Stat(end - created, 1)] else map[]
  {
    var status := issue.statusName.GetOr(Some("Unknown"));
    assert SortByDate(Transitions(issue.histories)) == [];
    assert StateDurations(issue, now) == Durations(created, status, [], end);
    NoTransitionsCore(created, status, end);
  }

  lemma NoTransitionsCore(created: int, status: State, end: int)
    ensures Durations(created, status, [], end) == if Truthy(status) then map[status := Stat(end - created, 1)] else map[]
  {
    var w := Begin(status, created);
    assert Walk(w, []) == w;
    if Truthy(status) {
      assert w.stats == map[status := Stat(0, 1)];
      assert Close(w, end) == map[status := Stat(0, 1)][status := Stat(end - created, 1)];
    }
  }

  /** An issue whose creation time does not parse contributes nothing. */
  lemma UnparsableCreated(issue: Issue, now: int)
    requires issue.created.None? || issue.created == Some("") || (ParseFields(issue.created.value, WithFraction).None? && ParseFields(issue.created.value, WithoutFraction).None?)
    ensures StateDurations(issue, now) == map[]
  {
  }

  /** Leaving a status and coming back: the second entry is counted and the interval away goes to the other status. */
  lemma ReEntry(created: int, a: State, b: State, t1: int, t2: int, end: int)
    requires Truthy(a) && Truthy(b) && a != b
    ensures var r := Durations(created, a, [Transition(t1, a, b), Transition(t2, b, a)], end);
            r == map[a := Stat((t1 - created) + (end - t2), 2), b := Stat(t2 - t1, 1)]
  {
    var t := [Transition(t1, a, b), Transition(t2, b, a)];
    var w0 := Begin(a, created);
    var w1 := Step(w0, t[0]);
    assert w1.stats == map[a := Stat(t1 - created, 1), b := Stat(0, 1)];
    var w2 := Step(w1, t[1]);
    assert w2.stats == map[a := Stat(t1 - created, 2), b := Stat(t2 - t1, 1)];
    assert t[1..][1..] == [];
    assert Walk(w0, t) == Walk(w1, t[1..]) == Walk(w2, []) == w2;
  }

  const Day: int := MicrosPerDay

  /** Created, then New to In Progress a day later, then In Progress to Done three days after that, resolved at once. */
  lemma ScenarioResolved(created: int)
    ensures Durations(created, Some("New"),
                      [Transition(created + Day, Some("New"), Some("In Progress")),
                       Transition(created + 4 * Day, Some("In Progress"), Some("Done"))],
                      created + 4 * Day)
            == map[Some("New") := Stat(86400 * MicrosPerSecond, 1),
                   Some("In Progress") := Stat(259200 * MicrosPerSecond, 1),
                   Some("Done") := Stat(0, 1)]
  {
    var t := [Transition(created + Day, Some("New"), Some("In Progress")),
              Transition(created + 4 * Day, Some("In Progress"), Some("Done"))];
    var w0 := Begin(Some("New"), created);
    var w1 := Step(w0, t[0]);
    assert w1.stats == map[Some("New") := Stat(Day, 1), Some("In Progress") := Stat(0, 1)];
    var w2 := Step(w1, t[1]);
    assert w2.stats == map[Some("New") := Stat(Day, 1), Some("In Progress") := Stat(3 * Day, 1), Some("Done") := Stat(0, 1)];
    assert t[1..][1..] == [];
    assert Walk(w0, t) == Walk(w1, t[1..]) == Walk(w2, []) == w2;
  }

  /** To Do and In Progress alternate daily; the issue is still open four days after creation. */
  lemma ScenarioUnresolved(created: int)
    ensures Durations(created, Some("To Do"),
                      [Transition(created + Day, Some("To Do"), Some("In Progress")),
                       Transition(created + 2 * Day, Some("In Progress"), Some("To Do")),
                       Transition(created + 3 * Day, Some("To Do"), Some("In Progress"))],
                      created + 4 * Day)
            == map[Some("To Do") := Stat(2 * Day, 2), Some("In Progress") := Stat(2 * Day, 2)]
  {
    var t := [Transition(created + Day, Some("To Do"), Some("In Progress")),
              Transition(created + 2 * Day, Some("In Progress"), Some("To Do")),
              Transition(created + 3 * Day, Some("To Do"), Some("In Progress"))];
    var w0 := Begin(Some("To Do"), created);
    var w1 := Step(w0, t[0]);
    assert w1.stats == map[Some("To Do") := Stat(Day, 1), Some("In Progress") := Stat(0, 1)];
    var w2 := Step(w1, t[1]);
    assert w2.stats == map[Some("To Do") := Stat(Day, 2), Some("In Progress") := Stat(Day, 1)];
    var w3 := Step(w2, t[2]);
    assert w3.stats == map[Some("To Do") := Stat(2 * Day, 2), Some("In Progress") := Stat(Day, 2)];
    assert t[1..][1..][1..] == [];
    assert Walk(w0, t) == Walk(w1, t[1..]) == Walk(w2, t[1..][1..]) == Walk(w3, []) == w3;
  }
}

=== FILE: tally.dfy ===
/**
 * Counting, filtering and averaging over lists: the `sum(1 for x in xs if …)`,
 * `[x for x in xs if …]` and `sum(xs) / len(xs)` idioms the metrics scripts
 * are built from.
 */
module Tally {

  import opened Wrappers

  /** `[x for x in xs if p(x)]`: the elements satisfying `p`, in their order. */
  function Filter<T(!new)>(xs: seq<T>, p: T -> bool): (r: seq<T>)
    ensures |r| <= |xs|
    ensures forall x :: x in r <==> x in xs && p(x)
    ensures forall i :: 0 <= i < |r| ==> p(r[i])
  {
    if xs == [] then []
    else
      var rest := Filter(xs[1..], p);
      assert forall x :: x in xs <==> x == xs[0] || x in xs[1..];
      if p(xs[0]) then [xs[0]] + rest else rest
  }

  /**
   * Filtering distributes over concatenation: with the singleton cases this
   * fixes the order of the kept elements, not only which ones and how often.
   */
  lemma {:induction false} FilterAppend<T(!new)>(a: seq<T>, b: seq<T>, p: T -> bool)
    ensures Filter(a + b, p) == Filter(a, p) + Filter(b, p)
  {
    if a != [] {
      var ab := a + b;
      assert ab[0] == a[0] && ab[1..] == a[1..] + b;
      FilterAppend(a[1..], b, p);
      if p(a[0]) {
        assert Filter(ab, p) == [a[0]] + Filter(ab[1..], p);
        assert [a[0]] + (Filter(a[1..], p) + Filter(b, p)) == ([a[0]] + Filter(a[1..], p)) + Filter(b, p);
      }
    } else {
      assert a + b == b;
    }
  }

  /** Each kept value occurs as often as in the input; the others not at all. */
  lemma {:induction false} FilterCounts<T(!new)>(xs: seq<T>, p: T -> bool)
    ensures forall x :: multiset(Filter(xs, p))[x] == if p(x) then multiset(xs)[x] else 0
  {
    if xs != [] {
      FilterCounts(xs[1..], p);
      assert xs == [xs[0]] + xs[1..];
    }
  }

  /** The elements on which `f` gives a value. */
  function Defined<T, U>(f: T -> Option<U>): T -> bool {
    x => f(x).Some?
  }

  /**
   * `[f(x) for x in xs if f(x) is not None]`: the values `f` gives, in the
   * order of their elements.
   */
  function Kept<T, U(!new)>(xs: seq<T>, f: T -> Option<U>): (r: seq<U>)
    ensures |r| <= |xs|
    ensures |r| == |xs| <==> forall i :: 0 <= i < |xs| ==> f(xs[i]).Some?
    ensures forall v :: v in r <==> exists i :: 0 <= i < |xs| && f(xs[i]) == Some(v)
  {
    if xs == [] then []
    else
      var rest := Kept(xs[1..], f);
      assert forall i :: 1 <= i < |xs| ==> xs[i] == xs[1..][i - 1];
      match f(xs[0])
      case Some(v) => [v] + rest
      case None => rest
  }

  /**
   * The values are those of the elements `Filter` keeps, one for one and in
   * order: nothing is reordered, merged or repeated.
   */
  lemma {:induction false} KeptInOrder<T(!new), U(!new)>(xs: seq<T>, f: T -> Option<U>)
    ensures Paired(Filter(xs, Defined(f)), Kept(xs, f), f)
  {
    if xs != [] {
      KeptInOrder(xs[1..], f);
      if f(xs[0]).Some? {
        assert Kept(xs, f) == [f(xs[0]).value] + Kept(xs[1..], f);
        assert Filter(xs, Defined(f)) == [xs[0]] + Filter(xs[1..], Defined(f));
        PairedCons(xs[0], f(xs[0]).value, Filter(xs[1..], Defined(f)), Kept(xs[1..], f), f);
      }
    }
  }

  /** `f` gives `r[i]` on `kept[i]`, position by position. */
  ghost predicate Paired<T, U>(kept: seq<T>, r: seq<U>, f: T -> Option<U>) {
    |r| == |kept| && forall i :: 0 <= i < |r| ==> f(kept[i]) == Some(r[i])
  }

  lemma PairedCons<T, U>(x: T, v: U, kept: seq<T>, r: seq<U>, f: T -> Option<U>)
    requires f(x) == Some(v) && Paired(kept, r, f)
    ensures Paired([x] + kept, [v] + r, f)
  {
    assert forall i :: 1 <= i < |r| + 1 ==> ([v] + r)[i] == r[i - 1] && ([x] + kept)[i] == kept[i - 1];
  }

  /** `sum(1 for x in xs if p(x))`. */
  function CountWhere<T>(xs: seq<T>, p: T -> bool): (n: nat)
    ensures n <= |xs|
    ensures n == 0 <==> forall i :: 0 <= i < |xs| ==> !p(xs[i])
    ensures n == |xs| <==> forall i :: 0 <= i < |xs| ==> p(xs[i])
  {
    if xs == [] then 0
    else
      assert forall i :: 1 <= i < |xs| ==> xs[i] == xs[1..][i - 1];
      (if p(xs[0]) then 1 else 0) + CountWhere(xs[1..], p)
  }

  /** Counting the kept elements is taking the length of the filtered list. */
  lemma {:induction false} CountIsFilterLength<T(!new)>(xs: seq<T>, p: T -> bool)
    ensures CountWhere(xs, p) == |Filter(xs, p)|
  {
    if xs != [] {
      CountIsFilterLength(xs[1..], p);
    }
  }

  /** Counting distributes over concatenation. */
  lemma {:induction false} CountAppend<T>(a: seq<T>, b: seq<T>, p: T -> bool)
    ensures CountWhere(a + b, p) == CountWhere(a, p) + CountWhere(b, p)
  {
    if a != [] {
      assert (a + b)[0] == a[0] && (a + b)[1..] == a[1..] + b;
      CountAppend(a[1..], b, p);
    } else {
      assert a + b == b;
    }
  }

  /** A weaker test counts at least as many. */
  lemma {:induction false} CountMonotone<T>(xs: seq<T>, p: T -> bool, q: T -> bool)
    requires forall i :: 0 <= i < |xs| && p(xs[i]) ==> q(xs[i])
    ensures CountWhere(xs, p) <= CountWhere(xs, q)
  {
    if xs != [] {
      assert forall i :: 0 <= i < |xs[1..]| ==> xs[1..][i] == xs[i + 1];
      CountMonotone(xs[1..], p, q);
    }
  }

  /** Two tests no element passes together count at most the whole list between them. */
  lemma {:induction false} CountDisjoint<T>(xs: seq<T>, p: T -> bool, q: T -> bool)
    requires forall i :: 0 <= i < |xs| ==> !(p(xs[i]) && q(xs[i]))
    ensures CountWhere(xs, p) + CountWhere(xs, q) <= |xs|
  {
    if xs != [] {
      assert forall i :: 0 <= i < |xs[1..]| ==> xs[1..][i] == xs[i + 1];
      CountDisjoint(xs[1..], p, q);
    }
  }

  /** Every element passes a test or fails it: the two counts make up the list. */
  lemma {:induction false} CountSplit<T>(xs: seq<T>, p: T -> bool, q: T -> bool)
    requires forall i :: 0 <= i < |xs| ==> (q(xs[i]) <==> !p(xs[i]))
    ensures CountWhere(xs, p) + CountWhere(xs, q) == |xs|
  {
    if xs != [] {
      assert forall i :: 0 <= i < |xs[1..]| ==> xs[1..][i] == xs[i + 1];
      CountSplit(xs[1..], p, q);
    }
  }

  /** `sum(xs)`. */
  function Sum(xs: seq<real>): real {
    if xs == [] then 0.0 else xs[0] + Sum(xs[1..])
  }

  /** The sum lies between the length times any lower bound and the length times any upper bound. */
  lemma {:induction false} SumBounds(xs: seq<real>, lo: real, hi: real)
    requires forall i :: 0 <= i < |xs| ==> lo <= xs[i] <= hi
    ensures |xs| as real * lo <= Sum(xs) <= |xs| as real * hi
  {
    if xs != [] {
      assert forall i :: 0 <= i < |xs[1..]| ==> xs[1..][i] == xs[i + 1];
      SumBounds(xs[1..], lo, hi);
    }
  }

  /** `sum(xs) / len(xs) if xs else 0`: the average, with 0 for no values. */
  function Mean(xs: seq<real>): (m: real)
    ensures xs == [] ==> m == 0.0
    ensures xs != [] ==> m * |xs| as real == Sum(xs)
  {
    if xs == [] then 0.0 else Sum(xs) / |xs| as real
  }

  /** The average of values within bounds is within the same bounds. */
  lemma MeanBounds(xs: seq<real>, lo: real, hi: real)
    requires xs != []
    requires forall i :: 0 <= i < |xs| ==> lo <= xs[i] <= hi
    ensures lo <= Mean(xs) <= hi
  {
    SumBounds(xs, lo, hi);
    var n := |xs| as real;
    DivideOrdered(n * lo, Sum(xs), n);
    DivideOrdered(Sum(xs), n * hi, n);
  }

  lemma DivideOrdered(a: real, b: real, n: real)
    requires n > 0.0 && a <= b
    ensures a / n <= b / n
  {
  }

  /** `part / whole * 100 if whole > 0 else 0`: the share of `part` in `whole`, in percent. */
  function Percentage(part: nat, whole: nat): real {
    if whole > 0 then part as real / whole as real * 100.0 else 0.0
  }

  lemma PercentageBound(part: nat, whole: nat)
    requires part <= whole
    ensures 0.0 <= Percentage(part, whole) <= 100.0
  {
    if whole > 0 {
      DivideOrdered(part as real, whole as real, whole as real);
    }
  }

  lemma PercentageScaled(part: nat, whole: nat)
    requires whole > 0
    ensures Percentage(part, whole) * whole as real == part as real * 100.0
  {
    var q := part as real / whole as real;
    assert q * whole as real == part as real;
    assert q * 100.0 * whole as real == q * whole as real * 100.0;
  }
}

=== FILE: text.dfy ===
/**
 * The handful of Python `str` operations the scripts rely on, written out over
 * `seq<char>`: membership tests (`startswith`, `endswith`, `in`), `strip`,
 * `split`, `join`, `replace`, `lower`, and decimal digit strings.
 */
module Text {
  import opened Wrappers

  /** Python truthiness of an optional string: present and non-empty. */
  predicate Truthy(s: Option<string>) {
    s.Some? && s.value != ""
  }

  /** Python's `str.isdigit` restricted to ASCII digits. */
  predicate IsDigit(c: char) {
    '0' <= c <= '9'
  }

  /** Python's `str.isspace` (also what `\s` matches in a `str` regular expression). */
  predicate IsSpace(c: char) {
    c == ' ' || '\t' <= c <= '\r' || '\U{1c}' <= c <= '\U{1f}'
    || c == '\U{85}' || c == '\U{a0}' || c == '\U{1680}'
    || '\U{2000}' <= c <= '\U{200a}' || c == '\U{2028}' || c == '\U{2029}'
    || c == '\U{202f}' || c == '\U{205f}' || c == '\U{3000}'
  }

  predicate AllDigits(s: string) {
    forall i :: 0 <= i < |s| ==> IsDigit(s[i])
  }

  /** A non-empty run of decimal digits, as matched by the regular expression `\d+`. */
  predicate IsNumeral(s: string) {
    |s| > 0 && AllDigits(s)
  }

  function DigitValue(c: char): nat
    requires IsDigit(c)
  {
    c as int - '0' as int
  }

  /** Python's `int(s)` on a string of decimal digits. */
  function DigitsValue(s: string): nat
    requires AllDigits(s)
  {
    if s == [] then 0 else DigitsValue(s[..|s| - 1]) * 10 + DigitValue(s[|s| - 1])
  }

  function DigitChar(d: nat): (c: char)
    requires d < 10
    ensures IsDigit(c) && DigitValue(c) == d
  {
    ('0' as int + d) as char
  }

  /** Python's `str(n)` for a non-negative integer. */
  function NatToString(n: nat): (s: string)
    ensures IsNumeral(s)
    decreases n
  {
    if n < 10 then [DigitChar(n)] else NatToString(n / 10) + [DigitChar(n % 10)]
  }

  /** Python's `str(i)` for any integer. */
  function IntToString(i: int): string {
    if i < 0 then "-" + NatToString(-i) else NatToString(i)
  }

  /** `int(str(n)) == n`: decimal rendering is undone by parsing. */
  lemma {:induction false} NatToStringRoundTrip(n: nat)
    ensures DigitsValue(NatToString(n)) == n
    decreases n
  {
    var s := NatToString(n);
    if n >= 10 {
      NatToStringRoundTrip(n / 10);
      assert s[..|s| - 1] == NatToString(n / 10);
    }
  }

  predicate StartsWith(s: string, prefix: string) {
    |prefix| <= |s| && s[..|prefix|] == prefix
  }

  predicate EndsWith(s: string, suffix: string) {
    |suffix| <= |s| && s[|s| - |suffix|..] == suffix
  }

  /** Python's `sub in s`. */
  predicate Contains(s: string, sub: string)
    decreases |s|
  {
    StartsWith(s, sub) || (|s| > 0 && Contains(s[1..], sub))
  }

  lemma ContainsAtIndex(s: string, sub: string, i: nat)
    requires i + |sub| <= |s| && s[i..i + |sub|] == sub
    ensures Contains(s, sub)
    decreases i
  {
    if i > 0 {
      ContainsAtIndex(s[1..], sub, i - 1);
      assert s[1..][i - 1..i - 1 + |sub|] == s[i..i + |sub|];
    }
  }

  lemma ContainsPrefixOf(s: string, t: string, sub: string)
    requires Contains(s, sub)
    ensures Contains(s + t, sub)
    decreases |s|
  {
    if StartsWith(s, sub) {
      assert (s + t)[..|sub|] == s[..|sub|];
    } else {
      ContainsPrefixOf(s[1..], t, sub);
      assert (s + t)[1..] == s[1..] + t;
    }
  }

  /** The index of the first character satisfying `p`, if any. */
  function FirstWhere(s: string, p: char -> bool): (r: Option<nat>)
    ensures r.Some? ==> r.value < |s| && p(s[r.value]) && forall j :: 0 <= j < r.value ==> !p(s[j])
    ensures r.None? ==> forall j :: 0 <= j < |s| ==> !p(s[j])
  {
    if s == [] then None
    else if p(s[0]) then Some(0)
    else match FirstWhere(s[1..], p)
      case None => None
      case Some(i) => Some(i + 1)
  }

  /** `s.index(c)`, without raising: the position of the first `c`. */
  function IndexOf(s: string, c: char): (r: Option<nat>)
    ensures r.Some? ==> r.value < |s| && s[r.value] == c && c !in s[..r.value]
    ensures r.None? ==> c !in s
  {
    FirstWhere(s, x => x == c)
  }

  /** Python's `s.split(c)[0]`: everything before the first `c` (all of `s` when there is none). */
  function Before(s: string, c: char): (r: string)
    ensures c !in r && StartsWith(s, r)
    ensures |r| < |s| ==> s[|r|] == c
  {
    match IndexOf(s, c)
    case None => s
    case Some(i) => s[..i]
  }

  /** Python's `s.split(c)` for a one-character separator. */
  function Split(s: string, c: char): (parts: seq<string>)
    ensures |parts| > 0
    ensures forall k :: 0 <= k < |parts| ==> c !in parts[k]
    decreases |s|
  {
    match IndexOf(s, c)
    case None => [s]
    case Some(i) => [s[..i]] + Split(s[i + 1..], c)
  }

  /** Python's `sep.join(parts)`. */
  function Join(parts: seq<string>, sep: string): string {
    if parts == [] then ""
    else if |parts| == 1 then parts[0]
    else parts[0] + sep + Join(parts[1..], sep)
  }

  /** `c.join(s.split(c)) == s`: splitting loses nothing. */
  lemma {:induction false} SplitJoin(s: string, c: char)
    ensures Join(Split(s, c), [c]) == s
    decreases |s|
  {
    match IndexOf(s, c)
    case None =>
    case Some(i) =>
      SplitJoin(s[i + 1..], c);
      assert s == s[..i] + [c] + s[i + 1..];
  }

  /** Number of whitespace characters at the start of `s`. */
  function LeadingSpaces(s: string): (n: nat)
    ensures n <= |s| && (forall k :: 0 <= k < n ==> IsSpace(s[k])) && (n < |s| ==> !IsSpace(s[n]))
  {
    if s != [] && IsSpace(s[0]) then 1 + LeadingSpaces(s[1..]) else 0
  }

  /** Number of whitespace characters at the end of `s`. */
  function TrailingSpaces(s: string): (n: nat)
    ensures n <= |s| && (forall k :: |s| - n <= k < |s| ==> IsSpace(s[k]))
    ensures n < |s| ==> !IsSpace(s[|s| - n - 1])
  {
    if s != [] && IsSpace(s[|s| - 1]) then 1 + TrailingSpaces(s[..|s| - 1]) else 0
  }

  /** Python's `str.strip()`: leading and trailing whitespace removed. */
  function Strip(s: string): (r: string)
    ensures |r| <= |s| && forall c :: c in r ==> c in s
    ensures r != [] ==> !IsSpace(r[0]) && !IsSpace(r[|r| - 1])
  {
    var t := s[LeadingSpaces(s)..];
    t[..|t| - TrailingSpaces(t)]
  }

  /** ASCII case folding: Python's `str.lower()` on the ASCII range. */
  function LowerChar(c: char): char {
    if 'A' <= c <= 'Z' then (c as int + 32) as char else c
  }

  function Lower(s: string): (r: string)
    ensures |r| == |s| && forall i :: 0 <= i < |s| ==> r[i] == LowerChar(s[i])
  {
    seq(|s|, i requires 0 <= i < |s| => LowerChar(s[i]))
  }

  /** Python's `s.replace(pat, "")` for a non-empty `pat`: occurrences removed left to right. */
  function RemoveAll(s: string, pat: string): (r: string)
    requires |pat| > 0
    ensures |r| <= |s|
    ensures !Contains(s, pat) ==> r == s
    decreases |s|
  {
    if |s| < |pat| then
      assert !StartsWith(s, pat);
      NotContainsShort(s, pat);
      s
    else if s[..|pat|] == pat then RemoveAll(s[|pat|..], pat)
    else
      var r := [s[0]] + RemoveAll(s[1..], pat);
      assert !Contains(s, pat) ==> !Contains(s[1..], pat);
      assert !Contains(s, pat) ==> s == [s[0]] + s[1..];
      r
  }

  /** A text without the first character of `sub` cannot hold `sub`. */
  lemma {:induction false} NotContainsAbsentHead(s: string, sub: string)
    requires sub != [] && sub[0] !in s
    ensures !Contains(s, sub)
    decreases |s|
  {
    if |s| > 0 {
      assert s[1..] == s[1..] && forall c :: c in s[1..] ==> c in s;
      NotContainsAbsentHead(s[1..], sub);
    }
  }

  /**
   * When the first character of `sub` occurs in `s` only at its start, `s`
   * holds `sub` only as a prefix.
   */
  lemma NotContainsOffHead(s: string, sub: string)
    requires sub != [] && |s| > 0 && sub[0] !in s[1..] && !StartsWith(s, sub)
    ensures !Contains(s, sub)
  {
    NotContainsAbsentHead(s[1..], sub);
  }

  /**
   * `p + n + tail` does not hold `p + n + [c]` when the two part ways right
   * after `n` and the first character of `p` occurs nowhere else.
   */
  lemma NotContainsDiverging(p: string, n: string, tail: string, c: char)
    requires |p| > 0 && p[0] !in p[1..] && p[0] !in n && p[0] !in tail
    requires |tail| > 0 && tail[0] != c
    ensures !Contains(p + n + tail, p + n + [c])
  {
    var s := p + n + tail;
    var sub := p + n + [c];
    assert s[|p| + |n|] == tail[0] && sub[|p| + |n|] == c;
    assert s[1..] == p[1..] + n + tail;
    assert sub[0] == p[0];
    NotContainsOffHead(s, sub);
  }

  lemma NotContainsShort(s: string, sub: string)
    requires |s| < |sub|
    ensures !Contains(s, sub)
    decreases |s|
  {
    if |s| > 0 { NotContainsShort(s[1..], sub); }
  }

  /** The text before the first character satisfying `p` and the text after it, when there is one. */
  function Cut(s: string, p: char -> bool): (r: Option<(string, string)>)
    ensures r.Some? ==> |r.value.0| < |s| && p(s[|r.value.0|])
                        && s == r.value.0 + [s[|r.value.0|]] + r.value.1
                        && forall j :: 0 <= j < |r.value.0| ==> !p(r.value.0[j])
    ensures r.None? ==> forall j :: 0 <= j < |s| ==> !p(s[j])
  {
    match FirstWhere(s, p)
    case None => None
    case Some(i) =>
      assert s == s[..i] + [s[i]] + s[i + 1..];
      Some((s[..i], s[i + 1..]))
  }

  /** Cutting `a + [c] + b` at `c`, when nothing in `a` qualifies, gives back `a` and `b`. */
  lemma CutAt(a: string, c: char, b: string, p: char -> bool)
    requires forall j :: 0 <= j < |a| ==> !p(a[j])
    requires p(c)
    ensures Cut(a + [c] + b, p) == Some((a, b))
  {
    var s := a + [c] + b;
    assert s[|a|] == c;
    var r := Cut(s, p);
    assert r.Some?;
    assert |r.value.0| == |a|;
    assert r.value.0 == s[..|a|] == a;
    assert r.value.1 == s[|a| + 1..] == b;
  }

  /** Length of the run of digits at the start of `s`. */
  function DigitRun(s: string): (n: nat)
    ensures n <= |s| && AllDigits(s[..n]) && (n < |s| ==> !IsDigit(s[n]))
  {
    if s != [] && IsDigit(s[0]) then
      var n := 1 + DigitRun(s[1..]);
      assert s[..n] == [s[0]] + s[1..][..n - 1];
      n
    else 0
  }

  function Pow10(k: nat): (r: nat)
    ensures r >= 1
  {
    if k == 0 then 1 else 10 * Pow10(k - 1)
  }

  /** The last `width` decimal digits of `n`, zero-padded (Python's `f"{n:0{width}d}"` when `n` fits). */
  function Pad(n: nat, width: nat): (s: string)
    ensures |s| == width && AllDigits(s)
  {
    if width == 0 then "" else Pad(n / 10, width - 1) + [DigitChar(n % 10)]
  }

  /** A zero-padded rendering of a number that fits reads back as that number. */
  lemma {:induction false} PadValue(n: nat, width: nat)
    requires n < Pow10(width)
    ensures DigitsValue(Pad(n, width)) == n
  {
    if width > 0 {
      PadValue(n / 10, width - 1);
      var s := Pad(n, width);
      assert s[..|s| - 1] == Pad(n / 10, width - 1);
    }
  }

  /** The digit run of `a + b` is `a` when `a` is all digits and `b` does not start with one. */
  lemma DigitRunAt(a: string, b: string)
    requires AllDigits(a) && (b == [] || !IsDigit(b[0]))
    ensures DigitRun(a + b) == |a|
  {
    var s := a + b;
    assert forall k :: 0 <= k < |a| ==> IsDigit(s[k]);
    assert |a| < |s| ==> !IsDigit(s[|a|]);
  }

  /** Where Python's slice `s[:n]` stops, for a sequence of length `len` (negative `n` counts from the end). */
  function SliceStop(len: nat, n: int): (k: nat)
    ensures k <= len
    ensures n >= 0 ==> k == if n < len then n else len
    ensures n < 0 ==> k == if len + n > 0 then len + n else 0
  {
    if n >= 0 then (if n < len then n else len)
    else if len + n > 0 then len + n else 0
  }

  /** `s.find(sub)` as an option: the first position where `sub` occurs. */
  function Find(s: string, sub: string): (r: Option<nat>)
    ensures r.Some? ==> r.value + |sub| <= |s| && s[r.value..r.value + |sub|] == sub
    ensures r.Some? <==> Contains(s, sub)
    decreases |s|
  {
    if StartsWith(s, sub) then Some(0)
    else if s == [] then None
    else match Find(s[1..], sub)
      case None => None
      case Some(i) => Some(i + 1)
  }

  /** Python's `s.split(sub, 1)[1]`: the text after the first `sub`, when there is one. */
  function After(s: string, sub: string): (r: Option<string>)
    ensures r.Some? <==> Contains(s, sub)
    ensures r.Some? ==> EndsWith(s, r.value) && |r.value| + |sub| <= |s|
  {
    match Find(s, sub)
    case None => None
    case Some(i) => Some(s[i + |sub|..])
  }

  /** Python's `"".join(parts)`. */
  function Concat(parts: seq<string>): (r: string)
    ensures forall c :: c in r <==> exists k :: 0 <= k < |parts| && c in parts[k]
  {
    if parts == [] then ""
    else
      var r := parts[0] + Concat(parts[1..]);
      assert forall c :: (exists k :: 0 <= k < |parts| && c in parts[k])
                         <==> c in parts[0] || exists k :: 0 <= k < |parts[1..]| && c in parts[1..][k];
      r
  }

  /** The first `c` in `a + [c] + b`, when `a` has none, is the one after `a`. */
  lemma IndexOfAt(a: string, c: char, b: string)
    requires c !in a
    ensures IndexOf(a + [c] + b, c) == Some(|a|)
  {
    var s := a + [c] + b;
    assert s[|a|] == c;
    assert s[..|a|] == a;
    assert forall k :: 0 <= k < |a| ==> s[k] == a[k];
  }

  lemma BeforeAt(a: string, c: char, b: string)
    requires c !in a
    ensures Before(a + [c] + b, c) == a
  {
    IndexOfAt(a, c, b);
    assert (a + [c] + b)[..|a|] == a;
  }

  /** Splitting `a + [c] + b` at `c`, when `a` has none, gives `a` and then the parts of `b`. */
  lemma SplitAt(a: string, c: char, b: string)
    requires c !in a
    ensures Split(a + [c] + b, c) == [a] + Split(b, c)
  {
    IndexOfAt(a, c, b);
    var s := a + [c] + b;
    assert s[..|a|] == a && s[|a| + 1..] == b;
  }

  /** Length of the longest prefix of `s` whose characters all satisfy `p`. */
  function Run(s: string, p: char -> bool): (n: nat)
    ensures n <= |s| && (forall k :: 0 <= k < n ==> p(s[k])) && (n < |s| ==> !p(s[n]))
  {
    if s != [] && p(s[0]) then 1 + Run(s[1..], p) else 0
  }

  /** The run of `a + b` is `a` when all of `a` qualifies and `b` does not start with a qualifying character. */
  lemma RunAt(a: string, b: string, p: char -> bool)
    requires forall k :: 0 <= k < |a| ==> p(a[k])
    requires b == [] || !p(b[0])
    ensures Run(a + b, p) == |a|
  {
    var s := a + b;
    assert forall k :: 0 <= k < |a| ==> p(s[k]);
    assert |a| < |s| ==> !p(s[|a|]);
  }

  lemma SpacesAt(a: string, b: string)
    requires forall k :: 0 <= k < |a| ==> IsSpace(a[k])
    requires b == [] || !IsSpace(b[0])
    ensures LeadingSpaces(a + b) == |a|
  {
    var s := a + b;
    assert forall k :: 0 <= k < |a| ==> IsSpace(s[k]);
    assert |a| < |s| ==> !IsSpace(s[|a|]);
  }

  /**
   * `re.search`: the result of `m` at the first position of `s` (the end
   * included) where it succeeds.
   */
  function Search<T>(s: string, m: string -> Option<T>): (r: Option<T>)
    ensures r.Some? ==> exists i :: 0 <= i <= |s| && m(s[i..]) == r
    decreases |s|
  {
    if m(s).Some? then
      assert s[0..] == s;
      m(s)
    else if s == [] then None
    else
      var r := Search(s[1..], m);
      assert r.Some? ==> exists i :: 1 <= i <= |s| && m(s[i..]) == r by {
        if r.Some? {
          var i :| 0 <= i <= |s[1..]| && m(s[1..][i..]) == r;
          assert s[1..][i..] == s[i + 1..];
        }
      }
      r
  }

  /** A search passes over a prefix where the pattern cannot start. */
  lemma {:induction false} SearchSkips<T>(a: string, b: string, m: string -> Option<T>)
    requires forall i :: 0 <= i < |a| ==> m(a[i..] + b).None?
    ensures Search(a + b, m) == Search(b, m)
  {
    if a != [] {
      assert (a + b)[1..] == a[1..] + b;
      assert a[0..] + b == a + b;
      forall i | 0 <= i < |a[1..]|
        ensures m(a[1..][i..] + b).None?
      {
        assert a[1..][i..] == a[i + 1..];
      }
      SearchSkips(a[1..], b, m);
    } else {
      assert a + b == b;
    }
  }
}

=== FILE: timestamps.dfy ===
/**
 * Jira timestamps. The scripts read Jira's ISO-8601 strings with
 * `datetime.strptime` in two layouts, `%Y-%m-%dT%H:%M:%S.%f%z` and then
 * `%Y-%m-%dT%H:%M:%S%z`, and calendar dates with `%Y-%m-%d`.
 *
 * An instant is a whole number of microseconds since 1970-01-01T00:00:00Z,
 * which is what subtracting two aware `datetime`s measures. In each layout,
 * every field is followed by a literal that no field can contain (`-`, `T`,
 * `:`, `.`, or the sign or `Z` of the zone), so the `strptime` pattern for a
 * field accepts exactly the text up to that literal when that text is in
 * the field's alternation.
 */
module Timestamps {
  import opened Wrappers
  import opened Text

  const MicrosPerSecond: int := 1000000
  const SecondsPerDay: int := 86400
  const MicrosPerDay: int := 86400000000

  predicate IsLeapYear(y: int) {
    y % 4 == 0 && (y % 100 != 0 || y % 400 == 0)
  }

  function DaysInMonth(y: int, m: int): (n: int)
    requires 1 <= m <= 12
    ensures 28 <= n <= 31
  {
    if m == 2 then (if IsLeapYear(y) then 29 else 28)
    else if m == 4 || m == 6 || m == 9 || m == 11 then 30
    else 31
  }

  predicate ValidDate(y: int, m: int, d: int) {
    1 <= m <= 12 && 1 <= d <= DaysInMonth(y, m)
  }

  /**
   * Days from 0000-03-01 (proleptic Gregorian) to March 1st of year `yp`,
   * counting 400-year eras of 146097 days.
   */
  function ShiftedYearStart(yp: int): int {
    (yp / 400) * 146097 + (yp % 400) * 365 + (yp % 400) / 4 - (yp % 400) / 100
  }

  /** Days since 1970-01-01 of the calendar date `y-m-d` (the civil-from-days inverse). */
  function DaysFromCivil(y: int, m: int, d: int): int
    requires 1 <= m <= 12
  {
    var yp := if m <= 2 then y - 1 else y;
    var mp := if m > 2 then m - 3 else m + 9;
    ShiftedYearStart(yp) + (153 * mp + 2) / 5 + d - 1 - 719468
  }

  /** The calendar date after `y-m-d`. */
  function NextDate(y: int, m: int, d: int): (r: (int, int, int))
    requires ValidDate(y, m, d)
    ensures ValidDate(r.0, r.1, r.2)
  {
    if d < DaysInMonth(y, m) then (y, m, d + 1)
    else if m < 12 then (y, m + 1, 1)
    else (y + 1, 1, 1)
  }

  /** The day count starts at the Unix epoch. */
  lemma DaysFromCivilEpoch()
    ensures DaysFromCivil(1970, 1, 1) == 0
  {
  }

  /** From one March 1st to the next there are 366 days exactly when the later year is a leap year. */
  lemma {:induction false} ShiftedYearLength(y: int)
    ensures ShiftedYearStart(y) - ShiftedYearStart(y - 1) == if IsLeapYear(y) then 366 else 365
  {
    var q, r := y / 400, y % 400;
    LeapYearInEra(y, q, r);
    if r == 0 {
      EraSplit(y - 1, q - 1, 399);
    } else {
      EraSplit(y - 1, q, r - 1);
      LeapDays(r);
    }
  }

  lemma EraSplit(y: int, q: int, r: int)
    requires y == 400 * q + r && 0 <= r < 400
    ensures y / 400 == q && y % 400 == r
  {
  }

  lemma LeapYearInEra(y: int, q: int, r: int)
    requires q == y / 400 && r == y % 400
    ensures IsLeapYear(y) <==> r % 4 == 0 && (r % 100 != 0 || r == 0)
  {
    assert y == 400 * q + r;
    ModOfSum(y, 4, 100 * q + r / 4, r % 4);
    ModOfSum(y, 100, 4 * q + r / 100, r % 100);
  }

  lemma ModOfSum(y: int, k: int, a: int, b: int)
    requires k == 4 || k == 100
    requires y == k * a + b && 0 <= b < k
    ensures y % k == b
  {
  }

  /** Within an era, the 4-year and 100-year counts step exactly at the multiples. */
  lemma LeapDays(r: int)
    requires 0 < r < 400
    ensures r / 4 - (r - 1) / 4 == (if r % 4 == 0 then 1 else 0)
    ensures r / 100 - (r - 1) / 100 == (if r % 100 == 0 then 1 else 0)
  {
  }

  /** Consecutive calendar dates are consecutive day numbers. */
  lemma {:induction false} DaysFromCivilNextDate(y: int, m: int, d: int)
    requires ValidDate(y, m, d)
    ensures var n := NextDate(y, m, d); DaysFromCivil(n.0, n.1, n.2) == DaysFromCivil(y, m, d) + 1
  {
    if d == DaysInMonth(y, m) && m == 2 {
      ShiftedYearLength(y);
    }
  }

  /** One parsed timestamp: wall-clock fields plus the zone offset in minutes east of UTC. */
  datatype DateTime = DateTime(year: int, month: int, day: int, hour: int, minute: int,
                               second: int, micro: int, offset: int)
  {
    /** What `datetime(...)` and `timezone(timedelta(...))` accept. */
    predicate Valid() {
      1 <= year <= 9999 && ValidDate(year, month, day)
      && 0 <= hour <= 23 && 0 <= minute <= 59 && 0 <= second <= 59
      && 0 <= micro < MicrosPerSecond && -1440 < offset < 1440
    }

    /** The instant this wall-clock reading denotes. */
    function EpochMicros(): int
      requires Valid()
    {
      ((DaysFromCivil(year, month, day) * SecondsPerDay + hour * 3600 + minute * 60 + second
        - offset * 60) * MicrosPerSecond) + micro
    }
  }

  /** The two layouts `parse_datetime` tries, in order. */
  datatype Layout = WithFraction | WithoutFraction

  predicate IsDash(c: char) { c == '-' }
  predicate IsColon(c: char) { c == ':' }
  predicate IsDot(c: char) { c == '.' }

  /** The date/time separator: `T`, matched case-insensitively. */
  predicate IsTimeSeparator(c: char) { c == 'T' || c == 't' }

  /** `%Y`: exactly four digits. */
  function YearField(f: string): (r: Option<nat>)
    ensures r.Some? <==> |f| == 4 && AllDigits(f)
    ensures r.Some? ==> r.value == DigitsValue(f) <= 9999
  {
    if |f| == 4 && AllDigits(f) then
      Pad4Bound(f);
      Some(DigitsValue(f))
    else None
  }

  lemma Pad4Bound(f: string)
    requires |f| == 4 && AllDigits(f)
    ensures DigitsValue(f) <= 9999
  {
    DigitsBound(f);
    assert Pow10(4) == 10000;
  }

  /** `%m`: `1[0-2]|0[1-9]|[1-9]`. */
  function MonthField(f: string): (r: Option<nat>)
    ensures r.Some? ==> 1 <= r.value <= 12
    ensures r.Some? <==> IsNumeral(f) && |f| <= 2 && 1 <= DigitsValue(f) <= 12
    ensures r.Some? ==> r.value == DigitsValue(f)
  {
    if 1 <= |f| <= 2 && AllDigits(f) && 1 <= DigitsValue(f) <= 12 then Some(DigitsValue(f)) else None
  }

  /** `%d`: `3[01]|[12]\d|0[1-9]|[1-9]| [1-9]` (a space may stand for a leading zero). */
  function DayField(f: string): (r: Option<nat>)
    ensures r.Some? ==> 1 <= r.value <= 31
    ensures r.Some? <==> (IsNumeral(f) && |f| <= 2 && 1 <= DigitsValue(f) <= 31)
                         || (|f| == 2 && f[0] == ' ' && '1' <= f[1] <= '9')
  {
    if 1 <= |f| <= 2 && AllDigits(f) && 1 <= DigitsValue(f) <= 31 then Some(DigitsValue(f))
    else if |f| == 2 && f[0] == ' ' && '1' <= f[1] <= '9' then Some(DigitValue(f[1]))
    else None
  }

  /**
   * `%H`, `%M` and `%S`: one digit, or two digits up to `max`
   * (`2[0-3]|[0-1]\d|\d`, `[0-5]\d|\d`, `6[0-1]|[0-5]\d|\d`).
   */
  function OneOrTwoDigits(f: string, max: nat): (r: Option<nat>)
    requires max >= 9
    ensures r.Some? <==> IsNumeral(f) && |f| <= 2 && DigitsValue(f) <= max
    ensures r.Some? ==> r.value == DigitsValue(f) <= max
  {
    if 1 <= |f| <= 2 && AllDigits(f) && DigitsValue(f) <= max then Some(DigitsValue(f)) else None
  }

  /**
   * `%z` in its `Z`, `+HHMM` and `+HH:MM` forms, as minutes east of UTC;
   * `timezone` refuses offsets of a whole day or more.
   */
  function ZoneOffset(z: string): (r: Option<int>)
    ensures r.Some? ==> -1440 < r.value < 1440
    ensures r.Some? ==> z == "Z" || (|z| >= 5 && (z[0] == '+' || z[0] == '-'))
  {
    if z == "Z" then Some(0)
    else if |z| < 5 || (z[0] != '+' && z[0] != '-') then None
    else ZoneDigits(z[0] == '-', if |z| == 6 && z[3] == ':' then z[1..3] + z[4..] else z[1..])
  }

  /** `HHMM` after the sign: hours up to 23 and minutes up to 59. */
  function ZoneDigits(west: bool, hm: string): (r: Option<int>)
    ensures r.Some? ==> -1440 < r.value < 1440
  {
    if |hm| == 4 && AllDigits(hm) && hm[2] <= '5' then
      var hours := DigitsValue(hm[..2]);
      var minutes := DigitsValue(hm[2..]);
      TwoDigitBound(hm[..2]);
      TwoDigitBound(hm[2..]);
      if hours <= 23 then
        Some(if west then -(hours * 60 + minutes) else hours * 60 + minutes)
      else None
    else None
  }

  lemma TwoDigitBound(f: string)
    requires |f| == 2 && AllDigits(f)
    ensures DigitsValue(f) <= 99 && (f[0] <= '5' ==> DigitsValue(f) <= 59)
  {
    var a := f[..1];
    assert a[..0] == [] && a[0] == f[0];
    assert DigitsValue(a) == DigitValue(f[0]);
    assert f[..1] == a;
  }

  /** What follows the minutes: the seconds, the microseconds, and the zone text. */
  function SecondsFractionZone(rest: string, layout: Layout): (r: Option<(nat, nat, string)>)
    ensures r.Some? ==> r.value.0 <= 61 && r.value.1 < MicrosPerSecond
  {
    match layout
    case WithFraction =>
      var sf :- Cut(rest, IsDot);
      var sec :- OneOrTwoDigits(sf.0, 61);
      var n := DigitRun(sf.1);
      if 1 <= n <= 6 then
        Some((sec, FractionMicros(sf.1[..n]), sf.1[n..]))
      else None
    case WithoutFraction =>
      var n := DigitRun(rest);
      var sec :- OneOrTwoDigits(rest[..n], 61);
      Some((sec, 0, rest[n..]))
  }

  /** `%f`: one to six digits, read as the leading digits of a six-digit microsecond count. */
  function FractionMicros(f: string): (micro: nat)
    requires 1 <= |f| <= 6 && AllDigits(f)
    ensures micro < MicrosPerSecond
  {
    FractionBound(f);
    DigitsValue(f) * Pow10(6 - |f|)
  }

  lemma {:induction false} FractionBound(f: string)
    requires 1 <= |f| <= 6 && AllDigits(f)
    ensures DigitsValue(f) * Pow10(6 - |f|) < MicrosPerSecond
  {
    DigitsBound(f);
    assert Pow10(|f|) * Pow10(6 - |f|) == Pow10(6) by {
      Pow10Add(|f|, 6 - |f|);
    }
  }

  lemma {:induction false} DigitsBound(f: string)
    requires AllDigits(f)
    ensures DigitsValue(f) < Pow10(|f|)
  {
    if f != [] {
      DigitsBound(f[..|f| - 1]);
    }
  }

  lemma {:induction false} Pow10Add(a: nat, b: nat)
    ensures Pow10(a) * Pow10(b) == Pow10(a + b)
  {
    if a > 0 {
      Pow10Add(a - 1, b);
    }
  }

  /** `datetime.strptime(s, layout)`: the fields, or `None` where Python raises `ValueError`. */
  /** `%Y-%m-%dT`: year, month, day, and the text after the separator. */
  function DatePart(s: string): (r: Option<(nat, nat, nat, string)>)
    ensures r.Some? ==> r.value.0 <= 9999 && 1 <= r.value.1 <= 12 && 1 <= r.value.2 <= 31
  {
    var y :- Cut(s, IsDash);
    var year :- YearField(y.0);
    var m :- Cut(y.1, IsDash);
    var month :- MonthField(m.0);
    var d :- Cut(m.1, IsTimeSeparator);
    var day :- DayField(d.0);
    Some((year, month, day, d.1))
  }

  /** `%H:%M:` and the seconds, fraction and zone that follow. */
  function ClockPart(rest: string, layout: Layout): (r: Option<(nat, nat, nat, nat, int)>)
    ensures r.Some? ==> r.value.0 <= 23 && r.value.1 <= 59 && r.value.2 <= 61
                        && r.value.3 < MicrosPerSecond && -1440 < r.value.4 < 1440
  {
    var h :- Cut(rest, IsColon);
    var hour :- OneOrTwoDigits(h.0, 23);
    var mi :- Cut(h.1, IsColon);
    var minute :- OneOrTwoDigits(mi.0, 59);
    var sfz :- SecondsFractionZone(mi.1, layout);
    var offset :- ZoneOffset(sfz.2);
    Some((hour, minute, sfz.0, sfz.1, offset))
  }

  /** `datetime.strptime(s, layout)`: the fields, or `None` where Python raises `ValueError`. */
  function ParseFields(s: string, layout: Layout): (r: Option<DateTime>)
    ensures r.Some? ==> r.value.Valid()
  {
    var date :- DatePart(s);
    var clock :- ClockPart(date.3, layout);
    if 1 <= date.0 && date.2 <= DaysInMonth(date.0, date.1) && clock.2 <= 59 then
      Some(DateTime(date.0, date.1, date.2, clock.0, clock.1, clock.2, clock.3, clock.4))
    else None
  }

  /**
   * `parse_datetime`: `None` and `""` give `None`; otherwise the layout with
   * a fraction is tried first, then the one without.
   */
  function ParseDatetime(s: Option<string>): (r: Option<int>)
    ensures s.None? || s.value == "" ==> r.None?
    ensures r.Some? ==> exists layout :: ParseFields(s.value, layout).Some?
                                         && r.value == ParseFields(s.value, layout).value.EpochMicros()
    ensures s.Some? && ParseFields(s.value, WithFraction).Some? ==>
              r == Some(ParseFields(s.value, WithFraction).value.EpochMicros())
    ensures s.Some? && ParseFields(s.value, WithoutFraction).Some? ==>
              r == Some(ParseFields(s.value, WithoutFraction).value.EpochMicros())
  {
    if s.None? || s.value == "" then None
    else
      LayoutsExclusive(s.value);
      match ParseFields(s.value, WithFraction)
      case Some(dt) => Some(dt.EpochMicros())
      case None =>
        match ParseFields(s.value, WithoutFraction)
        case Some(dt) => Some(dt.EpochMicros())
        case None => None
  }

  /** Position of the first `-` in `s` (`|s|` when there is none). */
  function DashAt(s: string): (n: nat)
    ensures n <= |s| && (forall k :: 0 <= k < n ==> s[k] != '-') && (n < |s| ==> s[n] == '-')
  {
    if s == [] || s[0] == '-' then 0 else 1 + DashAt(s[1..])
  }

  /** `s` split at its first `-`, if it has one. */
  function CutDash(s: string): (r: Option<(string, string)>)
    ensures r.Some? ==> s == r.value.0 + "-" + r.value.1 && '-' !in r.value.0
    ensures r.None? ==> '-' !in s
  {
    var n := DashAt(s);
    if n < |s| then
      assert s == s[..n] + "-" + s[n + 1..];
      Some((s[..n], s[n + 1..]))
    else None
  }

  lemma CutDashAt(a: string, b: string)
    requires '-' !in a
    ensures CutDash(a + "-" + b) == Some((a, b))
  {
    var s := a + "-" + b;
    assert s[|a|] == '-';
    assert DashAt(s) == |a|;
    assert s[..|a|] == a && s[|a| + 1..] == b;
  }

  /** `datetime.strptime(s, "%Y-%m-%d")`, as a day number. */
  function ParseYmd(s: string): (r: Option<int>)
    ensures r.Some? ==> exists y, m, d :: 1 <= y <= 9999 && ValidDate(y, m, d) && r.value == DaysFromCivil(y, m, d)
  {
    var y :- CutDash(s);
    var year :- YearField(y.0);
    var m :- CutDash(y.1);
    var month :- MonthField(m.0);
    var day :- DayField(m.1);
    if 1 <= year && day <= DaysInMonth(year, month) then Some(DaysFromCivil(year, month, day)) else None
  }

  // ---------------------------------------------------------------------------
  // Rendering, as Jira writes timestamps: the inverse the parsers are checked against.

  /** `YYYY-MM-DD`. */
  function FormatDate(y: nat, m: nat, d: nat): string {
    Pad(y, 4) + "-" + (Pad(m, 2) + "-" + Pad(d, 2))
  }

  /** The zone as `+HHMM` or `-HHMM`. */
  function FormatZone(offset: int): string {
    var a := if offset < 0 then -offset else offset;
    (if offset < 0 then "-" else "+") + Pad(a / 60, 2) + Pad(a % 60, 2)
  }

  /**
   * A reading that renders exactly in the layout with `digits` fraction
   * digits: Jira writes three (milliseconds), Python's `isoformat` six; the
   * layout without a fraction needs a whole second.
   */
  predicate Renders(dt: DateTime, layout: Layout, digits: nat) {
    match layout
    case WithFraction => 1 <= digits <= 6 && dt.micro % Pow10(6 - digits) == 0
    case WithoutFraction => digits <= 6 && dt.micro == 0
  }

  /** The microseconds in units of the last of `digits` fraction digits, truncated. */
  function FractionUnits(micro: nat, digits: nat): nat
    requires digits <= 6
  {
    var scale := Pow10(6 - digits);
    assert 0 <= micro / scale <= micro by {
      QuotientBounds(micro, scale);
    }
    micro / scale
  }

  lemma QuotientBounds(a: nat, b: nat)
    requires b >= 1
    ensures 0 <= a / b <= a
  {
    assert a == b * (a / b) + a % b;
  }

  /** The seconds, then (in the first layout) `.` and `digits` fraction digits, then the zone. */
  function FormatTail(dt: DateTime, layout: Layout, digits: nat): string
    requires 0 <= dt.second && 0 <= dt.micro && digits <= 6
  {
    match layout
    case WithFraction =>
      Pad(dt.second, 2) + "." + (Pad(FractionUnits(dt.micro, digits), digits) + FormatZone(dt.offset))
    case WithoutFraction => Pad(dt.second, 2) + FormatZone(dt.offset)
  }

  /** `YYYY-MM-DDTHH:MM:SS.fff+HHMM` with `digits` fraction digits (or without the fraction). */
  function Format(dt: DateTime, layout: Layout, digits: nat): string
    requires dt.Valid() && digits <= 6
  {
    Pad(dt.year, 4) + "-" + (Pad(dt.month, 2) + "-" + (Pad(dt.day, 2) + "T" + (Pad(dt.hour, 2) + ":"
      + (Pad(dt.minute, 2) + ":" + FormatTail(dt, layout, digits)))))
  }

  lemma ZoneRoundTrip(offset: int)
    requires -1440 < offset < 1440
    ensures ZoneOffset(FormatZone(offset)) == Some(offset)
  {
    if offset < 0 {
      var a := -offset;
      assert FormatZone(offset) == "-" + Pad(a / 60, 2) + Pad(a % 60, 2);
      HoursMinutes(a);
      ZoneRendered("-", a / 60, a % 60);
    } else {
      assert FormatZone(offset) == "+" + Pad(offset / 60, 2) + Pad(offset % 60, 2);
      HoursMinutes(offset);
      ZoneRendered("+", offset / 60, offset % 60);
    }
  }

  /** A sign, hours and minutes, written as `HHMM`, read back as the signed minute count. */
  lemma ZoneRendered(sign: string, h: nat, m: nat)
    requires (sign == "+" || sign == "-") && h <= 23 && m <= 59
    ensures ZoneOffset(sign + Pad(h, 2) + Pad(m, 2)) == Some(if sign == "-" then -(h * 60 + m) else h * 60 + m)
  {
    var hh, mm := Pad(h, 2), Pad(m, 2);
    assert DigitsValue(hh) == h by {
      assert Pow10(2) == 100;
      PadValue(h, 2);
    }
    assert DigitsValue(mm) == m && mm[0] <= '5' by {
      assert Pow10(2) == 100;
      PadValue(m, 2);
      TensDigit(m);
    }
    ZoneReads(sign, hh, mm);
  }

  lemma HoursMinutes(a: nat)
    requires a < 1440
    ensures a / 60 <= 23 && a % 60 < 60 && a / 60 * 60 + a % 60 == a
  {
  }

  /** The first of two padded digits of a number below 60 is at most `5`. */
  lemma TensDigit(n: nat)
    requires n < 60
    ensures Pad(n, 2)[0] <= '5'
  {
    var p := Pad(n, 2);
    assert p[..1] == Pad(n / 10, 1);
    PadValue(n / 10, 1);
    assert p[..1][..0] == [];
  }

  /** A sign and four digits read back as that many minutes east of UTC. */
  lemma ZoneReads(sign: string, hh: string, mm: string)
    requires sign == "+" || sign == "-"
    requires |hh| == 2 && AllDigits(hh) && DigitsValue(hh) <= 23
    requires |mm| == 2 && AllDigits(mm) && mm[0] <= '5'
    ensures ZoneOffset(sign + hh + mm)
            == Some(if sign == "-" then -(DigitsValue(hh) * 60 + DigitsValue(mm)) else DigitsValue(hh) * 60 + DigitsValue(mm))
  {
    var z := sign + hh + mm;
    assert |z| == 5 && z[0] == sign[0] && z[1..] == hh + mm;
    ZoneDigitsRead(sign == "-", hh, mm);
  }

  lemma ZoneDigitsRead(west: bool, hh: string, mm: string)
    requires |hh| == 2 && AllDigits(hh) && DigitsValue(hh) <= 23
    requires |mm| == 2 && AllDigits(mm) && mm[0] <= '5'
    ensures ZoneDigits(west, hh + mm)
            == Some(if west then -(DigitsValue(hh) * 60 + DigitsValue(mm)) else DigitsValue(hh) * 60 + DigitsValue(mm))
  {
    var hm := hh + mm;
    assert hm[..2] == hh && hm[2..] == mm;
    assert hm[2] == mm[0];
    assert AllDigits(hm) by {
      assert forall k :: 0 <= k < 2 ==> hm[k] == hh[k] && hm[k + 2] == mm[k];
    }
  }

  lemma TailRoundTrip(dt: DateTime, layout: Layout, digits: nat)
    requires dt.Valid() && Renders(dt, layout, digits)
    ensures SecondsFractionZone(FormatTail(dt, layout, digits), layout)
            == Some((dt.second as nat, dt.micro as nat, FormatZone(dt.offset)))
  {
    var sec := Pad(dt.second, 2);
    assert DigitsValue(sec) == dt.second by {
      assert Pow10(2) == 100;
      PadValue(dt.second, 2);
    }
    var z := FormatZone(dt.offset);
    assert z[0] == '+' || z[0] == '-';
    match layout
    case WithFraction =>
      var scale := Pow10(6 - digits);
      var units := FractionUnits(dt.micro, digits);
      assert FractionMicros(Pad(units, digits)) == dt.micro by {
        FractionScales(dt.micro, digits);
        PadValue(units, digits);
      }
      FractionTailReads(sec, Pad(units, digits), z);
    case WithoutFraction =>
      PlainTailReads(sec, z);
  }

  /** A microsecond count that is a whole number of `digits`-digit units fits those digits and scales back. */
  lemma FractionScales(micro: nat, digits: nat)
    requires 1 <= digits <= 6 && micro < MicrosPerSecond && micro % Pow10(6 - digits) == 0
    ensures micro / Pow10(6 - digits) < Pow10(digits)
    ensures micro / Pow10(6 - digits) * Pow10(6 - digits) == micro
  {
    var scale := Pow10(6 - digits);
    Pow10Add(digits, 6 - digits);
    assert Pow10(digits) * scale == MicrosPerSecond by {
      assert Pow10(6) == MicrosPerSecond;
    }
  }

  /** Two digits of seconds, a dot, one to six fraction digits and a zone read back as such. */
  lemma FractionTailReads(sec: string, frac: string, z: string)
    requires |sec| == 2 && AllDigits(sec) && DigitsValue(sec) <= 61
    requires 1 <= |frac| <= 6 && AllDigits(frac)
    requires z != [] && !IsDigit(z[0])
    ensures SecondsFractionZone(sec + "." + (frac + z), WithFraction)
            == Some((DigitsValue(sec), FractionMicros(frac), z))
  {
    var f := frac + z;
    assert Cut(sec + "." + f, IsDot) == Some((sec, f)) by {
      NoSeparatorInDigits(sec);
      CutAt(sec, '.', f, IsDot);
    }
    assert OneOrTwoDigits(sec, 61) == Some(DigitsValue(sec));
    assert DigitRun(f) == |frac| by {
      DigitRunAt(frac, z);
    }
    assert f[..|frac|] == frac && f[|frac|..] == z;
    assert SecondsFractionZone(sec + "." + f, WithFraction) == Some((DigitsValue(sec), FractionMicros(frac), z));
  }

  /** Two digits of seconds and a zone read back as such. */
  lemma PlainTailReads(sec: string, z: string)
    requires |sec| == 2 && AllDigits(sec) && DigitsValue(sec) <= 61
    requires z != [] && !IsDigit(z[0])
    ensures SecondsFractionZone(sec + z, WithoutFraction) == Some((DigitsValue(sec), 0, z))
  {
    var t := sec + z;
    DigitRunAt(sec, z);
    assert t[..2] == sec && t[2..] == z;
  }

  lemma ClockRoundTrip(dt: DateTime, layout: Layout, digits: nat)
    requires dt.Valid() && Renders(dt, layout, digits)
    ensures ClockPart(Pad(dt.hour, 2) + ":" + (Pad(dt.minute, 2) + ":" + FormatTail(dt, layout, digits)), layout)
            == Some((dt.hour as nat, dt.minute as nat, dt.second as nat, dt.micro as nat, dt.offset))
  {
    var tail := FormatTail(dt, layout, digits);
    NoSeparatorInDigits(Pad(dt.hour, 2));
    NoSeparatorInDigits(Pad(dt.minute, 2));
    CutAt(Pad(dt.hour, 2), ':', Pad(dt.minute, 2) + ":" + tail, IsColon);
    CutAt(Pad(dt.minute, 2), ':', tail, IsColon);
    PadValue(dt.hour, 2);
    PadValue(dt.minute, 2);
    assert OneOrTwoDigits(Pad(dt.hour, 2), 23) == Some(dt.hour as nat);
    assert OneOrTwoDigits(Pad(dt.minute, 2), 59) == Some(dt.minute as nat);
    TailRoundTrip(dt, layout, digits);
    ZoneRoundTrip(dt.offset);
  }

  lemma DateRoundTrip(y: nat, m: nat, d: nat, sep: char, rest: string)
    requires 1 <= y <= 9999 && ValidDate(y, m, d) && IsTimeSeparator(sep)
    ensures DatePart(Pad(y, 4) + "-" + (Pad(m, 2) + "-" + (Pad(d, 2) + [sep] + rest))) == Some((y, m, d, rest))
  {
    var s2 := Pad(d, 2) + [sep] + rest;
    var s1 := Pad(m, 2) + "-" + s2;
    NoSeparatorInDigits(Pad(y, 4));
    NoSeparatorInDigits(Pad(m, 2));
    NoSeparatorInDigits(Pad(d, 2));
    CutAt(Pad(y, 4), '-', s1, IsDash);
    CutAt(Pad(m, 2), '-', s2, IsDash);
    CutAt(Pad(d, 2), sep, rest, IsTimeSeparator);
    PadValue(y, 4);
    PadValue(m, 2);
    PadValue(d, 2);
    assert YearField(Pad(y, 4)) == Some(y);
    assert MonthField(Pad(m, 2)) == Some(m);
    assert DayField(Pad(d, 2)) == Some(d);
  }

  lemma NoSeparatorInDigits(a: string)
    requires AllDigits(a)
    ensures forall j :: 0 <= j < |a| ==> !IsDash(a[j]) && !IsColon(a[j]) && !IsDot(a[j]) && !IsTimeSeparator(a[j])
  {
  }

  /** A rendering of a valid timestamp parses back to the same fields, in both layouts and any fraction width. */
  lemma FieldsRoundTrip(dt: DateTime, layout: Layout, digits: nat)
    requires dt.Valid() && Renders(dt, layout, digits)
    ensures ParseFields(Format(dt, layout, digits), layout) == Some(dt)
  {
    var clock := Pad(dt.hour, 2) + ":" + (Pad(dt.minute, 2) + ":" + FormatTail(dt, layout, digits));
    DateRoundTrip(dt.year, dt.month, dt.day, 'T', clock);
    assert Format(dt, layout, digits) == Pad(dt.year, 4) + "-" + (Pad(dt.month, 2) + "-" + (Pad(dt.day, 2) + ['T'] + clock));
    ClockRoundTrip(dt, layout, digits);
  }

  /** After the minutes, the two layouts never both succeed: a fraction's `.` cannot start a zone. */
  lemma ClockLayoutsExclusive(rest: string)
    ensures ClockPart(rest, WithFraction).None? || ClockPart(rest, WithoutFraction).None?
  {
    if ClockPart(rest, WithFraction).Some? {
      var h := Cut(rest, IsColon).value;
      var mi := Cut(h.1, IsColon).value;
      TailLayoutsExclusive(mi.1);
    }
  }

  /** Seconds followed by a fraction leave, read without one, a zone that starts with `.`. */
  lemma TailLayoutsExclusive(t: string)
    requires SecondsFractionZone(t, WithFraction).Some?
    ensures SecondsFractionZone(t, WithoutFraction).None? || ZoneOffset(SecondsFractionZone(t, WithoutFraction).value.2).None?
  {
    var sf := Cut(t, IsDot).value;
    assert t == sf.0 + ("." + sf.1);
    DigitRunAt(sf.0, "." + sf.1);
    assert t[DigitRun(t)..] == "." + sf.1;
    PointIsNoZone(sf.1);
  }

  lemma PointIsNoZone(frac: string)
    ensures ZoneOffset("." + frac).None?
  {
    assert ("." + frac)[0] == '.';
  }

  /** The layout without a fraction never reads a timestamp written with one, and vice versa. */
  lemma LayoutsExclusive(s: string)
    ensures ParseFields(s, WithFraction).None? || ParseFields(s, WithoutFraction).None?
  {
    if DatePart(s).Some? {
      ClockLayoutsExclusive(DatePart(s).value.3);
    }
  }

  /**
   * `parse_datetime` reads back a timestamp rendered in either layout as its
   * instant, whatever the fraction width: Jira's milliseconds
   * (`2024-01-01T10:00:00.000+0000`) are the case `digits == 3`.
   */
  lemma ParseDatetimeRoundTrip(dt: DateTime, layout: Layout, digits: nat)
    requires dt.Valid() && Renders(dt, layout, digits)
    ensures ParseDatetime(Some(Format(dt, layout, digits))) == Some(dt.EpochMicros())
  {
    FieldsRoundTrip(dt, layout, digits);
  }

  lemma NoDashInDigits(s: string)
    requires AllDigits(s)
    ensures '-' !in s
  {
    assert forall k :: 0 <= k < |s| ==> s[k] != '-';
  }

  /** `%Y-%m-%d` reads back a rendered date as its day number. */
  lemma YmdRoundTrip(y: nat, m: nat, d: nat)
    requires 1 <= y <= 9999 && ValidDate(y, m, d)
    ensures ParseYmd(FormatDate(y, m, d)) == Some(DaysFromCivil(y, m, d))
  {
    PadValue(y, 4);
    PadValue(m, 2);
    PadValue(d, 2);
    YmdReads(Pad(y, 4), Pad(m, 2), Pad(d, 2));
  }

  /** Four, two and two digits separated by dashes read back as the date they spell, when it exists. */
  lemma YmdReads(ys: string, ms: string, ds: string)
    requires |ys| == 4 && AllDigits(ys) && |ms| == 2 && AllDigits(ms) && |ds| == 2 && AllDigits(ds)
    requires 1 <= DigitsValue(ys) && ValidDate(DigitsValue(ys), DigitsValue(ms), DigitsValue(ds))
    ensures ParseYmd(ys + "-" + (ms + "-" + ds)) == Some(DaysFromCivil(DigitsValue(ys), DigitsValue(ms), DigitsValue(ds)))
  {
    NoDashInDigits(ys);
    NoDashInDigits(ms);
    CutDashAt(ys, ms + "-" + ds);
    CutDashAt(ms, ds);
  }
}

=== FILE: wrappers.dfy ===
/**
 * Optional values and error-carrying results, used wherever the Python code
 * returns None, reads a key that may be absent, or raises an exception.
 */
module Wrappers {

  /** A value that may be absent: Python's `None` versus a present value. */
  datatype Option<+T> = None | Some(value: T) {

    /** `None` short-circuits a `:-` chain. */
    predicate IsFailure() {
      None?
    }

    function PropagateFailure<U>(): Option<U>
      requires None?
    {
      None
    }

    function Extract(): T
      requires Some?
    {
      value
    }

    /** The present value, or `default` when absent (Python's `dict.get(key, default)`). */
    function GetOr(default: T): T {
      match this
      case Some(v) => v
      case None => default
    }
  }

  /** The outcome of a computation that may raise: a value, or the message of the exception. */
  datatype Result<+T> = Ok(value: T) | Raises(message: string) {

    /** An exception short-circuits a `:-` chain. */
    predicate IsFailure() {
      Raises?
    }

    function PropagateFailure<U>(): Result<U>
      requires Raises?
    {
      Raises(message)
    }

    function Extract(): T
      requires Ok?
    {
      value
    }
  }
}
